=== FILE: README.md ===
# OpenHD website core in Dafny

This project models the logic behind the OpenHD website's hardware
configurator, along with the smaller algorithms that sit around it.

- **The data model.** Components (SBCs, cameras, WiFi adapters), categories,
  the compatibility engine, structured and legacy rules, and the
  evaluation context and result.
- **`HardwareConfiguratorService` and its private `RuleEvaluator`.** It
  checks the configuration data, looks up components, evaluates the
  structured rules of each kind, formats messages and finds performance
  entries.
- **The stand-alone `DataDrivenRuleEvaluator`** (in `safeRuleEvaluator.ts`). It extracts lists from the data,
  lets configuration override them, has its own rule checkers, formats
  messages and converts legacy condition strings into structured rules.
- **The configurator data updater.** It regenerates the sorted lists,
  generates interface and chipset rules, validates references and builds
  the usage report.
- **The data validator.** It checks structure, price clusters and camera
  compatibility lists, and validates single components.
- **Smaller algorithms:**
  - the compatibility matrix's cache and cell decisions, and its name
    helpers;
  - the two supporter pages' list derivations (recent supporters, a hall of
    fame with ties, monthly donors and budget, tiers, merged GitHub
    contributors);
  - the Snake easter egg's state machine;
  - the native-ideal-image migration script;
  - the AVIF conversion script;
  - the two image components that offer an AVIF `<source>`.

JavaScript semantics are written out where the code relies on them:

- truthiness (the empty string and `0` are falsy);
- `String.prototype.replace` with a string pattern, which replaces only the
  first occurrence;
- `Set` and `Map` insertion order;
- a stable sort;
- `Math.round`;
- `path.basename`/`path.extname`;
- case-insensitive ASCII regex matching.

Money is counted in integer cents.

The modules:

- `Wrappers`, `Strings`, `Seqs`, `Paths`: shared helpers.
- `HardwareTypes`
- `ServiceRules`, `ServiceMessages`, `ConfiguratorService`
- `Templates`: message templates as text and placeholder pieces, shared by both evaluators' formatters.
- `SafeRules`
- `DataUpdater`
- `DataValidator`
- `CompatibilityMatrix`
- `Supporters` (help-us), `SupporterTiers` (help-us-concept)
- `Snake`
- `ImageMigration`
- `AvifConversion`, `AvifSources`

Places where components of the site behave differently from one another,
or from what their names suggest, are kept as the code has them:

- The service's interface check accepts interfaces of the same group
  (`usb` for `usb2`). The safe evaluator compares interfaces literally.
  `SafeRules.EvaluatorsDisagreeOnInterfaceGroups` exhibits the difference.
- The hall of fame keeps every supporter tied with tenth place. The list
  can therefore be longer than ten.
- `OptimizedImg` does not convert a path with a query string. The Markdown
  image override does. `AvifSources.QueryDivergence` exhibits this.

## Model

| member | source | states |
|---|---|---|
| HardwareTypes.ParseStatus | src/types/hardware-configurator.ts:6 | only the six status names parse, and each parses back to its own name |
| HardwareTypes.StatusRoundTrip | src/types/hardware-configurator.ts:6 | every status survives printing then parsing |
| HardwareTypes.ParseSeverity | src/types/hardware-configurator.ts:8 | exactly "error", "warning", "info" are severities |
| HardwareTypes.ParseRuleKind | src/types/hardware-configurator.ts:91-98 | a parsed rule kind prints back as the name it was parsed from |
| HardwareTypes.RuleKindRoundTrip | src/types/hardware-configurator.ts:91-98 | every rule kind survives printing then parsing |
| HardwareTypes.CategoryTag | src/types/hardware-configurator.ts:80 | a component is one of sbc, camera, wifi |
| HardwareTypes.InterfaceOf | src/types/hardware-configurator.ts:60-68 | only cameras have a single `interface` |
| HardwareTypes.InterfacesOf | src/types/hardware-configurator.ts:43-57 | only SBCs have an `interfaces` list |
| HardwareTypes.RolesOf | src/types/hardware-configurator.ts:43-57 | only SBCs have `role_support` |
| HardwareTypes.FeaturesOf | src/types/hardware-configurator.ts:60-68 | features come only from cameras |
| HardwareTypes.ChipsetOf | src/types/hardware-configurator.ts:71-77 | only WiFi adapters have a chipset |
| HardwareTypes.IfTruthy | src/utils/configuratorDataUpdater.ts:65-85 | an optional string contributes itself exactly when it is non-empty |
| HardwareTypes.Field | src/types/hardware-configurator.ts:43-77 | reading `id` gives the id; `interface` is a string only on cameras, `chipset` only on WiFi adapters |
| HardwareTypes.Slot | src/types/hardware-configurator.ts:246-253 | only the sbc, camera and wifi keys of the context name components |
| HardwareTypes.NumericField | src/types/hardware-configurator.ts:246-253 | only `camera_count` is a numeric context field |
| HardwareTypes.CategoryComponents | src/types/hardware-configurator.ts:180-190 | an unknown category has no components; every listed component belongs to some category |
| HardwareTypes.AllComponents | src/services/HardwareConfiguratorService.ts:181-186 | a component is listed exactly when some category holds it |
| HardwareTypes.OrStr | src/utils/safeRuleEvaluator.ts:322-330 | `a \|\| b` on strings: a non-empty string is kept, an absent or empty one falls back |
| ServiceRules.Lookup | src/services/HardwareConfiguratorService.ts:367-397 | a found alias group is an entry of the table; a miss means no entry has the key |
| ServiceRules.AnyIn | src/services/HardwareConfiguratorService.ts:367-397 | true exactly when the lists share an element |
| ServiceRules.ReverseMatch | src/services/HardwareConfiguratorService.ts:385-394 | true exactly when some group containing the request is available by name or by member |
| ServiceRules.ImplementationByGroups | src/services/HardwareConfiguratorService.ts:367-397 | the implemented interface test equals the group-based characterisation |
| ServiceRules.SpecByGroups | src/services/HardwareConfiguratorService.ts:367-397 | the reference definition equals the group-based characterisation |
| ServiceRules.InterfaceSupportedIff | src/services/HardwareConfiguratorService.ts:367-397 | the implementation and the independent reference definition agree on all inputs |
| ServiceRules.InterfaceSupportMonotone | src/services/HardwareConfiguratorService.ts:367-397 | offering more interfaces never loses support |
| ServiceRules.InterfaceSupportSymmetric | src/services/HardwareConfiguratorService.ts:367-397 | a single interface supports another exactly when the other supports it |
| ServiceRules.CheckInterface | src/services/HardwareConfiguratorService.ts:351-365 | the rule fires exactly when the camera's (or the required) interface is not supported by the SBC |
| ServiceRules.CheckRole | src/services/HardwareConfiguratorService.ts:399-407 | fires exactly when a role is chosen that the SBC supports neither directly nor via "both" |
| ServiceRules.CheckStatus | src/services/HardwareConfiguratorService.ts:409-440 | the filter form fires on a forbidden status or one outside the allowed list; without either form it never fires |
| ServiceRules.CheckFeature | src/services/HardwareConfiguratorService.ts:442-484 | the structured form fires only when all required features are present and the interface is outside the constraints; the flat form is an and/or feature test |
| ServiceRules.CheckCount | src/services/HardwareConfiguratorService.ts:486-522 | fires exactly when the counted field is below min or above max; a zero flat threshold is ignored; without count_limits, the legacy count_field/threshold/operator form fires exactly when the numeric field relates to the threshold by gt, gte, lt, lte or eq, and never otherwise |
| ServiceRules.CheckManufacturerFilter | src/services/HardwareConfiguratorService.ts:538-592 | must_be gates the rule, cannot_be is read only without must_be, the cross check compares same/different |
| ServiceRules.CheckManufacturer | src/services/HardwareConfiguratorService.ts:524-607 | the filter form decides when present, else the legacy pair comparison with `different` |
| ServiceRules.CheckChipset | src/services/HardwareConfiguratorService.ts:609-635 | with a whitelist, fires exactly when the adapter's non-empty chipset is not on it; a firing rule always names a chipset |
| ServiceRules.CanonicalKind | src/services/HardwareConfiguratorService.ts:309-319 | the three legacy aliases map to their structured kinds; anything else must be a kind's own name |
| ServiceRules.Evaluate | src/services/HardwareConfiguratorService.ts:304-347 | an unknown kind never fires; a role rule is decided by the role check |
| ServiceRules.AliasesAgree | src/services/HardwareConfiguratorService.ts:309-319 | each alias evaluates exactly like its structured kind on every rule and context |
| ConfiguratorService.Initialize | src/services/HardwareConfiguratorService.ts:268-282 | succeeds exactly with data, categories and engine, and otherwise gives the first missing piece's message |
| ConfiguratorService.GetComponentsByCategory | src/services/HardwareConfiguratorService.ts:40-44 | fails exactly when uninitialised; every returned component belongs to the data |
| ConfiguratorService.FindById | src/services/HardwareConfiguratorService.ts:49-59 | a found component has the id; a miss means no component has it |
| ConfiguratorService.FindByIdAppend | src/services/HardwareConfiguratorService.ts:49-59 | searching a concatenation finds the first list's match before the second's |
| ConfiguratorService.FindInCategoriesIsFirst | src/services/HardwareConfiguratorService.ts:49-59 | the category-by-category search returns the first match in the flattened list |
| ConfiguratorService.GetComponentById | src/services/HardwareConfiguratorService.ts:49-59 | a result has the id and is in the data; none means uninitialised or no such id |
| ConfiguratorService.Collect | src/services/HardwareConfiguratorService.ts:199-230 | at most one message per rule; the errors are the messages of the firing error rules and the warnings those of the firing warning rules, in rule order |
| ConfiguratorService.TriggeredStep | src/services/HardwareConfiguratorService.ts:199-230 | one more rule adds its message to its severity's list exactly when it fires |
| Templates.OccurrenceIsHole | src/services/HardwareConfiguratorService.ts:246-266 | in a template of brace-free text and placeholders, every occurrence of a placeholder is one of its placeholder pieces |
| Templates.IndexOfFirstHole | src/utils/safeRuleEvaluator.ts:322-330 | `indexOf` of a placeholder finds its first piece |
| Templates.NoHoleIsFree | src/utils/safeRuleEvaluator.ts:322-330 | a placeholder without a piece does not occur in the text |
| Templates.ReplaceFirstOnPieces | src/utils/safeRuleEvaluator.ts:322-330 | `replace` with a string pattern fills the first piece for the placeholder and keeps the template well formed |
| Templates.ReplaceAllOnPieces | src/services/HardwareConfiguratorService.ts:246-266 | a global replace fills every piece for the placeholder and keeps the template well formed |
| Templates.ReplaceAllEachIsSplitJoin | src/services/HardwareConfiguratorService.ts:246-266 | a chain of global replaces equals the chain of split-and-join steps |
| Templates.ReplaceAllEachAppend | src/services/HardwareConfiguratorService.ts:246-266 | running two lists of global replaces one after the other is running their concatenation |
| Templates.ReplaceAllEachOnPieces | src/services/HardwareConfiguratorService.ts:246-266 | a chain of global replaces fills every piece whose placeholder has a replacement, with the first replacement's value |
| Templates.ReplaceFirstEachOnPieces | src/utils/safeRuleEvaluator.ts:322-330 | a chain of first-occurrence replaces over distinct placeholders fills only the first piece of each |
| Templates.FillFirstKeepsOtherHoles | src/utils/safeRuleEvaluator.ts:322-330 | filling one placeholder's first piece leaves other placeholders' pieces in place |
| Templates.ValueFor | src/utils/safeRuleEvaluator.ts:322-330 | no value exactly when no replacement names the placeholder |
| ServiceMessages.FormatRuleMessage | src/services/HardwareConfiguratorService.ts:246-266 | without components the template is unchanged |
| ServiceMessages.FillSbcIsChain | src/services/HardwareConfiguratorService.ts:250-253 | the SBC block is the global replace of `{sbc.name}` then `{sbc.id}`, when an SBC is present |
| ServiceMessages.FillCameraIsChain | src/services/HardwareConfiguratorService.ts:255-258 | the camera block likewise for `{camera.name}` and `{camera.interface}` |
| ServiceMessages.FillWifiIsChain | src/services/HardwareConfiguratorService.ts:260-263 | the WiFi block likewise for `{wifi.name}` and `{wifi.chipset}` |
| ServiceMessages.FormatRuleMessageIsChain | src/services/HardwareConfiguratorService.ts:246-266 | the formatter is the chain of global replaces for the components in context |
| ServiceMessages.FormatRuleMessageIsSplitJoin | src/services/HardwareConfiguratorService.ts:246-266 | the formatter splits at each placeholder in turn and joins around the value |
| ServiceMessages.ServiceSubs | src/services/HardwareConfiguratorService.ts:246-266 | every replacement targets one of the six non-empty placeholders |
| ServiceMessages.ServiceValues | src/services/HardwareConfiguratorService.ts:246-266 | each placeholder gets the property of the component in context it names, an absent interface or chipset as "undefined", and an absent component's placeholders none |
| ServiceMessages.FillAllHolesFromContext | src/services/HardwareConfiguratorService.ts:246-266 | filling with the service's replacements is filling with the context's values |
| ServiceMessages.FormatRuleMessageOnPieces | src/services/HardwareConfiguratorService.ts:246-266 | on a template of brace-free text and placeholders, every placeholder of a present component becomes its value and every other piece stays |
| ConfiguratorService.CollectAppend | src/services/HardwareConfiguratorService.ts:199-230 | collecting over a concatenation concatenates errors and warnings in rule order |
| ConfiguratorService.InfoRuleInert | src/services/HardwareConfiguratorService.ts:221-225 | an info rule never changes the result, wherever it sits |
| ConfiguratorService.ErrorsEmptyIff | src/services/HardwareConfiguratorService.ts:199-230 | no errors exactly when no error-severity rule fires |
| ConfiguratorService.FindPerformance | src/services/HardwareConfiguratorService.ts:126-137 | returns the first entry matching the SBC and camera interface, or none exists |
| ConfiguratorService.GetPerformanceForCombo | src/services/HardwareConfiguratorService.ts:126-137 | a result comes from a matrix entry for the SBC and the camera's interface |
| ConfiguratorService.EvaluateCompatibility | src/services/HardwareConfiguratorService.ts:188-244 | compatible exactly when no error fires; uninitialised gives the fixed error; performance only for compatible SBC+camera |
| ConfiguratorService.CheckSbcCamera | src/services/HardwareConfiguratorService.ts:64-78 | a missing id gives not-found; compatible implies both exist and no error rule fires on the pair |
| ConfiguratorService.CheckSbcWifi | src/services/HardwareConfiguratorService.ts:83-97 | as for cameras, and never a performance entry |
| ConfiguratorService.GetCompatibleCameras | src/services/HardwareConfiguratorService.ts:102-109 | "Service not initialized" exactly before initialisation; otherwise exactly the catalogue's cameras the pair check accepts, in catalogue order |
| ConfiguratorService.GetCompatibleWifi | src/services/HardwareConfiguratorService.ts:114-121 | "Service not initialized" exactly before initialisation; otherwise exactly the catalogue's adapters the pair check accepts, in catalogue order |
| SafeRules.ExtractSupportedChipsets | src/utils/safeRuleEvaluator.ts:48-60 | duplicate-free; exactly the adapters' non-empty chipsets plus the engine's list |
| SafeRules.ExtractSupportedInterfaces | src/utils/safeRuleEvaluator.ts:62-73 | duplicate-free; exactly the interfaces some component declares |
| SafeRules.ExtractValidStatuses | src/utils/safeRuleEvaluator.ts:75-83 | duplicate-free; exactly the non-empty statuses in use |
| SafeRules.ExtractManufacturers | src/utils/safeRuleEvaluator.ts:85-93 | duplicate-free; exactly the non-empty manufacturers in use |
| SafeRules.Initialize | src/utils/safeRuleEvaluator.ts:38-46 | each configured list overrides the extracted one, field by field |
| SafeRules.CheckInterfaceMismatch | src/utils/safeRuleEvaluator.ts:143-157 | fires exactly when the component has the required interface and the target does not list it |
| SafeRules.CheckRole | src/utils/safeRuleEvaluator.ts:159-167 | fires exactly when a chosen role is unsupported and "both" is absent |
| SafeRules.CheckStatus | src/utils/safeRuleEvaluator.ts:169-191 | without the component never fires; otherwise, by the operator (default "equals"): equal status, unequal status, member of the list, not a member of the list; an unknown operator never fires |
| SafeRules.StatusOperatorDefault | src/utils/safeRuleEvaluator.ts:172 | an absent or empty operator behaves as "equals" |
| SafeRules.StatusOperatorsComplement | src/utils/safeRuleEvaluator.ts:179-190 | with the component present, "not_equals" is the negation of "equals", and "not_in" of "in" for a list |
| SafeRules.StatusEvaluatorsCompared | src/utils/safeRuleEvaluator.ts:169-191 | against the service's status check on a single status: equal for an explicit equals or not_equals, opposite for the default operator |
| SafeRules.CheckFeatures | src/utils/safeRuleEvaluator.ts:193-237 | the feature-and-interface form and the required/forbidden form, each as an if-and-only-if |
| SafeRules.CountOperandOf | src/utils/safeRuleEvaluator.ts:243 | `context[field] \|\| 0`: a present component or a non-empty selected role is a non-number; otherwise the numeric field, or 0 |
| SafeRules.CheckCount | src/utils/safeRuleEvaluator.ts:239-255 | for a numeric operand, an iff with the threshold for each of the six operators; for a component or role operand, and without a threshold, it fires exactly for `neq` |
| SafeRules.CountOnComponentOnlyNeq | src/utils/safeRuleEvaluator.ts:243-253 | counting the SBC slot with an SBC present: `lt 1` does not fire and `neq 0` does; without the SBC, `lt 1` fires |
| SafeRules.DifferentManufacturer | src/utils/safeRuleEvaluator.ts:257-295 | fires only for the named SBC maker, then on the "not_Radxa" or plain camera-maker comparison |
| SafeRules.DifferentManufacturerPrecedence | src/utils/safeRuleEvaluator.ts:274-275 | the code as written fires for a Raspberry Pi although the rule names Radxa |
| SafeRules.DifferentManufacturerAgreesOnNamedSbc | src/utils/safeRuleEvaluator.ts:274-275 | as written and corrected agree whenever the SBC is the named one |
| SafeRules.ManufacturerPair | src/utils/safeRuleEvaluator.ts:278-294 | with both slots filled, "same" fires on equal makers and "different" on unequal ones; anything else never fires |
| SafeRules.CheckManufacturer | src/utils/safeRuleEvaluator.ts:257-295 | as written: the different_manufacturer form with the precedence slip, else the two-slot comparison |
| SafeRules.CheckManufacturerIntended | src/utils/safeRuleEvaluator.ts:257-295 | corrected: the different_manufacturer form never fires for an SBC by another maker; the two-slot form is unchanged |
| SafeRules.CheckManufacturerAgreement | src/utils/safeRuleEvaluator.ts:257-295 | as written and corrected agree outside the different_manufacturer form and for the named SBC maker |
| SafeRules.CheckChipset | src/utils/safeRuleEvaluator.ts:297-317 | fires exactly when the field is truthy and not on the global or the rule's whitelist |
| SafeRules.CheckPlatform | src/utils/safeRuleEvaluator.ts:397-408 | fires exactly for the named SBC id with the named camera interface |
| SafeRules.CheckerFor | src/utils/safeRuleEvaluator.ts:105-134 | a kind name has a checker exactly when it is one of the eleven handled names |
| SafeRules.CheckerNames | src/utils/safeRuleEvaluator.ts:105-134 | each handled name, aliases included, is dispatched to its own checker |
| SafeRules.EvaluateStructuredRule | src/utils/safeRuleEvaluator.ts:98-141 | nothing fires before initialisation or for an unknown kind; otherwise the result is the chosen checker's |
| SafeRules.EvaluateStructuredRuleIntended | src/utils/safeRuleEvaluator.ts:98-141 | the same dispatch with the corrected manufacturer check; a different_manufacturer rule never fires for an SBC by another maker |
| SafeRules.EvaluatorsAgreeOnNamedSbc | src/utils/safeRuleEvaluator.ts:98-141 | as written and corrected dispatch agree when the SBC is absent or by the named maker |
| SafeRules.ManufacturerRuleFiresForOtherSbc | src/utils/safeRuleEvaluator.ts:274-275 | a Radxa rule fires for a Raspberry Pi with a Sony camera as written, not in the corrected dispatch |
| SafeRules.AliasPairsAgree | src/utils/safeRuleEvaluator.ts:98-141 | each pair of kind names sharing a checker evaluates identically |
| SafeRules.StrictInterfaceCheckCoversService | src/utils/safeRuleEvaluator.ts:143-157 | for camera-against-SBC rules, whatever the service rejects this evaluator rejects too |
| SafeRules.EvaluatorsDisagreeOnInterfaceGroups | src/utils/safeRuleEvaluator.ts:143-157 | a usb2 camera on a usb SBC is rejected here and accepted by the service |
| SafeRules.SafeSubs | src/utils/safeRuleEvaluator.ts:322-330 | the six replacements, in the order of the chain |
| SafeRules.SafeValuesDefined | src/utils/safeRuleEvaluator.ts:322-330 | exactly the six placeholders get a value, each present property or its "Unknown …" default |
| SafeRules.FormatMessageIsChain | src/utils/safeRuleEvaluator.ts:322-330 | the formatter is the chain of first-occurrence replaces over the six placeholders |
| SafeRules.FormatMessageOnPieces | src/utils/safeRuleEvaluator.ts:322-330 | on a template of brace-free text and placeholders, the first piece of each of the six placeholders becomes its value and everything else stays |
| SafeRules.FormatMessageKeepsPlainText | src/utils/safeRuleEvaluator.ts:322-330 | a template without placeholders is unchanged |
| SafeRules.FormatMessageReplacesFirstOnly | src/utils/safeRuleEvaluator.ts:322-330 | only the first `{sbc.name}` is replaced, with "Unknown SBC" when there is no SBC |
| SafeRules.ConvertLegacyRule | src/utils/safeRuleEvaluator.ts:335-395 | converts exactly the conditions containing one of the four recognised forms, keeping id, severity and message |
| SafeRules.ConvertedRoleRuleMeaning | src/utils/safeRuleEvaluator.ts:355-363 | the role condition converts to a role rule that fires exactly for a chosen role the SBC supports neither directly nor via "both" |
| SafeRules.ConvertedStatusRuleMeaning | src/utils/safeRuleEvaluator.ts:365-377 | the legacy-status condition converts to a status rule that fires exactly for a camera with status "legacy" |
| SafeRules.LegacyStatusParamsMeaning | src/utils/safeRuleEvaluator.ts:371-375 | the generated status parameters fire exactly for a legacy camera |
| SafeRules.ConvertedCsiRuleMeaning | src/utils/safeRuleEvaluator.ts:341-353 | the converted CSI rule fires exactly for a CSI camera on an SBC without CSI |
| SafeRules.LegacyChipsetParamsMeaning | src/utils/safeRuleEvaluator.ts:379-390 | the generated chipset parameters reject exactly an adapter with an unlisted chipset |
| SafeRules.ConvertedChipsetRuleMeaning | src/utils/safeRuleEvaluator.ts:379-390 | the converted chipset rule fires exactly for an adapter whose chipset is not supported |
| DataUpdater.SortedUnique | src/utils/configuratorDataUpdater.ts:65-85 | `[...new Set(x)].sort()`: sorted, duplicate-free, same elements |
| DataUpdater.ExtractAllChipsets | src/utils/configuratorDataUpdater.ts:65-85 | sorted and duplicate-free; exactly the chipsets some component declares |
| DataUpdater.ExtractAllInterfaces | src/utils/configuratorDataUpdater.ts:87-104 | sorted and duplicate-free; exactly the declared interfaces |
| DataUpdater.ExtractAllStatuses | src/utils/configuratorDataUpdater.ts:106-118 | sorted and duplicate-free; exactly the statuses in use |
| DataUpdater.ExtractAllManufacturers | src/utils/configuratorDataUpdater.ts:120-132 | sorted and duplicate-free; exactly the manufacturers in use |
| DataUpdater.AutoInterfaceRules | src/utils/configuratorDataUpdater.ts:134-166 | one generated rule per interface |
| DataUpdater.GenerateInterfaceRules | src/utils/configuratorDataUpdater.ts:134-166 | existing rules stay first and every interface ends up covered |
| DataUpdater.GenerateInterfaceRulesCovered | src/utils/configuratorDataUpdater.ts:134-166 | when all interfaces are covered nothing is added |
| DataUpdater.GenerateInterfaceRulesIdempotent | src/utils/configuratorDataUpdater.ts:134-166 | generating twice equals generating once |
| DataUpdater.GenerateInterfaceRulesExact | src/utils/configuratorDataUpdater.ts:134-166 | exactly one rule is appended per uncovered interface, in order |
| DataUpdater.MissingInterfaces | src/utils/configuratorDataUpdater.ts:134-166 | the interfaces without a rule |
| DataUpdater.GenerateChipsetRules | src/utils/configuratorDataUpdater.ts:168-196 | one chipset rule is appended when chipsets exist and none is present, else nothing changes |
| DataUpdater.GenerateChipsetRulesIdempotent | src/utils/configuratorDataUpdater.ts:168-196 | generating twice equals generating once |
| DataUpdater.RefreshLists | src/utils/configuratorDataUpdater.ts:23-30 | the four lists are regenerated unless auto-update is explicitly off |
| DataUpdater.AutoGenerate | src/utils/configuratorDataUpdater.ts:40-48 | interface generation then chipset generation, each only when its switch is on; existing rules stay first, every interface is covered when interface generation is on, and a chipset rule is present when chipset generation is on and chipsets exist |
| DataUpdater.UpdateConfiguration | src/utils/configuratorDataUpdater.ts:9-63 | categories untouched; lists regenerated unless switched off; switches default off; with a generator on, the structured rules are the generated ones built on the existing rules (or none); counts are list lengths |
| DataUpdater.ChipsetGenerationKeepsInterfaceCoverage | src/utils/configuratorDataUpdater.ts:42-48 | adding the chipset rule after the interface rules keeps every interface covered |
| DataUpdater.UpdateConfigurationIdempotent | src/utils/configuratorDataUpdater.ts:9-63 | updating updated data changes nothing |
| DataUpdater.ArrayWarnings | src/utils/configuratorDataUpdater.ts:201-242 | no warning exactly when every listed value is known |
| DataUpdater.ComponentWarnings | src/utils/configuratorDataUpdater.ts:201-242 | no warning exactly when the component's references are all known |
| DataUpdater.ComponentsWarnings | src/utils/configuratorDataUpdater.ts:201-242 | no warning exactly when every component's references are known |
| DataUpdater.CategoriesWarnings | src/utils/configuratorDataUpdater.ts:201-242 | no warning exactly when every component in every category is clean |
| DataUpdater.ValidateComponentReferences | src/utils/configuratorDataUpdater.ts:201-242 | without a configuration nothing is reported; otherwise clean exactly when all references are known |
| DataUpdater.UpdatedDataValidates | src/utils/configuratorDataUpdater.ts:9-63 | after an auto-updating run the reference check reports nothing |
| DataUpdater.Tally | src/utils/configuratorDataUpdater.ts:247-312 | keys are exactly the values seen, each mapped to its number of occurrences |
| DataUpdater.ChipsetUsage | src/utils/configuratorDataUpdater.ts:260-266 | keys are exactly the non-empty chipsets in use, each mapped to its number of occurrences |
| DataUpdater.StatusUsage | src/utils/configuratorDataUpdater.ts:285-291 | keys are exactly the non-empty statuses in use, each mapped to its number of occurrences |
| DataUpdater.ManufacturerUsage | src/utils/configuratorDataUpdater.ts:293-299 | keys are exactly the non-empty manufacturers in use, each mapped to its number of occurrences |
| DataUpdater.GenerateUsageReport | src/utils/configuratorDataUpdater.ts:247-312 | the total counts all components; each usage map's keys are exactly the non-empty values in use (for interfaces, every declared one), each counted by its occurrences |
| DataUpdater.StatusTagsCount | src/utils/configuratorDataUpdater.ts:247-312 | the status tally covers exactly the components with a non-empty status |
| DataValidator.Report | src/utils/dataValidator.ts:15-43 | messages are only appended, and an invalid result stays invalid |
| DataValidator.ExtendsTransitive | src/utils/dataValidator.ts:15-43 | successive passes only extend the result |
| DataValidator.ComponentErrors | src/utils/dataValidator.ts:55-113 | no error exactly when the component has every required field for its category; missing id and name are named |
| DataValidator.ComponentWarnings | src/utils/dataValidator.ts:55-113 | no warning exactly when status and sensor are present and valid |
| DataValidator.CheckComponents | src/utils/dataValidator.ts:55-113 | no new error exactly when every component in the list is complete |
| DataValidator.ConsistencyPass | src/utils/dataValidator.ts:45-116 | no new error exactly when every category is complete; a category without components is reported |
| DataValidator.Prices | src/utils/dataValidator.ts:127-134 | exactly the truthy prices of the components |
| DataValidator.NamesWithPrice | src/utils/dataValidator.ts:127-134 | the group of a price is the names of exactly the components with that truthy price, in component order (a missing name joins as the empty string), one per occurrence of the price |
| DataValidator.PriceWarnings | src/utils/dataValidator.ts:137-143 | the i-th warning is `Suspicious: <n> <category> components have identical price $<price>: <names joined by ", ">` for the i-th price, in the given order, whose group holds three or more components, and there is no other warning |
| DataValidator.PricePass | src/utils/dataValidator.ts:118-145 | adds warnings only, never errors |
| DataValidator.PriceWarningsCount | src/utils/dataValidator.ts:125-143 | over the distinct prices, one warning per crowded price |
| DataValidator.FindCategory | src/utils/dataValidator.ts:148 | a found category has the key; a miss means none has it |
| DataValidator.DanglingWarnings | src/utils/dataValidator.ts:152-158 | no warning exactly when every referenced SBC exists |
| DataValidator.CameraWarnings | src/utils/dataValidator.ts:151-160 | no warning exactly when no camera references a missing SBC |
| DataValidator.OrphanWarnings | src/utils/dataValidator.ts:163-181 | no warning exactly when every CSI SBC is listed by some camera |
| DataValidator.ListsPass | src/utils/dataValidator.ts:147-182 | corrected: adds warnings only; without a cameras category nothing changes |
| DataValidator.ListsPassAgreesWhenItReturns | src/utils/dataValidator.ts:147-182 | whenever the code as written returns, it agrees with the corrected pass |
| DataValidator.RunPasses | src/utils/dataValidator.ts:33-40 | the passes only extend the result and add errors exactly for incomplete categories |
| DataValidator.CheckTopLevel | src/utils/dataValidator.ts:22-31 | no error exactly when categories and engine are both present, each absence named |
| DataValidator.ValidateConfiguratorData | src/utils/dataValidator.ts:15-43 | corrected: valid exactly when both top-level parts exist and every category is complete |
| DataValidator.ValidatorThrowsOnMissingCameraComponents | src/utils/dataValidator.ts:151 | a cameras category without components crashes the code as written; the corrected validator reports it |
| DataValidator.ValidatorAgreesWhenItReturns | src/utils/dataValidator.ts:15-43 | whenever the code as written returns, it agrees with the corrected validator |
| DataValidator.ValidateComponent | src/utils/dataValidator.ts:187-221 | valid exactly with id and name; the id-pattern warning exactly for a present id outside `[a-z0-9_]+` |
| CompatibilityMatrix.CheckPair | src/components/debug/CompatibilityMatrix.tsx:60-62 | a pair is compatible exactly when it has no errors |
| CompatibilityMatrix.KeySplits | src/components/debug/CompatibilityMatrix.tsx:59 | with a dash-free SBC id the key splits back into both ids |
| CompatibilityMatrix.KeyInjective | src/components/debug/CompatibilityMatrix.tsx:59 | dash-free SBC ids make cache keys unique per pair |
| CompatibilityMatrix.KeyCollision | src/components/debug/CompatibilityMatrix.tsx:59 | ids containing dashes can collide on one key |
| CompatibilityMatrix.KeySameRow | src/components/debug/CompatibilityMatrix.tsx:59 | within one row keys are unique per component |
| CompatibilityMatrix.KeyNotShared | src/components/debug/CompatibilityMatrix.tsx:59 | different dash-free SBC ids never share a key |
| CompatibilityMatrix.AddRow | src/components/debug/CompatibilityMatrix.tsx:57-65 | a row adds exactly its keys, each holding the check's result, and leaves other keys alone |
| CompatibilityMatrix.BuildCache | src/components/debug/CompatibilityMatrix.tsx:54-68 | the cache has exactly one key per SBC and component pair |
| CompatibilityMatrix.MatrixCache | src/components/debug/CompatibilityMatrix.tsx:54-68 | same, for the camera or WiFi check chosen by the matrix type |
| CompatibilityMatrix.BuildCacheHoldsChecks | src/components/debug/CompatibilityMatrix.tsx:54-68 | with dash-free SBC ids every pair's entry is that pair's own result |
| CompatibilityMatrix.MatrixCacheHoldsChecks | src/components/debug/CompatibilityMatrix.tsx:54-68 | the cached value is the service's pair check |
| CompatibilityMatrix.FirstErrorOr | src/components/debug/CompatibilityMatrix.tsx:204 | the first error when non-empty, else "Incompatible" |
| CompatibilityMatrix.DesktopCell | src/components/debug/CompatibilityMatrix.tsx:186-208 | hidden exactly for incompatible pairs when filtering; the icon is ✗, ⚠ or ✓ by compatibility and warnings |
| CompatibilityMatrix.CellShowsFirstError | src/components/debug/CompatibilityMatrix.tsx:186-208 | an incompatible cell shows ✗ and is titled with the first error |
| CompatibilityMatrix.AnyCompatible | src/components/debug/CompatibilityMatrix.tsx:161-166 | true exactly when some component in the row is compatible |
| CompatibilityMatrix.Lookup | src/components/debug/CompatibilityMatrix.tsx:187 | the cache entry, or nothing when the key is absent |
| CompatibilityMatrix.MobileCompatible | src/components/debug/CompatibilityMatrix.tsx:231-234 | exactly the components the cache marks compatible |
| CompatibilityMatrix.RowHidingAgrees | src/components/debug/CompatibilityMatrix.tsx:161-236 | desktop and mobile hide the same rows: exactly those without a compatible component when filtering |
| CompatibilityMatrix.FormatLatency | src/components/debug/CompatibilityMatrix.tsx:521-529 | known latency keys map to their labels, others pass through |
| CompatibilityMatrix.FormatLatencyFixedPoints | src/components/debug/CompatibilityMatrix.tsx:521-529 | a latency is unchanged exactly when it has no label |
| CompatibilityMatrix.SliceTo | src/components/debug/CompatibilityMatrix.tsx:531-533 | `slice(0, n)`: a prefix of length n, or the whole string |
| CompatibilityMatrix.TruncateText | src/components/debug/CompatibilityMatrix.tsx:531-533 | short text is kept; long text becomes its first maxLength characters plus "..." |
| CompatibilityMatrix.TruncateComponentName | src/components/debug/CompatibilityMatrix.tsx:535-544 | the four brand shortenings apply first; without them it is plain truncation |
| CompatibilityMatrix.FirstCase | src/components/debug/CompatibilityMatrix.tsx:546-610 | the first matching case decides; none means no case matches |
| CompatibilityMatrix.ApplyFits | src/components/debug/CompatibilityMatrix.tsx:546-610 | a rule whose labels fit the bound produces a name within it |
| CompatibilityMatrix.ShortNameBy | src/components/debug/CompatibilityMatrix.tsx:546-610 | the first applicable rule decides, with a six-character fallback, and fitting rules give short names |
| CompatibilityMatrix.ShortRulesFit | src/components/debug/CompatibilityMatrix.tsx:546-610 | every label in the table is at most seven characters |
| CompatibilityMatrix.GetShortName | src/components/debug/CompatibilityMatrix.tsx:546-610 | a short name never exceeds seven characters |
| CompatibilityMatrix.ShortNameCm4First | src/components/debug/CompatibilityMatrix.tsx:548-549 | any Raspberry Pi name with CM4 becomes "CM4" |
| CompatibilityMatrix.ShortName3BPlusBefore3B | src/components/debug/CompatibilityMatrix.tsx:548-551 | "3B+" is checked before "3B" |
| CompatibilityMatrix.ShortNameT3UPlusBeforeT3U | src/components/debug/CompatibilityMatrix.tsx:589-590 | "T3U Plus" is checked before "T3U" |
| CompatibilityMatrix.ShortNameFallback | src/components/debug/CompatibilityMatrix.tsx:609 | an unknown name is cut to six characters |
| Supporters.SlugOf | src/pages/help-us.tsx:179-180 | the slug, or "anonymous" when empty |
| Supporters.ToContributor | src/pages/help-us.tsx:176-189 | id, name and amount copied; monthly flags from the tier and activity; avatar and profile from the slug |
| Supporters.CurrentlyMonthlyIsMonthly | src/pages/help-us.tsx:186-187 | currently monthly implies monthly, and an inactive member is never currently monthly |
| Supporters.ToContributors | src/pages/help-us.tsx:176-189 | the mapping keeps order and length |
| Supporters.ContributorList | src/pages/help-us.tsx:174-189 | exactly the named members, converted |
| Supporters.UnnamedDropped | src/pages/help-us.tsx:175 | only named members appear, and none is lost when all are named |
| Supporters.Recent | src/pages/help-us.tsx:192 | the first twelve, in their original order |
| Supporters.Ranked | src/pages/help-us.tsx:195-196 | a permutation sorted by amount, highest first, of the same length |
| Supporters.HallOfFameOf | src/pages/help-us.tsx:199-208 | the whole list when it has ten or fewer, else the top ten and then some |
| Supporters.HallOfFame | src/pages/help-us.tsx:195-210 | with ten or fewer supporters everyone is listed; in general a tied prefix of the ranking (`TiedPrefixOf`): everyone at or above tenth place's amount is in, everyone below is out |
| Supporters.TiedRun | src/pages/help-us.tsx:205-206 | the length of the leading run at a given amount |
| Supporters.TiedFilterIsPrefix | src/pages/help-us.tsx:205-206 | on a sorted tail below the tenth amount, filtering for ties takes a prefix |
| Supporters.HallOfFameOfIsPrefix | src/pages/help-us.tsx:199-208 | the hall of fame is the top ten plus the run tied with tenth place |
| Supporters.HallOfFameOfTiedPrefix | src/pages/help-us.tsx:199-208 | it is a prefix; everyone in it has at least tenth place's amount and everyone after has less |
| Supporters.HallOfFameIsTiedPrefix | src/pages/help-us.tsx:195-210 | the same facts stated on the ranked list |
| Supporters.HallOfFameFromList | src/pages/help-us.tsx:195-210 | the hall of fame only lists supporters |
| Supporters.MonthlyDonors | src/pages/help-us.tsx:213-216 | exactly the currently monthly supporters, sorted by amount |
| Supporters.MonthlyBudget | src/pages/help-us.tsx:219-220 | zero without donations, else the monthly donors' total over twelve, rounded to the nearest unit |
| Supporters.MonthlyBudgetMonotone | src/pages/help-us.tsx:219-220 | a larger total never gives a smaller budget |
| Supporters.ListedFromMembers | src/pages/help-us.tsx:174-176 | every contributor taken from the list stems from a named member |
| Supporters.Derive | src/pages/help-us.tsx:174-231 | recent is the first min(12, n) supporters; the hall of fame is the tied prefix of the ranking; monthly is sorted highest first and holds exactly the currently monthly supporters; the backer count is its length and the budget comes from its sum; every listed entry stems from a named member |
| SupporterTiers.TierOf | src/pages/help-us-concept.tsx:89 | the tier thresholds 1000/500/100, each as an exact range |
| SupporterTiers.TierMonotone | src/pages/help-us-concept.tsx:89 | a larger amount never gets a lower tier |
| SupporterTiers.ToFinancial | src/pages/help-us-concept.tsx:83-93 | incognito backers are shown as anonymous, others by name; id, amount, incognito flag and `since` are carried over; the tier is `TierOf` of the amount (platinum from 1000, gold from 500, silver from 100, else bronze) |
| SupporterTiers.FinancialContributors | src/pages/help-us-concept.tsx:81-94 | a missing list gives none; at most twelve, in order |
| SupporterTiers.ToFinancials | src/pages/help-us-concept.tsx:83-93 | the mapping keeps order and length |
| SupporterTiers.IncognitoHidden | src/pages/help-us-concept.tsx:87 | no incognito backer's name is shown |
| SupporterTiers.IndexOfLogin | src/pages/help-us-concept.tsx:120 | the first position with the login, or none |
| SupporterTiers.IndexOfLoginIs | src/pages/help-us-concept.tsx:120 | the first position holding the login is the one found |
| SupporterTiers.IndexOfLoginAppend | src/pages/help-us-concept.tsx:125 | appending a new login finds it at the end and leaves earlier ones in place |
| SupporterTiers.IndexOfLoginUpdate | src/pages/help-us-concept.tsx:124-125 | updating an entry in place keeps every login's position |
| SupporterTiers.Absorb | src/pages/help-us-concept.tsx:118-127 | non-users are ignored; a new login is appended; a known one is updated in place |
| SupporterTiers.AbsorbTotals | src/pages/help-us-concept.tsx:118-127 | logins stay unique and each login's total grows by exactly this entry's contributions |
| SupporterTiers.MergeAllTotals | src/pages/help-us-concept.tsx:114-129 | after merging, each login holds the sum of its contributions over all repositories |
| SupporterTiers.MergeAllLogins | src/pages/help-us-concept.tsx:114-129 | exactly the users seen in some repository are listed |
| SupporterTiers.Fetched | src/pages/help-us-concept.tsx:114-117 | exactly the entries of the successful responses |
| SupporterTiers.CodeContributors | src/pages/help-us-concept.tsx:131-133 | the twenty highest-ranked (or all, when fewer), sorted by contributions, drawn from the merged list; every merged contributor left out has no more contributions than any listed one |
| Seqs.SortDescStable | src/pages/help-us-concept.tsx:131-132 | the descending sort keeps the relative order of the elements of each key, as the stable `Array.prototype.sort` does |
| Seqs.TakeSortedDesc | src/pages/help-us-concept.tsx:131-133 | the first n entries of a descending list stay sorted and outrank every entry cut off |
| Seqs.DedupFirstOccurrenceOrder | src/utils/safeRuleEvaluator.ts:62-73 | `Array.from` of a `Set` filled in order lists each element at the rank of its first occurrence: an element listed earlier first occurs earlier |
| SupporterTiers.CodeContributorsAreSummedUsers | src/pages/help-us-concept.tsx:112-133 | each listed contributor is a user carrying their summed contributions |
| Snake.Reset | src/components/SnakeGame/index.tsx:58-68 | the initial snake, food and direction, score zero, not playing, the high score kept |
| Snake.Start | src/components/SnakeGame/index.tsx:71-78 | an idle game starts, an ended one restarts from reset, a running one is unchanged |
| Snake.PlaceFood | src/components/SnakeGame/index.tsx:46-55 | the first roll not on the snake; none exactly when every roll hits it |
| Snake.Max | src/components/SnakeGame/index.tsx:113 | the larger of the two |
| Snake.Tick | src/components/SnakeGame/index.tsx:84-126 | corrected: a paused game is unchanged; a blocked move ends it; a plain move shifts the body; eating grows the snake, scores, and places food off the new snake |
| Snake.TickPreservesValid | src/components/SnakeGame/index.tsx:84-126 | corrected tick: a tick keeps the snake on the board and free of self-overlap, the food off it, and the score within the high score |
| Snake.WallEndsGame | src/components/SnakeGame/index.tsx:94-98 | leaving the board ends the game with the snake unmoved |
| Snake.TailCountsForCollision | src/components/SnakeGame/index.tsx:101-105 | moving into the current tail counts as a collision |
| Snake.HighScoreNeverFalls | src/components/SnakeGame/index.tsx:111-119 | corrected tick: over any run the high score never drops and the state stays valid |
| Snake.TickAsWritten | src/components/SnakeGame/index.tsx:120 | as written, new food avoids only the snake before the move |
| Snake.FoodOnSnakeAsWritten | src/components/SnakeGame/index.tsx:46-55 | as written, food can be placed on the new head; the corrected tick avoids it |
| Snake.TurnTo | src/components/SnakeGame/index.tsx:148-165 | other keys keep the direction; an arrow turns along an axis |
| Snake.TurnNeverReverses | src/components/SnakeGame/index.tsx:151-163 | an arrow key never reverses a unit direction |
| Snake.HandleKey | src/components/SnakeGame/index.tsx:140-166 | space starts an idle game; keys do nothing when not playing; arrows turn without reversing |
| Snake.HandleTouch | src/components/SnakeGame/index.tsx:173-176 | touch sets the direction while playing, else nothing |
| Snake.TouchCanReverse | src/components/SnakeGame/index.tsx:173-176 | unlike the keys, touch can reverse the snake |
| Snake.TwoKeysReverseWithinTick | src/components/SnakeGame/index.tsx:151-163 | two quick arrow keys between ticks reverse the snake |
| ImageMigration.ConvertImagePath | scripts/migrate-to-native-ideal-image.js:28-38 | both image prefixes become the static-site path; other paths are unchanged |
| ImageMigration.ConvertImagePathAgrees | scripts/migrate-to-native-ideal-image.js:28-38 | the two prefixes name the same static file |
| ImageMigration.GenerateImportName | scripts/migrate-to-native-ideal-image.js:19-26 | an alphanumeric identifier ending in "Img" |
| ImageMigration.ImportNameIsCamel | scripts/migrate-to-native-ideal-image.js:22-24 | the two regex replacements equal a one-pass camel-casing of the stem |
| ImageMigration.GenerateImportNameIsCamel | scripts/migrate-to-native-ideal-image.js:19-26 | the name is the camel-cased stem plus "Img" |
| ImageMigration.Kept | scripts/migrate-to-native-ideal-image.js:55-58 | exactly the matches that are not skipped |
| ImageMigration.MapSet | scripts/migrate-to-native-ideal-image.js:68 | `Map.set`: a new key goes last, an existing key keeps its place |
| ImageMigration.PlanImports | scripts/migrate-to-native-ideal-image.js:45-95 | the import set is duplicate-free and holds exactly one line per kept match |
| ImageMigration.PlanChanges | scripts/migrate-to-native-ideal-image.js:70-94 | a change is recorded exactly when some match is not skipped |
| ImageMigration.KeptNonEmpty | scripts/migrate-to-native-ideal-image.js:55-94 | something is kept exactly when some match is not skipped |
| ImageMigration.KindOfMeaning | scripts/migrate-to-native-ideal-image.js:105-107 | a line is an import line or a blank line exactly by its trimmed text |
| ImageMigration.ScanImports | scripts/migrate-to-native-ideal-image.js:103-111 | the scan stops after the last import before the first blank line that follows an import |
| ImageMigration.ScanAll | scripts/migrate-to-native-ideal-image.js:103-111 | zero exactly without imports; otherwise just after an import, with every later import behind a blank line |
| ImageMigration.InsertWithoutImports | scripts/migrate-to-native-ideal-image.js:113-115 | without imports the header and import lines go at the very top |
| ImageMigration.ApplyReplacements | scripts/migrate-to-native-ideal-image.js:118-120 | no replacements leave the content unchanged |
| ImageMigration.DuplicateRewrittenOnce | scripts/migrate-to-native-ideal-image.js:118-120 | a tag occurring twice is rewritten only at its first occurrence |
| ImageMigration.MigrateContent | scripts/migrate-to-native-ideal-image.js:97-127 | a file is rewritten exactly when some match is not skipped |
| AvifConversion.IsImageExtIff | scripts/convert-images.mjs:25-26 | the extension filter is the case-insensitive png/jpg/jpeg set |
| AvifConversion.ExtSuffixMatches | scripts/convert-images.mjs:25-28 | a name ending in an image extension matches the replacement pattern there, and its copy swaps exactly that suffix for ".avif" |
| AvifConversion.CandidateAvifPath | scripts/convert-images.mjs:28 | the AVIF path swaps exactly the extension for ".avif" |
| AvifConversion.DotFileIsNotCandidate | scripts/convert-images.mjs:25-28 | a dot file like ".png" has no extension and is skipped, though the pattern would match |
| AvifConversion.AvifPathDiffers | scripts/convert-images.mjs:28 | the output never overwrites its source |
| AvifConversion.EnsureAvif | scripts/convert-images.mjs:24-47 | skipped exactly for non-images or an up-to-date copy; created exactly when stale and the encoder succeeds |
| AvifConversion.MissingCopyIsMade | scripts/convert-images.mjs:30-37 | a missing output is always created when encoding succeeds |
| AvifConversion.Collect | scripts/convert-images.mjs:58-66 | exactly one source per image in the listing |
| AvifConversion.RelKeepsExtension | scripts/convert-images.mjs:58-66 | the relative path keeps the image extension |
| AvifConversion.SameAvifSameKey | scripts/convert-images.mjs:62-63 | sources sharing an output share a group key |
| AvifConversion.CaseVariantsCollide | scripts/convert-images.mjs:62-63 | names differing only in case share a key |
| AvifConversion.AddToGroups | scripts/convert-images.mjs:68-73 | a source joins its key's group, or opens a new last group |
| AvifConversion.GroupsOf | scripts/convert-images.mjs:68-73 | group keys are distinct |
| AvifConversion.GroupsOfFaithful | scripts/convert-images.mjs:68-73 | each group holds exactly the sources with its key, in order |
| AvifConversion.SharedKeys | scripts/convert-images.mjs:75-79 | exactly the keys with more than one source, without duplicates |
| AvifConversion.AmbiguousKeys | scripts/convert-images.mjs:75-79 | duplicate-free |
| AvifConversion.AmbiguousIff | scripts/convert-images.mjs:75-79 | a key is ambiguous exactly when more than one source has it |
| AvifConversion.CopiesOf | scripts/convert-images.mjs:82-90 | the AVIF copies of a group's sources |
| AvifConversion.RemovalsIn | scripts/convert-images.mjs:82-90 | exactly the copies belonging to shared groups |
| AvifConversion.RemovalsAreSharedCopies | scripts/convert-images.mjs:82-90 | a file is removed exactly when it is the copy of a source in an ambiguous group |
| AvifConversion.ToConvert | scripts/convert-images.mjs:93-97 | exactly the sources whose key is unshared |
| AvifConversion.RemovalsSpareConverted | scripts/convert-images.mjs:82-97 | cleanup never deletes the image-directory join of a converted source's relative copy, which by `WrittenIsJoined` is the file the second pass writes |
| AvifConversion.WrittenIsJoined | scripts/convert-images.mjs:82-97 | for a candidate, the copy written next to the full path (line 28 applied to `s.file`) is the image directory joined with the relative copy that cleanup removes (line 86) |
| AvifConversion.Outcomes | scripts/convert-images.mjs:93-97 | one outcome per source, each from its own timestamps and encoder result |
| AvifConversion.CountCreated | scripts/convert-images.mjs:100 | the number of created outcomes, as the length of the filtered results |
| AvifConversion.CountFailed | scripts/convert-images.mjs:101 | the number of failed outcomes, as the length of the filtered results |
| AvifConversion.CountsFit | scripts/convert-images.mjs:99-102 | created plus failed never exceeds the number of results |
| AvifConversion.Run | scripts/convert-images.mjs:49-103 | none exactly without the image directory; the ambiguous count and the removals are as described; result i is `EnsureAvif` on the i-th unshared source with its own times and encoder result; created and errors count the created and failed results |
| AvifConversion.CreatedOnlyForUnshared | scripts/convert-images.mjs:93-97 | every created file is the copy of a source with an unshared key |
| AvifSources.MdxMatchAt | src/theme/MDXComponents.tsx:9-10 | a match is the image extension followed only by an optional query |
| AvifSources.MdxMatchFrom | src/theme/MDXComponents.tsx:9-10 | the leftmost match position, or none anywhere |
| AvifSources.MdxAvifSrc | src/theme/MDXComponents.tsx:10 | the matched extension becomes ".avif" and the query is kept |
| AvifSources.ImgWithAvif | src/theme/MDXComponents.tsx:6-22 | a picture exactly for a matching string source; otherwise a plain image, with a missing source as "" |
| AvifSources.MdxAgreesWithoutQuery | src/theme/MDXComponents.tsx:9-10 | without a query the override matches exactly where the anchored pattern does |
| AvifSources.MdxKeepsQuery | src/theme/MDXComponents.tsx:10 | "/img/a.PNG?v=2" gets the AVIF source "/img/a.avif?v=2" |
| AvifSources.NonStringIsPlain | src/theme/MDXComponents.tsx:9 | an imported image object is never given an AVIF source |
| AvifSources.OptimizedImg | src/components/OptimizedImg.tsx:8-24 | a picture exactly for a convertible path, with both addresses through the base URL |
| AvifSources.QueryDivergence | src/components/OptimizedImg.tsx:11 | a query string blocks conversion here but not in the Markdown override |
| AvifSources.ComponentsAgreeWithoutQuery | src/components/OptimizedImg.tsx:8-24 | without a query both components offer the same AVIF address |

## Left out

- Network and file I/O are inputs to the model rather than operations:
  - the GraphQL and GitHub fetches;
  - `fs` reads and writes;
  - the directory walk (given as a listing of relative paths);
  - `stat` (given as a modification time per file).
- Console logging and `console.debug` are left out. They have no effect on results.
- `HardwareConfiguratorService.getStats` is left out. It only reports descriptive counters.
- The timestamps written by `updateConfiguration` and the usage report are
  left out. The clock is not modelled.
- Deep cloning is left out. Values are immutable here.
- Context keys other than sbc, camera, wifi, the selected role and `camera_count` read as absent.
- Version fields and other metadata of the JSON are not modelled.
- The regex scanning in `migrateFile` is left out. The matches are inputs,
  and the logic after each match is modelled.
- `$` patterns in replacement strings are not modelled, except the `$2` in
  the Markdown image override.
- Only ASCII case mapping is modelled. `trim` uses JavaScript's full
  whitespace set, line terminators and the byte-order mark included.
- Strings are sequences of code points, while JavaScript indexes UTF-16
  code units. For characters outside the Basic Multilingual Plane,
  `length`, `slice` and the default `sort()` order differ. This touches
  CompatibilityMatrix.SliceTo and TruncateText, the six-character fallback
  of CompatibilityMatrix.GetShortName, and Seqs.StrLe with
  DataUpdater.SortedUnique.
- The `try`/`catch` around rule evaluation in both evaluators is not
  modelled. Rule parameters are typed here, so the malformed values it
  guards against cannot occur.
- SupporterTiers.Fetched: a response that is not `ok` contributes nothing
  and the other repositories still count. A fetch that rejects outright
  sends the whole function to its `catch`, which returns no contributors
  at all; rejected fetches are not modelled.
- Slot: a context key other than sbc, camera and wifi reads as no
  component. In the code, `context['selected_role']` is the role string,
  a truthy value without a `status` or `manufacturer`. A rule whose
  component key is `selected_role` therefore behaves differently there:
  for example, the service's status filter with allowed statuses fires,
  because the undefined status is not allowed.
- The sharp encoder's parameters (quality 60, effort 4) are left out. The
  encoder is reduced to an optional error message per file.
- Modification times are integers. Floating-point times and donation
  amounts are not modelled: amounts are integer cents.
- Prototype keys such as "constructor" are not modelled in `formatLatency`'s lookup.
- ServiceRules.Lookup: `interfaceMapping` is a plain object, so an interface tag such as "constructor", "toString" or "__proto__" finds an inherited non-array value there; `.some` on it throws, and the rule evaluator catches the error and treats the interface rule as not firing. The model reads such a tag as a miss and can report an interface error instead. Prototype members are JavaScript runtime behaviour outside the catalogue data.
- `new URL` link validation in `validateComponent` is not modelled.
- `localStorage`, timers and rendering are left out of the Snake game.
  `Math.random` becomes a sequence of rolls.
- Path normalisation beyond `basename`/`extname` is left out.
- AvifConversion.EnsureAvif: an encoder failure is reported but its cause is not modelled.
- SafeRules.CountOperandOf: a selected role that spells a number (such as
  "3") is treated as a non-number; JavaScript would coerce it in `<`,
  `>`, `<=` and `>=`.

## Findings

| source | as written | input that shows it | evidently intended | confidence | as-written member | corrected member |
|---|---|---|---|---|---|---|
| src/utils/safeRuleEvaluator.ts:274-275 | `sbc.manufacturer === a && camMfr === 'not_Radxa' ? x : y` parses as `(… && …) ? x : y`, so the SBC test is skipped on the else branch | sbcManufacturer "Radxa", cameraManufacturer "not_Radxa", a Raspberry Pi SBC with a Sony camera: the rule fires | the rule applies only when the SBC is by the named manufacturer | high (not executed) | SafeRules.CheckManufacturer, SafeRules.DifferentManufacturerPrecedence, SafeRules.ManufacturerRuleFiresForOtherSbc | SafeRules.CheckManufacturerIntended, SafeRules.EvaluateStructuredRuleIntended |
| src/utils/dataValidator.ts:151-176 | the lists pass reads `cameras.components` (and `sbcs?.components.some`) without checking that `components` exists | a `cameras` category without `components`: a TypeError, although the first pass already reports it | treat a missing list as empty and return the result | high (not executed) | DataValidator.ValidateConfiguratorDataAsWritten, DataValidator.ValidatorThrowsOnMissingCameraComponents | DataValidator.ValidateConfiguratorData, DataValidator.ListsPass |
| src/components/SnakeGame/index.tsx:120 | `generateFood` avoids the snake from before the move, not the grown snake | snake [(10,10)] moving up onto food (10,9), first roll (10,9): new food lands on the new head | food is never placed on the snake | medium (not executed) | Snake.TickAsWritten, Snake.FoodOnSnakeAsWritten | Snake.Tick |

=== FILE: avif_conversion.dfy ===
/**
 * The build step that writes an AVIF copy next to every PNG/JPEG under the
 * site's image directory: which files are candidates, where the copy goes,
 * when an existing copy is fresh enough, and how sources whose names differ
 * only in letter case (and so would share one copy on a case-insensitive
 * file system) are kept out of the conversion and have old copies removed.
 * The file system and the encoder are inputs: a listing of the directory,
 * the modification times `fs.stat` reports and the encoder's outcome.
 */
module AvifConversion {
  import opened Wrappers
  import opened Strings
  import opened Seqs
  import opened Paths

  // ---------------------------------------------------------------------
  // One file

  /** The accepted extensions, lower-cased. */
  const ImageExts: seq<string> := [".png", ".jpg", ".jpeg"]

  /** `e` is exactly one of the accepted extensions, ignoring ASCII case. */
  predicate IsImageExt(e: string) {
    (|e| == 4 && (PngAt(e, 0) || JpgAt(e, 0))) || (|e| == 5 && JpegAt(e, 0))
  }

  /** The character-wise reading agrees with `ext.toLowerCase()` being in the list. */
  lemma IsImageExtIff(e: string)
    ensures IsImageExt(e) <==> ToLower(e) in ImageExts
  {
    if ToLower(e) == ".png" || ToLower(e) == ".jpg" {
      assert ToLower(e)[0] == '.' && ToLower(e)[3] == 'g';
    }
    if ToLower(e) == ".jpeg" {
      assert ToLower(e)[0] == '.' && ToLower(e)[4] == 'g';
    }
    if IsImageExt(e) {
      if PngAt(e, 0) && |e| == 4 {
        assert ToLower(e) == ".png";
      } else if JpgAt(e, 0) && |e| == 4 {
        assert ToLower(e) == ".jpg";
      } else {
        assert ToLower(e) == ".jpeg";
      }
    }
  }

  /** The extension filter: `path.extname(file).toLowerCase()` is one of the accepted ones. */
  predicate IsCandidate(file: string) {
    IsImageExt(Extname(file))
  }

  /** `file.replace(/\.(png|jpe?g)$/i, '.avif')`. */
  function AvifPath(file: string): string {
    ReplaceImageExt(file, ".avif")
  }

  /** A suffix that is an accepted extension (in any case) is where the pattern matches. */
  lemma ExtSuffixMatches(s: string, e: string)
    requires EndsWith(s, e) && IsImageExt(e)
    ensures EndExt(s) == Some(|s| - |e|)
    ensures ReplaceImageExt(s, ".avif") == s[..|s| - |e|] + ".avif"
  {
    var n := |s| - |e|;
    assert forall j :: 0 <= j < |e| ==> s[n + j] == e[j];
    if |e| == 5 {
      assert LowerChar(s[n + 1]) == 'j';
    }
    ReplaceAtEnd(s, ".avif", n);
  }

  /** A candidate's extension is exactly what the pattern replaces, so its copy is the stem plus '.avif'. */
  lemma CandidateAvifPath(file: string)
    requires IsCandidate(file)
    ensures EndExt(file) == Some(|file| - |Extname(file)|)
    ensures AvifPath(file) == file[..|file| - |Extname(file)|] + ".avif"
  {
    ExtSuffixMatches(file, Extname(file));
  }

  /** Where the pattern matches, the replacement keeps everything before the match. */
  lemma ReplaceAtEnd(s: string, rep: string, k: nat)
    requires EndExt(s) == Some(k)
    ensures ReplaceImageExt(s, rep) == s[..k] + rep
  {
  }

  /**
   * A dot file such as `.png` has no extension for `path.extname`, so it is
   * not a candidate although the pattern would match it.
   */
  lemma DotFileIsNotCandidate()
    ensures !IsCandidate("img/.png")
    ensures EndExt("img/.png") == Some(4)
  {
    assert LastIndexOfChar("img/.png", '/') == Some(3);
    assert Basename("img/.png") == ".png";
    assert LastIndexOfChar(".png", '.') == Some(0);
    assert Extname("img/.png") == "";
    assert PngAt("img/.png", 4);
  }

  /** The copy never overwrites its source: the copy ends in '.avif', the source in an image extension. */
  lemma AvifPathDiffers(file: string)
    requires IsCandidate(file)
    ensures AvifPath(file) != file
  {
    CandidateAvifPath(file);
    var e := Extname(file);
    var a := AvifPath(file);
    assert a[|a| - 1] == 'f';
    assert file[|file| - 1] == e[|e| - 1];
  }

  /** An `fs.stat` modification time, in milliseconds; `None` when the call failed. */
  type Mtime = Option<int>

  /** A failed `stat` counts as time 0. */
  function MtimeOr0(m: Mtime): int {
    match m
    case Some(t) => t
    case None => 0
  }

  /** The copy is fresh: its time is not before the source's. */
  predicate UpToDate(srcTime: Mtime, outTime: Mtime) {
    MtimeOr0(outTime) >= MtimeOr0(srcTime)
  }

  /** What `ensureAvif` reports for one file. */
  datatype Outcome = Skipped | Created(outPath: string) | Failed(message: string)

  /**
   * `ensureAvif`: non-candidates and fresh copies are skipped; otherwise the
   * encoder runs and its failure (`encodeError`) is reported, never raised.
   */
  function EnsureAvif(src: string, srcTime: Mtime, outTime: Mtime, encodeError: Option<string>): (r: Outcome)
    ensures r.Skipped? <==> !IsCandidate(src) || MtimeOr0(outTime) >= MtimeOr0(srcTime)
    ensures r.Created? <==> IsCandidate(src) && MtimeOr0(outTime) < MtimeOr0(srcTime) && encodeError.None?
    ensures r.Created? ==> r.outPath == AvifPath(src) && r.outPath != src
    ensures r.Failed? ==> encodeError == Some(r.message)
  {
    if !IsCandidate(src) then Skipped
    else if UpToDate(srcTime, outTime) then Skipped
    else match encodeError
      case Some(msg) => Failed(msg)
      case None =>
        AvifPathDiffers(src);
        Created(AvifPath(src))
  }

  /** A source whose copy is missing is converted unless its own time is not positive. */
  lemma MissingCopyIsMade(src: string, t: int)
    requires IsCandidate(src) && t > 0
    ensures EnsureAvif(src, Some(t), None, None) == Created(AvifPath(src))
  {
  }

  // ---------------------------------------------------------------------
  // Collecting sources

  /** A candidate found under the image directory. */
  datatype Source = Source(file: string, rel: string, key: string)

  /** `path.join(imgDir, rel)` for a normalised relative path. */
  function InImgDir(imgDir: string, rel: string): string {
    imgDir + "/" + rel
  }

  /** The group key: the relative path without its image extension, lower-cased. */
  function KeyOf(rel: string): string {
    ToLower(ReplaceImageExt(rel, ""))
  }

  /** The source recorded for a listed relative path. */
  function SourceFor(imgDir: string, rel: string): Source {
    Source(InImgDir(imgDir, rel), rel, KeyOf(rel))
  }

  /** The listed path names a candidate. */
  function CandidateIn(imgDir: string): string -> bool {
    (rel: string) => IsCandidate(InImgDir(imgDir, rel))
  }

  /** The source for a listed path. */
  function SourceIn(imgDir: string): string -> Source {
    (rel: string) => SourceFor(imgDir, rel)
  }

  /** Pass 1: the candidates among the listed files, in walk order. */
  function Collect(imgDir: string, rels: seq<string>): (r: seq<Source>)
    ensures forall s :: s in r <==> exists rel :: rel in rels && IsCandidate(InImgDir(imgDir, rel)) && s == SourceFor(imgDir, rel)
  {
    Map(Filter(rels, CandidateIn(imgDir)), SourceIn(imgDir))
  }

  /** A suffix without a '/' of `dir + "/" + rel` is a suffix of `rel`. */
  lemma SuffixInLastPart(dir: string, rel: string, e: string)
    requires EndsWith(dir + "/" + rel, e) && forall j :: 0 <= j < |e| ==> e[j] != '/'
    ensures EndsWith(rel, e)
  {
    var file := dir + "/" + rel;
    var n := |file| - |rel|;
    assert file[n..] == rel;
    assert file[n - 1] == '/';
    assert |e| <= |rel|;
    assert rel[|rel| - |e|..] == file[n..][|rel| - |e|..];
  }

  /** A candidate's relative path carries the same extension as its full path. */
  lemma RelKeepsExtension(imgDir: string, rel: string)
    requires IsCandidate(InImgDir(imgDir, rel))
    ensures EndExt(rel) == Some(|rel| - |Extname(InImgDir(imgDir, rel))|)
  {
    var file := InImgDir(imgDir, rel);
    var e := Extname(file);
    assert EndsWith(rel, e) by {
      SuffixInLastPart(imgDir, rel, e);
    }
    assert EndExt(rel) == Some(|rel| - |e|) by {
      ExtSuffixMatches(rel, e);
    }
  }

  /** Two sources whose copies would share a path share a key. */
  lemma SameAvifSameKey(imgDir: string, a: string, b: string)
    requires IsCandidate(InImgDir(imgDir, a)) && IsCandidate(InImgDir(imgDir, b))
    requires AvifPath(a) == AvifPath(b)
    ensures KeyOf(a) == KeyOf(b)
  {
    RelKeepsExtension(imgDir, a);
    RelKeepsExtension(imgDir, b);
    var ka := EndExt(a).value;
    var kb := EndExt(b).value;
    assert a[..ka] + ".avif" == b[..kb] + ".avif";
    assert a[..ka] == (a[..ka] + ".avif")[..ka];
    assert b[..kb] == (b[..kb] + ".avif")[..kb];
    assert ReplaceImageExt(a, "") == a[..ka];
    assert ReplaceImageExt(b, "") == b[..kb];
  }

  /** Names that differ only in letter case (of stem or extension) land in one group. */
  lemma CaseVariantsCollide()
    ensures KeyOf("Logo.PNG") == KeyOf("logo.png") == "logo"
  {
    assert PngAt("Logo.PNG", 4);
    assert PngAt("logo.png", 4);
    assert ReplaceImageExt("Logo.PNG", "") == "Logo";
    assert ReplaceImageExt("logo.png", "") == "logo";
  }

  // ---------------------------------------------------------------------
  // Groups and ambiguous keys

  /** The sources with key `k`. */
  function WithKey(k: string): Source -> bool {
    (s: Source) => s.key == k
  }

  /** The reference reading of a group: the sources with key `k`, in walk order. */
  function GroupOf(sources: seq<Source>, k: string): seq<Source> {
    Filter(sources, WithKey(k))
  }

  /** A `Map` from keys to arrays of sources, kept as its entries in insertion order. */
  type Groups = seq<(string, seq<Source>)>

  /** A map's entries: no key twice. */
  ghost predicate DistinctKeys(g: Groups) {
    forall i, j :: 0 <= i < j < |g| ==> g[i].0 != g[j].0
  }

  /** `arr = groups.get(key) || []; arr.push(s); groups.set(key, arr)`. */
  function AddToGroups(g: Groups, s: Source): (r: Groups)
    requires DistinctKeys(g)
    ensures DistinctKeys(r)
    ensures |r| == |g| || |r| == |g| + 1
    ensures forall i :: 0 <= i < |g| ==> r[i].0 == g[i].0 && r[i].1 == g[i].1 + (if g[i].0 == s.key then [s] else [])
    ensures |r| == |g| + 1 <==> forall i :: 0 <= i < |g| ==> g[i].0 != s.key
    ensures |r| == |g| + 1 ==> r[|g|] == (s.key, [s])
  {
    if |g| == 0 then [(s.key, [s])]
    else
      assert forall i :: 1 <= i < |g| ==> g[i] == g[1..][i - 1];
      if g[0].0 == s.key then [(g[0].0, g[0].1 + [s])] + g[1..]
      else [g[0]] + AddToGroups(g[1..], s)
  }

  /** The groups built from the sources in walk order. */
  function GroupsOf(sources: seq<Source>): (r: Groups)
    ensures DistinctKeys(r)
  {
    if |sources| == 0 then [] else AddToGroups(GroupsOf(sources[..|sources| - 1]), sources[|sources| - 1])
  }

  /** `g` holds, once per key of `sources`, exactly that key's group. */
  ghost predicate Faithful(g: Groups, sources: seq<Source>) {
    (forall i :: 0 <= i < |g| ==> g[i].1 == GroupOf(sources, g[i].0) && |g[i].1| > 0)
    && (forall s :: s in sources ==> exists i :: 0 <= i < |g| && g[i].0 == s.key)
  }

  /** A group after one more source. */
  lemma GroupOfAppend(sources: seq<Source>, s: Source, k: string)
    ensures GroupOf(sources + [s], k) == GroupOf(sources, k) + (if s.key == k then [s] else [])
  {
    FilterAppend(sources, [s], WithKey(k));
  }

  /** A key no entry has has no sources. */
  lemma NewKeyHasNoGroup(g: Groups, sources: seq<Source>, k: string)
    requires Faithful(g, sources)
    requires forall i :: 0 <= i < |g| ==> g[i].0 != k
    ensures GroupOf(sources, k) == []
  {
    var group := GroupOf(sources, k);
    assert multiset(group) == multiset{};
    assert |group| == |multiset(group)|;
  }

  /** Adding one source keeps the groups faithful. */
  lemma AddKeepsFaithful(g: Groups, sources: seq<Source>, s: Source, all: seq<Source>)
    requires DistinctKeys(g) && Faithful(g, sources) && all == sources + [s]
    ensures Faithful(AddToGroups(g, s), all)
  {
    var r := AddToGroups(g, s);
    forall i | 0 <= i < |r|
      ensures r[i].1 == GroupOf(all, r[i].0) && |r[i].1| > 0
    {
      GroupOfAppend(sources, s, r[i].0);
      if i == |g| {
        NewKeyHasNoGroup(g, sources, s.key);
      }
    }
    forall x | x in all
      ensures exists i :: 0 <= i < |r| && r[i].0 == x.key
    {
      if x in sources {
        var i :| 0 <= i < |g| && g[i].0 == x.key;
        assert r[i].0 == x.key;
      } else if |r| == |g| {
        var i :| 0 <= i < |g| && g[i].0 == s.key;
        assert r[i].0 == x.key;
      } else {
        assert r[|g|].0 == x.key;
      }
    }
  }

  /** The built groups are the reference groups, one entry per key. */
  lemma {:induction false} GroupsOfFaithful(sources: seq<Source>)
    ensures Faithful(GroupsOf(sources), sources)
    decreases |sources|
  {
    if |sources| > 0 {
      var init := sources[..|sources| - 1];
      var last := sources[|sources| - 1];
      GroupsOfFaithful(init);
      assert init + [last] == sources;
      AddKeepsFaithful(GroupsOf(init), init, last, sources);
    }
  }

  /** The keys of the entries with more than one source, in map order. */
  function SharedKeys(g: Groups): (r: seq<string>)
    ensures forall k :: k in r <==> exists i :: 0 <= i < |g| && g[i].0 == k && |g[i].1| > 1
    ensures DistinctKeys(g) ==> NoDup(r)
  {
    if |g| == 0 then []
    else
      var rest := SharedKeys(g[1..]);
      assert forall i :: 1 <= i < |g| ==> g[i] == g[1..][i - 1];
      assert forall i :: 0 <= i < |g| - 1 ==> g[1..][i] == g[i + 1];
      var r := (if |g[0].1| > 1 then [g[0].0] else []) + rest;
      assert DistinctKeys(g) ==> NoDup(r) by {
        if DistinctKeys(g) && |g[0].1| > 1 {
          forall k | k in rest
            ensures k != g[0].0
          {
            var i :| 0 <= i < |g[1..]| && g[1..][i].0 == k && |g[1..][i].1| > 1;
            assert g[i + 1].0 == k;
          }
          assert forall j :: 1 <= j < |r| ==> r[j] == rest[j - 1] && rest[j - 1] in rest;
        }
      }
      r
  }

  /** `ambiguousKeys`: the keys with more than one source, each once, in first-seen order. */
  function AmbiguousKeys(sources: seq<Source>): (r: seq<string>)
    ensures NoDup(r)
  {
    SharedKeys(GroupsOf(sources))
  }

  /** A key is ambiguous exactly when more than one source has it. */
  lemma AmbiguousIff(sources: seq<Source>, k: string)
    ensures k in AmbiguousKeys(sources) <==> |GroupOf(sources, k)| > 1
  {
    var g := GroupsOf(sources);
    GroupsOfFaithful(sources);
    if |GroupOf(sources, k)| > 1 {
      var x := GroupOf(sources, k)[0];
      assert x in GroupOf(sources, k);
      var i :| 0 <= i < |g| && g[i].0 == x.key;
    }
  }

  // ---------------------------------------------------------------------
  // Clean-up and conversion

  /** The copies of one group's sources. */
  function CopiesOf(imgDir: string, arr: seq<Source>): (r: seq<string>)
    ensures forall x :: x in r <==> exists s :: s in arr && x == InImgDir(imgDir, AvifPath(s.rel))
  {
    if |arr| == 0 then []
    else
      assert forall s :: s in arr <==> s == arr[0] || s in arr[1..] by {
        assert arr == [arr[0]] + arr[1..];
      }
      [InImgDir(imgDir, AvifPath(arr[0].rel))] + CopiesOf(imgDir, arr[1..])
  }

  /** The copies removed for the shared entries of `g`, in map order. */
  function RemovalsIn(imgDir: string, g: Groups): (r: seq<string>)
    ensures forall x :: x in r <==> exists i :: 0 <= i < |g| && |g[i].1| > 1 && x in CopiesOf(imgDir, g[i].1)
  {
    if |g| == 0 then []
    else
      var rest := RemovalsIn(imgDir, g[1..]);
      assert forall x :: x in rest <==> exists i :: 1 <= i < |g| && |g[i].1| > 1 && x in CopiesOf(imgDir, g[i].1) by {
        forall x
          ensures x in rest <==> exists i :: 1 <= i < |g| && |g[i].1| > 1 && x in CopiesOf(imgDir, g[i].1)
        {
          if x in rest {
            var i :| 0 <= i < |g[1..]| && |g[1..][i].1| > 1 && x in CopiesOf(imgDir, g[1..][i].1);
            assert g[i + 1] == g[1..][i];
          }
          if exists i :: 1 <= i < |g| && |g[i].1| > 1 && x in CopiesOf(imgDir, g[i].1) {
            var i :| 1 <= i < |g| && |g[i].1| > 1 && x in CopiesOf(imgDir, g[i].1);
            assert g[1..][i - 1] == g[i];
          }
        }
      }
      (if |g[0].1| > 1 then CopiesOf(imgDir, g[0].1) else []) + rest
  }

  /** The clean-up list: the copy of every source with an ambiguous key. */
  function Removals(imgDir: string, sources: seq<Source>): seq<string> {
    RemovalsIn(imgDir, GroupsOf(sources))
  }

  /** Every removed copy belongs to a source that shares its key. */
  lemma RemovedCopyIsShared(imgDir: string, sources: seq<Source>, x: string)
    requires x in Removals(imgDir, sources)
    ensures exists s :: s in sources && |GroupOf(sources, s.key)| > 1 && x == InImgDir(imgDir, AvifPath(s.rel))
  {
    var g := GroupsOf(sources);
    GroupsOfFaithful(sources);
    var i :| 0 <= i < |g| && |g[i].1| > 1 && x in CopiesOf(imgDir, g[i].1);
    var s :| s in g[i].1 && x == InImgDir(imgDir, AvifPath(s.rel));
    assert s in sources && s.key == g[i].0;
  }

  /** The copy of every source that shares its key is removed. */
  lemma SharedCopyIsRemoved(imgDir: string, sources: seq<Source>, s: Source)
    requires s in sources && |GroupOf(sources, s.key)| > 1
    ensures InImgDir(imgDir, AvifPath(s.rel)) in Removals(imgDir, sources)
  {
    var g := GroupsOf(sources);
    GroupsOfFaithful(sources);
    var i :| 0 <= i < |g| && g[i].0 == s.key;
    assert s in g[i].1;
  }

  /** Exactly the copies of sources that share their key are removed. */
  lemma RemovalsAreSharedCopies(imgDir: string, sources: seq<Source>, x: string)
    ensures x in Removals(imgDir, sources) <==>
      exists s :: s in sources && |GroupOf(sources, s.key)| > 1 && x == InImgDir(imgDir, AvifPath(s.rel))
  {
    if x in Removals(imgDir, sources) {
      RemovedCopyIsShared(imgDir, sources, x);
    }
    if exists s :: s in sources && |GroupOf(sources, s.key)| > 1 && x == InImgDir(imgDir, AvifPath(s.rel)) {
      var s :| s in sources && |GroupOf(sources, s.key)| > 1 && x == InImgDir(imgDir, AvifPath(s.rel));
      SharedCopyIsRemoved(imgDir, sources, s);
    }
  }

  /** Not listed among the ambiguous keys. */
  function Unshared(ambiguous: seq<string>): Source -> bool {
    (s: Source) => s.key !in ambiguous
  }

  /** Pass 2: the sources that are converted, in walk order. */
  function ToConvert(sources: seq<Source>): (r: seq<Source>)
    ensures forall s :: s in r <==> s in sources && |GroupOf(sources, s.key)| <= 1
  {
    var amb := AmbiguousKeys(sources);
    var r := Filter(sources, Unshared(amb));
    assert forall s :: s in r <==> s in sources && |GroupOf(sources, s.key)| <= 1 by {
      forall s
        ensures s in r <==> s in sources && |GroupOf(sources, s.key)| <= 1
      {
        AmbiguousIff(sources, s.key);
      }
    }
    r
  }

  /** Two collected sources whose copies would share a path share a key. */
  lemma CollectedSameCopySameKey(imgDir: string, rels: seq<string>, s: Source, t: Source)
    requires s in Collect(imgDir, rels) && t in Collect(imgDir, rels)
    ensures AvifPath(s.rel) == AvifPath(t.rel) ==> s.key == t.key
  {
    var rs :| rs in rels && IsCandidate(InImgDir(imgDir, rs)) && s == SourceFor(imgDir, rs);
    var rt :| rt in rels && IsCandidate(InImgDir(imgDir, rt)) && t == SourceFor(imgDir, rt);
    if AvifPath(s.rel) == AvifPath(t.rel) {
      SameAvifSameKey(imgDir, rs, rt);
    }
  }

  /**
   * The second pass writes `AvifPath` of the joined path; for a candidate that
   * is the joined path of the relative `AvifPath`, which is what the cleanup
   * compares against.
   */
  lemma WrittenIsJoined(imgDir: string, rel: string)
    requires IsCandidate(InImgDir(imgDir, rel))
    ensures AvifPath(InImgDir(imgDir, rel)) == InImgDir(imgDir, AvifPath(rel))
  {
    var file := InImgDir(imgDir, rel);
    var e := Extname(file);
    assert EndsWith(rel, e) by {
      SuffixInLastPart(imgDir, rel, e);
    }
    JoinedExtension(imgDir, rel, e);
  }

  /** Replacing an image extension that ends the relative part replaces it in the joined path. */
  lemma JoinedExtension(imgDir: string, rel: string, e: string)
    requires EndsWith(rel, e) && IsImageExt(e)
    ensures AvifPath(InImgDir(imgDir, rel)) == InImgDir(imgDir, AvifPath(rel))
  {
    var file := InImgDir(imgDir, rel);
    var k := |rel| - |e|;
    assert EndsWith(file, e) by {
      assert file[|file| - |e|..] == rel[k..];
    }
    ExtSuffixMatches(rel, e);
    ExtSuffixMatches(file, e);
    JoinedAvif(imgDir, rel, k, AvifPath(file), AvifPath(rel));
  }

  /** Replacing the tail of a joined path inside its relative part replaces it in the relative part. */
  lemma JoinedAvif(imgDir: string, rel: string, k: nat, a: string, b: string)
    requires k <= |rel|
    requires a == InImgDir(imgDir, rel)[..|imgDir| + 1 + k] + ".avif"
    requires b == rel[..k] + ".avif"
    ensures a == InImgDir(imgDir, b)
  {
    JoinedPrefix(imgDir, rel, k);
  }

  /** Cutting a joined path inside its relative part cuts the relative part. */
  lemma JoinedPrefix(imgDir: string, rel: string, k: nat)
    requires k <= |rel|
    ensures InImgDir(imgDir, rel)[..|imgDir| + 1 + k] == InImgDir(imgDir, rel[..k])
  {
  }

  /** A copy that is removed never belongs to a source that is converted. */
  lemma RemovalsSpareConverted(imgDir: string, rels: seq<string>, t: Source)
    requires t in ToConvert(Collect(imgDir, rels))
    ensures InImgDir(imgDir, AvifPath(t.rel)) !in Removals(imgDir, Collect(imgDir, rels))
  {
    var sources := Collect(imgDir, rels);
    var x := InImgDir(imgDir, AvifPath(t.rel));
    RemovalsAreSharedCopies(imgDir, sources, x);
    forall s | s in sources && |GroupOf(sources, s.key)| > 1
      ensures x != InImgDir(imgDir, AvifPath(s.rel))
    {
      CollectedSameCopySameKey(imgDir, rels, s, t);
      assert InImgDir(imgDir, AvifPath(s.rel))[|imgDir| + 1..] == AvifPath(s.rel);
      assert x[|imgDir| + 1..] == AvifPath(t.rel);
    }
  }

  // ---------------------------------------------------------------------
  // The whole run

  /** What the run sees: whether the image directory exists, its listing, `stat` and the encoder. */
  datatype World = World(
    hasImgDir: bool,
    rels: seq<string>,
    mtime: string -> Mtime,
    encodeError: string -> Option<string>)

  /** What the run does and reports. */
  datatype Report = Report(removed: seq<string>, results: seq<Outcome>, created: nat, errors: nat, skippedAmbiguous: nat)

  /** The outcomes of converting each source in turn. */
  function Outcomes(w: World, todo: seq<Source>): (r: seq<Outcome>)
    ensures |r| == |todo|
    ensures forall i :: 0 <= i < |todo| ==>
      r[i] == EnsureAvif(todo[i].file, w.mtime(todo[i].file), w.mtime(AvifPath(todo[i].file)), w.encodeError(todo[i].file))
  {
    if |todo| == 0 then []
    else
      var s := todo[0];
      [EnsureAvif(s.file, w.mtime(s.file), w.mtime(AvifPath(s.file)), w.encodeError(s.file))] + Outcomes(w, todo[1..])
  }

  /** The outcome wrote a copy. */
  predicate IsCreated(o: Outcome) {
    o.Created?
  }

  /** The outcome is an encoder error. */
  predicate IsFailed(o: Outcome) {
    o.Failed?
  }

  /** `results.filter(r => r && r.created).length`, counted one outcome at a time. */
  function CountCreated(rs: seq<Outcome>): (n: nat)
    ensures n <= |rs|
    ensures n == |Filter(rs, IsCreated)|
  {
    if |rs| == 0 then 0 else (if rs[0].Created? then 1 else 0) + CountCreated(rs[1..])
  }

  /** `results.filter(r => r && r.error).length`, counted one outcome at a time. */
  function CountFailed(rs: seq<Outcome>): (n: nat)
    ensures n <= |rs|
    ensures n == |Filter(rs, IsFailed)|
  {
    if |rs| == 0 then 0 else (if rs[0].Failed? then 1 else 0) + CountFailed(rs[1..])
  }

  /** Created and failed outcomes never overlap, so their counts fit in the number of conversions. */
  lemma {:induction false} CountsFit(rs: seq<Outcome>)
    ensures CountCreated(rs) + CountFailed(rs) <= |rs|
  {
    if |rs| > 0 {
      CountsFit(rs[1..]);
    }
  }

  /** `main`: nothing without the image directory; otherwise clean up, then convert the unshared sources. */
  function Run(imgDir: string, w: World): (r: Option<Report>)
    ensures r.None? <==> !w.hasImgDir
    ensures r.Some? ==> r.value.skippedAmbiguous == |AmbiguousKeys(Collect(imgDir, w.rels))|
    ensures r.Some? ==> r.value.removed == Removals(imgDir, Collect(imgDir, w.rels))
    // One outcome per unshared source, in order, each from that source's own times and encoder result.
    ensures r.Some? ==> var todo := ToConvert(Collect(imgDir, w.rels));
      |r.value.results| == |todo| &&
      forall i :: 0 <= i < |todo| ==>
        (r.value.results[i] ==
          EnsureAvif(todo[i].file, w.mtime(todo[i].file), w.mtime(AvifPath(todo[i].file)), w.encodeError(todo[i].file)))
    // The counts are the numbers of created and failed outcomes.
    ensures r.Some? ==> r.value.created == |Filter(r.value.results, IsCreated)|
    ensures r.Some? ==> r.value.errors == |Filter(r.value.results, IsFailed)|
    ensures r.Some? ==> r.value.created + r.value.errors <= |r.value.results|
  {
    if !w.hasImgDir then None
    else
      var sources := Collect(imgDir, w.rels);
      var results := Outcomes(w, ToConvert(sources));
      CountsFit(results);
      Some(Report(Removals(imgDir, sources), results, CountCreated(results), CountFailed(results), |AmbiguousKeys(sources)|))
  }

  /** Every copy the run creates belongs to a source no other source shares a key with. */
  lemma CreatedOnlyForUnshared(imgDir: string, w: World, i: nat)
    requires w.hasImgDir
    requires i < |Run(imgDir, w).value.results| && Run(imgDir, w).value.results[i].Created?
    ensures exists s :: (s in Collect(imgDir, w.rels) && |GroupOf(Collect(imgDir, w.rels), s.key)| == 1
      && Run(imgDir, w).value.results[i].outPath == AvifPath(s.file))
  {
    var sources := Collect(imgDir, w.rels);
    var todo := ToConvert(sources);
    var s := todo[i];
    assert s in todo;
    assert s in GroupOf(sources, s.key);
  }
}

=== FILE: avif_sources.dfy ===
/**
 * The two image components that offer an AVIF alternative: the Markdown
 * `<img>` override and the `OptimizedImg` component. Each decides whether to
 * wrap the image in a `<picture>` with an AVIF `<source>` first, and derives
 * the AVIF address from the original one. Rendering is reduced to which of
 * the two shapes comes out and with which addresses.
 */
module AvifSources {
  import opened Wrappers
  import opened Strings
  import opened Paths

  /** The `src` prop: absent, a string, or something else (an imported image object). */
  datatype Src = Missing | Str(value: string) | NonString

  /** What is rendered: a `<picture>` with the AVIF source first and the original image, or a plain image. */
  datatype Rendered = Picture(avifSrcSet: string, imgSrc: Src) | Plain(imgSrc: Src)

  // ---------------------------------------------------------------------
  // The Markdown image override

  /** `(\?.*)?$`: nothing, or a '?' and then anything but line terminators up to the end. */
  predicate QueryTail(t: string) {
    |t| == 0 || (t[0] == '?' && forall j :: 1 <= j < |t| ==> !IsLineTerminator(t[j]))
  }

  /** The extension length when `/\.(png|jpe?g)(\?.*)?$/i` matches at `k`. */
  function MdxMatchAt(s: string, k: nat): (r: Option<nat>)
    ensures r.Some? ==> ExtLenAt(s, k) == r && QueryTail(s[k + r.value..])
    ensures r.None? ==> ExtLenAt(s, k).None? || !QueryTail(s[k + ExtLenAt(s, k).value..])
  {
    match ExtLenAt(s, k)
    case None => None
    case Some(n) => if QueryTail(s[k + n..]) then Some(n) else None
  }

  /** The leftmost match of the pattern at or after `from`. */
  function MdxMatchFrom(s: string, from: nat): (r: Option<nat>)
    ensures r.Some? ==> from <= r.value < |s| && MdxMatchAt(s, r.value).Some?
    ensures r.Some? ==> forall j :: from <= j < r.value ==> MdxMatchAt(s, j).None?
    ensures r.None? ==> forall j :: from <= j ==> MdxMatchAt(s, j).None?
    decreases |s| - from
  {
    if from >= |s| then None
    else if MdxMatchAt(s, from).Some? then Some(from)
    else MdxMatchFrom(s, from + 1)
  }

  /** `src.replace(/\.(png|jpe?g)(\?.*)?$/i, '.avif$2')`: the extension becomes '.avif', the query stays. */
  function MdxAvifSrc(s: string): (r: string)
    ensures MdxMatchFrom(s, 0).None? ==> r == s
    ensures MdxMatchFrom(s, 0).Some? ==>
      var k := MdxMatchFrom(s, 0).value;
      r == s[..k] + ".avif" + s[k + MdxMatchAt(s, k).value..]
  {
    match MdxMatchFrom(s, 0)
    case None => s
    case Some(k) => s[..k] + ".avif" + s[k + MdxMatchAt(s, k).value..]
  }

  /** `ImgWithAvif`: a string `src` the pattern matches gets a `<picture>`; anything else a plain image. */
  function ImgWithAvif(src: Src): (r: Rendered)
    ensures r.Picture? <==> src.Str? && MdxMatchFrom(src.value, 0).Some?
    ensures r.Picture? ==> r.imgSrc == src && r.avifSrcSet == MdxAvifSrc(src.value)
    ensures r.Plain? ==> r.imgSrc == (if src.Missing? then Str("") else src)
  {
    var s := if src.Missing? then Str("") else src;
    if s.Str? && MdxMatchFrom(s.value, 0).Some? then Picture(MdxAvifSrc(s.value), s)
    else Plain(s)
  }

  /** Without a query the override matches exactly where the anchored pattern does. */
  lemma MdxAgreesWithoutQuery(s: string)
    requires '?' !in s
    ensures MdxMatchFrom(s, 0) == EndExt(s)
    ensures MdxAvifSrc(s) == ReplaceImageExt(s, ".avif")
  {
    forall k: nat
      ensures MdxMatchAt(s, k).Some? <==> EndExt(s) == Some(k)
    {
      EndExtIsAnchoredMatch(s, k);
      if ExtLenAt(s, k).Some? {
        var n := ExtLenAt(s, k).value;
        assert QueryTail(s[k + n..]) <==> k + n == |s| by {
          if k + n < |s| {
            assert s[k + n..][0] == s[k + n];
          }
        }
      }
    }
    match EndExt(s)
    case None =>
    case Some(k) =>
      assert MdxMatchAt(s, k).Some?;
      assert MdxMatchAt(s, k).value == |s| - k;
  }

  /** A query after the extension is kept behind the new '.avif'. */
  lemma MdxKeepsQuery()
    ensures ImgWithAvif(Str("/img/a.PNG?v=2")) == Picture("/img/a.avif?v=2", Str("/img/a.PNG?v=2"))
  {
    var s := "/img/a.PNG?v=2";
    assert PngAt(s, 6);
    assert QueryTail(s[10..]);
    forall j: nat | j < 6
      ensures MdxMatchAt(s, j).None?
    {
      assert !LowerIs(s, j, '.');
    }
    assert MdxMatchFrom(s, 0) == Some(6);
    assert s[..6] + ".avif" + s[10..] == "/img/a.avif?v=2";
  }

  /** A non-string source is never given an AVIF alternative. */
  lemma NonStringIsPlain()
    ensures ImgWithAvif(NonString) == Plain(NonString)
  {
  }

  // ---------------------------------------------------------------------
  // OptimizedImg

  /** `/\.(png|jpe?g)$/i.test(path)`. */
  predicate IsConvertible(path: string) {
    EndExt(path).Some?
  }

  /**
   * `OptimizedImg`: both addresses go through `useBaseUrl`; a convertible path
   * gets a `<picture>` with the AVIF address first, any other path a plain image.
   */
  function OptimizedImg(path: string, useBaseUrl: string -> string): (r: Rendered)
    ensures r.Picture? <==> IsConvertible(path)
    ensures r.imgSrc == Str(useBaseUrl(path))
    ensures r.Picture? ==> r.avifSrcSet == useBaseUrl(path[..EndExt(path).value] + ".avif")
  {
    var pngJpgUrl := useBaseUrl(path);
    var avifUrl := useBaseUrl(ReplaceImageExt(path, ".avif"));
    if !IsConvertible(path) then Plain(Str(pngJpgUrl))
    else Picture(avifUrl, Str(pngJpgUrl))
  }

  /** A query string makes a path non-convertible here, while the Markdown override still converts it. */
  lemma QueryDivergence(useBaseUrl: string -> string)
    ensures OptimizedImg("/img/a.png?v=2", useBaseUrl).Plain?
    ensures ImgWithAvif(Str("/img/a.png?v=2")).Picture?
  {
    var s := "/img/a.png?v=2";
    assert !PngAt(s, |s| - 4) && !JpgAt(s, |s| - 4) && !JpegAt(s, |s| - 5);
    assert PngAt(s, 6);
    assert QueryTail(s[10..]);
    assert MdxMatchAt(s, 6).Some?;
    assert MdxMatchFrom(s, 0).Some?;
  }

  /** For a path without a query both components offer the same AVIF address, up to `useBaseUrl`. */
  lemma ComponentsAgreeWithoutQuery(path: string, useBaseUrl: string -> string)
    requires '?' !in path
    ensures OptimizedImg(path, useBaseUrl).Picture? <==> ImgWithAvif(Str(path)).Picture?
    ensures OptimizedImg(path, useBaseUrl).Picture? ==>
      OptimizedImg(path, useBaseUrl).avifSrcSet == useBaseUrl(ImgWithAvif(Str(path)).avifSrcSet)
  {
    MdxAgreesWithoutQuery(path);
  }
}

=== FILE: compatibility_matrix.dfy ===
/**
 * The decision logic of the compatibility matrix debug view: the cache of
 * pair results, how a cell is classified, when a row is hidden, and the
 * name-shortening helpers used in headers.
 */
module CompatibilityMatrix {
  import opened Wrappers
  import opened Strings
  import opened Seqs
  import opened HardwareTypes
  import opened ConfiguratorService

  /** Which pairing the matrix shows. */
  datatype MatrixKind = CameraMatrix | WifiMatrix

  /** The service check the matrix uses for one pair. */
  function CheckPair(svc: Service, kind: MatrixKind, sbcId: string, otherId: string): (r: CompatibilityResult)
    ensures r.compatible <==> |r.errors| == 0
  {
    match kind
    case CameraMatrix => CheckSbcCamera(svc, sbcId, otherId)
    case WifiMatrix => CheckSbcWifi(svc, sbcId, otherId)
  }

  // ---------------------------------------------------------------------
  // Cache keys

  /** `${sbc.id}-${component.id}`. */
  function Key(sbcId: string, otherId: string): string {
    sbcId + "-" + otherId
  }

  /** A key splits at its first '-' back into the SBC id, when that id has no '-'. */
  lemma KeySplits(a: string, b: string)
    requires '-' !in a
    ensures IndexOf(Key(a, b), "-") == Some(|a|)
    ensures Key(a, b)[..|a|] == a && Key(a, b)[|a| + 1..] == b
  {
    var s := Key(a, b);
    assert OccursAt(s, "-", |a|) by {
      assert s[|a|..|a| + 1] == "-";
    }
    forall j: nat | j < |a|
      ensures !OccursAt(s, "-", j)
    {
      assert s[j] == a[j];
      assert s[j..j + 1] == [a[j]];
    }
    assert s[..|a|] == a;
    assert s[|a| + 1..] == b;
  }

  /** With no '-' in the SBC ids, distinct pairs have distinct keys. */
  lemma KeyInjective(a: string, b: string, a2: string, b2: string)
    requires '-' !in a && '-' !in a2
    requires Key(a, b) == Key(a2, b2)
    ensures a == a2 && b == b2
  {
    KeySplits(a, b);
    KeySplits(a2, b2);
  }

  /** Without that restriction two different pairs can share a key, and the later write wins. */
  lemma KeyCollision()
    ensures Key("rock-5b", "imx") == Key("rock", "5b-imx")
  {
  }

  /** A key is only ever written for one pair of the same ids in a row. */
  lemma KeySameRow(a: string, b: string, b2: string)
    requires Key(a, b) == Key(a, b2)
    ensures b == b2
  {
    assert b == Key(a, b)[|a| + 1..];
    assert b2 == Key(a, b2)[|a| + 1..];
  }

  // ---------------------------------------------------------------------
  // The cache

  /** One SBC's row: `cache.set(key, check(sbc, component))` for each component in order. */
  function AddRow(check: (string, string) -> CompatibilityResult, sbcId: string, comps: seq<Component>, m: map<string, CompatibilityResult>):
    (r: map<string, CompatibilityResult>)
    ensures forall k :: k in r <==> k in m || exists c :: c in comps && k == Key(sbcId, c.id)
    ensures forall c :: c in comps ==> r[Key(sbcId, c.id)] == check(sbcId, c.id)
    ensures forall k :: k in m && (forall c :: c in comps ==> k != Key(sbcId, c.id)) ==> r[k] == m[k]
  {
    if |comps| == 0 then m
    else
      var init := comps[..|comps| - 1];
      var last := comps[|comps| - 1];
      var prev := AddRow(check, sbcId, init, m);
      assert forall c :: c in comps <==> c in init || c == last by {
        assert comps == init + [last];
      }
      forall c | c in init && Key(sbcId, c.id) == Key(sbcId, last.id)
        ensures c.id == last.id
      {
        KeySameRow(sbcId, c.id, last.id);
      }
      prev[Key(sbcId, last.id) := check(sbcId, last.id)]
  }

  /** No SBC id contains a '-'. */
  predicate DashFreeIds(sbcs: seq<Component>) {
    forall s :: s in sbcs ==> '-' !in s.id
  }

  /** The cache loop: every SBC crossed with every component, later writes winning. */
  function BuildCache(check: (string, string) -> CompatibilityResult, sbcs: seq<Component>, comps: seq<Component>): (r: map<string, CompatibilityResult>)
    ensures forall k :: k in r <==> exists s, c :: s in sbcs && c in comps && k == Key(s.id, c.id)
  {
    if |sbcs| == 0 then map[]
    else
      var init := sbcs[..|sbcs| - 1];
      var last := sbcs[|sbcs| - 1];
      assert forall s :: s in sbcs <==> s in init || s == last by {
        assert sbcs == init + [last];
      }
      AddRow(check, last.id, comps, BuildCache(check, init, comps))
  }

  /** `compatibilityCache` for one matrix, filled from the service. */
  function MatrixCache(svc: Service, kind: MatrixKind, sbcs: seq<Component>, comps: seq<Component>): (r: map<string, CompatibilityResult>)
    ensures forall k :: k in r <==> exists s, c :: s in sbcs && c in comps && k == Key(s.id, c.id)
  {
    BuildCache((a, b) => CheckPair(svc, kind, a, b), sbcs, comps)
  }

  /** With dash-free SBC ids no write is overwritten by another pair, so every cell holds its own pair's check. */
  lemma {:induction false} BuildCacheHoldsChecks(check: (string, string) -> CompatibilityResult, sbcs: seq<Component>, comps: seq<Component>)
    requires DashFreeIds(sbcs)
    ensures forall s, c :: s in sbcs && c in comps ==> BuildCache(check, sbcs, comps)[Key(s.id, c.id)] == check(s.id, c.id)
  {
    if |sbcs| > 0 {
      var init := sbcs[..|sbcs| - 1];
      var last := sbcs[|sbcs| - 1];
      assert sbcs == init + [last];
      var prev := BuildCache(check, init, comps);
      BuildCacheHoldsChecks(check, init, comps);
      forall s, c | s in init && c in comps
        ensures BuildCache(check, sbcs, comps)[Key(s.id, c.id)] == check(s.id, c.id)
      {
        if s.id != last.id {
          forall c2 | c2 in comps
            ensures Key(s.id, c.id) != Key(last.id, c2.id)
          {
            KeyNotShared(s.id, c.id, last.id, c2.id);
          }
        }
      }
    }
  }

  /** Every cell of a matrix whose SBC ids are dash-free holds the service's verdict for its own pair. */
  lemma MatrixCacheHoldsChecks(svc: Service, kind: MatrixKind, sbcs: seq<Component>, comps: seq<Component>)
    requires DashFreeIds(sbcs)
    ensures forall s, c :: s in sbcs && c in comps ==>
      MatrixCache(svc, kind, sbcs, comps)[Key(s.id, c.id)] == CheckPair(svc, kind, s.id, c.id)
  {
    BuildCacheHoldsChecks((a, b) => CheckPair(svc, kind, a, b), sbcs, comps);
  }

  /** Keys from different dash-free SBC ids never meet. */
  lemma KeyNotShared(a: string, b: string, a2: string, b2: string)
    requires '-' !in a && '-' !in a2 && a != a2
    ensures Key(a, b) != Key(a2, b2)
  {
    KeySplits(a, b);
    KeySplits(a2, b2);
  }

  // ---------------------------------------------------------------------
  // Cells and rows

  /** `result?.compatible`. */
  predicate IsCompatible(result: Option<CompatibilityResult>) {
    result.Some? && result.value.compatible
  }

  /** `result?.warnings.length > 0`. */
  predicate HasWarnings(result: Option<CompatibilityResult>) {
    result.Some? && |result.value.warnings| > 0
  }

  /** A rendered cell: hidden, or an icon with a tooltip. */
  datatype Cell = Hidden | Shown(icon: string, title: string)

  /** `result?.errors[0] || 'Incompatible'`. */
  function FirstErrorOr(result: Option<CompatibilityResult>): (r: string)
    ensures result.Some? && |result.value.errors| > 0 && |result.value.errors[0]| > 0 ==> r == result.value.errors[0]
    ensures !(result.Some? && |result.value.errors| > 0 && |result.value.errors[0]| > 0) ==> r == "Incompatible"
  {
    if result.Some? && |result.value.errors| > 0 && |result.value.errors[0]| > 0 then result.value.errors[0] else "Incompatible"
  }

  /** One desktop table cell. */
  function DesktopCell(result: Option<CompatibilityResult>, showOnlyCompatible: bool): (r: Cell)
    ensures r.Hidden? <==> showOnlyCompatible && !IsCompatible(result)
    ensures r.Shown? ==> (r.icon == "✗" <==> !IsCompatible(result))
    ensures r.Shown? ==> (r.icon == "⚠" <==> IsCompatible(result) && HasWarnings(result))
    ensures r.Shown? ==> (r.icon == "✓" <==> IsCompatible(result) && !HasWarnings(result))
  {
    if showOnlyCompatible && !IsCompatible(result) then Hidden
    else if IsCompatible(result) then
      if HasWarnings(result) then Shown("⚠", "Compatible with warnings") else Shown("✓", "Compatible")
    else Shown("✗", FirstErrorOr(result))
  }

  /** For a cell backed by a service check, the cross appears exactly when errors were reported, titled by the first one. */
  lemma CellShowsFirstError(svc: Service, kind: MatrixKind, sbcId: string, otherId: string)
    ensures var result := CheckPair(svc, kind, sbcId, otherId);
      var cell := DesktopCell(Some(result), false);
      cell.Shown? && (cell.icon == "✗" <==> |result.errors| > 0) &&
      (|result.errors| > 0 && |result.errors[0]| > 0 ==> cell.title == result.errors[0])
  {
  }

  /** `filteredComponents.some(comp => cache.get(key)?.compatible)`. */
  function AnyCompatible(cache: map<string, CompatibilityResult>, sbcId: string, comps: seq<Component>): (r: bool)
    ensures r <==> exists c :: c in comps && IsCompatible(if Key(sbcId, c.id) in cache then Some(cache[Key(sbcId, c.id)]) else None)
  {
    if |comps| == 0 then false
    else
      assert forall c :: c in comps <==> c == comps[0] || c in comps[1..] by {
        forall c
          ensures c in comps <==> c == comps[0] || c in comps[1..]
        {
          if c in comps {
            var k :| 0 <= k < |comps| && comps[k] == c;
            if k > 0 {
              assert comps[1..][k - 1] == c;
            }
          }
        }
      }
      IsCompatible(Lookup(cache, Key(sbcId, comps[0].id))) || AnyCompatible(cache, sbcId, comps[1..])
  }

  /** `cache.get(key)`. */
  function Lookup(cache: map<string, CompatibilityResult>, key: string): (r: Option<CompatibilityResult>)
    ensures r.Some? <==> key in cache
    ensures r.Some? ==> r.value == cache[key]
  {
    if key in cache then Some(cache[key]) else None
  }

  /** The desktop table drops an SBC row when filtering and no pair in it is compatible. */
  function DesktopRowHidden(cache: map<string, CompatibilityResult>, showOnlyCompatible: bool, sbcId: string, comps: seq<Component>): bool {
    showOnlyCompatible && !AnyCompatible(cache, sbcId, comps)
  }

  /** The components the mobile card lists as compatible. */
  function MobileCompatible(cache: map<string, CompatibilityResult>, sbcId: string, comps: seq<Component>): (r: seq<Component>)
    ensures forall c :: c in r <==> c in comps && IsCompatible(Lookup(cache, Key(sbcId, c.id)))
  {
    Filter(comps, (c: Component) => IsCompatible(Lookup(cache, Key(sbcId, c.id))))
  }

  /** The mobile layout drops an SBC card when filtering and its compatible list is empty. */
  function MobileRowHidden(cache: map<string, CompatibilityResult>, showOnlyCompatible: bool, sbcId: string, comps: seq<Component>): bool {
    showOnlyCompatible && |MobileCompatible(cache, sbcId, comps)| == 0
  }

  /** Both layouts hide the same rows: exactly those with no compatible pair, and only when filtering. */
  lemma RowHidingAgrees(cache: map<string, CompatibilityResult>, showOnlyCompatible: bool, sbcId: string, comps: seq<Component>)
    ensures DesktopRowHidden(cache, showOnlyCompatible, sbcId, comps) == MobileRowHidden(cache, showOnlyCompatible, sbcId, comps)
    ensures DesktopRowHidden(cache, showOnlyCompatible, sbcId, comps) <==>
      showOnlyCompatible && forall c :: c in comps ==> !IsCompatible(Lookup(cache, Key(sbcId, c.id)))
  {
    var m := MobileCompatible(cache, sbcId, comps);
    if |m| > 0 {
      assert m[0] in m;
    }
  }

  // ---------------------------------------------------------------------
  // Text helpers

  /** The latency tiers `formatLatency` knows, with their labels. */
  const LatencyLabels: map<string, string> := map["ultra_low" := "~5ms", "low" := "~8ms", "medium" := "~15ms", "high" := "~25ms"]

  /** `formatLatency`: a known tier becomes its label, anything else is shown as is. */
  function FormatLatency(latency: string): (r: string)
    ensures latency in LatencyLabels ==> r == LatencyLabels[latency]
    ensures latency !in LatencyLabels ==> r == latency
  {
    if latency == "ultra_low" then "~5ms"
    else if latency == "low" then "~8ms"
    else if latency == "medium" then "~15ms"
    else if latency == "high" then "~25ms"
    else latency
  }

  /** Labels are never tier names, so a latency is left unchanged exactly when it is not a known tier. */
  lemma FormatLatencyFixedPoints(latency: string)
    ensures FormatLatency(latency) == latency <==> latency !in LatencyLabels
  {
  }

  /** `s.slice(0, end)` for an integer `end`: a negative end counts back from the end of `s`. */
  function SliceTo(s: string, end: int): (r: string)
    ensures r <= s
    ensures 0 <= end <= |s| ==> |r| == end
    ensures end > |s| ==> r == s
  {
    if end >= 0 then (if end <= |s| then s[..end] else s)
    else if |s| + end > 0 then s[..|s| + end] else []
  }

  /** `truncateText`: unchanged when it fits, else the first `maxLength` characters and an ellipsis. */
  function TruncateText(text: string, maxLength: int): (r: string)
    ensures |text| <= maxLength ==> r == text
    ensures |text| > maxLength ==> r == SliceTo(text, maxLength) + "..."
    ensures |text| > maxLength && maxLength >= 0 ==> |r| == maxLength + 3 && text[..maxLength] <= r
  {
    if |text| > maxLength then SliceTo(text, maxLength) + "..." else text
  }

  /** `truncateComponentName`: four prefix abbreviations, each at its first occurrence, then the same rule. */
  function TruncateComponentName(name: string, maxLength: int): (r: string)
    ensures var cleaned := ReplaceFirst(ReplaceFirst(ReplaceFirst(ReplaceFirst(name,
        "Raspberry Pi ", "RPi "), "Arducam ", ""), "ASUS USB-", "ASUS "), "TP-Link Archer ", "TP-Link ");
      r == TruncateText(cleaned, maxLength)
    ensures Free(name, "Raspberry Pi ") && Free(name, "Arducam ") && Free(name, "ASUS USB-") && Free(name, "TP-Link Archer ") ==>
      r == TruncateText(name, maxLength)
  {
    var cleaned := ReplaceFirst(ReplaceFirst(ReplaceFirst(ReplaceFirst(name,
        "Raspberry Pi ", "RPi "), "Arducam ", ""), "ASUS USB-", "ASUS "), "TP-Link Archer ", "TP-Link ");
    TruncateText(cleaned, maxLength)
  }

  // ---------------------------------------------------------------------
  // getShortName

  /**
   * One step of `getShortName`'s chain: a plain test, a test with a
   * two-way choice, or a group whose inner tests apply only when the group's
   * own test matches (and which falls through when none of them does).
   */
  datatype ShortRule =
    | Plain(needle: string, short: string)
    | Choice(needle: string, inner: string, ifInner: string, otherwise: string)
    | Group(needle: string, cases: seq<(string, string)>)

  /** The first inner case whose text occurs in `name`. */
  function FirstCase(name: string, cases: seq<(string, string)>): (r: Option<string>)
    ensures r.Some? ==> exists i :: 0 <= i < |cases| && r.value == cases[i].1 && Contains(name, cases[i].0)
    ensures r.None? <==> forall i :: 0 <= i < |cases| ==> !Contains(name, cases[i].0)
  {
    if |cases| == 0 then None
    else if Contains(name, cases[0].0) then Some(cases[0].1)
    else
      var r := FirstCase(name, cases[1..]);
      assert forall i :: 1 <= i < |cases| ==> cases[i] == cases[1..][i - 1];
      r
  }

  /** What one rule says about `name`, or `None` to fall through. */
  function Apply(rule: ShortRule, name: string): Option<string> {
    match rule
    case Plain(needle, short) => if Contains(name, needle) then Some(short) else None
    case Choice(needle, inner, ifInner, otherwise) =>
      if Contains(name, needle) then Some(if Contains(name, inner) then ifInner else otherwise) else None
    case Group(needle, cases) => if Contains(name, needle) then FirstCase(name, cases) else None
  }

  /** The Raspberry Pi group, in source order: "CM4" before "4B", "3B+" before "3B". */
  const PiCases: seq<(string, string)> := [
    ("CM4", "CM4"), ("4B", "Pi4B"), ("3B+", "Pi3B+"), ("3B mini", "Pi3Bm"), ("3B", "Pi3B"),
    ("3A+", "Pi3A+"), ("3A", "Pi3A"), ("CM3+", "CM3+"), ("2B", "Pi2B"), ("Zero 2", "Zero2"),
    ("Camera V2", "PiCamV2"), ("Camera HQ", "PiCamHQ"), ("Camera V1", "PiCamV1")]

  /** The Arducam group. */
  const ArducamCases: seq<(string, string)> := [
    ("IMX708", "IMX708"), ("IMX519", "IMX519"), ("IMX477", "IMX477"), ("IMX462", "IMX462"),
    ("IMX290", "IMX290"), ("IMX327", "IMX327"), ("IMX415", "IMX415")]

  /** The Radxa group. */
  const RadxaCases: seq<(string, string)> := [
    ("Rock5B", "R5B"), ("Rock5A", "R5A"), ("CM3", "RCM3"), ("Core3566", "C3566"), ("Zero3W", "RZ3W")]

  /** The ALFA group. */
  const AlfaCases: seq<(string, string)> := [("036ACH", "ACH"), ("1900", "A1900")]

  /** The rules of `getShortName`, in source order. */
  const ShortRules: seq<ShortRule> := [
    Group("Raspberry Pi", PiCases),
    Group("Arducam", ArducamCases),
    Group("Radxa", RadxaCases),
    Plain("ASUS", "AC56"),
    Group("ALFA", AlfaCases),
    Plain("BLM8812EU", "BLM"),
    Plain("Taobao", "TB8812"),
    Plain("T3U Plus", "T3U+"),
    Plain("T3U", "T3U"),
    Plain("Tenda", "U12"),
    Plain("Cudy", "C1300"),
    Plain("Aigital", "A1200"),
    Plain("COMFAST", "CF1300"),
    Plain("D-Link", "DWA182"),
    Plain("Netgear", "A6100"),
    Choice("FLIR Boson", "640", "B640", "B320"),
    Choice("Hti-", "301", "H301", "H201"),
    Plain("Infiray", "T2"),
    Choice("VEYE", "327E", "V327E", "V307"),
    Plain("Waveshare", "HC100F"),
    Choice("Geekworm", "C790", "C790", "C779"),
    Plain("X86", "X86"),
    Plain("OpenHD", "OHD")
  ]

  /** Every short name a rule can produce has at most `n` characters. */
  predicate Fits(rule: ShortRule, n: nat) {
    match rule
    case Plain(_, short) => |short| <= n
    case Choice(_, _, ifInner, otherwise) => |ifInner| <= n && |otherwise| <= n
    case Group(_, cases) => forall i :: 0 <= i < |cases| ==> |cases[i].1| <= n
  }

  /** Rule `i` is the first one with something to say about `name`. */
  predicate Decides(rules: seq<ShortRule>, name: string, i: nat)
    requires i < |rules|
  {
    Apply(rules[i], name).Some? && forall j :: 0 <= j < i ==> Apply(rules[j], name).None?
  }

  /** A rule that fits a bound yields a name within it. */
  lemma ApplyFits(rule: ShortRule, name: string, n: nat)
    requires Fits(rule, n) && Apply(rule, name).Some?
    ensures |Apply(rule, name).value| <= n
  {
    if rule.Group? {
      var v := FirstCase(name, rule.cases).value;
      var k :| 0 <= k < |rule.cases| && v == rule.cases[k].1 && Contains(name, rule.cases[k].0);
    }
  }

  /** The first rule that decides, else the first six characters. */
  function ShortNameBy(rules: seq<ShortRule>, name: string): (r: string)
    ensures (forall i :: 0 <= i < |rules| ==> Apply(rules[i], name).None?) ==> r == SliceTo(name, 6)
    ensures forall i :: 0 <= i < |rules| && Decides(rules, name, i) ==> r == Apply(rules[i], name).value
    ensures (forall i :: 0 <= i < |rules| ==> Fits(rules[i], 7)) ==> |r| <= 7
  {
    if |rules| == 0 then SliceTo(name, 6)
    else if Apply(rules[0], name).Some? then
      assert Fits(rules[0], 7) ==> |Apply(rules[0], name).value| <= 7 by {
        if Fits(rules[0], 7) {
          ApplyFits(rules[0], name, 7);
        }
      }
      Apply(rules[0], name).value
    else
      var r := ShortNameBy(rules[1..], name);
      assert forall i :: 1 <= i < |rules| ==> rules[i] == rules[1..][i - 1];
      r
  }

  /** Every rule of `getShortName` yields at most seven characters. */
  lemma ShortRulesFit()
    ensures forall i :: 0 <= i < |ShortRules| ==> Fits(ShortRules[i], 7)
  {
    assert Fits(ShortRules[0], 7) by {
      assert ShortRules[0] == Group("Raspberry Pi", PiCases);
    }
    assert Fits(ShortRules[1], 7) by {
      assert ShortRules[1] == Group("Arducam", ArducamCases);
    }
    assert Fits(ShortRules[2], 7) by {
      assert ShortRules[2] == Group("Radxa", RadxaCases);
    }
    assert Fits(ShortRules[4], 7) by {
      assert ShortRules[4] == Group("ALFA", AlfaCases);
    }
  }

  /** `getShortName`: a grid header of at most seven characters. */
  function GetShortName(name: string): (r: string)
    ensures |r| <= 7
  {
    ShortRulesFit();
    ShortNameBy(ShortRules, name)
  }

  /** A Raspberry Pi name containing "CM4" is "CM4", whatever else it contains (for example "4B"). */
  lemma ShortNameCm4First(name: string)
    requires Contains(name, "Raspberry Pi") && Contains(name, "CM4")
    ensures GetShortName(name) == "CM4"
  {
    assert ShortRules[0] == Group("Raspberry Pi", PiCases);
    assert FirstCase(name, PiCases) == Some("CM4");
  }

  /** "3B+" is checked before "3B", so a Raspberry Pi 3B+ is not shortened to "Pi3B". */
  lemma ShortName3BPlusBefore3B(name: string)
    requires Contains(name, "Raspberry Pi") && Contains(name, "3B+") && !Contains(name, "CM4") && !Contains(name, "4B")
    ensures GetShortName(name) == "Pi3B+"
  {
    assert ShortRules[0] == Group("Raspberry Pi", PiCases);
    assert PiCases[1..][1..] == PiCases[2..];
    assert FirstCase(name, PiCases[2..]) == Some("Pi3B+");
    assert FirstCase(name, PiCases[1..]) == Some("Pi3B+");
    assert FirstCase(name, PiCases) == Some("Pi3B+");
  }

  /** "T3U Plus" is checked before "T3U", so a name that reaches those rules and contains both becomes "T3U+". */
  lemma ShortNameT3UPlusBeforeT3U(name: string)
    requires forall j :: 0 <= j < 7 ==> Apply(ShortRules[j], name).None?
    requires Contains(name, "T3U Plus")
    ensures Apply(ShortRules[8], name).Some?
    ensures GetShortName(name) == "T3U+"
  {
    var i := IndexOf(name, "T3U Plus").value;
    assert OccursAt(name, "T3U Plus", i);
    assert name[i..i + 3] == name[i..i + 8][..3];
    assert OccursAt(name, "T3U", i);
    assert ShortRules[7] == Plain("T3U Plus", "T3U+");
    assert ShortRules[8] == Plain("T3U", "T3U");
    assert Decides(ShortRules, name, 7);
  }

  /** A name matching no rule is cut to its first six characters. */
  lemma ShortNameFallback(name: string)
    requires forall i :: 0 <= i < |ShortRules| ==> Apply(ShortRules[i], name).None?
    ensures GetShortName(name) == SliceTo(name, 6)
    ensures |GetShortName(name)| == if |name| < 6 then |name| else 6
  {
  }
}

=== FILE: configurator_service.dfy ===
/**
 * The hardware configurator service: initialisation from the catalogue,
 * component lookup by id, pairwise compatibility checks that run every
 * structured rule and sort triggered messages by severity, message
 * templating, the performance-matrix lookup, and filtering of the cameras
 * and WiFi adapters compatible with an SBC.
 */
module ConfiguratorService {
  import opened Wrappers
  import opened Strings
  import opened Seqs
  import opened HardwareTypes
  import opened ServiceRules
  import opened Templates
  import opened ServiceMessages

  /** The service before and after a successful `initialize`. */
  datatype Service = Uninitialized | Ready(categories: seq<Category>, engine: Engine)

  /**
   * `initialize`: the data is checked first, so a failure leaves the caller's
   * service as it was; the messages are checked in this order.
   */
  function Initialize(data: Option<ConfigData>): (r: Result<Service>)
    ensures r.Success? <==> data.Some? && data.value.categories.Some? && data.value.engine.Some?
    ensures data.None? ==> r == Failure("Configuration data is required")
    ensures data.Some? && data.value.categories.None? ==> r == Failure("component_categories is required")
    ensures data.Some? && data.value.categories.Some? && data.value.engine.None? ==>
      r == Failure("compatibility_engine is required")
    ensures r.Success? ==>
      r.value == Ready(data.value.categories.value, data.value.engine.value)
  {
    if data.None? then Failure("Configuration data is required")
    else if data.value.categories.None? then Failure("component_categories is required")
    else if data.value.engine.None? then Failure("compatibility_engine is required")
    else Success(Ready(data.value.categories.value, data.value.engine.value))
  }

  /** The configuration the service's rule evaluator captured at initialisation. */
  function ConfigOf(s: Service): Option<Configuration> {
    if s.Ready? then s.engine.configuration else None
  }

  /** `getComponentsByCategory`: the keyed category's components, or `[]` when no category has the key. */
  function GetComponentsByCategory(s: Service, key: string): (r: Result<seq<Component>>)
    ensures s.Uninitialized? <==> r == Failure("Service not initialized")
    ensures r.Success? ==> forall c :: c in r.value ==> c in AllComponents(s.categories)
    ensures s.Ready? ==> forall i :: FirstWithKey(s.categories, key, i) ==> r == Success(s.categories[i].components)
    ensures s.Ready? && (forall i :: 0 <= i < |s.categories| ==> s.categories[i].key != key) ==> r == Success([])
  {
    if s.Uninitialized? then Failure("Service not initialized")
    else Success(CategoryComponents(s.categories, key))
  }

  // ---------------------------------------------------------------------
  // Lookup by id

  /** `components.find(c => c.id === id)`. */
  function FindById(comps: seq<Component>, id: string): (r: Option<Component>)
    ensures r.Some? ==> r.value in comps && r.value.id == id
    ensures r.None? <==> forall c :: c in comps ==> c.id != id
  {
    if |comps| == 0 then None
    else if comps[0].id == id then Some(comps[0])
    else
      var r := FindById(comps[1..], id);
      assert forall c :: c in comps ==> c == comps[0] || c in comps[1..] by {
        forall c | c in comps
          ensures c == comps[0] || c in comps[1..]
        {
          var i :| 0 <= i < |comps| && comps[i] == c;
          if i > 0 {
            assert comps[1..][i - 1] == c;
          }
        }
      }
      r
  }

  /** Finding in a concatenation finds in the first part, else in the second. */
  lemma {:induction false} FindByIdAppend(a: seq<Component>, b: seq<Component>, id: string)
    ensures FindById(a + b, id) == if FindById(a, id).Some? then FindById(a, id) else FindById(b, id)
  {
    if |a| > 0 {
      assert (a + b)[1..] == a[1..] + b;
      FindByIdAppend(a[1..], b, id);
    } else {
      assert a + b == b;
    }
  }

  /** The lookup loop: the first category holding a match, and the first match in it. */
  function FindInCategories(cats: seq<Category>, id: string): Option<Component> {
    if |cats| == 0 then None
    else match FindById(cats[0].components, id)
      case Some(c) => Some(c)
      case None => FindInCategories(cats[1..], id)
  }

  /** The per-category loop finds the first component with the id in catalogue order. */
  lemma {:induction false} FindInCategoriesIsFirst(cats: seq<Category>, id: string)
    ensures FindInCategories(cats, id) == FindById(AllComponents(cats), id)
  {
    if |cats| > 0 {
      FindInCategoriesIsFirst(cats[1..], id);
      FindByIdAppend(cats[0].components, AllComponents(cats[1..]), id);
    }
  }

  /** `getComponentById`: `None` before initialisation or when no component has the id. */
  function GetComponentById(s: Service, id: string): (r: Option<Component>)
    ensures r.Some? ==> s.Ready? && r.value.id == id && r.value in AllComponents(s.categories)
    ensures r.None? <==> s.Uninitialized? || forall c :: c in AllComponents(s.categories) ==> c.id != id
  {
    if s.Uninitialized? then None
    else
      FindInCategoriesIsFirst(s.categories, id);
      FindInCategories(s.categories, id)
  }

  // ---------------------------------------------------------------------
  // Aggregation

  /** The messages collected from the rules. */
  datatype Messages = Messages(errors: seq<string>, warnings: seq<string>)

  /** The rules of one severity that the evaluator triggers. */
  function TriggeredAt(fired: Rule -> bool, severity: Severity): Rule -> bool {
    (rule: Rule) => fired(rule) && rule.severity == severity
  }

  /**
   * The loop of `evaluateCompatibility`: rules in source order; a triggered
   * error rule appends its formatted message to the errors, a triggered
   * warning rule to the warnings, and an info rule to neither. `fired` is the
   * rule evaluator and `message` the templating, both fixed by the context.
   */
  function Collect(rules: seq<Rule>, fired: Rule -> bool, message: Rule -> string): (m: Messages)
    ensures |m.errors| + |m.warnings| <= |rules|
    ensures m.errors == Map(Filter(rules, TriggeredAt(fired, Error)), message)
    ensures m.warnings == Map(Filter(rules, TriggeredAt(fired, Warning)), message)
  {
    if |rules| == 0 then Messages([], [])
    else
      var init := rules[..|rules| - 1];
      var prev := Collect(init, fired, message);
      var rule := rules[|rules| - 1];
      assert rules == init + [rule];
      TriggeredStep(init, rule, fired, message, Error);
      TriggeredStep(init, rule, fired, message, Warning);
      if !fired(rule) then prev
      else match rule.severity
        case Error => prev.(errors := prev.errors + [message(rule)])
        case Warning => prev.(warnings := prev.warnings + [message(rule)])
        case Info => prev
  }

  /** The messages of one more rule at a severity: its own message when it triggers at that severity. */
  lemma TriggeredStep(init: seq<Rule>, rule: Rule, fired: Rule -> bool, message: Rule -> string, severity: Severity)
    ensures Map(Filter(init + [rule], TriggeredAt(fired, severity)), message) ==
      Map(Filter(init, TriggeredAt(fired, severity)), message) +
      (if fired(rule) && rule.severity == severity then [message(rule)] else [])
  {
    FilterAppend(init, [rule], TriggeredAt(fired, severity));
    MapAppend(Filter(init, TriggeredAt(fired, severity)), Filter([rule], TriggeredAt(fired, severity)), message);
    assert [rule][1..] == [];
  }

  /** Collecting over two rule lists one after the other concatenates their messages. */
  lemma {:induction false} CollectAppend(a: seq<Rule>, b: seq<Rule>, fired: Rule -> bool, message: Rule -> string)
    ensures Collect(a + b, fired, message) ==
      Messages(Collect(a, fired, message).errors + Collect(b, fired, message).errors,
               Collect(a, fired, message).warnings + Collect(b, fired, message).warnings)
  {
    FilterAppend(a, b, TriggeredAt(fired, Error));
    FilterAppend(a, b, TriggeredAt(fired, Warning));
    MapAppend(Filter(a, TriggeredAt(fired, Error)), Filter(b, TriggeredAt(fired, Error)), message);
    MapAppend(Filter(a, TriggeredAt(fired, Warning)), Filter(b, TriggeredAt(fired, Warning)), message);
  }

  /** An info rule, wherever it sits, changes nothing. */
  lemma InfoRuleInert(a: seq<Rule>, rule: Rule, b: seq<Rule>, fired: Rule -> bool, message: Rule -> string)
    requires rule.severity == Info
    ensures Collect(a + [rule] + b, fired, message) == Collect(a + b, fired, message)
  {
    CollectAppend(a + [rule], b, fired, message);
    CollectAppend(a, [rule], fired, message);
    CollectAppend(a, b, fired, message);
    assert ([rule])[..0] == [];
  }

  /** No rule of error severity is triggered. */
  ghost predicate NoErrorTriggered(rules: seq<Rule>, fired: Rule -> bool) {
    forall i :: 0 <= i < |rules| && rules[i].severity == Error ==> !fired(rules[i])
  }

  /** The error list is empty exactly when no error rule is triggered. */
  lemma {:induction false} ErrorsEmptyIff(rules: seq<Rule>, fired: Rule -> bool, message: Rule -> string)
    ensures |Collect(rules, fired, message).errors| == 0 <==> NoErrorTriggered(rules, fired)
  {
    if |rules| > 0 {
      var prefix := rules[..|rules| - 1];
      ErrorsEmptyIff(prefix, fired, message);
      assert forall i :: 0 <= i < |prefix| ==> prefix[i] == rules[i];
    }
  }

  /** The service's rule evaluator and templating for one context. */
  function Fired(s: Service, ctx: Context): Rule -> bool {
    (rule: Rule) => Evaluate(rule, ConfigOf(s), ctx)
  }

  function MessageIn(ctx: Context): Rule -> string {
    (rule: Rule) => FormatRuleMessage(rule.message, ctx)
  }

  // ---------------------------------------------------------------------
  // Performance and compatibility

  /** `performance_matrix.find(...)`: the first entry for the SBC id and the camera interface. */
  function FindPerformance(matrix: seq<PerfEntry>, sbcId: string, iface: Option<string>): (r: Option<Performance>)
    ensures r.Some? ==>
      exists i :: (0 <= i < |matrix| && matrix[i].sbc == sbcId &&
        iface == Some(matrix[i].cameraInterface) && matrix[i].performance == r.value &&
        forall j :: 0 <= j < i ==> !(matrix[j].sbc == sbcId && iface == Some(matrix[j].cameraInterface)))
    ensures r.None? ==> forall e :: e in matrix ==> !(e.sbc == sbcId && iface == Some(e.cameraInterface))
  {
    if |matrix| == 0 then None
    else if matrix[0].sbc == sbcId && iface == Some(matrix[0].cameraInterface) then Some(matrix[0].performance)
    else
      var r := FindPerformance(matrix[1..], sbcId, iface);
      if r.Some? then
        var i :| 0 <= i < |matrix[1..]| && matrix[1..][i].sbc == sbcId &&
          iface == Some(matrix[1..][i].cameraInterface) && matrix[1..][i].performance == r.value &&
          forall j :: 0 <= j < i ==> !(matrix[1..][j].sbc == sbcId && iface == Some(matrix[1..][j].cameraInterface));
        assert forall j :: 1 <= j < i + 1 ==> matrix[j] == matrix[1..][j - 1];
        r
      else
        assert forall e :: e in matrix ==> e == matrix[0] || e in matrix[1..] by {
          forall e | e in matrix
            ensures e == matrix[0] || e in matrix[1..]
          {
            var i :| 0 <= i < |matrix| && matrix[i] == e;
            if i > 0 {
              assert matrix[1..][i - 1] == e;
            }
          }
        }
        r
  }

  /** Entry `i` of the matrix is for this SBC id and this camera interface. */
  ghost predicate PerfMatches(matrix: seq<PerfEntry>, i: int, sbcId: string, iface: Option<string>) {
    0 <= i < |matrix| && matrix[i].sbc == sbcId && iface == Some(matrix[i].cameraInterface)
  }

  /** `getPerformanceForCombo`: the camera is looked up again by id, and its interface selects the entry. */
  function GetPerformanceForCombo(s: Service, sbcId: string, cameraId: string): (r: Option<Performance>)
    ensures r.Some? ==>
      (s.Ready? && GetComponentById(s, cameraId).Some? &&
       exists e :: e in s.engine.performanceMatrix && e.sbc == sbcId && e.performance == r.value &&
         InterfaceOf(GetComponentById(s, cameraId).value) == Some(e.cameraInterface))
    // The entry is the first one for the SBC id and the camera's interface ...
    ensures r.Some? ==>
      exists i :: PerfMatches(s.engine.performanceMatrix, i, sbcId, InterfaceOf(GetComponentById(s, cameraId).value)) &&
        s.engine.performanceMatrix[i].performance == r.value &&
        forall j :: 0 <= j < i ==>
          !PerfMatches(s.engine.performanceMatrix, j, sbcId, InterfaceOf(GetComponentById(s, cameraId).value))
    // ... and there is none exactly when the service is not ready, the camera
    // id does not resolve, or no entry matches.
    ensures r.None? <==>
      (s.Uninitialized? || GetComponentById(s, cameraId).None? ||
       forall i :: 0 <= i < |s.engine.performanceMatrix| ==>
         !PerfMatches(s.engine.performanceMatrix, i, sbcId, InterfaceOf(GetComponentById(s, cameraId).value)))
  {
    if s.Uninitialized? then None
    else match GetComponentById(s, cameraId)
      case None => None
      case Some(camera) => FindPerformance(s.engine.performanceMatrix, sbcId, InterfaceOf(camera))
  }

  /** `evaluateCompatibility`. */
  function EvaluateCompatibility(s: Service, ctx: Context): (r: CompatibilityResult)
    ensures s.Uninitialized? ==> r == CompatibilityResult(false, ["Service not initialized"], [], None)
    ensures r.compatible <==> |r.errors| == 0
    ensures s.Ready? ==> (r.compatible <==> NoErrorTriggered(s.engine.structuredRules.GetOr([]), Fired(s, ctx)))
    ensures r.performance.Some? ==> r.compatible && ctx.sbc.Some? && ctx.camera.Some?
    // The messages of the triggered error and warning rules, in rule order.
    ensures s.Ready? ==>
      r.errors == Map(Filter(s.engine.structuredRules.GetOr([]), TriggeredAt(Fired(s, ctx), Error)), MessageIn(ctx))
    ensures s.Ready? ==>
      r.warnings == Map(Filter(s.engine.structuredRules.GetOr([]), TriggeredAt(Fired(s, ctx), Warning)), MessageIn(ctx))
    // A compatible pair with an SBC and a camera carries the matrix entry.
    ensures s.Ready? && r.compatible && ctx.sbc.Some? && ctx.camera.Some? ==>
      r.performance == GetPerformanceForCombo(s, ctx.sbc.value.id, ctx.camera.value.id)
  {
    if s.Uninitialized? then CompatibilityResult(false, ["Service not initialized"], [], None)
    else
      var rules := s.engine.structuredRules.GetOr([]);
      var m := Collect(rules, Fired(s, ctx), MessageIn(ctx));
      ErrorsEmptyIff(rules, Fired(s, ctx), MessageIn(ctx));
      var performance :=
        if |m.errors| == 0 && ctx.sbc.Some? && ctx.camera.Some? then
          GetPerformanceForCombo(s, ctx.sbc.value.id, ctx.camera.value.id)
        else None;
      CompatibilityResult(|m.errors| == 0, m.errors, m.warnings, performance)
  }

  /** The result for a pair in which an id does not resolve. */
  const NotFound: CompatibilityResult := CompatibilityResult(false, ["Component not found"], [], None)

  /** `checkSBCCameraCompatibility`. */
  function CheckSbcCamera(s: Service, sbcId: string, cameraId: string): (r: CompatibilityResult)
    ensures GetComponentById(s, sbcId).None? || GetComponentById(s, cameraId).None? ==> r == NotFound
    ensures r.compatible <==> |r.errors| == 0
    ensures r.compatible ==>
      (s.Ready? && GetComponentById(s, sbcId).Some? && GetComponentById(s, cameraId).Some? &&
       NoErrorTriggered(s.engine.structuredRules.GetOr([]),
         Fired(s, Context(GetComponentById(s, sbcId), GetComponentById(s, cameraId), None, None, None))))
    // When both ids resolve, the pair is compatible exactly when no error rule fires.
    ensures GetComponentById(s, sbcId).Some? && GetComponentById(s, cameraId).Some? ==>
      (r.compatible <==> NoErrorTriggered(s.engine.structuredRules.GetOr([]), Fired(s, Context(GetComponentById(s, sbcId), GetComponentById(s, cameraId), None, None, None))))
    ensures GetComponentById(s, sbcId).Some? && GetComponentById(s, cameraId).Some? ==>
      r == EvaluateCompatibility(s, Context(GetComponentById(s, sbcId), GetComponentById(s, cameraId), None, None, None))
  {
    var sbc := GetComponentById(s, sbcId);
    var camera := GetComponentById(s, cameraId);
    if sbc.None? || camera.None? then NotFound
    else EvaluateCompatibility(s, Context(sbc, camera, None, None, None))
  }

  /** `checkSBCWiFiCompatibility`. */
  function CheckSbcWifi(s: Service, sbcId: string, wifiId: string): (r: CompatibilityResult)
    ensures GetComponentById(s, sbcId).None? || GetComponentById(s, wifiId).None? ==> r == NotFound
    ensures r.compatible <==> |r.errors| == 0
    ensures r.compatible ==>
      (s.Ready? && GetComponentById(s, sbcId).Some? && GetComponentById(s, wifiId).Some? &&
       NoErrorTriggered(s.engine.structuredRules.GetOr([]),
         Fired(s, Context(GetComponentById(s, sbcId), None, GetComponentById(s, wifiId), None, None))))
    // When both ids resolve, the pair is compatible exactly when no error rule fires.
    ensures GetComponentById(s, sbcId).Some? && GetComponentById(s, wifiId).Some? ==>
      (r.compatible <==> NoErrorTriggered(s.engine.structuredRules.GetOr([]), Fired(s, Context(GetComponentById(s, sbcId), None, GetComponentById(s, wifiId), None, None))))
    ensures GetComponentById(s, sbcId).Some? && GetComponentById(s, wifiId).Some? ==>
      r == EvaluateCompatibility(s, Context(GetComponentById(s, sbcId), None, GetComponentById(s, wifiId), None, None))
    ensures r.performance.None?
  {
    var sbc := GetComponentById(s, sbcId);
    var wifi := GetComponentById(s, wifiId);
    if sbc.None? || wifi.None? then NotFound
    else EvaluateCompatibility(s, Context(sbc, None, wifi, None, None))
  }

  /** Whether the check of camera `c` against the SBC reports compatible. */
  function CameraFits(s: Service, sbcId: string): Component -> bool {
    (c: Component) => CheckSbcCamera(s, sbcId, c.id).compatible
  }

  /** Whether the check of adapter `c` against the SBC reports compatible. */
  function WifiFits(s: Service, sbcId: string): Component -> bool {
    (c: Component) => CheckSbcWifi(s, sbcId, c.id).compatible
  }

  /** `getCompatibleCameras`: the cameras whose check against the SBC reports compatible, in catalogue order. */
  function GetCompatibleCameras(s: Service, sbcId: string): (r: Result<seq<Component>>)
    ensures s.Uninitialized? <==> r == Failure("Service not initialized")
    ensures r.Success? ==> forall c :: c in r.value <==>
      c in CategoryComponents(s.categories, "cameras") && CheckSbcCamera(s, sbcId, c.id).compatible
    ensures r.Success? ==> r.value == Filter(CategoryComponents(s.categories, "cameras"), CameraFits(s, sbcId))
  {
    match GetComponentsByCategory(s, "cameras")
    case Failure(e) => Failure(e)
    case Success(cameras) => Success(Filter(cameras, CameraFits(s, sbcId)))
  }

  /** `getCompatibleWiFi`: the adapters whose check against the SBC reports compatible, in catalogue order. */
  function GetCompatibleWifi(s: Service, sbcId: string): (r: Result<seq<Component>>)
    ensures s.Uninitialized? <==> r == Failure("Service not initialized")
    ensures r.Success? ==> forall c :: c in r.value <==>
      c in CategoryComponents(s.categories, "wifi_adapters") && CheckSbcWifi(s, sbcId, c.id).compatible
    ensures r.Success? ==> r.value == Filter(CategoryComponents(s.categories, "wifi_adapters"), WifiFits(s, sbcId))
  {
    match GetComponentsByCategory(s, "wifi_adapters")
    case Failure(e) => Failure(e)
    case Success(adapters) => Success(Filter(adapters, WifiFits(s, sbcId)))
  }
}

=== FILE: data_updater.dfy ===
/**
 * The offline catalogue maintenance tool: regenerates the configuration's
 * lists of chipsets, interfaces, statuses and manufacturers from the
 * components, appends auto-generated rules, checks that components only use
 * known values, and tallies how often each value is used.
 */
module DataUpdater {
  import opened Wrappers
  import opened Strings
  import opened Seqs
  import opened HardwareTypes

  // ---------------------------------------------------------------------
  // Extraction

  /** `Array.from(new Set(s)).sort()`: each value once, ascending. */
  function SortedUnique(s: seq<string>): (r: seq<string>)
    ensures SortedStrings(r)
    ensures NoDup(r)
    ensures forall x :: x in r <==> x in s
  {
    var d := Dedup(s);
    SortStringsKeepsElements(d);
    SortStrings(d)
  }

  function Categories(data: ConfigData): seq<Category> {
    data.categories.GetOr([])
  }

  /** `extractAllChipsets`: a pass over the WiFi adapters, then a pass over every component. */
  function ExtractAllChipsets(data: ConfigData): (r: seq<string>)
    ensures SortedStrings(r) && NoDup(r)
    ensures forall x :: x in r <==> exists c :: c in AllComponents(Categories(data)) && x in ChipsetTags(c)
  {
    var cats := Categories(data);
    var wifi := CategoryComponents(cats, "wifi_adapters");
    forall c | c in wifi
      ensures c in AllComponents(cats)
    {
    }
    SortedUnique(FlatMap(wifi, ChipsetTags) + FlatMap(AllComponents(cats), ChipsetTags))
  }

  /** `extractAllInterfaces`: each component's `interface`, then its `interfaces` array. */
  function ExtractAllInterfaces(data: ConfigData): (r: seq<string>)
    ensures SortedStrings(r) && NoDup(r)
    ensures forall x :: x in r <==> exists c :: c in AllComponents(Categories(data)) && x in InterfaceTags(c)
  {
    SortedUnique(FlatMap(AllComponents(Categories(data)), InterfaceTags))
  }

  /** `extractAllStatuses`. */
  function ExtractAllStatuses(data: ConfigData): (r: seq<string>)
    ensures SortedStrings(r) && NoDup(r)
    ensures forall x :: x in r <==> exists c :: c in AllComponents(Categories(data)) && x in StatusTags(c)
  {
    SortedUnique(FlatMap(AllComponents(Categories(data)), StatusTags))
  }

  /** `extractAllManufacturers`. */
  function ExtractAllManufacturers(data: ConfigData): (r: seq<string>)
    ensures SortedStrings(r) && NoDup(r)
    ensures forall x :: x in r <==> exists c :: c in AllComponents(Categories(data)) && x in ManufacturerTags(c)
  {
    SortedUnique(FlatMap(AllComponents(Categories(data)), ManufacturerTags))
  }

  // ---------------------------------------------------------------------
  // Rule generation

  /** The rule generated for one interface. */
  function AutoInterfaceRule(iface: string): Rule {
    Rule("auto_interface_" + iface + "_compatibility", "interface_mismatch", Error,
      "Component requires " + iface + " interface but target doesn't support " + iface,
      NoParams.(requiredInterface := Some(iface), componentType := Some("camera"), targetType := Some("sbc")),
      true)
  }

  /** Some rule is an `interface_mismatch` rule for `iface`. */
  predicate HasInterfaceRule(rules: seq<Rule>, iface: string) {
    exists k :: 0 <= k < |rules| && rules[k].kind == "interface_mismatch" && rules[k].parameters.requiredInterface == Some(iface)
  }

  /** One generated rule per interface, in order. */
  function AutoInterfaceRules(ifaces: seq<string>): (r: seq<Rule>)
    ensures |r| == |ifaces|
  {
    if |ifaces| == 0 then [] else [AutoInterfaceRule(ifaces[0])] + AutoInterfaceRules(ifaces[1..])
  }

  /** `generateInterfaceRules`: visit the interfaces in order, appending a rule for each one still lacking one. */
  function GenerateInterfaceRules(ifaces: seq<string>, rules: seq<Rule>): (r: seq<Rule>)
    ensures |rules| <= |r| && r[..|rules|] == rules
    ensures forall i :: i in ifaces ==> HasInterfaceRule(r, i)
  {
    if |ifaces| == 0 then rules
    else
      var next := if HasInterfaceRule(rules, ifaces[0]) then rules else rules + [AutoInterfaceRule(ifaces[0])];
      var r := GenerateInterfaceRules(ifaces[1..], next);
      assert HasInterfaceRule(next, ifaces[0]) ==> HasInterfaceRule(r, ifaces[0]) by {
        if HasInterfaceRule(next, ifaces[0]) {
          var k :| 0 <= k < |next| && next[k].kind == "interface_mismatch" && next[k].parameters.requiredInterface == Some(ifaces[0]);
          assert r[k] == next[k];
        }
      }
      assert HasInterfaceRule(next, ifaces[0]) by {
        if !HasInterfaceRule(rules, ifaces[0]) {
          assert next[|rules|] == AutoInterfaceRule(ifaces[0]);
        }
      }
      assert forall i :: i in ifaces ==> i == ifaces[0] || i in ifaces[1..] by {
        forall i | i in ifaces
          ensures i == ifaces[0] || i in ifaces[1..]
        {
          var k :| 0 <= k < |ifaces| && ifaces[k] == i;
          if k > 0 {
            assert ifaces[1..][k - 1] == i;
          }
        }
      }
      r
  }

  /** A rule set that already covers every interface is left alone. */
  lemma {:induction false} GenerateInterfaceRulesCovered(ifaces: seq<string>, rules: seq<Rule>)
    requires forall i :: i in ifaces ==> HasInterfaceRule(rules, i)
    ensures GenerateInterfaceRules(ifaces, rules) == rules
  {
    if |ifaces| > 0 {
      assert ifaces[0] in ifaces;
      forall i | i in ifaces[1..]
        ensures HasInterfaceRule(rules, i)
      {
        assert i in ifaces;
      }
      GenerateInterfaceRulesCovered(ifaces[1..], rules);
    }
  }

  /** Generating interface rules twice adds nothing the second time. */
  lemma GenerateInterfaceRulesIdempotent(ifaces: seq<string>, rules: seq<Rule>)
    ensures GenerateInterfaceRules(ifaces, GenerateInterfaceRules(ifaces, rules)) == GenerateInterfaceRules(ifaces, rules)
  {
    GenerateInterfaceRulesCovered(ifaces, GenerateInterfaceRules(ifaces, rules));
  }

  /** The interfaces that have no rule yet, in order. */
  function MissingInterfaces(ifaces: seq<string>, rules: seq<Rule>): (r: seq<string>)
    ensures forall i :: i in r <==> i in ifaces && !HasInterfaceRule(rules, i)
  {
    Filter(ifaces, i => !HasInterfaceRule(rules, i))
  }

  /** Appending a rule for `j` changes the coverage of no other interface. */
  lemma HasInterfaceRuleAppend(rules: seq<Rule>, j: string, i: string)
    requires i != j
    ensures HasInterfaceRule(rules + [AutoInterfaceRule(j)], i) == HasInterfaceRule(rules, i)
  {
    if HasInterfaceRule(rules + [AutoInterfaceRule(j)], i) {
      var k :| 0 <= k < |rules| + 1 && (rules + [AutoInterfaceRule(j)])[k].kind == "interface_mismatch" &&
        (rules + [AutoInterfaceRule(j)])[k].parameters.requiredInterface == Some(i);
      assert k < |rules| && rules[k] == (rules + [AutoInterfaceRule(j)])[k];
    }
    if HasInterfaceRule(rules, i) {
      var k :| 0 <= k < |rules| && rules[k].kind == "interface_mismatch" && rules[k].parameters.requiredInterface == Some(i);
      assert (rules + [AutoInterfaceRule(j)])[k] == rules[k];
    }
  }

  /** Filtering with two tests that agree on every element gives the same list. */
  lemma {:induction false} FilterMissingAgree(s: seq<string>, a: seq<Rule>, b: seq<Rule>)
    requires forall i :: i in s ==> HasInterfaceRule(a, i) == HasInterfaceRule(b, i)
    ensures MissingInterfaces(s, a) == MissingInterfaces(s, b)
  {
    if |s| > 0 {
      assert s[0] in s;
      forall i | i in s[1..]
        ensures HasInterfaceRule(a, i) == HasInterfaceRule(b, i)
      {
        assert i in s;
      }
      FilterMissingAgree(s[1..], a, b);
    }
  }

  /** `MissingInterfaces` unfolded once. */
  lemma MissingInterfacesCons(ifaces: seq<string>, rules: seq<Rule>)
    requires |ifaces| > 0
    ensures MissingInterfaces(ifaces, rules) ==
      (if HasInterfaceRule(rules, ifaces[0]) then [] else [ifaces[0]]) + MissingInterfaces(ifaces[1..], rules)
  {
  }

  /** The tail of a duplicate-free list is duplicate-free and lacks the head. */
  lemma NoDupTail(s: seq<string>)
    requires |s| > 0 && NoDup(s)
    ensures NoDup(s[1..]) && s[0] !in s[1..]
  {
    var tail := s[1..];
    forall p, q | 0 <= p < q < |tail|
      ensures tail[p] != tail[q]
    {
      assert tail[p] == s[p + 1] && tail[q] == s[q + 1];
    }
    forall k | 0 <= k < |tail|
      ensures tail[k] != s[0]
    {
      assert tail[k] == s[k + 1];
    }
  }

  /**
   * With each interface listed once (as extraction guarantees), generation
   * appends exactly one rule per interface lacking one, in list order.
   */
  lemma {:induction false} GenerateInterfaceRulesExact(ifaces: seq<string>, rules: seq<Rule>)
    requires NoDup(ifaces)
    ensures GenerateInterfaceRules(ifaces, rules) == rules + AutoInterfaceRules(MissingInterfaces(ifaces, rules))
    decreases |ifaces|, 1
  {
    if |ifaces| == 0 {
      assert MissingInterfaces(ifaces, rules) == [];
    } else {
      var i0 := ifaces[0];
      var tail := ifaces[1..];
      NoDupTail(ifaces);
      MissingInterfacesCons(ifaces, rules);
      if HasInterfaceRule(rules, i0) {
        GenerateInterfaceRulesExact(tail, rules);
        assert MissingInterfaces(ifaces, rules) == MissingInterfaces(tail, rules);
      } else {
        GenerateInterfaceRulesMissingHead(ifaces, rules);
      }
    }
  }

  /** A rule generated for an interface outside `s` leaves the interfaces of `s` missing as before. */
  lemma MissingAfterOtherRule(s: seq<string>, rules: seq<Rule>, j: string)
    requires j !in s
    ensures MissingInterfaces(s, rules + [AutoInterfaceRule(j)]) == MissingInterfaces(s, rules)
  {
    forall i | i in s
      ensures HasInterfaceRule(rules + [AutoInterfaceRule(j)], i) == HasInterfaceRule(rules, i)
    {
      HasInterfaceRuleAppend(rules, j, i);
    }
    FilterMissingAgree(s, rules + [AutoInterfaceRule(j)], rules);
  }

  /** The inductive step of `GenerateInterfaceRulesExact` when the head lacks a rule. */
  lemma {:induction false} GenerateInterfaceRulesMissingHead(ifaces: seq<string>, rules: seq<Rule>)
    requires NoDup(ifaces) && |ifaces| > 0 && !HasInterfaceRule(rules, ifaces[0])
    requires NoDup(ifaces[1..]) && ifaces[0] !in ifaces[1..]
    requires MissingInterfaces(ifaces, rules) == [ifaces[0]] + MissingInterfaces(ifaces[1..], rules)
    ensures GenerateInterfaceRules(ifaces, rules) == rules + AutoInterfaceRules(MissingInterfaces(ifaces, rules))
    decreases |ifaces|, 0
  {
    var i0 := ifaces[0];
    var tail := ifaces[1..];
    var next := rules + [AutoInterfaceRule(i0)];
    var missing := MissingInterfaces(tail, rules);
    calc {
      GenerateInterfaceRules(ifaces, rules);
      GenerateInterfaceRules(tail, next);
      { GenerateInterfaceRulesExact(tail, next); }
      next + AutoInterfaceRules(MissingInterfaces(tail, next));
      { MissingAfterOtherRule(tail, rules, i0); }
      rules + ([AutoInterfaceRule(i0)] + AutoInterfaceRules(missing));
      { assert ([i0] + missing)[1..] == missing; }
      rules + AutoInterfaceRules([i0] + missing);
    }
  }

  /** The single rule chipset generation can add. */
  const AutoChipsetRule: Rule := Rule("auto_chipset_whitelist", "chipset_whitelist", Error,
    "WiFi chipset {wifi.chipset} is not supported by OpenHD",
    NoParams.(componentType := Some("wifi"), useGlobalWhitelist := Some(true)),
    true)

  predicate HasChipsetRule(rules: seq<Rule>) {
    exists k :: 0 <= k < |rules| && rules[k].kind == "chipset_whitelist"
  }

  /** `generateChipsetRules`: one whitelist rule, added only if none exists and some chipset is known. */
  function GenerateChipsetRules(chipsets: seq<string>, rules: seq<Rule>): (r: seq<Rule>)
    ensures !HasChipsetRule(rules) && |chipsets| > 0 ==> r == rules + [AutoChipsetRule]
    ensures HasChipsetRule(rules) || |chipsets| == 0 ==> r == rules
    ensures |chipsets| > 0 ==> HasChipsetRule(r)
  {
    if !HasChipsetRule(rules) && |chipsets| > 0 then
      var r := rules + [AutoChipsetRule];
      assert r[|rules|].kind == "chipset_whitelist";
      r
    else rules
  }

  /** Generating the chipset rule twice adds nothing the second time. */
  lemma GenerateChipsetRulesIdempotent(chipsets: seq<string>, rules: seq<Rule>)
    ensures GenerateChipsetRules(chipsets, GenerateChipsetRules(chipsets, rules)) == GenerateChipsetRules(chipsets, rules)
  {
  }

  // ---------------------------------------------------------------------
  // updateConfiguration

  /** `metadata.auto_extracted_data`. */
  datatype ExtractedCounts = ExtractedCounts(chipsets: nat, interfaces: nat, manufacturers: nat)

  /** The updated data and the counts recorded in its metadata. */
  datatype Updated = Updated(data: ConfigData, counts: ExtractedCounts)

  /** The engine object created when the data has none. */
  const FreshEngine: Engine := Engine(Some(EmptyConfiguration), None, [], None, None)

  /** The `dynamic_rules` object created when the engine has none. */
  const DefaultDynamicRules: DynamicRules := DynamicRules(false, false, false)

  /** `list?.length || 0`. */
  function LengthOr0(s: Option<seq<string>>): (n: nat)
    ensures s.Some? ==> n == |s.value|
    ensures s.None? ==> n == 0
  {
    if s.Some? then |s.value| else 0
  }

  /** The configuration after the list refresh. */
  function RefreshLists(data: ConfigData, config: Configuration): (r: Configuration)
    ensures config.autoUpdateLists == Some(false) ==> r == config
    ensures config.autoUpdateLists != Some(false) ==>
      r == config.(supportedChipsets := Some(ExtractAllChipsets(data)),
                   supportedInterfaces := Some(ExtractAllInterfaces(data)),
                   validStatuses := Some(ExtractAllStatuses(data)),
                   manufacturers := Some(ExtractAllManufacturers(data)))
  {
    if config.autoUpdateLists != Some(false) then
      config.(supportedChipsets := Some(ExtractAllChipsets(data)),
              supportedInterfaces := Some(ExtractAllInterfaces(data)),
              validStatuses := Some(ExtractAllStatuses(data)),
              manufacturers := Some(ExtractAllManufacturers(data)))
    else config
  }

  /**
   * The rule generation of `updateConfiguration`: interface rules when switched
   * on, then the chipset rule when switched on, each on the rules so far.
   */
  function AutoGenerate(dyn: DynamicRules, ifaces: seq<string>, chipsets: seq<string>, rules: seq<Rule>): (r: seq<Rule>)
    ensures var withInterfaces := if dyn.autoGenerateInterfaceRules then GenerateInterfaceRules(ifaces, rules) else rules;
      r == if dyn.autoGenerateChipsetRules then GenerateChipsetRules(chipsets, withInterfaces) else withInterfaces
    // The existing rules stay first ...
    ensures |rules| <= |r| && r[..|rules|] == rules
    // ... every interface gets a rule when interface generation is on ...
    ensures dyn.autoGenerateInterfaceRules ==> forall i :: i in ifaces ==> HasInterfaceRule(r, i)
    // ... and a chipset rule is present when chipset generation is on and chipsets exist.
    ensures dyn.autoGenerateChipsetRules && |chipsets| > 0 ==> HasChipsetRule(r)
  {
    var withInterfaces := if dyn.autoGenerateInterfaceRules then GenerateInterfaceRules(ifaces, rules) else rules;
    ChipsetGenerationKeepsInterfaceCoverage(ifaces, chipsets, rules);
    if dyn.autoGenerateChipsetRules then
      var r := GenerateChipsetRules(chipsets, withInterfaces);
      assert r[..|rules|] == withInterfaces[..|rules|] by {
        assert r[..|withInterfaces|] == withInterfaces;
      }
      r
    else withInterfaces
  }

  /** `updateConfiguration`; the input is a value, so the deep clone is implicit. */
  function UpdateConfiguration(data: ConfigData): (r: Updated)
    // Only the engine changes, and it always ends up with a configuration and dynamic rules.
    ensures r.data.categories == data.categories
    ensures r.data.engine.Some? && r.data.engine.value.configuration.Some? && r.data.engine.value.dynamicRules.Some?
    // The lists are regenerated unless refreshing is switched off explicitly.
    ensures var before := (if data.engine.Some? then data.engine.value else FreshEngine).configuration.GetOr(EmptyConfiguration);
      var after := r.data.engine.value.configuration.value;
      (before.autoUpdateLists == Some(false) ==> after == before) &&
      (before.autoUpdateLists != Some(false) ==>
        after.supportedChipsets == Some(ExtractAllChipsets(data)) &&
        after.supportedInterfaces == Some(ExtractAllInterfaces(data)) &&
        after.validStatuses == Some(ExtractAllStatuses(data)) &&
        after.manufacturers == Some(ExtractAllManufacturers(data)) &&
        after.autoUpdateLists == before.autoUpdateLists)
    // Missing switches default to off, and with both generators off the rules are untouched.
    ensures (data.engine.None? || data.engine.value.dynamicRules.None?) ==>
      r.data.engine.value.dynamicRules == Some(DefaultDynamicRules)
    ensures (!r.data.engine.value.dynamicRules.value.autoGenerateInterfaceRules &&
             !r.data.engine.value.dynamicRules.value.autoGenerateChipsetRules) ==>
      r.data.engine.value.structuredRules == (if data.engine.Some? then data.engine.value.structuredRules else None)
    // With a generator switched on, the rules are the generated ones.
    ensures var dyn := r.data.engine.value.dynamicRules.value;
      (dyn.autoGenerateInterfaceRules || dyn.autoGenerateChipsetRules) ==>
        r.data.engine.value.structuredRules == Some(AutoGenerate(dyn, ExtractAllInterfaces(data), ExtractAllChipsets(data),
          (if data.engine.Some? then data.engine.value.structuredRules else None).GetOr([])))
    // The recorded counts are the lengths of the lists.
    ensures var after := r.data.engine.value.configuration.value;
      r.counts == ExtractedCounts(LengthOr0(after.supportedChipsets), LengthOr0(after.supportedInterfaces), LengthOr0(after.manufacturers))
    // The performance matrix and the engine-level chipset list are untouched.
    ensures data.engine.Some? ==>
      r.data.engine.value.performanceMatrix == data.engine.value.performanceMatrix &&
      r.data.engine.value.supportedChipsets == data.engine.value.supportedChipsets
  {
    var engine0 := if data.engine.Some? then data.engine.value else FreshEngine;
    var config := RefreshLists(data, engine0.configuration.GetOr(EmptyConfiguration));
    var dynamic := engine0.dynamicRules.GetOr(DefaultDynamicRules);
    var engine1 := engine0.(configuration := Some(config), dynamicRules := Some(dynamic));
    var engine2 :=
      if dynamic.autoGenerateInterfaceRules || dynamic.autoGenerateChipsetRules then
        engine1.(structuredRules := Some(AutoGenerate(dynamic, ExtractAllInterfaces(data), ExtractAllChipsets(data),
          engine1.structuredRules.GetOr([]))))
      else engine1;
    Updated(data.(engine := Some(engine2)),
      ExtractedCounts(LengthOr0(config.supportedChipsets), LengthOr0(config.supportedInterfaces), LengthOr0(config.manufacturers)))
  }

  /** Generated rules already cover every interface, so interface generation after it adds nothing. */
  lemma ChipsetGenerationKeepsInterfaceCoverage(ifaces: seq<string>, chipsets: seq<string>, rules: seq<Rule>)
    ensures forall i :: i in ifaces ==>
      HasInterfaceRule(GenerateChipsetRules(chipsets, GenerateInterfaceRules(ifaces, rules)), i)
  {
    var gen := GenerateInterfaceRules(ifaces, rules);
    var r := GenerateChipsetRules(chipsets, gen);
    forall i | i in ifaces
      ensures HasInterfaceRule(r, i)
    {
      var k :| 0 <= k < |gen| && gen[k].kind == "interface_mismatch" && gen[k].parameters.requiredInterface == Some(i);
      assert r[k] == gen[k];
    }
  }

  /** Updating already-updated data changes nothing. */
  lemma UpdateConfigurationIdempotent(data: ConfigData)
    ensures UpdateConfiguration(UpdateConfiguration(data).data) == UpdateConfiguration(data)
  {
    var once := UpdateConfiguration(data).data;
    assert Categories(once) == Categories(data);
    var ifaces := ExtractAllInterfaces(data);
    var chipsets := ExtractAllChipsets(data);
    var engine := once.engine.value;
    var dynamic := engine.dynamicRules.value;
    var rules := engine.structuredRules.GetOr([]);
    if dynamic.autoGenerateInterfaceRules {
      var before := (if data.engine.Some? then data.engine.value else FreshEngine).structuredRules.GetOr([]);
      var gen := GenerateInterfaceRules(ifaces, before);
      ChipsetGenerationKeepsInterfaceCoverage(ifaces, chipsets, before);
      if dynamic.autoGenerateChipsetRules {
        GenerateInterfaceRulesCovered(ifaces, GenerateChipsetRules(chipsets, gen));
      } else {
        GenerateInterfaceRulesCovered(ifaces, gen);
      }
    }
    if dynamic.autoGenerateChipsetRules {
      var afterInterfaces := if dynamic.autoGenerateInterfaceRules then GenerateInterfaceRules(ifaces, rules) else rules;
      GenerateChipsetRulesIdempotent(chipsets, afterInterfaces);
    }
  }

  // ---------------------------------------------------------------------
  // validateComponentReferences

  /** The lists a component's values are checked against. */
  datatype KnownLists = KnownLists(chipsets: seq<string>, interfaces: seq<string>, statuses: seq<string>)

  /** Every chipset, interface and status the component uses is on the lists. */
  ghost predicate References(c: Component, known: KnownLists) {
    (forall x :: x in ChipsetTags(c) ==> x in known.chipsets) &&
    (forall x :: x in InterfaceTags(c) ==> x in known.interfaces) &&
    (forall x :: x in StatusTags(c) ==> x in known.statuses)
  }

  /** `${categoryName}[${index}] (${component.name})`. */
  function ComponentPath(key: string, index: nat, c: Component): string {
    key + "[" + NatToString(index) + "] (" + c.name + ")"
  }

  /** One warning per entry of the `interfaces` array that is not a known interface. */
  function ArrayWarnings(path: string, ifaces: seq<string>, known: seq<string>): (r: seq<string>)
    ensures r == [] <==> forall x :: x in ifaces ==> x in known
    ensures |r| <= |ifaces|
  {
    if |ifaces| == 0 then []
    else
      var rest := ArrayWarnings(path, ifaces[1..], known);
      assert (forall x :: x in ifaces ==> x in known) <==> ifaces[0] in known && forall x :: x in ifaces[1..] ==> x in known by {
        assert forall x :: x in ifaces ==> x == ifaces[0] || x in ifaces[1..] by {
          forall x | x in ifaces
            ensures x == ifaces[0] || x in ifaces[1..]
          {
            var k :| 0 <= k < |ifaces| && ifaces[k] == x;
            if k > 0 {
              assert ifaces[1..][k - 1] == x;
            }
          }
        }
      }
      (if ifaces[0] !in known then [path + ": Unknown interface '" + ifaces[0] + "' in interfaces array"] else []) + rest
  }

  /** The warnings for one component: chipset, interface, interfaces array, status. */
  function ComponentWarnings(path: string, c: Component, known: KnownLists): (r: seq<string>)
    ensures r == [] <==> References(c, known)
  {
    var chipset := ChipsetOf(c);
    var iface := InterfaceOf(c);
    (if TruthyStr(chipset) && chipset.value !in known.chipsets then [path + ": Unknown chipset '" + chipset.value + "'"] else []) +
    (if TruthyStr(iface) && iface.value !in known.interfaces then [path + ": Unknown interface '" + iface.value + "'"] else []) +
    ArrayWarnings(path, InterfacesOf(c).GetOr([]), known.interfaces) +
    (if |c.status| > 0 && c.status !in known.statuses then [path + ": Unknown status '" + c.status + "'"] else [])
  }

  /** The warnings for a category's components, numbered from `index`. */
  function ComponentsWarnings(key: string, comps: seq<Component>, index: nat, known: KnownLists): (r: seq<string>)
    ensures r == [] <==> forall c :: c in comps ==> References(c, known)
  {
    if |comps| == 0 then []
    else
      assert forall c :: c in comps ==> c == comps[0] || c in comps[1..] by {
        forall c | c in comps
          ensures c == comps[0] || c in comps[1..]
        {
          var k :| 0 <= k < |comps| && comps[k] == c;
          if k > 0 {
            assert comps[1..][k - 1] == c;
          }
        }
      }
      ComponentWarnings(ComponentPath(key, index, comps[0]), comps[0], known) +
      ComponentsWarnings(key, comps[1..], index + 1, known)
  }

  /** The warnings for every category in key order. */
  function CategoriesWarnings(cats: seq<Category>, known: KnownLists): (r: seq<string>)
    ensures r == [] <==> forall c :: c in AllComponents(cats) ==> References(c, known)
  {
    if |cats| == 0 then []
    else
      var rest := CategoriesWarnings(cats[1..], known);
      assert forall c :: c in AllComponents(cats) <==> c in cats[0].components || c in AllComponents(cats[1..]) by {
        forall c
          ensures c in AllComponents(cats) <==> c in cats[0].components || c in AllComponents(cats[1..])
        {
          if c in AllComponents(cats) {
            var i :| 0 <= i < |cats| && c in cats[i].components;
            if i > 0 {
              assert cats[1..][i - 1] == cats[i];
            }
          }
          if c in AllComponents(cats[1..]) {
            var i :| 0 <= i < |cats[1..]| && c in cats[1..][i].components;
            assert cats[i + 1] == cats[1..][i];
          }
        }
      }
      ComponentsWarnings(cats[0].key, cats[0].components, 0, known) + rest
  }

  /** `validateComponentReferences`: nothing without a configuration, otherwise one warning per unknown value. */
  function ValidateComponentReferences(data: ConfigData): (r: seq<string>)
    ensures (data.engine.None? || data.engine.value.configuration.None?) ==> r == []
    ensures data.engine.Some? && data.engine.value.configuration.Some? ==>
      var config := data.engine.value.configuration.value;
      var known := KnownLists(config.supportedChipsets.GetOr([]), config.supportedInterfaces.GetOr([]), config.validStatuses.GetOr([]));
      (r == [] <==> forall c :: c in AllComponents(Categories(data)) ==> References(c, known))
  {
    if data.engine.None? || data.engine.value.configuration.None? then []
    else
      var config := data.engine.value.configuration.value;
      CategoriesWarnings(Categories(data),
        KnownLists(config.supportedChipsets.GetOr([]), config.supportedInterfaces.GetOr([]), config.validStatuses.GetOr([])))
  }

  /** Data whose lists were just regenerated has no unknown references. */
  lemma UpdatedDataValidates(data: ConfigData)
    requires (if data.engine.Some? then data.engine.value else FreshEngine).configuration.GetOr(EmptyConfiguration).autoUpdateLists != Some(false)
    ensures ValidateComponentReferences(UpdateConfiguration(data).data) == []
  {
    var updated := UpdateConfiguration(data).data;
    var config := updated.engine.value.configuration.value;
    var known := KnownLists(config.supportedChipsets.GetOr([]), config.supportedInterfaces.GetOr([]), config.validStatuses.GetOr([]));
    forall c | c in AllComponents(Categories(updated))
      ensures References(c, known)
    {
      assert c in AllComponents(Categories(data));
    }
  }

  // ---------------------------------------------------------------------
  // generateUsageReport

  /** How often each value occurs in `tags`. */
  function Tally(tags: seq<string>): (r: map<string, nat>)
    ensures forall k :: k in r <==> k in tags
    ensures forall k :: k in r ==> r[k] == Count(tags, k)
  {
    if |tags| == 0 then map[]
    else
      var init := tags[..|tags| - 1];
      var x := tags[|tags| - 1];
      var m := Tally(init);
      assert tags == init + [x];
      forall k
        ensures Count(tags, k) == Count(init, k) + (if k == x then 1 else 0)
      {
        CountAppend(init, [x], k);
      }
      m[x := (if x in m then m[x] else 0) + 1]
  }

  /** The usage report, without its timestamp. */
  datatype UsageReport = UsageReport(
    chipsetUsage: map<string, nat>,
    interfaceUsage: map<string, nat>,
    statusUsage: map<string, nat>,
    manufacturerUsage: map<string, nat>,
    totalComponents: nat)

  /** The chipset tally: keyed by the non-empty chipsets in use. */
  function ChipsetUsage(all: seq<Component>): (r: map<string, nat>)
    ensures forall k :: k in r <==> |k| > 0 && exists c :: c in all && ChipsetOf(c) == Some(k)
    ensures forall k :: k in r ==> r[k] == Count(FlatMap(all, ChipsetTags), k)
  {
    Tally(FlatMap(all, ChipsetTags))
  }

  /** The status tally: keyed by the non-empty statuses in use. */
  function StatusUsage(all: seq<Component>): (r: map<string, nat>)
    ensures forall k :: k in r <==> |k| > 0 && exists c :: c in all && c.status == k
    ensures forall k :: k in r ==> r[k] == Count(FlatMap(all, StatusTags), k)
  {
    Tally(FlatMap(all, StatusTags))
  }

  /** The manufacturer tally: keyed by the non-empty manufacturers in use. */
  function ManufacturerUsage(all: seq<Component>): (r: map<string, nat>)
    ensures forall k :: k in r <==> |k| > 0 && exists c :: c in all && c.manufacturer == k
    ensures forall k :: k in r ==> r[k] == Count(FlatMap(all, ManufacturerTags), k)
  {
    Tally(FlatMap(all, ManufacturerTags))
  }

  /** `generateUsageReport`. */
  function GenerateUsageReport(data: ConfigData): (r: UsageReport)
    ensures r.totalComponents == |AllComponents(Categories(data))|
    ensures forall k :: k in r.interfaceUsage <==> exists c :: c in AllComponents(Categories(data)) && k in InterfaceTags(c)
    ensures forall k :: k in r.interfaceUsage ==> r.interfaceUsage[k] == Count(FlatMap(AllComponents(Categories(data)), InterfaceTags), k)
    ensures forall k :: k in r.chipsetUsage <==> |k| > 0 && exists c :: c in AllComponents(Categories(data)) && ChipsetOf(c) == Some(k)
    ensures forall k :: k in r.statusUsage <==> |k| > 0 && exists c :: c in AllComponents(Categories(data)) && c.status == k
    ensures forall k :: k in r.manufacturerUsage <==> |k| > 0 && exists c :: c in AllComponents(Categories(data)) && c.manufacturer == k
    ensures forall k :: k in r.chipsetUsage ==> r.chipsetUsage[k] == Count(FlatMap(AllComponents(Categories(data)), ChipsetTags), k)
    ensures forall k :: k in r.statusUsage ==> r.statusUsage[k] == Count(FlatMap(AllComponents(Categories(data)), StatusTags), k)
    ensures forall k :: k in r.manufacturerUsage ==> r.manufacturerUsage[k] == Count(FlatMap(AllComponents(Categories(data)), ManufacturerTags), k)
  {
    var all := AllComponents(Categories(data));
    UsageReport(ChipsetUsage(all), Tally(FlatMap(all, InterfaceTags)), StatusUsage(all), ManufacturerUsage(all), |all|)
  }

  /** The status tallies add up to the number of components with a non-empty status. */
  lemma {:induction false} StatusTagsCount(comps: seq<Component>)
    ensures |FlatMap(comps, StatusTags)| == |Filter(comps, (c: Component) => |c.status| > 0)|
  {
    if |comps| > 0 {
      StatusTagsCount(comps[1..]);
    }
  }
}

=== FILE: data_validator.dfy ===
/**
 * The catalogue validator. It works on raw records, because its purpose is
 * to find fields that are missing or have the wrong shape; the typed
 * component model cannot express those.
 */
module DataValidator {
  import opened Wrappers
  import opened Strings
  import opened Seqs
  import opened HardwareTypes

  /** A property expected to hold an array: missing, present but not an array, or an array. */
  datatype RawList = Absent | NotList(text: string) | List(items: seq<string>)

  /**
   * One component as parsed JSON. `priceUsd` holds the JavaScript rendering
   * of the `price_usd` number; equal numbers render equally.
   */
  datatype RawComponent = RawComponent(
    id: Option<string>,
    name: Option<string>,
    status: Option<string>,
    roleSupport: RawList,
    interfaces: RawList,
    iface: Option<string>,
    sensor: Option<string>,
    chipset: Option<string>,
    bands: RawList,
    priceUsd: Option<string>,
    compatibleSbcs: Option<seq<string>>)

  /** One entry of `component_categories`; `components` may be missing. */
  datatype RawCategory = RawCategory(key: string, components: Option<seq<RawComponent>>)

  /** The parts of the data file the validator looks at. */
  datatype RawData = RawData(categories: Option<seq<RawCategory>>, hasEngine: bool)

  /** `ValidationResult`. */
  datatype ValidationResult = ValidationResult(isValid: bool, errors: seq<string>, warnings: seq<string>)

  /** The invariant every step keeps: valid exactly when no error was reported. */
  predicate Consistent(r: ValidationResult) {
    r.isValid <==> |r.errors| == 0
  }

  /** `r` extends `before`: both lists only grow at the end. */
  predicate Extends(r: ValidationResult, before: ValidationResult) {
    |before.errors| <= |r.errors| && r.errors[..|before.errors|] == before.errors &&
    |before.warnings| <= |r.warnings| && r.warnings[..|before.warnings|] == before.warnings
  }

  /** Push errors and warnings; pushing any error also clears `isValid`. */
  function Report(r: ValidationResult, errors: seq<string>, warnings: seq<string>): (r': ValidationResult)
    ensures Consistent(r) ==> Consistent(r')
    ensures Extends(r', r)
    ensures r'.errors == r.errors + errors && r'.warnings == r.warnings + warnings
  {
    assert (r.errors + errors)[..|r.errors|] == r.errors;
    assert (r.warnings + warnings)[..|r.warnings|] == r.warnings;
    ValidationResult(if |errors| > 0 then false else r.isValid, r.errors + errors, r.warnings + warnings)
  }

  lemma ExtendsTransitive(a: ValidationResult, b: ValidationResult, c: ValidationResult)
    requires Extends(b, a) && Extends(c, b)
    ensures Extends(c, a)
  {
    assert c.errors[..|a.errors|] == c.errors[..|b.errors|][..|a.errors|];
    assert c.warnings[..|a.warnings|] == c.warnings[..|b.warnings|][..|a.warnings|];
  }

  // ---------------------------------------------------------------------
  // Component consistency

  /** The required fields of a component of category `key` are present with the right shape. */
  ghost predicate Complete(key: string, c: RawComponent) {
    TruthyStr(c.id) && TruthyStr(c.name) &&
    (key == "sbcs" ==> c.roleSupport.List? && c.interfaces.List?) &&
    (key == "cameras" ==> TruthyStr(c.iface)) &&
    (key == "wifi_adapters" ==> TruthyStr(c.chipset) && c.bands.List?)
  }

  /** The component raises no warning: a known status, and a sensor for a camera. */
  ghost predicate Unremarkable(key: string, c: RawComponent) {
    TruthyStr(c.status) && c.status.value in StatusNames && (key == "cameras" ==> TruthyStr(c.sensor))
  }

  /** The errors for one component, in the order the checks run. */
  function ComponentErrors(path: string, key: string, c: RawComponent): (e: seq<string>)
    ensures |e| == 0 <==> Complete(key, c)
    ensures !TruthyStr(c.id) ==> path + ": Missing required field 'id'" in e
    ensures !TruthyStr(c.name) ==> path + ": Missing required field 'name'" in e
  {
    (if !TruthyStr(c.id) then [path + ": Missing required field 'id'"] else []) +
    (if !TruthyStr(c.name) then [path + ": Missing required field 'name'"] else []) +
    (if key == "sbcs" then
       (if !c.roleSupport.List? then [path + ": SBC missing role_support array"] else []) +
       (if !c.interfaces.List? then [path + ": SBC missing interfaces array"] else [])
     else []) +
    (if key == "cameras" && !TruthyStr(c.iface) then [path + ": Camera missing interface"] else []) +
    (if key == "wifi_adapters" then
       (if !TruthyStr(c.chipset) then [path + ": WiFi adapter missing chipset"] else []) +
       (if !c.bands.List? then [path + ": WiFi adapter missing bands array"] else [])
     else [])
  }

  /** The warnings for one component; a missing or unknown status is never an error. */
  function ComponentWarnings(path: string, key: string, c: RawComponent): (w: seq<string>)
    ensures |w| == 0 <==> Unremarkable(key, c)
    ensures !TruthyStr(c.status) ==> path + ": Missing status field" in w
  {
    (if !TruthyStr(c.status) then [path + ": Missing status field"] else []) +
    (if TruthyStr(c.status) && c.status.value !in StatusNames then [path + ": Invalid status '" + c.status.value + "'"] else []) +
    (if key == "cameras" && !TruthyStr(c.sensor) then [path + ": Camera missing sensor information"] else [])
  }

  /** `${categoryName}[${index}]`. */
  function Path(key: string, index: nat): string {
    key + "[" + NatToString(index) + "]"
  }

  /** The checks for a category's components, numbered from `index`. */
  function CheckComponents(key: string, comps: seq<RawComponent>, index: nat, r: ValidationResult): (r': ValidationResult)
    ensures Consistent(r) ==> Consistent(r')
    ensures Extends(r', r)
    ensures |r'.errors| == |r.errors| <==> forall c :: c in comps ==> Complete(key, c)
    decreases |comps|
  {
    if |comps| == 0 then r
    else
      var path := Path(key, index);
      var r1 := Report(r, ComponentErrors(path, key, comps[0]), ComponentWarnings(path, key, comps[0]));
      var r2 := CheckComponents(key, comps[1..], index + 1, r1);
      ExtendsTransitive(r, r1, r2);
      assert forall c :: c in comps <==> c == comps[0] || c in comps[1..] by {
        forall c
          ensures c in comps <==> c == comps[0] || c in comps[1..]
        {
          if c in comps {
            var k :| 0 <= k < |comps| && comps[k] == c;
            if k > 0 {
              assert comps[1..][k - 1] == c;
            }
          }
        }
      }
      r2
  }

  /** A category is in order: it has a components array and every component is complete. */
  ghost predicate CategoryComplete(cat: RawCategory) {
    cat.components.Some? && forall c :: c in cat.components.value ==> Complete(cat.key, c)
  }

  /** `validateComponentConsistency`: a category without components is an error and is skipped. */
  function ConsistencyPass(cats: seq<RawCategory>, r: ValidationResult): (r': ValidationResult)
    ensures Consistent(r) ==> Consistent(r')
    ensures Extends(r', r)
    ensures |r'.errors| == |r.errors| <==> forall i :: 0 <= i < |cats| ==> CategoryComplete(cats[i])
    ensures forall i :: 0 <= i < |cats| && cats[i].components.None? ==>
      "Category " + cats[i].key + " missing components array" in r'.errors
  {
    if |cats| == 0 then r
    else
      var cat := cats[0];
      var r1 :=
        if cat.components.None? then Report(r, ["Category " + cat.key + " missing components array"], [])
        else CheckComponents(cat.key, cat.components.value, 0, r);
      var r2 := ConsistencyPass(cats[1..], r1);
      ExtendsTransitive(r, r1, r2);
      assert (forall i :: 0 <= i < |cats| ==> CategoryComplete(cats[i])) <==>
        CategoryComplete(cat) && forall i :: 0 <= i < |cats[1..]| ==> CategoryComplete(cats[1..][i]) by {
        if forall i :: 0 <= i < |cats[1..]| ==> CategoryComplete(cats[1..][i]) {
          forall i | 1 <= i < |cats|
            ensures CategoryComplete(cats[i])
          {
            assert cats[i] == cats[1..][i - 1];
          }
        }
      }
      assert cat.components.None? ==> "Category " + cat.key + " missing components array" in r2.errors by {
        if cat.components.None? {
          assert r2.errors[..|r1.errors|] == r1.errors;
          assert r1.errors[|r.errors|] == "Category " + cat.key + " missing components array";
          assert r2.errors[|r.errors|] == r1.errors[|r.errors|];
        }
      }
      assert forall i :: 1 <= i < |cats| ==> cats[i] == cats[1..][i - 1];
      r2
  }

  // ---------------------------------------------------------------------
  // Price consistency

  /** `price_usd` is truthy: neither 0 nor NaN. */
  predicate PriceTruthy(p: Option<string>) {
    p.Some? && p.value != "0" && p.value != "NaN"
  }

  /** Every truthy price, in component order. */
  function Prices(comps: seq<RawComponent>): (r: seq<string>)
    ensures forall p :: p in r <==> exists c :: c in comps && PriceTruthy(c.priceUsd) && c.priceUsd.value == p
  {
    FlatMap(comps, (c: RawComponent) => if PriceTruthy(c.priceUsd) then [c.priceUsd.value] else [])
  }

  /** The components that land in the group of `price`: those whose truthy price renders as `price`. */
  function HasPrice(price: string): RawComponent -> bool {
    (c: RawComponent) => PriceTruthy(c.priceUsd) && c.priceUsd.value == price
  }

  /** A component's name as `join` renders it: a missing name becomes the empty string. */
  function NameText(c: RawComponent): string {
    c.name.GetOr("")
  }

  /** The names pushed into the group of `price`, rendered as `join` renders them. */
  function NamesWithPrice(comps: seq<RawComponent>, price: string): (r: seq<string>)
    ensures |r| == Count(Prices(comps), price)
    ensures r == Map(Filter(comps, HasPrice(price)), NameText)
  {
    if |comps| == 0 then []
    else
      var rest := NamesWithPrice(comps[1..], price);
      assert Prices(comps) == (if PriceTruthy(comps[0].priceUsd) then [comps[0].priceUsd.value] else []) + Prices(comps[1..]);
      CountAppend(if PriceTruthy(comps[0].priceUsd) then [comps[0].priceUsd.value] else [], Prices(comps[1..]), price);
      if HasPrice(price)(comps[0]) then
        assert Map(Filter(comps, HasPrice(price)), NameText)
          == Map([comps[0]] + Filter(comps[1..], HasPrice(price)), NameText);
        MapAppend([comps[0]], Filter(comps[1..], HasPrice(price)), NameText);
        [NameText(comps[0])] + rest
      else rest
  }

  /** The prices whose group holds three or more components. */
  function Crowded(comps: seq<RawComponent>): string -> bool {
    (p: string) => Count(Prices(comps), p) >= 3
  }

  /** The warning text for the group of `price` in the category keyed `key`. */
  function SuspiciousPrice(key: string, price: string, names: seq<string>): string {
    "Suspicious: " + NatToString(|names|) + " " + key + " components have identical price $" + price + ": " + Join(names, ", ")
  }

  /** The warning for `price` among `comps`, with that price's group of names. */
  function WarningFor(key: string, comps: seq<RawComponent>): string -> string {
    (p: string) => SuspiciousPrice(key, p, NamesWithPrice(comps, p))
  }

  /** One warning per price group (in first-seen order) of three or more components. */
  function PriceWarnings(key: string, comps: seq<RawComponent>, prices: seq<string>): (w: seq<string>)
    ensures |w| == |Filter(prices, Crowded(comps))|
    ensures w == Map(Filter(prices, Crowded(comps)), WarningFor(key, comps))
  {
    if |prices| == 0 then []
    else
      var names := NamesWithPrice(comps, prices[0]);
      var rest := PriceWarnings(key, comps, prices[1..]);
      if |names| >= 3 then
        assert Filter(prices, Crowded(comps)) == [prices[0]] + Filter(prices[1..], Crowded(comps));
        MapAppend([prices[0]], Filter(prices[1..], Crowded(comps)), WarningFor(key, comps));
        [SuspiciousPrice(key, prices[0], names)] + rest
      else rest
  }

  /** `validatePriceConsistency`: warnings only, so validity is untouched. */
  function PricePass(cats: seq<RawCategory>, r: ValidationResult): (r': ValidationResult)
    ensures r'.errors == r.errors && r'.isValid == r.isValid
    ensures Extends(r', r)
  {
    if |cats| == 0 then r
    else
      var r1 :=
        if cats[0].components.None? then r
        else
          var comps := cats[0].components.value;
          Report(r, [], PriceWarnings(cats[0].key, comps, Dedup(Prices(comps))));
      var r2 := PricePass(cats[1..], r1);
      ExtendsTransitive(r, r1, r2);
      r2
  }

  /** A category's price warnings count the distinct prices shared by at least three of its components. */
  lemma PriceWarningsCount(key: string, comps: seq<RawComponent>)
    ensures var distinct := Dedup(Prices(comps));
      |PriceWarnings(key, comps, distinct)| == |Filter(distinct, Crowded(comps))|
    ensures NoDup(Dedup(Prices(comps)))
  {
  }

  // ---------------------------------------------------------------------
  // Compatibility lists

  /** The category stored under `key`, if any. */
  function FindCategory(cats: seq<RawCategory>, key: string): (r: Option<RawCategory>)
    ensures r.Some? ==> r.value in cats && r.value.key == key
    ensures r.None? ==> forall i :: 0 <= i < |cats| ==> cats[i].key != key
  {
    if |cats| == 0 then None
    else if cats[0].key == key then Some(cats[0])
    else FindCategory(cats[1..], key)
  }

  /** `x?.includes('csi')` on an `interfaces` value: a substring test on a string, membership on an array. */
  predicate MentionsCsi(v: RawList) {
    match v
    case Absent => false
    case NotList(text) => Contains(text, "csi")
    case List(items) => "csi" in items
  }

  /** A template literal renders `undefined` as the word. */
  function Show(v: Option<string>): string {
    v.GetOr("undefined")
  }

  /** Some SBC has the id `sbcId`. */
  predicate SbcExists(sbcs: seq<RawComponent>, sbcId: string) {
    exists s :: s in sbcs && s.id == Some(sbcId)
  }

  /** The warnings for one camera's `compatible_sbcs` entries that name no SBC. */
  function DanglingWarnings(camera: RawComponent, ids: seq<string>, sbcs: seq<RawComponent>): (w: seq<string>)
    ensures |w| == 0 <==> forall id :: id in ids ==> SbcExists(sbcs, id)
  {
    if |ids| == 0 then []
    else
      assert forall id :: id in ids <==> id == ids[0] || id in ids[1..] by {
        forall id
          ensures id in ids <==> id == ids[0] || id in ids[1..]
        {
          if id in ids {
            var k :| 0 <= k < |ids| && ids[k] == id;
            if k > 0 {
              assert ids[1..][k - 1] == id;
            }
          }
        }
      }
      (if !SbcExists(sbcs, ids[0]) then ["Camera " + Show(camera.name) + ": References non-existent SBC '" + ids[0] + "'"] else []) +
      DanglingWarnings(camera, ids[1..], sbcs)
  }

  /** The warnings for every camera's dangling references, in camera order. */
  function CameraWarnings(cameras: seq<RawComponent>, sbcs: seq<RawComponent>): (w: seq<string>)
    ensures |w| == 0 <==> forall c, id :: c in cameras && c.compatibleSbcs.Some? && id in c.compatibleSbcs.value ==> SbcExists(sbcs, id)
  {
    if |cameras| == 0 then []
    else
      assert forall c :: c in cameras <==> c == cameras[0] || c in cameras[1..] by {
        forall c
          ensures c in cameras <==> c == cameras[0] || c in cameras[1..]
        {
          if c in cameras {
            var k :| 0 <= k < |cameras| && cameras[k] == c;
            if k > 0 {
              assert cameras[1..][k - 1] == c;
            }
          }
        }
      }
      (if cameras[0].compatibleSbcs.Some? then DanglingWarnings(cameras[0], cameras[0].compatibleSbcs.value, sbcs) else []) +
      CameraWarnings(cameras[1..], sbcs)
  }

  /** Some camera lists `sbcId` in its `compatible_sbcs`. */
  predicate ListedByCamera(cameras: seq<RawComponent>, sbcId: Option<string>) {
    sbcId.Some? && exists c :: c in cameras && c.compatibleSbcs.Some? && sbcId.value in c.compatibleSbcs.value
  }

  /** The warnings for SBCs with a CSI interface that no camera lists. */
  function OrphanWarnings(sbcs: seq<RawComponent>, cameras: seq<RawComponent>): (w: seq<string>)
    ensures |w| == 0 <==> forall s :: s in sbcs && MentionsCsi(s.interfaces) ==> ListedByCamera(cameras, s.id)
  {
    if |sbcs| == 0 then []
    else
      assert forall s :: s in sbcs <==> s == sbcs[0] || s in sbcs[1..] by {
        forall s
          ensures s in sbcs <==> s == sbcs[0] || s in sbcs[1..]
        {
          if s in sbcs {
            var k :| 0 <= k < |sbcs| && sbcs[k] == s;
            if k > 0 {
              assert sbcs[1..][k - 1] == s;
            }
          }
        }
      }
      var s := sbcs[0];
      (if !ListedByCamera(cameras, s.id) && MentionsCsi(s.interfaces) then
         ["SBC " + Show(s.name) + ": No cameras list it as compatible, but it has CSI interface"]
       else []) +
      OrphanWarnings(sbcs[1..], cameras)
  }

  /**
   * `validateCompatibilityLists`, reading a missing `components` array as
   * empty (the first pass has already reported it as an error).
   */
  function ListsPass(cats: seq<RawCategory>, r: ValidationResult): (r': ValidationResult)
    ensures r'.errors == r.errors && r'.isValid == r.isValid
    ensures Extends(r', r)
    ensures FindCategory(cats, "cameras").None? ==> r' == r
  {
    match FindCategory(cats, "cameras")
    case None => r
    case Some(camCat) =>
      var cameras := camCat.components.GetOr([]);
      var sbcCat := FindCategory(cats, "sbcs");
      var sbcs := if sbcCat.Some? then sbcCat.value.components.GetOr([]) else [];
      Report(r, [], CameraWarnings(cameras, sbcs) + OrphanWarnings(sbcs, cameras))
  }

  /** `validateCompatibilityLists` as written: a category without `components` makes it throw. */
  function ListsPassAsWritten(cats: seq<RawCategory>, r: ValidationResult): (r': Result<ValidationResult>)
  {
    match FindCategory(cats, "cameras")
    case None => Success(r)
    case Some(camCat) =>
      if camCat.components.None? then Failure("TypeError: Cannot read properties of undefined (reading 'forEach')")
      else
        var cameras := camCat.components.value;
        var sbcCat := FindCategory(cats, "sbcs");
        var referenced := exists c :: c in cameras && c.compatibleSbcs.Some? && |c.compatibleSbcs.value| > 0;
        if sbcCat.Some? && sbcCat.value.components.None? then
          Failure("TypeError: Cannot read properties of undefined (reading '" + (if referenced then "some" else "forEach") + "')")
        else
          var sbcs := if sbcCat.Some? then sbcCat.value.components.value else [];
          Success(Report(r, [], CameraWarnings(cameras, sbcs) + OrphanWarnings(sbcs, cameras)))
  }

  /** Whenever the code as written returns, it returns what the guarded pass returns. */
  lemma ListsPassAgreesWhenItReturns(cats: seq<RawCategory>, r: ValidationResult)
    ensures ListsPassAsWritten(cats, r).Success? ==> ListsPassAsWritten(cats, r).value == ListsPass(cats, r)
  {
  }

  // ---------------------------------------------------------------------
  // The whole validation

  /** The three passes over the categories, in order. */
  function RunPasses(cats: seq<RawCategory>, r: ValidationResult): (r': ValidationResult)
    ensures Consistent(r) ==> Consistent(r')
    ensures Extends(r', r)
    ensures |r'.errors| == |r.errors| <==> forall i :: 0 <= i < |cats| ==> CategoryComplete(cats[i])
  {
    var r3 := ConsistencyPass(cats, r);
    var r4 := PricePass(cats, r3);
    var r5 := ListsPass(cats, r4);
    ExtendsTransitive(r, r3, r4);
    ExtendsTransitive(r, r4, r5);
    r5
  }

  /** The two top-level presence checks. */
  function CheckTopLevel(data: RawData): (r: ValidationResult)
    ensures Consistent(r) && r.warnings == []
    ensures |r.errors| == 0 <==> data.categories.Some? && data.hasEngine
    ensures data.categories.None? ==> "Missing component_categories" in r.errors
    ensures !data.hasEngine ==> "Missing compatibility_engine" in r.errors
  {
    var r0 := ValidationResult(true, [], []);
    var r1 := if data.categories.None? then Report(r0, ["Missing component_categories"], []) else r0;
    var r2 := if !data.hasEngine then Report(r1, ["Missing compatibility_engine"], []) else r1;
    assert data.categories.None? ==> r2.errors[0] == "Missing component_categories";
    assert !data.hasEngine ==> r2.errors[|r2.errors| - 1] == "Missing compatibility_engine";
    r2
  }

  /** `validateConfiguratorData`, with the compatibility-list pass guarded against missing arrays. */
  function ValidateConfiguratorData(data: RawData): (r: ValidationResult)
    ensures Consistent(r)
    ensures data.categories.None? ==> "Missing component_categories" in r.errors
    ensures !data.hasEngine ==> "Missing compatibility_engine" in r.errors
    ensures r.isValid <==> (data.categories.Some? && data.hasEngine &&
      forall i :: 0 <= i < |data.categories.value| ==> CategoryComplete(data.categories.value[i]))
  {
    var top := CheckTopLevel(data);
    if data.categories.None? then top
    else
      var r := RunPasses(data.categories.value, top);
      assert forall x :: x in top.errors ==> x in r.errors by {
        assert r.errors[..|top.errors|] == top.errors;
        forall x | x in top.errors
          ensures x in r.errors
        {
          var k :| 0 <= k < |top.errors| && top.errors[k] == x;
          assert r.errors[k] == top.errors[k];
        }
      }
      r
  }

  /** The validation as written: it throws where the guarded pass reads a missing array as empty. */
  function ValidateConfiguratorDataAsWritten(data: RawData): (r: Result<ValidationResult>)
  {
    var top := CheckTopLevel(data);
    if data.categories.None? then Success(top)
    else
      var cats := data.categories.value;
      ListsPassAsWritten(cats, PricePass(cats, ConsistencyPass(cats, top)))
  }

  /** The code as written throws on data its first pass already reports as invalid; the guarded version reports instead. */
  lemma ValidatorThrowsOnMissingCameraComponents()
    ensures var data := RawData(Some([RawCategory("cameras", None)]), true);
      ValidateConfiguratorDataAsWritten(data).Failure? &&
      ValidateConfiguratorData(data) == ValidationResult(false, ["Category cameras missing components array"], [])
  {
    MissingComponentsReported();
  }

  /** The guarded validator on a camera category without a components array: one error, no warnings. */
  lemma MissingComponentsReported()
    ensures var data := RawData(Some([RawCategory("cameras", None)]), true);
      ValidateConfiguratorData(data) == ValidationResult(false, ["Category cameras missing components array"], [])
  {
    var data := RawData(Some([RawCategory("cameras", None)]), true);
    var cats := data.categories.value;
    var top := CheckTopLevel(data);
    assert top == ValidationResult(true, [], []);
    var r1 := Report(top, ["Category cameras missing components array"], []);
    MissingComponentsPasses(top);
    assert RunPasses(cats, top) == r1;
  }

  /** The error text for a camera category without components. */
  lemma MissingComponentsMessage()
    ensures "Category " + "cameras" + " missing components array" == "Category cameras missing components array"
  {
  }

  /** The three passes over a lone camera category without components: the first reports it, the others add nothing. */
  lemma MissingComponentsPasses(r: ValidationResult)
    ensures var cats := [RawCategory("cameras", None)];
      var r1 := Report(r, ["Category cameras missing components array"], []);
      ConsistencyPass(cats, r) == r1 && PricePass(cats, r1) == r1 && ListsPass(cats, r1) == r1
  {
    var cats := [RawCategory("cameras", None)];
    var r1 := Report(r, ["Category cameras missing components array"], []);
    MissingComponentsMessage();
    assert cats[1..] == [];
    assert ConsistencyPass(cats[1..], r1) == r1;
    assert ConsistencyPass(cats, r) == r1;
    assert PricePass(cats, r1) == r1 by {
      assert PricePass(cats[1..], r1) == r1;
    }
    assert ListsPass(cats, r1) == Report(r1, [], CameraWarnings([], []) + OrphanWarnings([], []));
  }

  /** Whenever the validation as written returns, it agrees with the guarded version. */
  lemma ValidatorAgreesWhenItReturns(data: RawData)
    ensures ValidateConfiguratorDataAsWritten(data).Success? ==>
      ValidateConfiguratorDataAsWritten(data).value == ValidateConfiguratorData(data)
  {
    if data.categories.Some? {
      var cats := data.categories.value;
      var top := CheckTopLevel(data);
      ListsPassAgreesWhenItReturns(cats, PricePass(cats, ConsistencyPass(cats, top)));
    }
  }

  // ---------------------------------------------------------------------
  // validateComponent

  /** `/^[a-z0-9_]+$/`. */
  predicate IdPattern(id: string) {
    |id| > 0 && forall i :: 0 <= i < |id| ==> ('a' <= id[i] <= 'z') || ('0' <= id[i] <= '9') || id[i] == '_'
  }

  /** `validateComponent` without the URL checks: a badly formed id is only a warning. */
  function ValidateComponent(c: RawComponent): (r: ValidationResult)
    ensures Consistent(r)
    ensures r.isValid <==> TruthyStr(c.id) && TruthyStr(c.name)
    ensures r.warnings == (if TruthyStr(c.id) && !IdPattern(c.id.value)
                           then ["ID should only contain lowercase letters, numbers, and underscores"] else [])
    ensures !TruthyStr(c.id) ==> "Missing required field: id" in r.errors
    ensures !TruthyStr(c.name) ==> "Missing required field: name" in r.errors
  {
    var r0 := ValidationResult(true, [], []);
    var r1 :=
      if !TruthyStr(c.id) then Report(r0, ["Missing required field: id"], [])
      else if !IdPattern(c.id.value) then Report(r0, [], ["ID should only contain lowercase letters, numbers, and underscores"])
      else r0;
    var r2 := if !TruthyStr(c.name) then Report(r1, ["Missing required field: name"], []) else r1;
    r2
  }
}

=== FILE: hardware_types.dfy ===
/**
 * The hardware configurator's data model: components (SBCs, cameras, WiFi
 * adapters), validation rules and their parameters, the evaluation context,
 * the performance matrix, the catalogue, and the result of a compatibility
 * check.
 *
 * Tags that the code compares as strings (statuses, interfaces, roles,
 * chipsets, rule types) are kept as strings in the records, because the
 * catalogue is JSON and the code guards against values outside the declared
 * sets; the closed sets the types declare are given as enumerations with
 * their names, and `WellTyped` says when a component's tags are all drawn
 * from them.
 */
module HardwareTypes {
  import opened Wrappers

  /** `ComponentStatus`: exactly six values. */
  datatype Status = Recommended | Supported | Legacy | Development | Specialized | Limited

  function StatusName(s: Status): string {
    match s
    case Recommended => "recommended"
    case Supported => "supported"
    case Legacy => "legacy"
    case Development => "development"
    case Specialized => "specialized"
    case Limited => "limited"
  }

  /** The names of all six statuses, in declaration order. */
  const StatusNames: seq<string> := ["recommended", "supported", "legacy", "development", "specialized", "limited"]

  function ParseStatus(name: string): (r: Option<Status>)
    ensures r.Some? ==> StatusName(r.value) == name
    ensures r.Some? <==> name in StatusNames
  {
    if name == "recommended" then Some(Recommended)
    else if name == "supported" then Some(Supported)
    else if name == "legacy" then Some(Legacy)
    else if name == "development" then Some(Development)
    else if name == "specialized" then Some(Specialized)
    else if name == "limited" then Some(Limited)
    else None
  }

  /** Every status is recovered from its name, and the six names are the whole list. */
  lemma StatusRoundTrip(s: Status)
    ensures ParseStatus(StatusName(s)) == Some(s)
    ensures StatusName(s) in StatusNames
  {
  }

  /** `SeverityLevel`: error, warning or info. */
  datatype Severity = Error | Warning | Info

  function SeverityName(s: Severity): string {
    match s
    case Error => "error"
    case Warning => "warning"
    case Info => "info"
  }

  function ParseSeverity(name: string): (r: Option<Severity>)
    ensures r.Some? ==> SeverityName(r.value) == name
    ensures r.Some? <==> name in ["error", "warning", "info"]
  {
    if name == "error" then Some(Error)
    else if name == "warning" then Some(Warning)
    else if name == "info" then Some(Info)
    else None
  }

  /** `RuleType`: the seven canonical rule kinds. */
  datatype RuleKind =
    | InterfaceCompatibility | ManufacturerCompatibility | StatusCheck | FeatureCheck
    | CountCheck | ChipsetWhitelist | RoleCompatibility

  function RuleKindName(k: RuleKind): string {
    match k
    case InterfaceCompatibility => "interface_compatibility"
    case ManufacturerCompatibility => "manufacturer_compatibility"
    case StatusCheck => "status_check"
    case FeatureCheck => "feature_check"
    case CountCheck => "count_check"
    case ChipsetWhitelist => "chipset_whitelist"
    case RoleCompatibility => "role_compatibility"
  }

  function ParseRuleKind(name: string): (r: Option<RuleKind>)
    ensures r.Some? ==> RuleKindName(r.value) == name
  {
    if name == "interface_compatibility" then Some(InterfaceCompatibility)
    else if name == "manufacturer_compatibility" then Some(ManufacturerCompatibility)
    else if name == "status_check" then Some(StatusCheck)
    else if name == "feature_check" then Some(FeatureCheck)
    else if name == "count_check" then Some(CountCheck)
    else if name == "chipset_whitelist" then Some(ChipsetWhitelist)
    else if name == "role_compatibility" then Some(RoleCompatibility)
    else None
  }

  /** Every canonical kind is recovered from its name. */
  lemma RuleKindRoundTrip(k: RuleKind)
    ensures ParseRuleKind(RuleKindName(k)) == Some(k)
  {
  }

  /** The roles an SBC can support. */
  const RoleNames: seq<string> := ["air", "ground", "both"]

  /** `ComponentInterface`: the ten interface tags. */
  const InterfaceNames: seq<string> := ["csi", "usb", "usb2", "usb3", "hdmi", "hdmi_in", "hdmi_out", "ethernet", "gpio", "ip"]

  /** The four latency tiers of an SBC or a performance entry. */
  const LatencyNames: seq<string> := ["ultra_low", "low", "medium", "high"]

  /** The category-specific part of a component. */
  datatype Details =
    | SbcDetails(roleSupport: seq<string>, interfaces: seq<string>, latencyTier: string)
    | CameraDetails(iface: string, sensor: Option<string>, features: Option<seq<string>>, compatibleSbcs: Option<seq<string>>)
    | WifiDetails(chipset: string, bands: Option<seq<string>>)

  /** `SBCComponent | CameraComponent | WiFiComponent`. */
  datatype Component = Component(id: string, name: string, manufacturer: string, status: string, details: Details)

  /** The component's `category` tag. */
  function CategoryTag(c: Component): (r: string)
    ensures r in ["sbc", "camera", "wifi"]
  {
    match c.details
    case SbcDetails(_, _, _) => "sbc"
    case CameraDetails(_, _, _, _) => "camera"
    case WifiDetails(_, _) => "wifi"
  }

  /** The component's tags all lie in the sets the type declares. */
  ghost predicate WellTyped(c: Component) {
    c.status in StatusNames &&
    match c.details
    case SbcDetails(roles, ifaces, latency) =>
      (forall r :: r in roles ==> r in RoleNames) &&
      (forall i :: i in ifaces ==> i in InterfaceNames) &&
      latency in LatencyNames
    case CameraDetails(iface, _, _, _) => iface in InterfaceNames
    case WifiDetails(_, _) => true
  }

  // Property reads on a component of unknown category: `undefined` (None)
  // when the component's category has no such property.

  /** `component.interface`: a camera's single interface. */
  function InterfaceOf(c: Component): (r: Option<string>)
    ensures r.Some? <==> c.details.CameraDetails?
  {
    if c.details.CameraDetails? then Some(c.details.iface) else None
  }

  /** `component.interfaces`: an SBC's interface list. */
  function InterfacesOf(c: Component): (r: Option<seq<string>>)
    ensures r.Some? <==> c.details.SbcDetails?
  {
    if c.details.SbcDetails? then Some(c.details.interfaces) else None
  }

  /** `component.role_support`: an SBC's role list. */
  function RolesOf(c: Component): (r: Option<seq<string>>)
    ensures r.Some? <==> c.details.SbcDetails?
  {
    if c.details.SbcDetails? then Some(c.details.roleSupport) else None
  }

  /** `component.features`: a camera's optional feature list. */
  function FeaturesOf(c: Component): (r: Option<seq<string>>)
    ensures r.Some? ==> c.details.CameraDetails?
  {
    if c.details.CameraDetails? then c.details.features else None
  }

  /** `component.chipset`: a WiFi adapter's chipset. */
  function ChipsetOf(c: Component): (r: Option<string>)
    ensures r.Some? <==> c.details.WifiDetails?
  {
    if c.details.WifiDetails? then Some(c.details.chipset) else None
  }

  /** A JavaScript value read from a component by a property name held in a rule. */
  datatype JsValue = Undefined | Str(s: string) | StrList(items: seq<string>)

  /** JavaScript truthiness: the empty string and `undefined` are falsy, arrays are truthy. */
  predicate Truthy(v: JsValue) {
    match v
    case Undefined => false
    case Str(s) => |s| > 0
    case StrList(_) => true
  }

  /** An optional string is truthy iff it is present and non-empty. */
  predicate TruthyStr(s: Option<string>) {
    s.Some? && |s.value| > 0
  }

  /** `a || b` for an optional string: `a` when it is a non-empty string, else `b`. */
  function OrStr(a: Option<string>, b: string): (r: string)
    ensures TruthyStr(a) ==> r == a.value
    ensures !TruthyStr(a) ==> r == b
  {
    if TruthyStr(a) then a.value else b
  }

  /** `required.every(f => have.includes(f))`. */
  predicate HasAll(required: seq<string>, have: seq<string>) {
    forall f :: f in required ==> f in have
  }

  /** `[s]` when `s` is truthy, `[]` otherwise: one conditional `Set.add`. */
  function IfTruthy(s: Option<string>): (r: seq<string>)
    ensures forall x :: x in r <==> TruthyStr(s) && x == s.value
  {
    if TruthyStr(s) then [s.value] else []
  }

  /** What `if (component.chipset) set.add(component.chipset)` adds. */
  function ChipsetTags(c: Component): seq<string> {
    IfTruthy(ChipsetOf(c))
  }

  /** What adding a non-empty `interface` and then every entry of an `interfaces` array adds, in order. */
  function InterfaceTags(c: Component): seq<string> {
    IfTruthy(InterfaceOf(c)) + InterfacesOf(c).GetOr([])
  }

  /** What `if (component.status) set.add(component.status)` adds. */
  function StatusTags(c: Component): seq<string> {
    IfTruthy(Some(c.status))
  }

  /** What `if (component.manufacturer) set.add(component.manufacturer)` adds. */
  function ManufacturerTags(c: Component): seq<string> {
    IfTruthy(Some(c.manufacturer))
  }

  /** `component[key]` for the string- and list-valued properties of the component types. */
  function Field(c: Component, key: string): (v: JsValue)
    ensures key == "id" ==> v == Str(c.id)
    ensures key == "interface" ==> (v.Str? <==> c.details.CameraDetails?)
    ensures key == "chipset" ==> (v.Str? <==> c.details.WifiDetails?)
  {
    if key == "id" then Str(c.id)
    else if key == "name" then Str(c.name)
    else if key == "manufacturer" then Str(c.manufacturer)
    else if key == "status" then Str(c.status)
    else if key == "category" then Str(CategoryTag(c))
    else match c.details
      case SbcDetails(roles, ifaces, latency) =>
        if key == "role_support" then StrList(roles)
        else if key == "interfaces" then StrList(ifaces)
        else Undefined
      case CameraDetails(iface, sensor, features, compatible) =>
        if key == "interface" then Str(iface)
        else if key == "sensor" then (if sensor.Some? then Str(sensor.value) else Undefined)
        else if key == "features" then (if features.Some? then StrList(features.value) else Undefined)
        else if key == "compatible_sbcs" then (if compatible.Some? then StrList(compatible.value) else Undefined)
        else Undefined
      case WifiDetails(chipset, bands) =>
        if key == "chipset" then Str(chipset)
        else if key == "bands" then (if bands.Some? then StrList(bands.value) else Undefined)
        else Undefined
  }

  /** `EvaluationContext`: every field optional. */
  datatype Context = Context(
    sbc: Option<Component>,
    camera: Option<Component>,
    wifi: Option<Component>,
    selectedRole: Option<string>,
    cameraCount: Option<int>)

  /** `context[key]` where a component is expected. */
  function Slot(ctx: Context, key: string): (r: Option<Component>)
    ensures r.Some? ==> key in ["sbc", "camera", "wifi"]
  {
    if key == "sbc" then ctx.sbc
    else if key == "camera" then ctx.camera
    else if key == "wifi" then ctx.wifi
    else None
  }

  /** `context[key]` where a number is expected (`typeof value === 'number'`). */
  function NumericField(ctx: Context, key: string): (r: Option<int>)
    ensures r.Some? ==> key == "camera_count"
  {
    if key == "camera_count" then ctx.cameraCount else None
  }

  /** `params.status` of the status checks: one status or a list of them. */
  datatype StatusParam = StatusOne(name: string) | StatusMany(names: seq<string>)

  datatype StatusFilter = StatusFilter(component: string, allowed: Option<seq<string>>, forbidden: Option<seq<string>>)

  datatype FeatureRequirements = FeatureRequirements(
    component: string,
    requiredFeatures: Option<seq<string>>,
    forbiddenFeatures: Option<seq<string>>,
    interfaceConstraints: Option<seq<string>>)

  datatype CountLimits = CountLimits(field: string, min: Option<int>, max: Option<int>)

  datatype CrossCheck = CrossCheck(component: string, operator: string, mustExist: bool)

  datatype ManufacturerFilter = ManufacturerFilter(
    component: string,
    mustBe: Option<seq<string>>,
    cannotBe: Option<seq<string>>,
    crossCheck: Option<CrossCheck>)

  /**
   * A rule's `parameters`: the union of the keys the two evaluators read,
   * each one optional. The structured keys of `RuleParameters` come first,
   * then the flat keys of the older rule format.
   */
  datatype Params = Params(
    statusFilter: Option<StatusFilter>,
    featureRequirements: Option<FeatureRequirements>,
    countLimits: Option<CountLimits>,
    manufacturerFilter: Option<ManufacturerFilter>,
    chipsetWhitelist: Option<seq<string>>,
    requiredInterface: Option<string>,
    componentType: Option<string>,
    targetType: Option<string>,
    status: Option<StatusParam>,
    operator: Option<string>,
    requiredFeatures: Option<seq<string>>,
    forbiddenFeatures: Option<seq<string>>,
    featuresField: Option<string>,
    requiredFeature: Option<string>,
    interfaceField: Option<string>,
    interfaceValue: Option<string>,
    countField: Option<string>,
    threshold: Option<int>,
    component1Type: Option<string>,
    component2Type: Option<string>,
    sbcManufacturer: Option<string>,
    cameraManufacturer: Option<string>,
    checkType: Option<string>,
    useGlobalWhitelist: Option<bool>,
    whitelist: Option<seq<string>>,
    field: Option<string>,
    sbcId: Option<string>,
    cameraInterface: Option<string>)

  /** The empty parameter object `{}`. */
  const NoParams: Params := Params(
    None, None, None, None, None, None, None, None, None, None, None, None, None, None,
    None, None, None, None, None, None, None, None, None, None, None, None, None, None)

  /** `ValidationRule`; `kind` is the JSON `type`, which may also be a legacy alias. */
  datatype Rule = Rule(
    ruleId: string,
    kind: string,
    severity: Severity,
    message: string,
    parameters: Params,
    autoGenerated: bool)

  /** `PerformanceEntry['performance']`. */
  datatype Performance = Performance(maxResolution: string, maxFps: string, latency: string, encoding: string)

  /** `PerformanceEntry`. */
  datatype PerfEntry = PerfEntry(sbc: string, cameraInterface: string, performance: Performance)

  /** `CompatibilityResult`. */
  datatype CompatibilityResult = CompatibilityResult(
    compatible: bool,
    errors: seq<string>,
    warnings: seq<string>,
    performance: Option<Performance>)

  /** The switches of `compatibility_engine.dynamic_rules`. */
  datatype DynamicRules = DynamicRules(
    autoGenerateInterfaceRules: bool,
    autoGenerateChipsetRules: bool,
    autoGenerateManufacturerWarnings: bool)

  /** `compatibility_engine.configuration`; every key optional. */
  datatype Configuration = Configuration(
    supportedChipsets: Option<seq<string>>,
    supportedInterfaces: Option<seq<string>>,
    validStatuses: Option<seq<string>>,
    manufacturers: Option<seq<string>>,
    autoUpdateLists: Option<bool>)

  /** A configuration object with no keys. */
  const EmptyConfiguration: Configuration := Configuration(None, None, None, None, None)

  /**
   * `compatibility_engine`. `supportedChipsets` is the engine-level
   * `supported_chipsets` key, which one evaluator reads in addition to the
   * one under `configuration`.
   */
  datatype Engine = Engine(
    configuration: Option<Configuration>,
    structuredRules: Option<seq<Rule>>,
    performanceMatrix: seq<PerfEntry>,
    supportedChipsets: Option<seq<string>>,
    dynamicRules: Option<DynamicRules>)

  /** One entry of `component_categories`, in key order. */
  datatype Category = Category(key: string, components: seq<Component>)

  /** `HardwareConfiguratorData`, restricted to the parts the core reads. */
  datatype ConfigData = ConfigData(categories: Option<seq<Category>>, engine: Option<Engine>)

  /** Position `i` holds the first category with the given key. */
  ghost predicate FirstWithKey(cats: seq<Category>, key: string, i: int) {
    0 <= i < |cats| && cats[i].key == key && forall j :: 0 <= j < i ==> cats[j].key != key
  }

  /**
   * `component_categories[key]?.components || []`: the components of the
   * category with the given key, or `[]` without one.
   */
  function CategoryComponents(cats: seq<Category>, key: string): (r: seq<Component>)
    ensures (forall i :: 0 <= i < |cats| ==> cats[i].key != key) ==> r == []
    ensures forall i :: FirstWithKey(cats, key, i) ==> r == cats[i].components
    ensures forall c :: c in r ==> exists i :: 0 <= i < |cats| && c in cats[i].components
  {
    if |cats| == 0 then []
    else if cats[0].key == key then cats[0].components
    else
      var r := CategoryComponents(cats[1..], key);
      assert forall i :: FirstWithKey(cats, key, i) ==> FirstWithKey(cats[1..], key, i - 1) by {
        forall i | FirstWithKey(cats, key, i)
          ensures FirstWithKey(cats[1..], key, i - 1)
        {
          assert i != 0;
          forall j | 0 <= j < i - 1
            ensures cats[1..][j].key != key
          {
            assert cats[1..][j] == cats[j + 1];
          }
        }
      }
      assert forall c :: c in r ==> exists i :: 0 <= i < |cats| && c in cats[i].components by {
        forall c | c in r
          ensures exists i :: 0 <= i < |cats| && c in cats[i].components
        {
          var i :| 0 <= i < |cats[1..]| && c in cats[1..][i].components;
          assert cats[i + 1] == cats[1..][i];
        }
      }
      r
  }

  /** Every component of every category, in category order. */
  function AllComponents(cats: seq<Category>): (r: seq<Component>)
    ensures forall c :: c in r <==> exists i :: 0 <= i < |cats| && c in cats[i].components
  {
    if |cats| == 0 then []
    else
      var rest := AllComponents(cats[1..]);
      assert forall c :: c in rest <==> exists i :: 1 <= i < |cats| && c in cats[i].components by {
        forall c
          ensures c in rest <==> exists i :: 1 <= i < |cats| && c in cats[i].components
        {
          if c in rest {
            var i :| 0 <= i < |cats[1..]| && c in cats[1..][i].components;
            assert cats[i + 1] == cats[1..][i];
          }
          if exists i :: 1 <= i < |cats| && c in cats[i].components {
            var i :| 1 <= i < |cats| && c in cats[i].components;
            assert cats[1..][i - 1] == cats[i];
          }
        }
      }
      cats[0].components + rest
  }
}

=== FILE: image_migration.dfy ===
/**
 * The one-off migration that rewrites image references in component files
 * to imports for the ideal-image loader: the import name and path it derives
 * from an image path, and the text rewrite of one file. Finding the matches
 * (the two regular-expression scans) is not modelled: the matches are inputs.
 */
module ImageMigration {
  import opened Wrappers
  import opened Strings
  import opened Seqs
  import opened Paths

  /**
   * `convertImagePath`: '/img/X' and '/OpenHD-Website/img/X' both become
   * '@site/static/img/X'; any other path is kept.
   */
  function ConvertImagePath(p: string): (r: string)
    ensures StartsWith(p, "/img/") ==> r == "@site/static/img/" + p[5..]
    ensures !StartsWith(p, "/img/") && StartsWith(p, "/OpenHD-Website/img/") ==> r == "@site/static/img/" + p[20..]
    ensures !StartsWith(p, "/img/") && !StartsWith(p, "/OpenHD-Website/img/") ==> r == p
  {
    if StartsWith(p, "/img/") then
      assert p == "/img/" + p[5..];
      "@site/static" + p
    else if StartsWith(p, "/OpenHD-Website/img/") then
      assert OccursAt(p, "/OpenHD-Website/img/", 0);
      assert ReplaceFirst(p, "/OpenHD-Website/img/", "") == p[20..];
      "@site/static/img/" + ReplaceFirst(p, "/OpenHD-Website/img/", "")
    else p
  }

  /** Both site-relative spellings of the same image lead to the same import path. */
  lemma ConvertImagePathAgrees(x: string)
    ensures ConvertImagePath("/img/" + x) == ConvertImagePath("/OpenHD-Website/img/" + x)
  {
    assert ("/img/" + x)[..5] == "/img/";
    assert ("/img/" + x)[5..] == x;
    assert ("/OpenHD-Website/img/" + x)[..20] == "/OpenHD-Website/img/";
    assert ("/OpenHD-Website/img/" + x)[20..] == x;
    assert ("/OpenHD-Website/img/" + x)[..5] != "/img/" by {
      assert ("/OpenHD-Website/img/" + x)[1] == 'O';
    }
  }

  // ---------------------------------------------------------------------
  // Import names

  /** `[-\s]`: a separator for camel-casing. */
  predicate IsSep(c: char) {
    c == '-' || IsSpace(c)
  }

  /** The number of separators `s` starts with. */
  function SepRun(s: string): (n: nat)
    ensures n <= |s|
    ensures forall i :: 0 <= i < n ==> IsSep(s[i])
    ensures n < |s| ==> !IsSep(s[n])
  {
    if |s| > 0 && IsSep(s[0]) then 1 + SepRun(s[1..]) else 0
  }

  /** The last position in `[lo, hi)` whose character `.` matches. */
  function LastDotMatch(s: string, lo: nat, hi: nat): (r: Option<nat>)
    requires lo <= hi <= |s|
    ensures r.Some? ==> lo <= r.value < hi && !IsLineTerminator(s[r.value])
    ensures r.Some? ==> forall j :: r.value < j < hi ==> IsLineTerminator(s[j])
    decreases hi - lo
  {
    if lo == hi then None
    else if !IsLineTerminator(s[hi - 1]) then Some(hi - 1)
    else LastDotMatch(s, lo, hi - 1)
  }

  /**
   * `s.replace(/[-\s]+(.)/g, (_, c) => c.toUpperCase())`: each maximal run of
   * separators and the character after it become that character upper-cased.
   * A run reaching the end of the string backtracks so that `(.)` takes its
   * last character `.` can match.
   */
  function CapitalizeAfterSeps(s: string): (r: string)
    decreases |s|
  {
    if |s| == 0 then ""
    else if IsSep(s[0]) then
      var j := SepRun(s);
      if j < |s| then [UpperChar(s[j])] + CapitalizeAfterSeps(s[j + 1..])
      else match LastDotMatch(s, 1, j)
        case Some(k) => [UpperChar(s[k])] + s[k + 1..]
        case None => [s[0]] + CapitalizeAfterSeps(s[1..])
    else [s[0]] + CapitalizeAfterSeps(s[1..])
  }

  /** `s.replace(/[^a-zA-Z0-9]/g, '')`. */
  function KeepAlnum(s: string): (r: string)
    ensures forall i :: 0 <= i < |r| ==> IsAlnum(r[i])
  {
    var r := Filter(s, IsAlnum);
    assert forall i :: 0 <= i < |r| ==> r[i] in r;
    r
  }

  /** Letters and digits followed by "Img". */
  lemma AlnumThenImg(k: string)
    requires forall i :: 0 <= i < |k| ==> IsAlnum(k[i])
    ensures forall i :: 0 <= i < |k + "Img"| ==> IsAlnum((k + "Img")[i])
    ensures EndsWith(k + "Img", "Img")
  {
    assert (k + "Img")[|k|..] == "Img";
  }

  /** `generateImportName`. */
  function GenerateImportName(imagePath: string): (r: string)
    ensures forall i :: 0 <= i < |r| ==> IsAlnum(r[i])
    ensures EndsWith(r, "Img")
  {
    var k := KeepAlnum(CapitalizeAfterSeps(Stem(imagePath)));
    AlnumThenImg(k);
    k + "Img"
  }

  /**
   * The reference reading of an import name: keep the letters and digits of
   * the stem, upper-casing those that directly follow a separator.
   */
  function CamelAlnum(s: string, afterSep: bool): string {
    if |s| == 0 then ""
    else (if IsAlnum(s[0]) then [if afterSep then UpperChar(s[0]) else s[0]] else []) + CamelAlnum(s[1..], IsSep(s[0]))
  }

  /** Upper-casing keeps letters and digits alnum, and leaves everything else (separators included) alone. */
  lemma UpperCharFacts(c: char)
    ensures IsAlnum(UpperChar(c)) <==> IsAlnum(c)
    ensures !IsAlnum(c) ==> UpperChar(c) == c
  {
  }

  /** A stretch of separators contributes nothing and leaves the following character marked. */
  lemma {:induction false} CamelSkipsSeps(s: string, b: bool, j: nat)
    requires 0 < j <= |s| && forall i :: 0 <= i < j ==> IsSep(s[i])
    ensures CamelAlnum(s, b) == CamelAlnum(s[j..], true)
    decreases j
  {
    assert !IsAlnum(s[0]);
    if j > 1 {
      CamelSkipsSeps(s[1..], true, j - 1);
      assert s[1..][j - 1..] == s[j..];
    }
  }

  /** Only separators: nothing survives either reading. */
  lemma {:induction false} OnlySeps(s: string, b: bool)
    requires forall i :: 0 <= i < |s| ==> IsSep(s[i])
    ensures CamelAlnum(s, b) == "" && KeepAlnum(s) == ""
  {
    if |s| > 0 {
      assert !IsAlnum(s[0]);
      OnlySeps(s[1..], IsSep(s[0]));
    }
  }

  /** `KeepAlnum` of a concatenation. */
  lemma KeepAlnumAppend(a: string, b: string)
    ensures KeepAlnum(a + b) == KeepAlnum(a) + KeepAlnum(b)
  {
    FilterAppend(a, b, IsAlnum);
  }

  /** A run of separators followed by a character: that character, upper-cased, then the rest. */
  lemma CamelAfterRun(s: string, j: nat)
    requires 0 < j < |s| && IsSep(s[0]) && j == SepRun(s)
    requires KeepAlnum(CapitalizeAfterSeps(s[j + 1..])) == CamelAlnum(s[j + 1..], false)
    ensures KeepAlnum(CapitalizeAfterSeps(s)) == CamelAlnum(s, false)
  {
    CamelSkipsSeps(s, false, j);
    UpperCharFacts(s[j]);
    KeepAlnumAppend([UpperChar(s[j])], CapitalizeAfterSeps(s[j + 1..]));
    assert s[j..][1..] == s[j + 1..];
  }

  /** A run of separators reaching the end of the string contributes nothing alnum either way. */
  lemma CamelRunToEnd(s: string)
    requires |s| > 0 && IsSep(s[0]) && SepRun(s) == |s|
    requires LastDotMatch(s, 1, |s|).None? ==> KeepAlnum(CapitalizeAfterSeps(s[1..])) == CamelAlnum(s[1..], false)
    ensures KeepAlnum(CapitalizeAfterSeps(s)) == CamelAlnum(s, false)
  {
    OnlySeps(s, false);
    match LastDotMatch(s, 1, |s|)
    case Some(k) =>
      UpperCharFacts(s[k]);
      OnlySeps(s[k + 1..], false);
      KeepAlnumAppend([UpperChar(s[k])], s[k + 1..]);
    case None =>
      OnlySeps(s[1..], false);
      KeepAlnumAppend([s[0]], CapitalizeAfterSeps(s[1..]));
  }

  /** A first character that is not a separator is kept as it is. */
  lemma CamelPlainFirst(s: string)
    requires |s| > 0 && !IsSep(s[0])
    requires KeepAlnum(CapitalizeAfterSeps(s[1..])) == CamelAlnum(s[1..], false)
    ensures KeepAlnum(CapitalizeAfterSeps(s)) == CamelAlnum(s, false)
  {
    KeepAlnumAppend([s[0]], CapitalizeAfterSeps(s[1..]));
  }

  /** The two regular-expression passes agree with the reference reading. */
  lemma {:induction false} ImportNameIsCamel(s: string)
    ensures KeepAlnum(CapitalizeAfterSeps(s)) == CamelAlnum(s, false)
    decreases |s|
  {
    if |s| > 0 {
      if !IsSep(s[0]) {
        ImportNameIsCamel(s[1..]);
        CamelPlainFirst(s);
      } else if SepRun(s) < |s| {
        ImportNameIsCamel(s[SepRun(s) + 1..]);
        CamelAfterRun(s, SepRun(s));
      } else {
        ImportNameIsCamel(s[1..]);
        CamelRunToEnd(s);
      }
    }
  }

  /** The import name, read through the reference. */
  lemma GenerateImportNameIsCamel(imagePath: string)
    ensures GenerateImportName(imagePath) == CamelAlnum(Stem(imagePath), false) + "Img"
  {
    ImportNameIsCamel(Stem(imagePath));
  }

  // ---------------------------------------------------------------------
  // Rewriting one file

  /** A `useBaseUrl('…')` call found in the file, or an `<img … src="…" …>` tag. */
  datatype Found =
    | BaseUrlCall(fullMatch: string, imagePath: string)
    | ImgTag(fullMatch: string, beforeSrc: string, imageSrc: string, afterSrc: string)

  /** The image path a match refers to. */
  function PathOf(f: Found): string {
    match f
    case BaseUrlCall(_, p) => p
    case ImgTag(_, _, p, _) => p
  }

  /** External URLs are left alone, and so are tag sources without a '.'. */
  predicate Skipped(f: Found) {
    StartsWith(PathOf(f), "http") || (f.ImgTag? && !Contains(f.imageSrc, "."))
  }

  /** The import line a match contributes. */
  function ImportLine(f: Found): string {
    "import " + GenerateImportName(PathOf(f)) + " from '" + ConvertImagePath(PathOf(f)) + "?formats=avif,webp&w=400,800,1200';"
  }

  /** The text that replaces a match. */
  function Replacement(f: Found): string {
    var name := GenerateImportName(PathOf(f));
    match f
    case BaseUrlCall(_, _) => name + ".src"
    case ImgTag(_, before, _, after) => "<img" + before + after + " {..." + name + "} />"
  }

  /** The matches that are acted on, in scan order. */
  function Kept(found: seq<Found>): (r: seq<Found>)
    ensures forall f :: f in r <==> f in found && !Skipped(f)
  {
    Filter(found, (f: Found) => !Skipped(f))
  }

  /** `map.set(k, v)` on a map kept as its entries in insertion order. */
  function MapSet(entries: seq<(string, string)>, k: string, v: string): (r: seq<(string, string)>)
    ensures forall i :: 0 <= i < |entries| && entries[i].0 != k ==> i < |r| && r[i] == entries[i]
    ensures (k, v) in r
    ensures (forall i :: 0 <= i < |entries| ==> entries[i].0 != k) ==> r == entries + [(k, v)]
    ensures (exists i :: 0 <= i < |entries| && entries[i].0 == k) ==> |r| == |entries|
  {
    if |entries| == 0 then
      assert [(k, v)][0] == (k, v);
      [(k, v)]
    else if entries[0].0 == k then
      assert entries[0 := (k, v)][0] == (k, v);
      entries[0 := (k, v)]
    else
      var rest := MapSet(entries[1..], k, v);
      assert forall i :: 1 <= i < |entries| ==> entries[i] == entries[1..][i - 1];
      var r := [entries[0]] + rest;
      assert (k, v) in r by {
        var i :| 0 <= i < |rest| && rest[i] == (k, v);
        assert r[i + 1] == (k, v);
      }
      assert (exists i :: 0 <= i < |entries| && entries[i].0 == k) ==> exists i :: 0 <= i < |entries[1..]| && entries[1..][i].0 == k by {
        if exists i :: 0 <= i < |entries| && entries[i].0 == k {
          var i :| 0 <= i < |entries| && entries[i].0 == k;
          assert entries[1..][i - 1].0 == k;
        }
      }
      r
  }

  /** The keys of a map's entries. */
  function Keys(entries: seq<(string, string)>): seq<string> {
    if |entries| == 0 then [] else [entries[0].0] + Keys(entries[1..])
  }

  /** `imageReplacements` after setting each kept match in turn. */
  function Replacements(entries: seq<(string, string)>, kept: seq<Found>): (r: seq<(string, string)>)
    decreases |kept|
  {
    if |kept| == 0 then entries
    else Replacements(MapSet(entries, kept[0].fullMatch, Replacement(kept[0])), kept[1..])
  }

  /** What the two scans collect. */
  datatype Plan = Plan(imports: seq<string>, replacements: seq<(string, string)>, hasChanges: bool)

  /** The scans over the `useBaseUrl` matches, then the tag matches. */
  function PlanFor(baseUrlMatches: seq<Found>, imgMatches: seq<Found>): Plan {
    var kept := Kept(baseUrlMatches + imgMatches);
    Plan(DedupMap(kept, ImportLine), Replacements([], kept), |kept| > 0)
  }

  /** The plan imports each kept match's line once, and nothing else. */
  lemma PlanImports(baseUrlMatches: seq<Found>, imgMatches: seq<Found>)
    ensures NoDup(PlanFor(baseUrlMatches, imgMatches).imports)
    ensures forall x :: x in PlanFor(baseUrlMatches, imgMatches).imports <==>
      exists f :: f in Kept(baseUrlMatches + imgMatches) && x == ImportLine(f)
  {
    assert PlanFor(baseUrlMatches, imgMatches).imports == DedupMap(Kept(baseUrlMatches + imgMatches), ImportLine);
  }

  /** The plan has changes exactly when some match is not skipped. */
  lemma PlanChanges(baseUrlMatches: seq<Found>, imgMatches: seq<Found>)
    ensures PlanFor(baseUrlMatches, imgMatches).hasChanges <==> exists f :: f in baseUrlMatches + imgMatches && !Skipped(f)
  {
    KeptNonEmpty(baseUrlMatches + imgMatches);
  }

  /** Some match is kept exactly when some match is not skipped. */
  lemma KeptNonEmpty(found: seq<Found>)
    ensures |Kept(found)| > 0 <==> exists f :: f in found && !Skipped(f)
  {
    var kept := Kept(found);
    if |kept| > 0 {
      assert kept[0] in kept;
    }
  }

  /** `line.trim().startsWith('import ')`. */
  predicate IsImport(line: string) {
    StartsWith(Trim(line), "import ")
  }

  /** `line.trim() === ''`. */
  predicate IsBlank(line: string) {
    Trim(line) == ""
  }

  /** What the insertion-point scan sees in a line. */
  datatype LineKind = ImportKind | BlankKind | OtherKind

  /** An import line is never blank. */
  function KindOf(line: string): LineKind {
    if IsImport(line) then ImportKind
    else if IsBlank(line) then BlankKind
    else OtherKind
  }

  /** The kind of a line says exactly whether it is an import line and whether it is blank. */
  lemma KindOfMeaning(line: string)
    ensures KindOf(line) == ImportKind <==> IsImport(line)
    ensures KindOf(line) == BlankKind <==> IsBlank(line)
  {
    if IsImport(line) {
      assert |Trim(line)| >= 7;
    }
  }

  /** The kinds of all lines. */
  function Kinds(lines: seq<string>): seq<LineKind> {
    Map(lines, KindOf)
  }

  /** The scan for the insertion point, from line `i` with the current index `idx`. */
  function ScanImports(kinds: seq<LineKind>, i: nat, idx: nat): (r: nat)
    requires idx <= i <= |kinds|
    requires idx > 0 ==> kinds[idx - 1] == ImportKind
    requires forall j :: idx <= j < i ==> kinds[j] != ImportKind
    requires forall k, j :: 0 <= j < k < i && kinds[k] == BlankKind ==> kinds[j] != ImportKind
    ensures idx <= r <= |kinds|
    ensures r > 0 ==> kinds[r - 1] == ImportKind
    ensures forall j :: r <= j < |kinds| && kinds[j] == ImportKind ==> exists k :: r <= k < j && kinds[k] == BlankKind
    ensures forall k, j :: 0 <= j < k < r && kinds[k] == BlankKind ==> kinds[j] != ImportKind
    ensures r == 0 ==> forall j :: 0 <= j < |kinds| ==> kinds[j] != ImportKind
    decreases |kinds| - i
  {
    if i == |kinds| then idx
    else if kinds[i] == ImportKind then ScanImports(kinds, i + 1, i + 1)
    else if kinds[i] == BlankKind && idx > 0 then idx
    else ScanImports(kinds, i + 1, idx)
  }

  /**
   * The insertion point over the lines' kinds: just after the last import line
   * that comes before the first blank line following an import, or 0 without
   * imports.
   */
  function ScanAll(kinds: seq<LineKind>): (r: nat)
    ensures r <= |kinds|
    ensures r > 0 ==> kinds[r - 1] == ImportKind
    ensures r == 0 <==> forall j :: 0 <= j < |kinds| ==> kinds[j] != ImportKind
    ensures forall j :: r <= j < |kinds| && kinds[j] == ImportKind ==> exists k :: r <= k < j && kinds[k] == BlankKind
    ensures forall k, j :: 0 <= j < k < r && kinds[k] == BlankKind ==> kinds[j] != ImportKind
  {
    ScanImports(kinds, 0, 0)
  }

  /** The insertion point of a file's lines. */
  function InsertIndex(lines: seq<string>): nat {
    ScanAll(Kinds(lines))
  }

  /** The comment that heads the inserted block. */
  const ImportHeader := "// Auto-generated imports by migrate-to-native-ideal-image"

  /** The file's lines with a blank line, the header and the import lines spliced in at the insertion point. */
  function InsertImports(content: string, imports: seq<string>): string {
    var lines := Split(content, "\n");
    var idx := InsertIndex(lines);
    Join(lines[..idx] + (["", ImportHeader] + imports) + lines[idx..], "\n")
  }

  /** A file without import lines gets the new block at its very top. */
  lemma InsertWithoutImports(content: string, imports: seq<string>)
    requires forall j :: 0 <= j < |Split(content, "\n")| ==> !IsImport(Split(content, "\n")[j])
    ensures InsertImports(content, imports) == Join(["", ImportHeader] + imports + Split(content, "\n"), "\n")
  {
    var lines := Split(content, "\n");
    var kinds := Kinds(lines);
    forall j | 0 <= j < |kinds|
      ensures kinds[j] != ImportKind
    {
      assert kinds[j] == KindOf(lines[j]);
      KindOfMeaning(lines[j]);
    }
    assert InsertIndex(lines) == ScanAll(kinds) == 0;
    assert lines[..0] + (["", ImportHeader] + imports) + lines[0..] == ["", ImportHeader] + imports + lines;
  }

  /** Each recorded replacement, in insertion order, applied to its first occurrence only. */
  function ApplyReplacements(content: string, entries: seq<(string, string)>): (r: string)
    ensures |entries| == 0 ==> r == content
    decreases |entries|
  {
    if |entries| == 0 then content
    else ApplyReplacements(ReplaceFirst(content, entries[0].0, entries[0].1), entries[1..])
  }

  /** A tag that occurs twice in a file is rewritten once: the second copy survives. */
  lemma DuplicateRewrittenOnce(tag: string, rep: string, mid: string)
    requires |tag| > 0
    ensures ApplyReplacements(tag + mid + tag, [(tag, rep)]) == rep + mid + tag
  {
    var s := tag + mid + tag;
    assert s[..|tag|] == tag && s[|tag|..] == mid + tag;
    ReplaceFirstAtStart(s, tag, rep);
    ApplyOne(s, tag, rep);
  }

  /** A single recorded replacement is one first-occurrence replace. */
  lemma ApplyOne(content: string, pat: string, rep: string)
    ensures ApplyReplacements(content, [(pat, rep)]) == ReplaceFirst(content, pat, rep)
  {
    var e := [(pat, rep)];
    assert e[0] == (pat, rep) && e[1..] == [];
  }

  /** `migrateFile`'s text transformation: the new content, or `None` when the file is left unwritten. */
  function MigrateContent(content: string, baseUrlMatches: seq<Found>, imgMatches: seq<Found>): (r: Option<string>)
    ensures r.None? <==> forall f :: f in baseUrlMatches + imgMatches ==> Skipped(f)
  {
    var plan := PlanFor(baseUrlMatches, imgMatches);
    PlanChanges(baseUrlMatches, imgMatches);
    if plan.hasChanges then Some(ApplyReplacements(InsertImports(content, plan.imports), plan.replacements))
    else None
  }
}

=== FILE: paths.dfy ===
/**
 * POSIX path helpers with Node's `path` semantics, and the image-extension
 * pattern `/\.(png|jpe?g)$/i` the build scripts and image components share.
 */
module Paths {
  import opened Wrappers
  import opened Strings

  // ---------------------------------------------------------------------
  // Base names and extensions

  /** The last index of `c` in `s`. */
  function LastIndexOfChar(s: string, c: char): (r: Option<nat>)
    ensures r.Some? ==> r.value < |s| && s[r.value] == c && forall j :: r.value < j < |s| ==> s[j] != c
    ensures r.None? <==> c !in s
  {
    if |s| == 0 then None
    else if s[|s| - 1] == c then Some(|s| - 1)
    else
      var r := LastIndexOfChar(s[..|s| - 1], c);
      assert forall j :: 0 <= j < |s| - 1 ==> s[..|s| - 1][j] == s[j];
      assert c in s ==> c in s[..|s| - 1] by {
        if c in s {
          var k :| 0 <= k < |s| && s[k] == c;
          assert s[..|s| - 1][k] == c;
        }
      }
      r
  }

  /** `path.basename(p)` for a path without a trailing slash: the part after the last '/'. */
  function Basename(p: string): (r: string)
    ensures '/' !in r
    ensures EndsWith(p, r)
  {
    match LastIndexOfChar(p, '/')
    case None => p
    case Some(k) =>
      assert p[k + 1..] == p[|p| - |p[k + 1..]|..];
      assert forall j :: k + 1 <= j < |p| ==> p[j] == p[k + 1..][j - k - 1];
      p[k + 1..]
  }

  /**
   * Where the extension of a base name starts: at its last '.', except when
   * that dot is the first character (a dot file) or the name is "..".
   */
  function ExtStart(b: string): (r: Option<nat>)
    ensures r.Some? ==> 0 < r.value < |b| && b[r.value] == '.' && forall j :: r.value < j < |b| ==> b[j] != '.'
    ensures r.None? <==> LastIndexOfChar(b, '.') in {None, Some(0)} || b == ".."
  {
    match LastIndexOfChar(b, '.')
    case None => None
    case Some(k) => if k > 0 && b != ".." then Some(k) else None
  }

  /** A suffix of a suffix of `p` is a suffix of `p`. */
  lemma SuffixOfSuffix(p: string, b: string, k: nat)
    requires EndsWith(p, b) && k <= |b|
    ensures EndsWith(p, b[k..])
  {
    assert b[k..] == p[|p| - |b| + k..];
  }

  /** The extension of a base name: from its extension's dot to the end, or "". */
  function ExtOf(b: string): (r: string)
    ensures r == "" || r[0] == '.'
    ensures forall j :: 0 < j < |r| ==> r[j] != '.'
    ensures |r| <= |b| && r == b[|b| - |r|..]
  {
    match ExtStart(b)
    case None => ""
    case Some(k) =>
      assert forall j :: 0 <= j < |b| - k ==> b[k..][j] == b[k + j];
      b[k..]
  }

  /** `path.extname(p)`: the extension of the base name. */
  function Extname(p: string): (r: string)
    ensures r == "" || r[0] == '.'
    ensures forall j :: 0 < j < |r| ==> r[j] != '.'
    ensures forall j :: 0 <= j < |r| ==> r[j] != '/'
    ensures EndsWith(p, r)
  {
    var b := Basename(p);
    var r := ExtOf(b);
    assert EndsWith(p, r) by {
      SuffixOfSuffix(p, b, |b| - |r|);
    }
    assert forall j :: 0 <= j < |r| ==> r[j] != '/' by {
      AbsentFromSuffix(b, |b| - |r|, '/');
    }
    r
  }

  /** A character missing from `b` is missing from every suffix of it. */
  lemma AbsentFromSuffix(b: string, k: nat, c: char)
    requires c !in b && k <= |b|
    ensures forall j :: 0 <= j < |b| - k ==> b[k..][j] != c
  {
    forall j | 0 <= j < |b| - k
      ensures b[k..][j] != c
    {
      assert b[k..][j] == b[k + j];
    }
  }

  /** `path.basename(p, path.extname(p))`: the base name without its extension. */
  function Stem(p: string): (r: string)
    ensures r <= Basename(p)
  {
    var b := Basename(p);
    b[..|b| - |ExtOf(b)|]
  }

  /** The stem and the extension put back together give the base name. */
  lemma StemThenExtname(p: string)
    ensures Stem(p) + Extname(p) == Basename(p)
  {
    var b := Basename(p);
    assert Extname(p) == ExtOf(b);
    assert b[..|b| - |ExtOf(b)|] + b[|b| - |ExtOf(b)|..] == b;
  }

  // ---------------------------------------------------------------------
  // The pattern `\.(png|jpe?g)`, case-insensitive

  /** The character at `k` is `c` ignoring ASCII case (`c` a lower-case letter or a '.'). */
  predicate LowerIs(s: string, k: nat, c: char) {
    k < |s| && LowerChar(s[k]) == c
  }

  /** `.png` at `k`, ignoring case. */
  predicate PngAt(s: string, k: nat) {
    LowerIs(s, k, '.') && LowerIs(s, k + 1, 'p') && LowerIs(s, k + 2, 'n') && LowerIs(s, k + 3, 'g')
  }

  /** `.jpeg` at `k`, ignoring case. */
  predicate JpegAt(s: string, k: nat) {
    LowerIs(s, k, '.') && LowerIs(s, k + 1, 'j') && LowerIs(s, k + 2, 'p') && LowerIs(s, k + 3, 'e') && LowerIs(s, k + 4, 'g')
  }

  /** `.jpg` at `k`, ignoring case. */
  predicate JpgAt(s: string, k: nat) {
    LowerIs(s, k, '.') && LowerIs(s, k + 1, 'j') && LowerIs(s, k + 2, 'p') && LowerIs(s, k + 3, 'g')
  }

  /**
   * The length of the match of `\.(png|jpe?g)` (ignoring ASCII case) that
   * starts at `k`, trying the alternatives in the pattern's order.
   */
  function ExtLenAt(s: string, k: nat): (r: Option<nat>)
    ensures r.Some? ==> (r.value == 4 || r.value == 5) && k + r.value <= |s| && s[k] == '.'
    ensures r.None? <==> !PngAt(s, k) && !JpegAt(s, k) && !JpgAt(s, k)
  {
    if PngAt(s, k) then Some(4)
    else if JpegAt(s, k) then Some(5)
    else if JpgAt(s, k) then Some(4)
    else None
  }

  /** Where `/\.(png|jpe?g)$/i` matches `s`, if it does: the extension runs to the end. */
  function EndExt(s: string): (r: Option<nat>)
    ensures r.Some? ==> r.value < |s| && s[r.value] == '.'
    ensures r.None? ==> (|s| < 4 || (!PngAt(s, |s| - 4) && !JpgAt(s, |s| - 4))) && (|s| < 5 || !JpegAt(s, |s| - 5))
  {
    if |s| >= 4 && (PngAt(s, |s| - 4) || JpgAt(s, |s| - 4)) then Some(|s| - 4)
    else if |s| >= 5 && JpegAt(s, |s| - 5) then Some(|s| - 5)
    else None
  }

  /** `EndExt` is the anchored match: it finds `k` exactly when the match at `k` reaches the end. */
  lemma EndExtIsAnchoredMatch(s: string, k: nat)
    ensures EndExt(s) == Some(k) <==> (k <= |s| && ExtLenAt(s, k) == Some(|s| - k))
  {
  }

  /** `s.replace(/\.(png|jpe?g)$/i, rep)`. */
  function ReplaceImageExt(s: string, rep: string): (r: string)
    ensures EndExt(s).None? ==> r == s
    ensures EndExt(s).Some? ==> r == s[..EndExt(s).value] + rep
  {
    match EndExt(s)
    case None => s
    case Some(k) => s[..k] + rep
  }

  /** A '.avif' name no longer matches the pattern, so swapping its extension twice changes nothing more. */
  lemma AvifSwapIdempotent(s: string)
    ensures EndExt(ReplaceImageExt(s, ".avif")).None?
    ensures ReplaceImageExt(ReplaceImageExt(s, ".avif"), ".avif") == ReplaceImageExt(s, ".avif")
  {
    var t := ReplaceImageExt(s, ".avif");
    if EndExt(s).Some? {
      var k := EndExt(s).value;
      assert t == s[..k] + ".avif";
      assert t[|t| - 4] == 'a' && t[|t| - 5] == '.' && t[|t| - 4] == 'a';
    }
  }
}

=== FILE: safe_rules.dfy ===
/**
 * The data-driven rule evaluator: a second, independent evaluator with its
 * own rule-type names and its own semantics. Interface checks use strict
 * equality (no interface groups), message templating replaces only the first
 * occurrence of each placeholder with "Unknown ..." defaults, and legacy
 * string conditions are converted into structured rules by pattern.
 */
module SafeRules {
  import opened Wrappers
  import opened Strings
  import opened Seqs
  import opened HardwareTypes
  import opened Templates
  import ServiceRules
  import ServiceMessages

  /** The derived lists the evaluator keeps after initialisation. */
  datatype SafeConfig = SafeConfig(
    supportedChipsets: seq<string>,
    supportedInterfaces: seq<string>,
    validStatuses: seq<string>,
    manufacturers: seq<string>)

  // ---------------------------------------------------------------------
  // Initialisation

  /** `extractSupportedChipsets`: WiFi chipsets, then the engine-level list, each once. */
  function ExtractSupportedChipsets(data: ConfigData): (r: seq<string>)
    ensures NoDup(r)
    ensures forall x :: x in r <==>
      (exists c :: c in CategoryComponents(data.categories.GetOr([]), "wifi_adapters") && ChipsetOf(c) == Some(x) && |x| > 0) ||
      (data.engine.Some? && data.engine.value.supportedChipsets.Some? && x in data.engine.value.supportedChipsets.value)
  {
    var wifi := CategoryComponents(data.categories.GetOr([]), "wifi_adapters");
    var explicit :=
      if data.engine.Some? && data.engine.value.supportedChipsets.Some? then data.engine.value.supportedChipsets.value
      else [];
    Dedup(FlatMap(wifi, ChipsetTags) + explicit)
  }

  /** `extractSupportedInterfaces`: every interface named by any component, each once. */
  function ExtractSupportedInterfaces(data: ConfigData): (r: seq<string>)
    ensures NoDup(r)
    ensures forall x :: x in r <==> exists c :: c in AllComponents(data.categories.GetOr([])) && x in InterfaceTags(c)
  {
    Dedup(FlatMap(AllComponents(data.categories.GetOr([])), InterfaceTags))
  }

  /** `extractValidStatuses`: every non-empty status in use, each once. */
  function ExtractValidStatuses(data: ConfigData): (r: seq<string>)
    ensures NoDup(r)
    ensures forall x :: x in r <==> |x| > 0 && exists c :: c in AllComponents(data.categories.GetOr([])) && c.status == x
  {
    Dedup(FlatMap(AllComponents(data.categories.GetOr([])), StatusTags))
  }

  /** `extractManufacturers`: every non-empty manufacturer in use, each once. */
  function ExtractManufacturers(data: ConfigData): (r: seq<string>)
    ensures NoDup(r)
    ensures forall x :: x in r <==> |x| > 0 && exists c :: c in AllComponents(data.categories.GetOr([])) && c.manufacturer == x
  {
    Dedup(FlatMap(AllComponents(data.categories.GetOr([])), ManufacturerTags))
  }

  /** The configuration object spread over the derived lists: its keys win. */
  function Override(derived: seq<string>, configured: Option<seq<string>>): seq<string> {
    configured.GetOr(derived)
  }

  /** `initialize`: the derived lists, with any key present under `configuration` taking precedence. */
  function Initialize(data: ConfigData): (r: SafeConfig)
    ensures var cfg := if data.engine.Some? then data.engine.value.configuration.GetOr(EmptyConfiguration) else EmptyConfiguration;
      (cfg.supportedChipsets.Some? ==> r.supportedChipsets == cfg.supportedChipsets.value) &&
      (cfg.supportedChipsets.None? ==> r.supportedChipsets == ExtractSupportedChipsets(data)) &&
      (cfg.supportedInterfaces.Some? ==> r.supportedInterfaces == cfg.supportedInterfaces.value) &&
      (cfg.supportedInterfaces.None? ==> r.supportedInterfaces == ExtractSupportedInterfaces(data)) &&
      (cfg.validStatuses.Some? ==> r.validStatuses == cfg.validStatuses.value) &&
      (cfg.validStatuses.None? ==> r.validStatuses == ExtractValidStatuses(data)) &&
      (cfg.manufacturers.Some? ==> r.manufacturers == cfg.manufacturers.value) &&
      (cfg.manufacturers.None? ==> r.manufacturers == ExtractManufacturers(data))
  {
    var cfg := if data.engine.Some? then data.engine.value.configuration.GetOr(EmptyConfiguration) else EmptyConfiguration;
    SafeConfig(
      Override(ExtractSupportedChipsets(data), cfg.supportedChipsets),
      Override(ExtractSupportedInterfaces(data), cfg.supportedInterfaces),
      Override(ExtractValidStatuses(data), cfg.validStatuses),
      Override(ExtractManufacturers(data), cfg.manufacturers))
  }

  // ---------------------------------------------------------------------
  // Checkers

  /** `context[key]` for a key that may itself be `undefined`. */
  function SlotAt(ctx: Context, key: Option<string>): Option<Component> {
    if key.Some? then Slot(ctx, key.value) else None
  }

  /** `checkInterfaceMismatch`: strict equality, no interface groups. */
  function CheckInterfaceMismatch(p: Params, ctx: Context): (r: bool)
    ensures r <==> (SlotAt(ctx, p.componentType).Some? && SlotAt(ctx, p.targetType).Some? &&
      InterfaceOf(SlotAt(ctx, p.componentType).value) == p.requiredInterface &&
      !(p.requiredInterface.Some? &&
        p.requiredInterface.value in InterfacesOf(SlotAt(ctx, p.targetType).value).GetOr([])))
  {
    var component := SlotAt(ctx, p.componentType);
    var target := SlotAt(ctx, p.targetType);
    if component.None? || target.None? then false
    else
      var targetInterfaces := InterfacesOf(target.value).GetOr([]);
      InterfaceOf(component.value) == p.requiredInterface &&
      !(p.requiredInterface.Some? && p.requiredInterface.value in targetInterfaces)
  }

  /** `checkRoleCompatibility`: a missing role list counts as empty, so a non-SBC never supports a role. */
  function CheckRole(ctx: Context): (r: bool)
    ensures r <==> (TruthyStr(ctx.selectedRole) && ctx.sbc.Some? &&
      ctx.selectedRole.value !in RolesOf(ctx.sbc.value).GetOr([]) && "both" !in RolesOf(ctx.sbc.value).GetOr([]))
  {
    if !TruthyStr(ctx.selectedRole) || ctx.sbc.None? then false
    else
      var roles := RolesOf(ctx.sbc.value).GetOr([]);
      ctx.selectedRole.value !in roles && "both" !in roles
  }

  /** `checkStatus`; a missing or empty operator means 'equals'. */
  function CheckStatus(p: Params, ctx: Context): (r: bool)
    ensures SlotAt(ctx, p.componentType).None? ==> !r
    ensures SlotAt(ctx, p.componentType).Some? ==>
      var st := SlotAt(ctx, p.componentType).value.status;
      var op := OrStr(p.operator, "equals");
      (op == "equals" ==> (r <==> p.status == Some(StatusOne(st)))) &&
      (op == "not_equals" ==> (r <==> p.status != Some(StatusOne(st)))) &&
      (op == "in" ==> (r <==> p.status.Some? && p.status.value.StatusMany? && st in p.status.value.names)) &&
      (op == "not_in" ==> (r <==> p.status.Some? && p.status.value.StatusMany? && st !in p.status.value.names))
    ensures OrStr(p.operator, "equals") !in ["equals", "not_equals", "in", "not_in"] ==> !r
  {
    var op := OrStr(p.operator, "equals");
    var component := SlotAt(ctx, p.componentType);
    if component.None? then false
    else
      var st := component.value.status;
      if op == "equals" then p.status == Some(StatusOne(st))
      else if op == "not_equals" then p.status != Some(StatusOne(st))
      else if op == "in" then p.status.Some? && p.status.value.StatusMany? && st in p.status.value.names
      else if op == "not_in" then p.status.Some? && p.status.value.StatusMany? && st !in p.status.value.names
      else false
  }

  /** A missing or empty operator behaves as 'equals'. */
  lemma StatusOperatorDefault(p: Params, ctx: Context)
    requires !TruthyStr(p.operator)
    ensures CheckStatus(p, ctx) == CheckStatus(p.(operator := Some("equals")), ctx)
  {
  }

  /** For a present component, 'not_equals' is the negation of 'equals', and 'not_in' of 'in' on a list. */
  lemma StatusOperatorsComplement(p: Params, ctx: Context)
    requires SlotAt(ctx, p.componentType).Some?
    ensures CheckStatus(p.(operator := Some("not_equals")), ctx) == !CheckStatus(p.(operator := Some("equals")), ctx)
    ensures p.status.Some? && p.status.value.StatusMany? ==>
      CheckStatus(p.(operator := Some("not_in")), ctx) == !CheckStatus(p.(operator := Some("in")), ctx)
  {
  }

  /**
   * Against the service's flat status form: 'equals' and 'not_equals' agree,
   * but without an operator this evaluator tests equality while the service
   * tests inequality, so the two give opposite answers on a present component.
   */
  lemma StatusEvaluatorsCompared(p: Params, ctx: Context)
    requires p.statusFilter.None? && TruthyStr(p.componentType) && ServiceRules.TruthyStatus(p.status)
    ensures p.operator == Some("equals") || p.operator == Some("not_equals") ==>
      CheckStatus(p, ctx) == ServiceRules.CheckStatus(p, ctx)
    ensures !TruthyStr(p.operator) && Slot(ctx, p.componentType.value).Some? ==>
      CheckStatus(p, ctx) == !ServiceRules.CheckStatus(p, ctx)
  {
  }

  /** `value.includes(x)` on what `component[field] || []` read: a substring test on a string, membership on a list. */
  function Includes(v: JsValue, x: string): bool {
    match v
    case Undefined => false
    case Str(s) => |s| > 0 && Contains(s, x)
    case StrList(items) => x in items
  }

  /** `checkFeatures`. */
  function CheckFeatures(p: Params, ctx: Context): (r: bool)
    // The feature-and-interface form: the feature is present and the interface equals the value.
    ensures SlotAt(ctx, p.componentType).Some? && TruthyStr(p.requiredFeature) && TruthyStr(p.interfaceValue) ==>
      (r <==> (var c := SlotAt(ctx, p.componentType).value;
        Includes(Field(c, OrStr(p.featuresField, "features")), p.requiredFeature.value) &&
        Field(c, OrStr(p.interfaceField, "interface")) == Str(p.interfaceValue.value)))
    // Otherwise: a failed required gate gives false, a forbidden feature gives
    // true, and else the rule fires exactly when features were required.
    ensures SlotAt(ctx, p.componentType).Some? && !(TruthyStr(p.requiredFeature) && TruthyStr(p.interfaceValue)) ==>
      (r <==> (var have := FeaturesOf(SlotAt(ctx, p.componentType).value).GetOr([]);
        var required := p.requiredFeatures.GetOr([]);
        var gate := if OrStr(p.operator, "and") == "and" then HasAll(required, have)
                    else exists f :: f in required && f in have;
        (|required| == 0 || gate) &&
        ((exists f :: f in p.forbiddenFeatures.GetOr([]) && f in have) || |required| > 0)))
    ensures SlotAt(ctx, p.componentType).None? ==> !r
  {
    var component := SlotAt(ctx, p.componentType);
    if component.None? then false
    else
      var c := component.value;
      if TruthyStr(p.requiredFeature) && TruthyStr(p.interfaceValue) then
        var features := Field(c, OrStr(p.featuresField, "features"));
        Includes(features, p.requiredFeature.value) &&
        Field(c, OrStr(p.interfaceField, "interface")) == Str(p.interfaceValue.value)
      else
        var have := FeaturesOf(c).GetOr([]);
        var required := p.requiredFeatures.GetOr([]);
        var forbidden := p.forbiddenFeatures.GetOr([]);
        if |required| > 0 &&
           !(if OrStr(p.operator, "and") == "and" then HasAll(required, have) else exists f :: f in required && f in have)
        then false
        else if |forbidden| > 0 && exists f :: f in forbidden && f in have then true
        else |required| > 0
  }

  /**
   * `context[countField] || 0` as an operand of the comparisons: a number, or
   * a non-numeric value (a component object or the role string), against
   * which every relational test and `===` are false.
   */
  datatype CountOperand = CountNum(n: int) | CountOther

  /** The count operand a field name reads from the context; anything absent or falsy is 0. */
  function CountOperandOf(ctx: Context, field: Option<string>): (r: CountOperand)
    ensures r.CountOther? <==> (field.Some? &&
      (Slot(ctx, field.value).Some? || (field.value == "selected_role" && TruthyStr(ctx.selectedRole))))
    ensures r.CountNum? && field.Some? && NumericField(ctx, field.value).Some? ==> r.n == NumericField(ctx, field.value).value
    ensures r.CountNum? && (field.None? || NumericField(ctx, field.value).None?) ==> r.n == 0
  {
    if field.None? then CountNum(0)
    else if Slot(ctx, field.value).Some? then CountOther
    else if field.value == "selected_role" && TruthyStr(ctx.selectedRole) then CountOther
    else CountNum(NumericField(ctx, field.value).GetOr(0))
  }

  /** `checkCount`: the operand compared with the threshold by one of six operators. */
  function CheckCount(p: Params, ctx: Context): (r: bool)
    ensures p.threshold.Some? && CountOperandOf(ctx, p.countField).CountNum? ==>
      (r <==> (var v := CountOperandOf(ctx, p.countField).n;
        var t := p.threshold.value;
        (p.operator == Some("gt") && v > t) || (p.operator == Some("gte") && v >= t) ||
        (p.operator == Some("lt") && v < t) || (p.operator == Some("lte") && v <= t) ||
        (p.operator == Some("eq") && v == t) || (p.operator == Some("neq") && v != t)))
    // A non-numeric operand or a missing threshold compares false, and unequal.
    ensures CountOperandOf(ctx, p.countField).CountOther? ==> (r <==> p.operator == Some("neq"))
    ensures p.threshold.None? ==> (r <==> p.operator == Some("neq"))
  {
    var current := CountOperandOf(ctx, p.countField);
    match p.operator
    case None => false
    case Some(op) =>
      if p.threshold.None? || current.CountOther? then op == "neq"
      else
        var v, t := current.n, p.threshold.value;
        if op == "gt" then v > t
        else if op == "gte" then v >= t
        else if op == "lt" then v < t
        else if op == "lte" then v <= t
        else if op == "eq" then v == t
        else if op == "neq" then v != t
        else false
  }

  /** Counting a component slot: with an SBC in context, "lt 1" does not fire, though a missing SBC would count as 0. */
  lemma CountOnComponentOnlyNeq(sbc: Component, ctx: Context)
    requires ctx.sbc == Some(sbc)
    ensures !CheckCount(NoParams.(countField := Some("sbc"), operator := Some("lt"), threshold := Some(1)), ctx)
    ensures CheckCount(NoParams.(countField := Some("sbc"), operator := Some("neq"), threshold := Some(0)), ctx)
    ensures CheckCount(NoParams.(countField := Some("sbc"), operator := Some("lt"), threshold := Some(1)), ctx.(sbc := None))
  {
  }

  /**
   * The 'different_manufacturer' test as written: `a && b ? c : d` groups as
   * `(a && b) ? c : d`, so the SBC condition only selects the branch.
   */
  function DifferentManufacturerAsWritten(p: Params, sbc: Component, camera: Component): bool {
    if Some(sbc.manufacturer) == p.sbcManufacturer && p.cameraManufacturer == Some("not_Radxa") then
      camera.manufacturer != "Radxa"
    else
      Some(camera.manufacturer) != p.cameraManufacturer
  }

  /**
   * The 'different_manufacturer' test as intended: the rule concerns SBCs
   * from `sbc_manufacturer` only, and then compares the camera's maker.
   */
  function DifferentManufacturer(p: Params, sbc: Component, camera: Component): (r: bool)
    ensures Some(sbc.manufacturer) != p.sbcManufacturer ==> !r
    ensures Some(sbc.manufacturer) == p.sbcManufacturer ==>
      (r <==> if p.cameraManufacturer == Some("not_Radxa") then camera.manufacturer != "Radxa"
              else Some(camera.manufacturer) != p.cameraManufacturer)
  {
    Some(sbc.manufacturer) == p.sbcManufacturer &&
    (if p.cameraManufacturer == Some("not_Radxa") then camera.manufacturer != "Radxa"
     else Some(camera.manufacturer) != p.cameraManufacturer)
  }

  /** The written grouping fires for an SBC the rule is not about; the intended one does not. */
  lemma DifferentManufacturerPrecedence()
    ensures var p := NoParams.(sbcManufacturer := Some("Radxa"), cameraManufacturer := Some("not_Radxa"));
      var sbc := Component("rpi4", "Raspberry Pi 4", "Raspberry Pi", "supported", SbcDetails(["air"], ["csi"], "low"));
      var camera := Component("imx", "IMX477", "Sony", "supported", CameraDetails("csi", None, None, None));
      DifferentManufacturerAsWritten(p, sbc, camera) && !DifferentManufacturer(p, sbc, camera)
  {
  }

  /** The two groupings agree whenever the SBC is from the named manufacturer. */
  lemma DifferentManufacturerAgreesOnNamedSbc(p: Params, sbc: Component, camera: Component)
    requires Some(sbc.manufacturer) == p.sbcManufacturer
    ensures DifferentManufacturerAsWritten(p, sbc, camera) == DifferentManufacturer(p, sbc, camera)
  {
  }

  /** The original 'manufacturer_mismatch' form: two components compared by 'same' or 'different'. */
  function ManufacturerPair(p: Params, ctx: Context): (r: bool)
    ensures r <==> (SlotAt(ctx, p.component1Type).Some? && SlotAt(ctx, p.component2Type).Some? &&
      var m1 := SlotAt(ctx, p.component1Type).value.manufacturer;
      var m2 := SlotAt(ctx, p.component2Type).value.manufacturer;
      (p.operator == Some("same") && m1 == m2) || (p.operator == Some("different") && m1 != m2))
  {
    var c1 := SlotAt(ctx, p.component1Type);
    var c2 := SlotAt(ctx, p.component2Type);
    if c1.None? || c2.None? then false
    else if p.operator == Some("same") then c1.value.manufacturer == c2.value.manufacturer
    else if p.operator == Some("different") then c1.value.manufacturer != c2.value.manufacturer
    else false
  }

  /** `checkManufacturer` as written, with the SBC condition only selecting the branch. */
  function CheckManufacturer(p: Params, ctx: Context): (r: bool)
    ensures p.checkType == Some("different_manufacturer") ==>
      (r <==> (ctx.sbc.Some? && ctx.camera.Some? && DifferentManufacturerAsWritten(p, ctx.sbc.value, ctx.camera.value)))
    ensures p.checkType != Some("different_manufacturer") ==> r == ManufacturerPair(p, ctx)
  {
    if p.checkType == Some("different_manufacturer") then
      if ctx.sbc.None? || ctx.camera.None? then false
      else DifferentManufacturerAsWritten(p, ctx.sbc.value, ctx.camera.value)
    else ManufacturerPair(p, ctx)
  }

  /** `checkManufacturer` as intended: a 'different_manufacturer' rule only concerns SBCs of its manufacturer. */
  function CheckManufacturerIntended(p: Params, ctx: Context): (r: bool)
    ensures p.checkType == Some("different_manufacturer") ==>
      (r <==> (ctx.sbc.Some? && ctx.camera.Some? && DifferentManufacturer(p, ctx.sbc.value, ctx.camera.value)))
    ensures (p.checkType == Some("different_manufacturer") && ctx.sbc.Some? &&
             Some(ctx.sbc.value.manufacturer) != p.sbcManufacturer) ==> !r
    ensures p.checkType != Some("different_manufacturer") ==> r == ManufacturerPair(p, ctx)
  {
    if p.checkType == Some("different_manufacturer") then
      if ctx.sbc.None? || ctx.camera.None? then false
      else DifferentManufacturer(p, ctx.sbc.value, ctx.camera.value)
    else ManufacturerPair(p, ctx)
  }

  /** The written and the intended check agree except on a 'different_manufacturer' rule and an SBC of another maker. */
  lemma CheckManufacturerAgreement(p: Params, ctx: Context)
    requires p.checkType != Some("different_manufacturer") || ctx.sbc.None? ||
      Some(ctx.sbc.value.manufacturer) == p.sbcManufacturer
    ensures CheckManufacturer(p, ctx) == CheckManufacturerIntended(p, ctx)
  {
    if p.checkType == Some("different_manufacturer") && ctx.sbc.Some? && ctx.camera.Some? {
      DifferentManufacturerAgreesOnNamedSbc(p, ctx.sbc.value, ctx.camera.value);
    }
  }

  /** `checkChipsetWhitelist`: the global list unless `use_global_whitelist` is literally false. */
  function CheckChipset(cfg: SafeConfig, p: Params, ctx: Context): (r: bool)
    ensures r <==> (SlotAt(ctx, p.componentType).Some? &&
      var v := Field(SlotAt(ctx, p.componentType).value, OrStr(p.field, "chipset"));
      var whitelist := if p.useGlobalWhitelist != Some(false) then cfg.supportedChipsets else p.whitelist.GetOr([]);
      Truthy(v) && !(v.Str? && v.s in whitelist))
  {
    var component := SlotAt(ctx, p.componentType);
    if component.None? then false
    else
      var v := Field(component.value, OrStr(p.field, "chipset"));
      if !Truthy(v) then false
      else
        var whitelist := if p.useGlobalWhitelist != Some(false) then cfg.supportedChipsets else p.whitelist.GetOr([]);
        !(v.Str? && v.s in whitelist)
  }

  /** `checkPlatformRestriction`: this SBC with a camera on the restricted interface. */
  function CheckPlatform(p: Params, ctx: Context): (r: bool)
    ensures r <==> (ctx.sbc.Some? && ctx.camera.Some? &&
      Some(ctx.sbc.value.id) == p.sbcId && InterfaceOf(ctx.camera.value) == p.cameraInterface)
  {
    if ctx.sbc.None? || ctx.camera.None? then false
    else Some(ctx.sbc.value.id) == p.sbcId && InterfaceOf(ctx.camera.value) == p.cameraInterface
  }

  // ---------------------------------------------------------------------
  // Dispatch

  /** The rule types this evaluator knows. */
  const KnownKinds: seq<string> := [
    "interface_mismatch", "role_incompatible", "role_support_check", "status_check",
    "feature_check", "feature_interface_check", "count_check", "manufacturer_mismatch",
    "manufacturer_compatibility", "chipset_whitelist", "platform_interface_restriction"
  ]

  /** The checker a rule type selects. */
  datatype Checker = ByInterface | ByRole | ByStatus | ByFeatures | ByCount | ByManufacturer | ByChipset | ByPlatform

  /** The `switch` on the rule type; two names select each of the role, feature and manufacturer checkers. */
  function CheckerFor(kind: string): (r: Option<Checker>)
    ensures r.None? <==> kind !in KnownKinds
  {
    if kind == "interface_mismatch" then Some(ByInterface)
    else if kind == "role_incompatible" || kind == "role_support_check" then Some(ByRole)
    else if kind == "status_check" then Some(ByStatus)
    else if kind == "feature_check" || kind == "feature_interface_check" then Some(ByFeatures)
    else if kind == "count_check" then Some(ByCount)
    else if kind == "manufacturer_mismatch" || kind == "manufacturer_compatibility" then Some(ByManufacturer)
    else if kind == "chipset_whitelist" then Some(ByChipset)
    else if kind == "platform_interface_restriction" then Some(ByPlatform)
    else None
  }

  /** Which checker each known rule type selects. */
  lemma CheckerNames()
    ensures CheckerFor("interface_mismatch") == Some(ByInterface)
    ensures CheckerFor("role_incompatible") == Some(ByRole) && CheckerFor("role_support_check") == Some(ByRole)
    ensures CheckerFor("status_check") == Some(ByStatus)
    ensures CheckerFor("feature_check") == Some(ByFeatures) && CheckerFor("feature_interface_check") == Some(ByFeatures)
    ensures CheckerFor("count_check") == Some(ByCount)
    ensures CheckerFor("manufacturer_mismatch") == Some(ByManufacturer)
    ensures CheckerFor("manufacturer_compatibility") == Some(ByManufacturer)
    ensures CheckerFor("chipset_whitelist") == Some(ByChipset)
    ensures CheckerFor("platform_interface_restriction") == Some(ByPlatform)
  {
    CheckerNamesFirst();
    CheckerNamesLast();
  }

  lemma CheckerNamesFirst()
    ensures CheckerFor("interface_mismatch") == Some(ByInterface)
    ensures CheckerFor("role_incompatible") == Some(ByRole) && CheckerFor("role_support_check") == Some(ByRole)
    ensures CheckerFor("status_check") == Some(ByStatus)
    ensures CheckerFor("feature_check") == Some(ByFeatures) && CheckerFor("feature_interface_check") == Some(ByFeatures)
  {
  }

  lemma CheckerNamesLast()
    ensures CheckerFor("count_check") == Some(ByCount)
    ensures CheckerFor("manufacturer_mismatch") == Some(ByManufacturer)
    ensures CheckerFor("manufacturer_compatibility") == Some(ByManufacturer)
    ensures CheckerFor("chipset_whitelist") == Some(ByChipset)
    ensures CheckerFor("platform_interface_restriction") == Some(ByPlatform)
  {
  }

  /** `evaluateStructuredRule`; `state` is `None` before `initialize`. */
  function EvaluateStructuredRule(state: Option<SafeConfig>, rule: Rule, ctx: Context): (r: bool)
    ensures state.None? ==> !r
    ensures rule.kind !in KnownKinds ==> !r
    ensures state.Some? && CheckerFor(rule.kind) == Some(ByInterface) ==> r == CheckInterfaceMismatch(rule.parameters, ctx)
    ensures state.Some? && CheckerFor(rule.kind) == Some(ByRole) ==> r == CheckRole(ctx)
    ensures state.Some? && CheckerFor(rule.kind) == Some(ByStatus) ==> r == CheckStatus(rule.parameters, ctx)
    ensures state.Some? && CheckerFor(rule.kind) == Some(ByFeatures) ==> r == CheckFeatures(rule.parameters, ctx)
    ensures state.Some? && CheckerFor(rule.kind) == Some(ByCount) ==> r == CheckCount(rule.parameters, ctx)
    ensures state.Some? && CheckerFor(rule.kind) == Some(ByManufacturer) ==> r == CheckManufacturer(rule.parameters, ctx)
    ensures state.Some? && CheckerFor(rule.kind) == Some(ByChipset) ==> r == CheckChipset(state.value, rule.parameters, ctx)
    ensures state.Some? && CheckerFor(rule.kind) == Some(ByPlatform) ==> r == CheckPlatform(rule.parameters, ctx)
  {
    if state.None? then false
    else
      var p := rule.parameters;
      match CheckerFor(rule.kind)
      case None => false
      case Some(ByInterface) => CheckInterfaceMismatch(p, ctx)
      case Some(ByRole) => CheckRole(ctx)
      case Some(ByStatus) => CheckStatus(p, ctx)
      case Some(ByFeatures) => CheckFeatures(p, ctx)
      case Some(ByCount) => CheckCount(p, ctx)
      case Some(ByManufacturer) => CheckManufacturer(p, ctx)
      case Some(ByChipset) => CheckChipset(state.value, p, ctx)
      case Some(ByPlatform) => CheckPlatform(p, ctx)
  }

  /** The evaluator with the corrected 'different_manufacturer' grouping; every other rule evaluates as written. */
  function EvaluateStructuredRuleIntended(state: Option<SafeConfig>, rule: Rule, ctx: Context): (r: bool)
    ensures state.Some? && CheckerFor(rule.kind) == Some(ByManufacturer) ==>
      r == CheckManufacturerIntended(rule.parameters, ctx)
    ensures !(state.Some? && CheckerFor(rule.kind) == Some(ByManufacturer)) ==> r == EvaluateStructuredRule(state, rule, ctx)
    // A 'different_manufacturer' rule never fires for an SBC from another manufacturer.
    ensures (CheckerFor(rule.kind) == Some(ByManufacturer) && rule.parameters.checkType == Some("different_manufacturer") &&
             ctx.sbc.Some? && Some(ctx.sbc.value.manufacturer) != rule.parameters.sbcManufacturer) ==> !r
  {
    if state.Some? && CheckerFor(rule.kind) == Some(ByManufacturer) then CheckManufacturerIntended(rule.parameters, ctx)
    else EvaluateStructuredRule(state, rule, ctx)
  }

  /** Both evaluators agree on every rule when the SBC is from the manufacturer a rule names. */
  lemma EvaluatorsAgreeOnNamedSbc(state: Option<SafeConfig>, rule: Rule, ctx: Context)
    requires ctx.sbc.None? || Some(ctx.sbc.value.manufacturer) == rule.parameters.sbcManufacturer
    ensures EvaluateStructuredRuleIntended(state, rule, ctx) == EvaluateStructuredRule(state, rule, ctx)
  {
    CheckManufacturerAgreement(rule.parameters, ctx);
  }

  /**
   * The written grouping makes a Radxa-only rule fire for a Raspberry Pi with a
   * Sony camera; the corrected evaluator does not fire.
   */
  lemma ManufacturerRuleFiresForOtherSbc(cfg: SafeConfig)
    ensures var p := NoParams.(checkType := Some("different_manufacturer"), sbcManufacturer := Some("Radxa"),
                               cameraManufacturer := Some("not_Radxa"));
      var rule := Rule("radxa_camera", "manufacturer_compatibility", Warning, "", p, false);
      var sbc := Component("rpi4", "Raspberry Pi 4", "Raspberry Pi", "supported", SbcDetails(["air"], ["csi"], "low"));
      var camera := Component("imx", "IMX477", "Sony", "supported", CameraDetails("csi", None, None, None));
      var ctx := Context(Some(sbc), Some(camera), None, None, None);
      EvaluateStructuredRule(Some(cfg), rule, ctx) && !EvaluateStructuredRuleIntended(Some(cfg), rule, ctx)
  {
    CheckerNames();
    DifferentManufacturerPrecedence();
  }

  /** Each alias pair selects one checker. */
  lemma AliasPairsAgree(state: Option<SafeConfig>, rule: Rule, ctx: Context)
    ensures EvaluateStructuredRule(state, rule.(kind := "role_incompatible"), ctx) ==
            EvaluateStructuredRule(state, rule.(kind := "role_support_check"), ctx)
    ensures EvaluateStructuredRule(state, rule.(kind := "feature_check"), ctx) ==
            EvaluateStructuredRule(state, rule.(kind := "feature_interface_check"), ctx)
    ensures EvaluateStructuredRule(state, rule.(kind := "manufacturer_mismatch"), ctx) ==
            EvaluateStructuredRule(state, rule.(kind := "manufacturer_compatibility"), ctx)
  {
    CheckerNames();
  }

  /**
   * For a camera-on-SBC interface rule, the strict check fires whenever the
   * service's group-aware check does: exact absence is implied by group absence.
   */
  lemma StrictInterfaceCheckCoversService(p: Params, ctx: Context)
    requires p.componentType == Some("camera") && p.targetType == Some("sbc") && TruthyStr(p.requiredInterface)
    ensures ServiceRules.CheckInterface(p, ctx) ==> CheckInterfaceMismatch(p, ctx)
  {
    if ServiceRules.CheckInterface(p, ctx) {
      var req := p.requiredInterface.value;
      var avail := InterfacesOf(ctx.sbc.value).value;
      assert ServiceRules.SameGroup(req, req);
      assert req !in avail;
    }
  }

  /** A USB 2 camera rule, on an SBC whose only port is named "usb". */
  const UsbRule := Rule("usb_rule", "interface_mismatch", Error, "",
    NoParams.(requiredInterface := Some("usb2"), componentType := Some("camera"), targetType := Some("sbc")), false)
  const UsbContext := Context(
    Some(Component("sbc", "SBC", "Maker", "supported", SbcDetails(["air"], ["usb"], "low"))),
    Some(Component("cam", "Camera", "Maker", "supported", CameraDetails("usb2", None, None, None))),
    None, None, None)

  /**
   * The two evaluators disagree on the same rule: the service treats "usb2"
   * as served by an SBC's "usb" port, this evaluator compares names exactly.
   */
  lemma EvaluatorsDisagreeOnInterfaceGroups(cfg: SafeConfig, config: Option<Configuration>)
    ensures EvaluateStructuredRule(Some(cfg), UsbRule, UsbContext) && !ServiceRules.Evaluate(UsbRule, config, UsbContext)
  {
    StrictCheckFiresOnUsb(cfg);
    GroupCheckSilentOnUsb(config);
  }

  lemma StrictCheckFiresOnUsb(cfg: SafeConfig)
    ensures EvaluateStructuredRule(Some(cfg), UsbRule, UsbContext)
  {
    CheckerNames();
  }

  lemma GroupCheckSilentOnUsb(config: Option<Configuration>)
    ensures !ServiceRules.Evaluate(UsbRule, config, UsbContext)
  {
    assert ServiceRules.SameGroup("usb2", "usb");
    assert ServiceRules.SupportedSpec("usb2", ["usb"]);
  }

  // ---------------------------------------------------------------------
  // Messages and legacy conversion

  /** The role placeholder, which only this evaluator fills. */
  const RoleHole := Placeholder("selected_role")

  /**
   * The arguments of the `replace` chain of `formatMessage`, in order: each
   * placeholder with the context's value, or an "Unknown ..." default when
   * that value is missing or empty.
   */
  function SafeSubs(ctx: Context): (r: seq<Sub>)
    ensures |r| == 6
  {
    [Sub(ServiceMessages.SbcNameHole, OrStr(if ctx.sbc.Some? then Some(ctx.sbc.value.name) else None, "Unknown SBC")),
     Sub(ServiceMessages.CameraNameHole, OrStr(if ctx.camera.Some? then Some(ctx.camera.value.name) else None, "Unknown Camera")),
     Sub(ServiceMessages.CameraInterfaceHole, OrStr(if ctx.camera.Some? then InterfaceOf(ctx.camera.value) else None, "Unknown Interface")),
     Sub(ServiceMessages.WifiNameHole, OrStr(if ctx.wifi.Some? then Some(ctx.wifi.value.name) else None, "Unknown WiFi")),
     Sub(ServiceMessages.WifiChipsetHole, OrStr(if ctx.wifi.Some? then ChipsetOf(ctx.wifi.value) else None, "Unknown Chipset")),
     Sub(RoleHole, OrStr(ctx.selectedRole, "Unknown Role"))]
  }

  /** `formatMessage`: the first occurrence of each placeholder is replaced, in this order. */
  function FormatMessage(template: string, ctx: Context): string {
    var subs := SafeSubs(ctx);
    var m1 := ReplaceFirst(template, subs[0].pat, subs[0].value);
    var m2 := ReplaceFirst(m1, subs[1].pat, subs[1].value);
    var m3 := ReplaceFirst(m2, subs[2].pat, subs[2].value);
    var m4 := ReplaceFirst(m3, subs[3].pat, subs[3].value);
    var m5 := ReplaceFirst(m4, subs[4].pat, subs[4].value);
    ReplaceFirst(m5, subs[5].pat, subs[5].value)
  }

  /** `formatMessage` is the chain of first-occurrence replacements over its argument list. */
  lemma FormatMessageIsChain(template: string, ctx: Context)
    ensures FormatMessage(template, ctx) == ReplaceFirstEach(template, SafeSubs(ctx))
  {
    var subs := SafeSubs(ctx);
    var m1 := ReplaceFirst(template, subs[0].pat, subs[0].value);
    var m2 := ReplaceFirst(m1, subs[1].pat, subs[1].value);
    var m3 := ReplaceFirst(m2, subs[2].pat, subs[2].value);
    var m4 := ReplaceFirst(m3, subs[3].pat, subs[3].value);
    var m5 := ReplaceFirst(m4, subs[4].pat, subs[4].value);
    ReplaceFirstEachCons(template, subs);
    ReplaceFirstEachCons(m1, subs[1..]);
    ReplaceFirstEachCons(m2, subs[2..]);
    ReplaceFirstEachCons(m3, subs[3..]);
    ReplaceFirstEachCons(m4, subs[4..]);
    ReplaceFirstEachCons(m5, subs[5..]);
    assert subs[1..][1..] == subs[2..] && subs[2..][1..] == subs[3..] && subs[3..][1..] == subs[4..];
    assert subs[4..][1..] == subs[5..] && subs[5..][1..] == [];
  }

  /**
   * Reference meaning of the placeholders here: each of the six stands for the
   * context's value or its default, and any other name for nothing.
   */
  function SafeValue(ctx: Context, hole: string): Option<string> {
    ValueFor(SafeSubs(ctx), hole)
  }

  /** The six placeholders, told apart by their lengths. */
  lemma SafeHoleLengths()
    ensures |ServiceMessages.SbcNameHole| == 10 && |ServiceMessages.CameraNameHole| == 13
    ensures |ServiceMessages.CameraInterfaceHole| == 18 && |ServiceMessages.WifiNameHole| == 11
    ensures |ServiceMessages.WifiChipsetHole| == 14 && |RoleHole| == 15
  {
  }

  /** The argument list names six different, delimited placeholders. */
  lemma SafeSubsWellFormed(ctx: Context)
    ensures DistinctPats(SafeSubs(ctx))
    ensures forall i :: 0 <= i < 6 ==> Delimited(SafeSubs(ctx)[i].pat)
  {
    SafeHoleLengths();
    ServiceMessages.ServicePlaceholdersDelimited();
    PlaceholderDelimited("selected_role");
  }

  /** No inserted value contains '{'. */
  ghost predicate SafeValuesBraceFree(ctx: Context) {
    forall i :: 0 <= i < |SafeSubs(ctx)| ==> '{' !in SafeSubs(ctx)[i].value
  }

  /**
   * On a template made of text without '{' and placeholders, the message is
   * the template with the first piece for each of the six placeholders
   * replaced by its value or default; later pieces for the same placeholder,
   * and unknown placeholders, stay.
   */
  lemma FormatMessageOnPieces(ps: seq<Piece>, ctx: Context)
    requires WellFormed(ps) && SafeValuesBraceFree(ctx)
    ensures FormatMessage(Render(ps), ctx) == Render(FillFirstHoles(ps, SafeSubs(ctx)))
  {
    SafeSubsWellFormed(ctx);
    FormatMessageIsChain(Render(ps), ctx);
    ReplaceFirstEachOnPieces(ps, SafeSubs(ctx));
  }

  /** Every one of the six placeholders receives a value, and only those six do. */
  lemma SafeValuesDefined(ctx: Context, hole: string)
    ensures SafeValue(ctx, hole).Some? <==>
      hole in {ServiceMessages.SbcNameHole, ServiceMessages.CameraNameHole, ServiceMessages.CameraInterfaceHole,
               ServiceMessages.WifiNameHole, ServiceMessages.WifiChipsetHole, RoleHole}
  {
    var subs := SafeSubs(ctx);
    assert subs[0].pat == ServiceMessages.SbcNameHole && subs[1].pat == ServiceMessages.CameraNameHole;
    assert subs[2].pat == ServiceMessages.CameraInterfaceHole && subs[3].pat == ServiceMessages.WifiNameHole;
    assert subs[4].pat == ServiceMessages.WifiChipsetHole && subs[5].pat == RoleHole;
  }

  /** A template without any of the six placeholders comes back unchanged. */
  lemma FormatMessageKeepsPlainText(template: string, ctx: Context)
    requires forall i :: 0 <= i < 6 ==> Free(template, SafeSubs(ctx)[i].pat)
    ensures FormatMessage(template, ctx) == template
  {
  }

  /**
   * Only the first occurrence of a placeholder is replaced: a template that
   * starts with `{sbc.name}` keeps every later `{sbc.name}`, and with no SBC
   * selected the first one reads "Unknown SBC".
   */
  lemma FormatMessageReplacesFirstOnly(rest: string, ctx: Context)
    requires ctx.sbc.None?
    requires forall i :: 1 <= i < 6 ==> Free(rest, SafeSubs(ctx)[i].pat)
    ensures FormatMessage(ServiceMessages.SbcNameHole + rest, ctx) == "Unknown SBC" + rest
  {
    var subs := SafeSubs(ctx);
    var hole := ServiceMessages.SbcNameHole;
    var t := hole + rest;
    assert t[0..|hole|] == hole;
    ReplaceFirstAtStart(t, hole, "Unknown SBC");
    assert t[|hole|..] == rest;
    SafeSubsWellFormed(ctx);
    forall i | 1 <= i < 6 ensures Free("Unknown SBC" + rest, subs[i].pat) {
      FreeAfterBraceless("Unknown SBC", rest, subs[i].pat);
    }
  }

  /** Prefixing text without a '{' cannot create an occurrence of a pattern that starts with '{'. */
  lemma FreeAfterBraceless(a: string, rest: string, pat: string)
    requires |pat| > 0 && pat[0] == '{' && '{' !in a
    requires Free(rest, pat)
    ensures Free(a + rest, pat)
  {
    var s := a + rest;
    forall i: nat
      ensures !OccursAt(s, pat, i)
    {
      if i + |pat| <= |s| {
        if i < |a| {
          assert s[i..i + |pat|][0] == a[i];
        } else {
          assert !OccursAt(rest, pat, i - |a|);
          assert s[i..i + |pat|] == rest[i - |a|..i - |a| + |pat|];
        }
      }
    }
  }

  /** A rule in the older format, with its condition as JavaScript source text. */
  datatype LegacyRule = LegacyRule(ruleId: string, condition: Option<string>, severity: Severity, message: string)

  const CsiCondition := "camera.interface == 'csi' && !sbc.interfaces.includes('csi')"
  const RoleCondition := "selected_role && !sbc.role_support.includes(selected_role)"
  const LegacyStatusCondition := "camera.status == 'legacy'"
  const ChipsetCondition := "wifi.chipset && !['RTL8812AU'"

  /** A structured rule carrying the legacy rule's id, severity and message. */
  function Converted(legacy: LegacyRule, kind: string, p: Params): Rule {
    Rule(legacy.ruleId, kind, legacy.severity, legacy.message, p, false)
  }

  /** `convertLegacyRule`: the first recognised pattern decides the structured rule. */
  function ConvertLegacyRule(legacy: LegacyRule): (r: Option<Rule>)
    ensures r.Some? ==> (r.value.ruleId == legacy.ruleId && r.value.severity == legacy.severity &&
      r.value.message == legacy.message && r.value.kind in KnownKinds)
    ensures r.None? <==> (legacy.condition.None? || |Trim(legacy.condition.value)| == 0 ||
      var c := Trim(legacy.condition.value);
      !Contains(c, CsiCondition) && !Contains(c, RoleCondition) &&
      !Contains(c, LegacyStatusCondition) && !Contains(c, ChipsetCondition))
  {
    if legacy.condition.None? then None
    else
      var c := Trim(legacy.condition.value);
      if |c| == 0 then None
      else
        if Contains(c, CsiCondition) then
          Some(Converted(legacy, "interface_mismatch",
            NoParams.(requiredInterface := Some("csi"), componentType := Some("camera"), targetType := Some("sbc"))))
        else if Contains(c, RoleCondition) then
          Some(Converted(legacy, "role_incompatible", NoParams))
        else if Contains(c, LegacyStatusCondition) then
          Some(Converted(legacy, "status_check", LegacyStatusParams))
        else if Contains(c, ChipsetCondition) then
          Some(Converted(legacy, "chipset_whitelist", LegacyChipsetParams))
        else None
  }

  /** The converted csi rule means what its condition says: a csi camera on an SBC without csi. */
  lemma ConvertedCsiRuleMeaning(cfg: SafeConfig, legacy: LegacyRule, ctx: Context)
    requires legacy.condition.Some? && Contains(Trim(legacy.condition.value), CsiCondition)
    requires ctx.sbc.Some? && ctx.camera.Some?
    ensures ConvertLegacyRule(legacy).Some?
    ensures EvaluateStructuredRule(Some(cfg), ConvertLegacyRule(legacy).value, ctx) <==>
      InterfaceOf(ctx.camera.value) == Some("csi") && "csi" !in InterfacesOf(ctx.sbc.value).GetOr([])
  {
    var c := Trim(legacy.condition.value);
    assert OccursAt(c, CsiCondition, IndexOf(c, CsiCondition).value);
    CheckerNames();
  }

  /** The converted role rule fires for a selected role the SBC lists neither by name nor as 'both'. */
  lemma ConvertedRoleRuleMeaning(cfg: SafeConfig, legacy: LegacyRule, ctx: Context)
    requires legacy.condition.Some?
    requires var c := Trim(legacy.condition.value); Contains(c, RoleCondition) && !Contains(c, CsiCondition)
    ensures ConvertLegacyRule(legacy) == Some(Converted(legacy, "role_incompatible", NoParams))
    ensures EvaluateStructuredRule(Some(cfg), ConvertLegacyRule(legacy).value, ctx) <==>
      TruthyStr(ctx.selectedRole) && ctx.sbc.Some? &&
      ctx.selectedRole.value !in RolesOf(ctx.sbc.value).GetOr([]) && "both" !in RolesOf(ctx.sbc.value).GetOr([])
  {
    var c := Trim(legacy.condition.value);
    assert OccursAt(c, RoleCondition, IndexOf(c, RoleCondition).value);
    CheckerNames();
  }

  /** The parameters the legacy status pattern converts to. */
  const LegacyStatusParams := NoParams.(componentType := Some("camera"), status := Some(StatusOne("legacy")), operator := Some("equals"))

  /** The converted status rule fires exactly for a camera whose status is 'legacy'. */
  lemma ConvertedStatusRuleMeaning(cfg: SafeConfig, legacy: LegacyRule, ctx: Context)
    requires legacy.condition.Some?
    requires var c := Trim(legacy.condition.value);
      Contains(c, LegacyStatusCondition) && !Contains(c, CsiCondition) && !Contains(c, RoleCondition)
    ensures ConvertLegacyRule(legacy) == Some(Converted(legacy, "status_check", LegacyStatusParams))
    ensures EvaluateStructuredRule(Some(cfg), ConvertLegacyRule(legacy).value, ctx) <==>
      ctx.camera.Some? && ctx.camera.value.status == "legacy"
  {
    ConvertsToStatusRule(legacy);
    CheckerNames();
    LegacyStatusParamsMeaning(ctx);
  }

  /** With those parameters the status check fires for a camera whose status is 'legacy'. */
  lemma LegacyStatusParamsMeaning(ctx: Context)
    ensures CheckStatus(LegacyStatusParams, ctx) <==> ctx.camera.Some? && ctx.camera.value.status == "legacy"
  {
    assert Slot(ctx, "camera") == ctx.camera;
    assert OrStr(Some("equals"), "equals") == "equals";
  }

  lemma ConvertsToStatusRule(legacy: LegacyRule)
    requires legacy.condition.Some?
    requires var c := Trim(legacy.condition.value);
      Contains(c, LegacyStatusCondition) && !Contains(c, CsiCondition) && !Contains(c, RoleCondition)
    ensures ConvertLegacyRule(legacy) == Some(Converted(legacy, "status_check", LegacyStatusParams))
  {
    var c := Trim(legacy.condition.value);
    assert OccursAt(c, LegacyStatusCondition, IndexOf(c, LegacyStatusCondition).value);
  }

  /** The parameters the chipset pattern converts to. */
  const LegacyChipsetParams := NoParams.(componentType := Some("wifi"), useGlobalWhitelist := Some(true))

  /** With those parameters the chipset check fires for a WiFi adapter whose non-empty chipset is not on the global list. */
  lemma LegacyChipsetParamsMeaning(cfg: SafeConfig, ctx: Context)
    ensures CheckChipset(cfg, LegacyChipsetParams, ctx) <==>
      ctx.wifi.Some? && TruthyStr(ChipsetOf(ctx.wifi.value)) && ChipsetOf(ctx.wifi.value).value !in cfg.supportedChipsets
  {
    if ctx.wifi.Some? {
      var w := ctx.wifi.value;
      assert Field(w, "chipset") == if w.details.WifiDetails? then Str(w.details.chipset) else Undefined;
    }
  }

  /** The converted chipset rule means what its condition says. */
  lemma ConvertedChipsetRuleMeaning(cfg: SafeConfig, legacy: LegacyRule, ctx: Context)
    requires legacy.condition.Some?
    requires var c := Trim(legacy.condition.value);
      Contains(c, ChipsetCondition) && !Contains(c, CsiCondition) &&
      !Contains(c, RoleCondition) && !Contains(c, LegacyStatusCondition)
    ensures ConvertLegacyRule(legacy).Some?
    ensures EvaluateStructuredRule(Some(cfg), ConvertLegacyRule(legacy).value, ctx) <==>
      ctx.wifi.Some? && TruthyStr(ChipsetOf(ctx.wifi.value)) && ChipsetOf(ctx.wifi.value).value !in cfg.supportedChipsets
  {
    ConvertsToChipsetRule(legacy);
    EvaluateChipsetKind(cfg, Converted(legacy, "chipset_whitelist", LegacyChipsetParams), ctx);
    LegacyChipsetParamsMeaning(cfg, ctx);
  }

  /** A chipset rule is decided by the chipset check alone. */
  lemma EvaluateChipsetKind(cfg: SafeConfig, rule: Rule, ctx: Context)
    requires rule.kind == "chipset_whitelist"
    ensures EvaluateStructuredRule(Some(cfg), rule, ctx) == CheckChipset(cfg, rule.parameters, ctx)
  {
    CheckerNames();
  }

  /** A condition naming only the chipset list becomes a whitelist rule against the global list. */
  lemma ConvertsToChipsetRule(legacy: LegacyRule)
    requires legacy.condition.Some?
    requires var c := Trim(legacy.condition.value);
      Contains(c, ChipsetCondition) && !Contains(c, CsiCondition) &&
      !Contains(c, RoleCondition) && !Contains(c, LegacyStatusCondition)
    ensures ConvertLegacyRule(legacy) == Some(Converted(legacy, "chipset_whitelist", LegacyChipsetParams))
  {
    var c := Trim(legacy.condition.value);
    assert OccursAt(c, ChipsetCondition, IndexOf(c, ChipsetCondition).value);
  }
}

=== FILE: seqs.dfy ===
/**
 * Sequence operations used across the site code: building a duplicate-free
 * list in first-insertion order (`Array.from(new Set(...))`), counting,
 * summing, and the stable sort `Array.prototype.sort` performs with a
 * comparator, plus the default string ordering of `sort()` without one.
 */
module Seqs {

  /** No element occurs twice. */
  ghost predicate NoDup<T>(s: seq<T>) {
    forall i, j :: 0 <= i < j < |s| ==> s[i] != s[j]
  }

  /**
   * `Array.from(set)` after inserting the elements of `s` in order into an
   * empty `Set`: each element once, at the position of its first occurrence.
   */
  function Dedup<T(==,!new)>(s: seq<T>): (r: seq<T>)
    ensures NoDup(r)
    ensures forall x :: x in r <==> x in s
    ensures |r| <= |s|
  {
    if |s| == 0 then []
    else
      var d := Dedup(s[..|s| - 1]);
      if s[|s| - 1] in d then d else d + [s[|s| - 1]]
  }

  /** The position of the first occurrence of `x` in `s`. */
  function FirstIndex<T(==)>(s: seq<T>, x: T): (i: nat)
    requires x in s
    ensures i < |s| && s[i] == x
    ensures forall k :: 0 <= k < i ==> s[k] != x
  {
    if s[0] == x then 0 else 1 + FirstIndex(s[1..], x)
  }

  /** Appending leaves the first occurrence of an element already present where it was. */
  lemma FirstIndexAppend<T>(s: seq<T>, y: T, x: T)
    requires x in s
    ensures FirstIndex(s + [y], x) == FirstIndex(s, x)
  {
    assert (s + [y])[FirstIndex(s, x)] == x;
  }

  /**
   * `Dedup` keeps the elements in the order of their first occurrences: an
   * element listed earlier occurs first earlier in `s`.
   */
  lemma {:induction false} DedupFirstOccurrenceOrder<T(!new)>(s: seq<T>)
    ensures forall i, j :: 0 <= i < j < |Dedup(s)| ==> FirstIndex(s, Dedup(s)[i]) < FirstIndex(s, Dedup(s)[j])
  {
    if |s| > 0 {
      var p, y := s[..|s| - 1], s[|s| - 1];
      assert s == p + [y];
      var d := Dedup(p);
      DedupFirstOccurrenceOrder(p);
      forall x | x in d
        ensures FirstIndex(s, x) == FirstIndex(p, x)
      {
        FirstIndexAppend(p, y, x);
      }
      if y !in d {
        assert y !in p;
        assert FirstIndex(s, y) == |p|;
        assert Dedup(s) == d + [y];
        forall i, j | 0 <= i < j < |Dedup(s)|
          ensures FirstIndex(s, Dedup(s)[i]) < FirstIndex(s, Dedup(s)[j])
        {
          assert Dedup(s)[i] in d;
          if j == |d| {
            assert FirstIndex(p, d[i]) < |p|;
          }
        }
      }
    }
  }

  /** The number of occurrences of `x` in `s`. */
  function Count<T(==)>(s: seq<T>, x: T): (n: nat)
    ensures n <= |s|
    ensures n > 0 <==> x in s
  {
    if |s| == 0 then 0 else (if s[0] == x then 1 else 0) + Count(s[1..], x)
  }

  /** `Count` distributes over concatenation. */
  lemma {:induction false} CountAppend<T>(a: seq<T>, b: seq<T>, x: T)
    ensures Count(a + b, x) == Count(a, x) + Count(b, x)
  {
    if |a| == 0 {
      assert a + b == b;
    } else {
      assert (a + b)[1..] == a[1..] + b;
      CountAppend(a[1..], b, x);
    }
  }

  /** `s.filter(keep)`. */
  function Filter<T(!new)>(s: seq<T>, keep: T -> bool): (r: seq<T>)
    ensures |r| <= |s|
    ensures forall x :: x in r <==> x in s && keep(x)
  {
    if |s| == 0 then []
    else if keep(s[0]) then [s[0]] + Filter(s[1..], keep)
    else Filter(s[1..], keep)
  }

  /** `Filter` distributes over concatenation. */
  lemma {:induction false} FilterAppend<T(!new)>(a: seq<T>, b: seq<T>, keep: T -> bool)
    ensures Filter(a + b, keep) == Filter(a, keep) + Filter(b, keep)
  {
    if |a| == 0 {
      assert a + b == b;
    } else {
      assert (a + b)[1..] == a[1..] + b;
      FilterAppend(a[1..], b, keep);
    }
  }

  /** `s.flatMap(f)`: the lists `f` gives for each element, concatenated in order. */
  function FlatMap<T(!new), U(!new)>(s: seq<T>, f: T -> seq<U>): (r: seq<U>)
    ensures forall y :: y in r <==> exists x :: x in s && y in f(x)
  {
    if |s| == 0 then []
    else
      var rest := FlatMap(s[1..], f);
      assert forall x :: x in s ==> x == s[0] || x in s[1..] by {
        forall x | x in s
          ensures x == s[0] || x in s[1..]
        {
          var i :| 0 <= i < |s| && s[i] == x;
          if i > 0 {
            assert s[1..][i - 1] == x;
          }
        }
      }
      f(s[0]) + rest
  }

  /** `s.map(f)`: one result per element, in order. */
  function Map<T(!new), U(!new)>(s: seq<T>, f: T -> U): (r: seq<U>)
    ensures |r| == |s|
    ensures forall i :: 0 <= i < |s| ==> r[i] == f(s[i])
    ensures forall y :: y in r <==> exists x :: x in s && y == f(x)
  {
    if |s| == 0 then []
    else
      var rest := Map(s[1..], f);
      assert forall x :: x in s ==> x == s[0] || x in s[1..] by {
        forall x | x in s
          ensures x == s[0] || x in s[1..]
        {
          var i :| 0 <= i < |s| && s[i] == x;
          if i > 0 {
            assert s[1..][i - 1] == x;
          }
        }
      }
      [f(s[0])] + rest
  }

  /** `Map` distributes over concatenation. */
  lemma MapAppend<T(!new), U(!new)>(a: seq<T>, b: seq<T>, f: T -> U)
    ensures Map(a + b, f) == Map(a, f) + Map(b, f)
  {
    assert |Map(a + b, f)| == |Map(a, f) + Map(b, f)|;
    forall i | 0 <= i < |a + b|
      ensures Map(a + b, f)[i] == (Map(a, f) + Map(b, f))[i]
    {
      if i < |a| {
        assert (a + b)[i] == a[i];
      } else {
        assert (a + b)[i] == b[i - |a|];
      }
    }
  }

  /** `[...new Set(s.map(f))]`: each image once, and nothing else. */
  function DedupMap<T(!new), U(==,!new)>(s: seq<T>, f: T -> U): (r: seq<U>)
    ensures NoDup(r)
    ensures forall y :: y in r <==> exists x :: x in s && y == f(x)
  {
    var images := Map(s, f);
    assert forall y :: y in Dedup(images) <==> y in images;
    Dedup(images)
  }

  /** `s.slice(0, n)`. */
  function Take<T>(s: seq<T>, n: nat): (r: seq<T>)
    ensures |r| == if n < |s| then n else |s|
    ensures r <= s
  {
    if n < |s| then s[..n] else s
  }

  /** `s.reduce((sum, x) => sum + key(x), 0)`. */
  function SumBy<T>(s: seq<T>, key: T -> int): int {
    if |s| == 0 then 0 else key(s[0]) + SumBy(s[1..], key)
  }

  /** Sorted so that keys never increase from left to right. */
  ghost predicate SortedDesc<T>(s: seq<T>, key: T -> int) {
    forall i, j :: 0 <= i < j < |s| ==> key(s[i]) >= key(s[j])
  }

  /**
   * Insert `x` into a list sorted by descending key, after every element with
   * a strictly larger key and before every element with an equal one.
   */
  function InsertDesc<T>(x: T, s: seq<T>, key: T -> int): (r: seq<T>)
    requires SortedDesc(s, key)
    ensures |r| == |s| + 1
    ensures forall i :: 0 <= i < |r| ==> r[i] == x || r[i] in s
    ensures SortedDesc(r, key)
    ensures multiset(r) == multiset(s) + multiset{x}
  {
    if |s| == 0 || key(x) >= key(s[0]) then [x] + s
    else
      var rest := InsertDesc(x, s[1..], key);
      assert multiset(s) == multiset{s[0]} + multiset(s[1..]) by {
        assert s == [s[0]] + s[1..];
      }
      HeadDominates(s[0], x, s[1..], rest, key);
      [s[0]] + rest
  }

  /** Putting an element with the largest key in front keeps a descending list sorted. */
  lemma HeadDominates<T>(h: T, x: T, s: seq<T>, rest: seq<T>, key: T -> int)
    requires SortedDesc([h] + s, key) && key(x) < key(h) && SortedDesc(rest, key)
    requires forall i :: 0 <= i < |rest| ==> rest[i] == x || rest[i] in s
    ensures SortedDesc([h] + rest, key)
  {
    forall j | 0 <= j < |rest|
      ensures key(h) >= key(rest[j])
    {
      if rest[j] != x {
        var k :| 0 <= k < |s| && s[k] == rest[j];
        assert ([h] + s)[0] == h && ([h] + s)[k + 1] == s[k];
        assert key(([h] + s)[0]) >= key(([h] + s)[k + 1]);
      }
    }
    forall i, j | 0 <= i < j < |[h] + rest|
      ensures key(([h] + rest)[i]) >= key(([h] + rest)[j])
    {
      if i == 0 {
        assert ([h] + rest)[j] == rest[j - 1];
      } else {
        assert ([h] + rest)[i] == rest[i - 1] && ([h] + rest)[j] == rest[j - 1];
      }
    }
  }

  /**
   * `s.sort((a, b) => key(b) - key(a))`: the stable sort by descending key.
   * Elements of equal key keep their relative order.
   */
  function SortDesc<T>(s: seq<T>, key: T -> int): (r: seq<T>)
    ensures SortedDesc(r, key)
    ensures multiset(r) == multiset(s)
    ensures |r| == |s|
  {
    if |s| == 0 then []
    else
      var rest := SortDesc(s[1..], key);
      assert multiset(s) == multiset{s[0]} + multiset(s[1..]) by {
        assert s == [s[0]] + s[1..];
      }
      InsertDesc(s[0], rest, key)
  }

  /** Holds of the elements whose key is `k`. */
  function KeyIs<T>(key: T -> int, k: int): T -> bool {
    x => key(x) == k
  }

  /** Inserting places `x` before every element of equal key and leaves their order alone. */
  lemma {:induction false} InsertDescTies<T(!new)>(x: T, s: seq<T>, key: T -> int, k: int)
    requires SortedDesc(s, key)
    ensures Filter(InsertDesc(x, s, key), KeyIs(key, k)) ==
      (if key(x) == k then [x] else []) + Filter(s, KeyIs(key, k))
    decreases |s|
  {
    if |s| == 0 || key(x) >= key(s[0]) {
      assert ([x] + s)[1..] == s;
    } else {
      assert SortedDesc(s[1..], key) by {
        forall i, j | 0 <= i < j < |s[1..]|
          ensures key(s[1..][i]) >= key(s[1..][j])
        {
          assert s[1..][i] == s[i + 1] && s[1..][j] == s[j + 1];
        }
      }
      InsertDescTies(x, s[1..], key, k);
      assert ([s[0]] + InsertDesc(x, s[1..], key))[1..] == InsertDesc(x, s[1..], key);
    }
  }

  /** `SortDesc` is stable: the elements of any one key keep their relative order. */
  lemma {:induction false} SortDescStable<T(!new)>(s: seq<T>, key: T -> int, k: int)
    ensures Filter(SortDesc(s, key), KeyIs(key, k)) == Filter(s, KeyIs(key, k))
    decreases |s|
  {
    if |s| > 0 {
      SortDescStable(s[1..], key, k);
      InsertDescTies(s[0], SortDesc(s[1..], key), key, k);
    }
  }

  /** Both halves of a descending list: the front is sorted and outranks the back. */
  lemma SplitSortedDesc<T>(front: seq<T>, back: seq<T>, key: T -> int)
    requires SortedDesc(front + back, key)
    ensures SortedDesc(front, key)
    ensures forall c, d :: c in back && d in front ==> key(d) >= key(c)
  {
    var s := front + back;
    forall i, j | 0 <= i < j < |front|
      ensures key(front[i]) >= key(front[j])
    {
      assert front[i] == s[i] && front[j] == s[j];
    }
    forall c, d | c in back && d in front
      ensures key(d) >= key(c)
    {
      var j :| 0 <= j < |back| && back[j] == c;
      var i :| 0 <= i < |front| && front[i] == d;
      assert s[i] == d && s[|front| + j] == c;
    }
  }

  /**
   * The first `n` entries of a descending list are sorted and rank at least
   * as high as every entry left out.
   */
  lemma TakeSortedDesc<T>(s: seq<T>, n: nat, key: T -> int)
    requires SortedDesc(s, key)
    ensures SortedDesc(Take(s, n), key)
    ensures multiset(Take(s, n)) <= multiset(s)
    ensures forall c, d :: c in multiset(s) - multiset(Take(s, n)) && d in Take(s, n) ==> key(d) >= key(c)
  {
    var r := Take(s, n);
    var rest := s[|r|..];
    assert s == r + rest;
    SplitSortedDesc(r, rest, key);
    assert multiset(s) - multiset(r) == multiset(rest);
  }

  /** The ordering `sort()` uses for strings: lexicographic by character code. */
  predicate StrLe(a: string, b: string) {
    if |a| == 0 then true
    else if |b| == 0 then false
    else if a[0] != b[0] then a[0] < b[0]
    else StrLe(a[1..], b[1..])
  }

  /** Any two strings are ordered one way or the other. */
  lemma {:induction false} StrLeTotal(a: string, b: string)
    ensures StrLe(a, b) || StrLe(b, a)
  {
    if |a| > 0 && |b| > 0 && a[0] == b[0] {
      StrLeTotal(a[1..], b[1..]);
    }
  }

  /** Strings ordered both ways are equal. */
  lemma {:induction false} StrLeAntisymmetric(a: string, b: string)
    requires StrLe(a, b) && StrLe(b, a)
    ensures a == b
  {
    if |a| > 0 && |b| > 0 {
      StrLeAntisymmetric(a[1..], b[1..]);
      assert a == [a[0]] + a[1..] && b == [b[0]] + b[1..];
    }
  }

  /** The string ordering is transitive. */
  lemma {:induction false} StrLeTransitive(a: string, b: string, c: string)
    requires StrLe(a, b) && StrLe(b, c)
    ensures StrLe(a, c)
  {
    if |a| > 0 && |b| > 0 && |c| > 0 && a[0] == b[0] && b[0] == c[0] {
      StrLeTransitive(a[1..], b[1..], c[1..]);
    }
  }

  /** Sorted ascending under the string ordering. */
  ghost predicate SortedStrings(s: seq<string>) {
    forall i, j :: 0 <= i < j < |s| ==> StrLe(s[i], s[j])
  }

  /** Insert a string into an ascending list of strings, before the first element not below it. */
  function InsertString(x: string, s: seq<string>): (r: seq<string>)
    requires SortedStrings(s)
    ensures |r| == |s| + 1
    ensures forall i :: 0 <= i < |r| ==> r[i] == x || r[i] in s
    ensures SortedStrings(r)
    ensures multiset(r) == multiset(s) + multiset{x}
  {
    if |s| == 0 || StrLe(x, s[0]) then
      FrontSmallest(x, s);
      [x] + s
    else
      StrLeTotal(x, s[0]);
      var rest := InsertString(x, s[1..]);
      assert multiset(s) == multiset{s[0]} + multiset(s[1..]) by {
        assert s == [s[0]] + s[1..];
      }
      FrontStaysSmallest(s[0], x, s[1..], rest);
      [s[0]] + rest
  }

  /** A string not above the head of an ascending list can go in front. */
  lemma FrontSmallest(x: string, s: seq<string>)
    requires SortedStrings(s)
    requires |s| == 0 || StrLe(x, s[0])
    ensures SortedStrings([x] + s)
  {
    forall i, j | 0 <= i < j < |[x] + s|
      ensures StrLe(([x] + s)[i], ([x] + s)[j])
    {
      if i == 0 {
        assert ([x] + s)[j] == s[j - 1];
        if j > 1 {
          StrLeTransitive(x, s[0], s[j - 1]);
        }
      } else {
        assert ([x] + s)[i] == s[i - 1] && ([x] + s)[j] == s[j - 1];
      }
    }
  }

  /** The old head stays in front of a list built from its tail and a larger string. */
  lemma FrontStaysSmallest(h: string, x: string, s: seq<string>, rest: seq<string>)
    requires SortedStrings([h] + s) && StrLe(h, x) && SortedStrings(rest)
    requires forall i :: 0 <= i < |rest| ==> rest[i] == x || rest[i] in s
    ensures SortedStrings([h] + rest)
  {
    forall j | 0 <= j < |rest|
      ensures StrLe(h, rest[j])
    {
      if rest[j] != x {
        var k :| 0 <= k < |s| && s[k] == rest[j];
        assert ([h] + s)[0] == h && ([h] + s)[k + 1] == s[k];
        assert StrLe(([h] + s)[0], ([h] + s)[k + 1]);
      } else {
        assert StrLe(h, x);
      }
    }
    forall i, j | 0 <= i < j < |[h] + rest|
      ensures StrLe(([h] + rest)[i], ([h] + rest)[j])
    {
      if i == 0 {
        assert ([h] + rest)[j] == rest[j - 1];
      } else {
        assert ([h] + rest)[i] == rest[i - 1] && ([h] + rest)[j] == rest[j - 1];
      }
    }
  }

  /** `strings.sort()`: ascending by character code. */
  function SortStrings(s: seq<string>): (r: seq<string>)
    ensures SortedStrings(r)
    ensures multiset(r) == multiset(s)
    ensures |r| == |s|
  {
    if |s| == 0 then []
    else
      var rest := SortStrings(s[1..]);
      assert multiset(s) == multiset{s[0]} + multiset(s[1..]) by {
        assert s == [s[0]] + s[1..];
      }
      InsertString(s[0], rest)
  }

  /** Sorting keeps a list duplicate-free and keeps its elements. */
  lemma SortStringsKeepsElements(s: seq<string>)
    requires NoDup(s)
    ensures NoDup(SortStrings(s))
    ensures forall x :: x in SortStrings(s) <==> x in s
  {
    var r := SortStrings(s);
    forall x
      ensures x in r <==> x in s
    {
      assert x in r <==> x in multiset(r);
      assert x in s <==> x in multiset(s);
    }
    forall i, j | 0 <= i < j < |r|
      ensures r[i] != r[j]
    {
      if r[i] == r[j] {
        NoDupCountOne(s, r[i]);
        assert multiset(r)[r[i]] >= 2 by {
          MultisetTwo(r, i, j);
        }
      }
    }
  }

  /** In a duplicate-free list every element occurs at most once. */
  lemma {:induction false} NoDupCountOne<T>(s: seq<T>, x: T)
    requires NoDup(s)
    ensures multiset(s)[x] <= 1
  {
    if |s| > 0 {
      assert s == [s[0]] + s[1..];
      assert multiset(s) == multiset{s[0]} + multiset(s[1..]);
      NoDupCountOne(s[1..], x);
      if s[0] == x {
        assert x !in s[1..] by {
          forall k | 0 <= k < |s[1..]|
            ensures s[1..][k] != x
          {
            assert s[k + 1] != s[0];
          }
        }
      }
    }
  }

  /** Two equal entries at different positions give multiplicity at least two. */
  lemma MultisetTwo<T>(s: seq<T>, i: nat, j: nat)
    requires i < j < |s| && s[i] == s[j]
    ensures multiset(s)[s[i]] >= 2
  {
    assert s == s[..i] + [s[i]] + s[i + 1..j] + [s[j]] + s[j + 1..];
    assert multiset(s) == multiset(s[..i]) + multiset{s[i]} + multiset(s[i + 1..j]) + multiset{s[j]} + multiset(s[j + 1..]);
  }
}

=== FILE: service_messages.dfy ===
/**
 * Message templating of the hardware configurator service: the six component
 * placeholders of a rule message and how `formatRuleMessage` fills them.
 */
module ServiceMessages {
  import opened Wrappers
  import opened Strings
  import opened HardwareTypes
  import opened Templates

  /** `value ?? 'undefined'`: how `replace` renders a missing property. */
  function Rendered(v: Option<string>): string {
    v.GetOr("undefined")
  }

  /** The six placeholders the service fills. */
  const SbcNameHole := Placeholder("sbc.name")
  const SbcIdHole := Placeholder("sbc.id")
  const CameraNameHole := Placeholder("camera.name")
  const CameraInterfaceHole := Placeholder("camera.interface")
  const WifiNameHole := Placeholder("wifi.name")
  const WifiChipsetHole := Placeholder("wifi.chipset")

  const ServicePlaceholders: set<string> :=
    {SbcNameHole, SbcIdHole, CameraNameHole, CameraInterfaceHole, WifiNameHole, WifiChipsetHole}

  /**
   * `formatRuleMessage`: every occurrence of each placeholder is replaced,
   * but only for the components present in the context.
   */
  function FormatRuleMessage(template: string, ctx: Context): (r: string)
    ensures ctx.sbc.None? && ctx.camera.None? && ctx.wifi.None? ==> r == template
  {
    FillWifi(FillCamera(FillSbc(template, ctx), ctx), ctx)
  }

  /** The SBC block of `formatRuleMessage`. */
  function FillSbc(message: string, ctx: Context): (r: string)
    ensures ctx.sbc.None? ==> r == message
  {
    if ctx.sbc.Some? then
      ReplaceAll(ReplaceAll(message, SbcNameHole, ctx.sbc.value.name), SbcIdHole, ctx.sbc.value.id)
    else message
  }

  /** The camera block of `formatRuleMessage`. */
  function FillCamera(message: string, ctx: Context): (r: string)
    ensures ctx.camera.None? ==> r == message
  {
    if ctx.camera.Some? then
      ReplaceAll(ReplaceAll(message, CameraNameHole, ctx.camera.value.name),
                 CameraInterfaceHole, Rendered(InterfaceOf(ctx.camera.value)))
    else message
  }

  /** The WiFi block of `formatRuleMessage`. */
  function FillWifi(message: string, ctx: Context): (r: string)
    ensures ctx.wifi.None? ==> r == message
  {
    if ctx.wifi.Some? then
      ReplaceAll(ReplaceAll(message, WifiNameHole, ctx.wifi.value.name),
                 WifiChipsetHole, Rendered(ChipsetOf(ctx.wifi.value)))
    else message
  }

  /** The replacements for the SBC's placeholders, when an SBC is in context. */
  function SbcSubs(ctx: Context): seq<Sub> {
    if ctx.sbc.Some? then [Sub(SbcNameHole, ctx.sbc.value.name), Sub(SbcIdHole, ctx.sbc.value.id)]
    else []
  }

  /** The replacements for the camera's placeholders, when a camera is in context. */
  function CameraSubs(ctx: Context): seq<Sub> {
    if ctx.camera.Some? then
      [Sub(CameraNameHole, ctx.camera.value.name),
       Sub(CameraInterfaceHole, Rendered(InterfaceOf(ctx.camera.value)))]
    else []
  }

  /** The replacements for the WiFi adapter's placeholders, when one is in context. */
  function WifiSubs(ctx: Context): seq<Sub> {
    if ctx.wifi.Some? then
      [Sub(WifiNameHole, ctx.wifi.value.name),
       Sub(WifiChipsetHole, Rendered(ChipsetOf(ctx.wifi.value)))]
    else []
  }

  /** The six placeholders, told apart by their lengths. */
  lemma HoleLengths()
    ensures |SbcNameHole| == 10 && |SbcIdHole| == 8 && |CameraNameHole| == 13
    ensures |CameraInterfaceHole| == 18 && |WifiNameHole| == 11 && |WifiChipsetHole| == 14
  {
  }

  lemma ServicePlaceholdersDelimited()
    ensures Delimited(SbcNameHole) && Delimited(SbcIdHole) && Delimited(CameraNameHole)
    ensures Delimited(CameraInterfaceHole) && Delimited(WifiNameHole) && Delimited(WifiChipsetHole)
  {
    PlaceholderDelimited("sbc.name");
    PlaceholderDelimited("sbc.id");
    PlaceholderDelimited("camera.name");
    PlaceholderDelimited("camera.interface");
    PlaceholderDelimited("wifi.name");
    PlaceholderDelimited("wifi.chipset");
  }

  /** Every replacement `formatRuleMessage` makes, in the order it makes them. */
  function ServiceSubs(ctx: Context): (r: seq<Sub>)
    ensures forall i :: 0 <= i < |r| ==> r[i].pat in ServicePlaceholders && |r[i].pat| > 0
  {
    SbcSubs(ctx) + CameraSubs(ctx) + WifiSubs(ctx)
  }

  /** Each block of `formatRuleMessage` is the chain of its replacements. */
  lemma FillSbcIsChain(message: string, ctx: Context)
    ensures FillSbc(message, ctx) == ReplaceAllEach(message, SbcSubs(ctx))
  {
    if ctx.sbc.Some? {
      ReplaceAllEachPair(message, SbcSubs(ctx)[0], SbcSubs(ctx)[1]);
    }
  }

  lemma FillCameraIsChain(message: string, ctx: Context)
    ensures FillCamera(message, ctx) == ReplaceAllEach(message, CameraSubs(ctx))
  {
    if ctx.camera.Some? {
      ReplaceAllEachPair(message, CameraSubs(ctx)[0], CameraSubs(ctx)[1]);
    }
  }

  lemma FillWifiIsChain(message: string, ctx: Context)
    ensures FillWifi(message, ctx) == ReplaceAllEach(message, WifiSubs(ctx))
  {
    if ctx.wifi.Some? {
      ReplaceAllEachPair(message, WifiSubs(ctx)[0], WifiSubs(ctx)[1]);
    }
  }

  /** `formatRuleMessage` is the chain of global replacements for the components in context. */
  lemma FormatRuleMessageIsChain(template: string, ctx: Context)
    ensures FormatRuleMessage(template, ctx) == ReplaceAllEach(template, ServiceSubs(ctx))
  {
    var m1 := FillSbc(template, ctx);
    var m2 := FillCamera(m1, ctx);
    FillSbcIsChain(template, ctx);
    FillCameraIsChain(m1, ctx);
    FillWifiIsChain(m2, ctx);
    ReplaceAllEachAppend(template, SbcSubs(ctx), CameraSubs(ctx));
    ReplaceAllEachAppend(template, SbcSubs(ctx) + CameraSubs(ctx), WifiSubs(ctx));
  }

  /** `formatRuleMessage` splits the template at each placeholder in turn and joins the parts around the value. */
  lemma FormatRuleMessageIsSplitJoin(template: string, ctx: Context)
    ensures FormatRuleMessage(template, ctx) == SplitJoinEach(template, ServiceSubs(ctx))
  {
    FormatRuleMessageIsChain(template, ctx);
    ReplaceAllEachIsSplitJoin(template, ServiceSubs(ctx));
  }

  /** No component value brings a '{' into the message. */
  predicate ValuesBraceFree(ctx: Context) {
    (ctx.sbc.Some? ==> '{' !in ctx.sbc.value.name && '{' !in ctx.sbc.value.id) &&
    (ctx.camera.Some? ==> '{' !in ctx.camera.value.name && '{' !in Rendered(InterfaceOf(ctx.camera.value))) &&
    (ctx.wifi.Some? ==> '{' !in ctx.wifi.value.name && '{' !in Rendered(ChipsetOf(ctx.wifi.value)))
  }

  /**
   * Reference meaning of the placeholders: the property of the component in
   * context that each one stands for, and none for an absent component or
   * any other name.
   */
  function ContextValue(ctx: Context, hole: string): Option<string> {
    if hole == SbcNameHole then (if ctx.sbc.Some? then Some(ctx.sbc.value.name) else None)
    else if hole == SbcIdHole then (if ctx.sbc.Some? then Some(ctx.sbc.value.id) else None)
    else if hole == CameraNameHole then (if ctx.camera.Some? then Some(ctx.camera.value.name) else None)
    else if hole == CameraInterfaceHole then (if ctx.camera.Some? then Some(Rendered(InterfaceOf(ctx.camera.value))) else None)
    else if hole == WifiNameHole then (if ctx.wifi.Some? then Some(ctx.wifi.value.name) else None)
    else if hole == WifiChipsetHole then (if ctx.wifi.Some? then Some(Rendered(ChipsetOf(ctx.wifi.value))) else None)
    else None
  }

  /** A two-entry list of replacements. */
  lemma ValueForPair(a: Sub, b: Sub, name: string)
    ensures ValueFor([a, b], name) == if a.pat == name then Some(a.value) else if b.pat == name then Some(b.value) else None
  {
    assert [a, b][1..] == [b];
    assert [b][1..] == [];
  }

  /** The replacements the service makes give each placeholder its reference value. */
  lemma ServiceValues(ctx: Context, name: string)
    ensures ValueFor(ServiceSubs(ctx), name) == ContextValue(ctx, name)
  {
    HoleLengths();
    ValueForAppend(SbcSubs(ctx) + CameraSubs(ctx), WifiSubs(ctx), name);
    ValueForAppend(SbcSubs(ctx), CameraSubs(ctx), name);
    if ctx.sbc.Some? {
      ValueForPair(SbcSubs(ctx)[0], SbcSubs(ctx)[1], name);
    }
    if ctx.camera.Some? {
      ValueForPair(CameraSubs(ctx)[0], CameraSubs(ctx)[1], name);
    }
    if ctx.wifi.Some? {
      ValueForPair(WifiSubs(ctx)[0], WifiSubs(ctx)[1], name);
    }
  }

  /** Reference meaning of a filled message: each placeholder piece with a context value becomes that value. */
  function FillFromContext(ps: seq<Piece>, ctx: Context): seq<Piece> {
    seq(|ps|, i requires 0 <= i < |ps| =>
      if ps[i].Hole? && ContextValue(ctx, ps[i].name).Some? then Text(ContextValue(ctx, ps[i].name).value) else ps[i])
  }

  /**
   * On a template made of text without '{' and placeholders, the message is
   * the template with every placeholder of a component in context replaced by
   * that component's value; placeholders of absent components and unknown
   * placeholders stay as they are.
   */
  lemma FormatRuleMessageOnPieces(ps: seq<Piece>, ctx: Context)
    requires WellFormed(ps) && ValuesBraceFree(ctx)
    ensures FormatRuleMessage(Render(ps), ctx) == Render(FillAllHoles(ps, ServiceSubs(ctx)))
    ensures FormatRuleMessage(Render(ps), ctx) == Render(FillFromContext(ps, ctx))
  {
    var subs := ServiceSubs(ctx);
    ServicePlaceholdersDelimited();
    assert SubsOk(subs);
    FormatRuleMessageIsChain(Render(ps), ctx);
    ReplaceAllEachOnPieces(ps, subs);
    FillAllHolesFromContext(ps, ctx);
  }

  /** Filling with the service's replacements is filling with the context values. */
  lemma FillAllHolesFromContext(ps: seq<Piece>, ctx: Context)
    ensures FillAllHoles(ps, ServiceSubs(ctx)) == FillFromContext(ps, ctx)
  {
    forall i | 0 <= i < |ps| ensures FillAllHoles(ps, ServiceSubs(ctx))[i] == FillFromContext(ps, ctx)[i] {
      if ps[i].Hole? {
        ServiceValues(ctx, ps[i].name);
      }
    }
  }
}

=== FILE: service_rules.dfy ===
/**
 * The rule evaluator private to the hardware configurator service: one
 * checker per canonical rule kind, dispatch with three legacy aliases, and
 * interface support through generic interface groups.
 *
 * Every checker reads the parameters and the context defensively; where the
 * code would throw (a property read on `undefined`), the evaluator's own
 * `catch` turns the exception into "not triggered", so each checker here is a
 * total function returning `false` in those cases.
 */
module ServiceRules {
  import opened Wrappers
  import opened HardwareTypes

  // ---------------------------------------------------------------------
  // Interface groups

  /** The generic interface tags and the specific tags each one stands for. */
  const InterfaceMapping: seq<(string, seq<string>)> := [
    ("usb", ["usb", "usb2", "usb3"]),
    ("hdmi", ["hdmi", "hdmi_in", "hdmi_out"]),
    ("csi", ["csi", "mipi_csi"])
  ]

  /** `interfaceMapping[key]`. */
  function Lookup(m: seq<(string, seq<string>)>, key: string): (r: Option<seq<string>>)
    ensures r.Some? ==> (key, r.value) in m
    ensures r.None? ==> forall e :: e in m ==> e.0 != key
  {
    if |m| == 0 then None
    else if m[0].0 == key then Some(m[0].1)
    else Lookup(m[1..], key)
  }

  /** `xs.some(x => avail.includes(x))`. */
  function AnyIn(xs: seq<string>, avail: seq<string>): (r: bool)
    ensures r <==> exists x :: x in xs && x in avail
  {
    if |xs| == 0 then false
    else if xs[0] in avail then true
    else
      assert forall x :: x in xs ==> x == xs[0] || x in xs[1..] by {
        forall x | x in xs
          ensures x == xs[0] || x in xs[1..]
        {
          var i :| 0 <= i < |xs| && xs[i] == x;
          if i > 0 {
            assert xs[1..][i - 1] == x;
          }
        }
      }
      AnyIn(xs[1..], avail)
  }

  /** The reverse scan: a group listing `req` as a specific tag is available in some form. */
  function ReverseMatch(m: seq<(string, seq<string>)>, req: string, avail: seq<string>): (r: bool)
    ensures r <==> exists e :: e in m && req in e.1 && (e.0 in avail || AnyIn(e.1, avail))
  {
    if |m| == 0 then false
    else if req in m[0].1 && (m[0].0 in avail || AnyIn(m[0].1, avail)) then true
    else
      var r := ReverseMatch(m[1..], req, avail);
      assert forall e :: e in m ==> e == m[0] || e in m[1..] by {
        forall e | e in m
          ensures e == m[0] || e in m[1..]
        {
          var i :| 0 <= i < |m| && m[i] == e;
          if i > 0 {
            assert m[1..][i - 1] == e;
          }
        }
      }
      r
  }

  /**
   * Whether an SBC offering `avail` supports the interface `req`: a direct
   * match; else, for a generic tag, any of its specific tags; else any group
   * listing `req` whose generic tag or any member is offered.
   */
  function IsInterfaceSupported(req: string, avail: seq<string>): bool {
    if req in avail then true
    else match Lookup(InterfaceMapping, req)
      case Some(variants) => AnyIn(variants, avail)
      case None => ReverseMatch(InterfaceMapping, req, avail)
  }

  /** The group an interface tag belongs to, named by its generic tag. */
  function GroupOf(tag: string): Option<string> {
    if tag in ["usb", "usb2", "usb3"] then Some("usb")
    else if tag in ["hdmi", "hdmi_in", "hdmi_out"] then Some("hdmi")
    else if tag in ["csi", "mipi_csi"] then Some("csi")
    else None
  }

  /** Two tags are interchangeable: equal, or members of the same group. */
  predicate SameGroup(a: string, b: string) {
    a == b || (GroupOf(a).Some? && GroupOf(a) == GroupOf(b))
  }

  /** Reference definition: some offered interface is interchangeable with `req`. */
  ghost predicate SupportedSpec(req: string, avail: seq<string>) {
    exists x :: x in avail && SameGroup(req, x)
  }

  const UsbGroup: seq<string> := ["usb", "usb2", "usb3"]
  const HdmiGroup: seq<string> := ["hdmi", "hdmi_in", "hdmi_out"]
  const CsiGroup: seq<string> := ["csi", "mipi_csi"]

  /** Both definitions, unfolded to the three groups. */
  ghost predicate ByGroups(req: string, avail: seq<string>) {
    req in avail ||
    (req in UsbGroup && AnyIn(UsbGroup, avail)) ||
    (req in HdmiGroup && AnyIn(HdmiGroup, avail)) ||
    (req in CsiGroup && AnyIn(CsiGroup, avail))
  }

  /** The code's lookup and reverse scan, unfolded over the constant mapping. */
  lemma ImplementationByGroups(req: string, avail: seq<string>)
    ensures IsInterfaceSupported(req, avail) <==> ByGroups(req, avail)
  {
    assert InterfaceMapping == [("usb", UsbGroup), ("hdmi", HdmiGroup), ("csi", CsiGroup)];
    if req !in avail {
      if req == "usb" {
        assert Lookup(InterfaceMapping, req) == Some(UsbGroup);
      } else if req == "hdmi" {
        assert Lookup(InterfaceMapping, req) == Some(HdmiGroup);
      } else if req == "csi" {
        assert Lookup(InterfaceMapping, req) == Some(CsiGroup);
      } else {
        assert Lookup(InterfaceMapping, req) == None;
        assert "usb" in UsbGroup && "hdmi" in HdmiGroup && "csi" in CsiGroup;
        if req in UsbGroup && AnyIn(UsbGroup, avail) {
          assert InterfaceMapping[0] in InterfaceMapping;
        }
        if req in HdmiGroup && AnyIn(HdmiGroup, avail) {
          assert InterfaceMapping[1] in InterfaceMapping;
        }
        if req in CsiGroup && AnyIn(CsiGroup, avail) {
          assert InterfaceMapping[2] in InterfaceMapping;
        }
      }
    }
  }

  /** The reference definition, unfolded to the three groups. */
  lemma SpecByGroups(req: string, avail: seq<string>)
    ensures SupportedSpec(req, avail) <==> ByGroups(req, avail)
  {
    if SupportedSpec(req, avail) && req !in avail {
      var x :| x in avail && SameGroup(req, x);
      if GroupOf(req) == Some("usb") {
        assert x in UsbGroup;
      } else if GroupOf(req) == Some("hdmi") {
        assert x in HdmiGroup;
      } else {
        assert x in CsiGroup;
      }
    }
    if ByGroups(req, avail) {
      if req in avail {
        assert SameGroup(req, req);
      } else if req in UsbGroup && AnyIn(UsbGroup, avail) {
        var x :| x in UsbGroup && x in avail;
        assert SameGroup(req, x);
      } else if req in HdmiGroup && AnyIn(HdmiGroup, avail) {
        var x :| x in HdmiGroup && x in avail;
        assert SameGroup(req, x);
      } else {
        var x :| x in CsiGroup && x in avail;
        assert SameGroup(req, x);
      }
    }
  }

  /** The group lookup and reverse scan agree with the reference definition. */
  lemma InterfaceSupportedIff(req: string, avail: seq<string>)
    ensures IsInterfaceSupported(req, avail) <==> SupportedSpec(req, avail)
  {
    ImplementationByGroups(req, avail);
    SpecByGroups(req, avail);
  }

  /** Offering more interfaces never loses support. */
  lemma InterfaceSupportMonotone(req: string, avail: seq<string>, more: seq<string>)
    requires forall x :: x in avail ==> x in more
    requires IsInterfaceSupported(req, avail)
    ensures IsInterfaceSupported(req, more)
  {
    InterfaceSupportedIff(req, avail);
    InterfaceSupportedIff(req, more);
  }

  /** Support between two single tags is symmetric. */
  lemma InterfaceSupportSymmetric(a: string, b: string)
    ensures IsInterfaceSupported(a, [b]) <==> IsInterfaceSupported(b, [a])
  {
    InterfaceSupportedIff(a, [b]);
    InterfaceSupportedIff(b, [a]);
    assert SupportedSpec(a, [b]) ==> SameGroup(a, b);
    assert SupportedSpec(b, [a]) ==> SameGroup(b, a);
    if SameGroup(a, b) {
      assert b in [b];
    }
    if SameGroup(b, a) {
      assert a in [a];
    }
  }

  // ---------------------------------------------------------------------
  // Checkers

  /** `checkInterfaceCompatibility`: the camera's (or the required) interface is unsupported by the SBC. */
  function CheckInterface(p: Params, ctx: Context): (r: bool)
    ensures r <==>
      ctx.camera.Some? && ctx.sbc.Some? && InterfacesOf(ctx.sbc.value).Some? &&
      var avail := InterfacesOf(ctx.sbc.value).value;
      var camIf := InterfaceOf(ctx.camera.value);
      if TruthyStr(p.requiredInterface) then
        camIf == p.requiredInterface && !SupportedSpec(p.requiredInterface.value, avail)
      else
        !(camIf.Some? && SupportedSpec(camIf.value, avail))
  {
    if ctx.camera.None? || ctx.sbc.None? then false
    else
      var camIf := InterfaceOf(ctx.camera.value);
      match InterfacesOf(ctx.sbc.value)
      case None => false
      case Some(avail) =>
        if TruthyStr(p.requiredInterface) then
          var req := p.requiredInterface.value;
          InterfaceSupportedIff(req, avail);
          camIf == Some(req) && !IsInterfaceSupported(req, avail)
        else if camIf.None? then true
        else
          InterfaceSupportedIff(camIf.value, avail);
          !IsInterfaceSupported(camIf.value, avail)
  }

  /** `checkRoleCompatibility`: a role is selected that the SBC supports neither directly nor as 'both'. */
  function CheckRole(ctx: Context): (r: bool)
    ensures r <==>
      TruthyStr(ctx.selectedRole) && ctx.sbc.Some? && ctx.sbc.value.details.SbcDetails? &&
      ctx.selectedRole.value !in ctx.sbc.value.details.roleSupport &&
      "both" !in ctx.sbc.value.details.roleSupport
  {
    if !TruthyStr(ctx.selectedRole) || ctx.sbc.None? then false
    else match RolesOf(ctx.sbc.value)
      case None => false
      case Some(roles) => ctx.selectedRole.value !in roles && "both" !in roles
  }

  /** `params.status` as a truthy value. */
  predicate TruthyStatus(s: Option<StatusParam>) {
    match s
    case None => false
    case Some(StatusOne(n)) => |n| > 0
    case Some(StatusMany(_)) => true
  }

  /** `checkStatusRequirements`. */
  function CheckStatus(p: Params, ctx: Context): (r: bool)
    ensures p.statusFilter.Some? ==>
      (r <==> (Slot(ctx, p.statusFilter.value.component).Some? &&
        var st := Slot(ctx, p.statusFilter.value.component).value.status;
        var f := p.statusFilter.value;
        (f.forbidden.Some? && st in f.forbidden.value) || (f.allowed.Some? && st !in f.allowed.value)))
    ensures p.statusFilter.None? && !(TruthyStr(p.componentType) && TruthyStatus(p.status)) ==> !r
    // The flat form: 'equals' fires on the same status; any other operator,
    // or none, fires on a different one (a list of statuses is never the same).
    ensures p.statusFilter.None? && TruthyStr(p.componentType) && TruthyStatus(p.status) ==>
      (r <==> (Slot(ctx, p.componentType.value).Some? &&
        var st := Slot(ctx, p.componentType.value).value.status;
        (p.operator == Some("equals") && p.status == Some(StatusOne(st))) ||
        (p.operator != Some("equals") && p.status != Some(StatusOne(st)))))
  {
    if p.statusFilter.Some? then
      var f := p.statusFilter.value;
      var comp := Slot(ctx, f.component);
      if comp.None? then false
      else if f.forbidden.Some? && comp.value.status in f.forbidden.value then true
      else if f.allowed.Some? && comp.value.status !in f.allowed.value then true
      else false
    else if TruthyStr(p.componentType) && TruthyStatus(p.status) then
      var comp := Slot(ctx, p.componentType.value);
      if comp.None? then false
      else
        var same := p.status == Some(StatusOne(comp.value.status));
        if p.operator == Some("equals") then same else !same
    else false
  }

  /** `checkFeatureRequirements`. */
  function CheckFeature(p: Params, ctx: Context): (r: bool)
    // The structured form never triggers on a missing required feature ...
    ensures p.featureRequirements.Some? && p.featureRequirements.value.requiredFeatures.Some? &&
      Slot(ctx, p.featureRequirements.value.component).Some? &&
      !HasAll(p.featureRequirements.value.requiredFeatures.value,
              FeaturesOf(Slot(ctx, p.featureRequirements.value.component).value).GetOr([]))
      ==> !r
    // ... and triggers exactly when the required features are all present, at
    // least one is required, and the interface lies outside the constraints.
    ensures p.featureRequirements.Some? ==>
      (r <==> (
        var fr := p.featureRequirements.value;
        Slot(ctx, fr.component).Some? &&
        var c := Slot(ctx, fr.component).value;
        fr.requiredFeatures.Some? && |fr.requiredFeatures.value| > 0 &&
        HasAll(fr.requiredFeatures.value, FeaturesOf(c).GetOr([])) &&
        fr.interfaceConstraints.Some? && TruthyStr(InterfaceOf(c)) &&
        InterfaceOf(c).value !in fr.interfaceConstraints.value))
    ensures p.featureRequirements.None? ==>
      (r <==> (
        TruthyStr(p.componentType) && p.requiredFeatures.Some? &&
        Slot(ctx, p.componentType.value).Some? &&
        FeaturesOf(Slot(ctx, p.componentType.value).value).Some? &&
        var req := p.requiredFeatures.value;
        var have := FeaturesOf(Slot(ctx, p.componentType.value).value).value;
        if p.operator == Some("and") then HasAll(req, have) else exists f :: f in req && f in have))
  {
    if p.featureRequirements.Some? then
      var fr := p.featureRequirements.value;
      var comp := Slot(ctx, fr.component);
      if comp.None? then false
      else
        var c := comp.value;
        var features := FeaturesOf(c).GetOr([]);
        if fr.requiredFeatures.Some? && !HasAll(fr.requiredFeatures.value, features) then false
        else if fr.interfaceConstraints.Some? && TruthyStr(InterfaceOf(c)) && fr.requiredFeatures.Some? then
          var required := fr.requiredFeatures.value;
          assert |required| > 0 ==> required[0] in required;
          exists f :: f in required && f in features && InterfaceOf(c).value !in fr.interfaceConstraints.value
        else false
    else if TruthyStr(p.componentType) && p.requiredFeatures.Some? then
      var comp := Slot(ctx, p.componentType.value);
      if comp.None? || FeaturesOf(comp.value).None? then false
      else
        var have := FeaturesOf(comp.value).value;
        if p.operator == Some("and") then HasAll(p.requiredFeatures.value, have)
        else exists f :: f in p.requiredFeatures.value && f in have
    else false
  }

  /** `params.threshold` as a truthy number. */
  predicate TruthyNum(n: Option<int>) {
    n.Some? && n.value != 0
  }

  /** `checkCountLimits`. */
  function CheckCount(p: Params, ctx: Context): (r: bool)
    ensures p.countLimits.Some? ==>
      (r <==> (NumericField(ctx, p.countLimits.value.field).Some? &&
        var v := NumericField(ctx, p.countLimits.value.field).value;
        (p.countLimits.value.min.Some? && v < p.countLimits.value.min.value) ||
        (p.countLimits.value.max.Some? && v > p.countLimits.value.max.value)))
    // A zero threshold is falsy, so the flat form is ignored.
    ensures p.countLimits.None? && p.threshold == Some(0) ==> !r
    // The flat form needs a truthy field, threshold and operator ...
    ensures p.countLimits.None? && !(TruthyStr(p.countField) && TruthyNum(p.threshold) && TruthyStr(p.operator)) ==> !r
    // ... and then compares the numeric field with the threshold by the named operator.
    ensures p.countLimits.None? && TruthyStr(p.countField) && TruthyNum(p.threshold) && TruthyStr(p.operator) ==>
      (NumericField(ctx, p.countField.value).None? ==> !r) &&
      (NumericField(ctx, p.countField.value).Some? ==>
        var v, t, op := NumericField(ctx, p.countField.value).value, p.threshold.value, p.operator.value;
        (op == "gt" ==> (r <==> v > t)) && (op == "gte" ==> (r <==> v >= t)) &&
        (op == "lt" ==> (r <==> v < t)) && (op == "lte" ==> (r <==> v <= t)) &&
        (op == "eq" ==> (r <==> v == t)) &&
        (op !in ["gt", "gte", "lt", "lte", "eq"] ==> !r))
  {
    if p.countLimits.Some? then
      var cl := p.countLimits.value;
      var value := NumericField(ctx, cl.field);
      if value.None? then false
      else if cl.min.Some? && value.value < cl.min.value then true
      else if cl.max.Some? && value.value > cl.max.value then true
      else false
    else if TruthyStr(p.countField) && TruthyNum(p.threshold) && TruthyStr(p.operator) then
      var value := NumericField(ctx, p.countField.value);
      if value.None? then false
      else
        var v, t, op := value.value, p.threshold.value, p.operator.value;
        if op == "gt" then v > t
        else if op == "gte" then v >= t
        else if op == "lt" then v < t
        else if op == "lte" then v <= t
        else if op == "eq" then v == t
        else false
    else false
  }

  /** `checkManufacturerCompatibilityNew`. */
  function CheckManufacturerFilter(f: ManufacturerFilter, ctx: Context): (r: bool)
    // `must_be` gates the rule: a target outside the list never triggers ...
    ensures (f.mustBe.Some? && Slot(ctx, f.component).Some? &&
             Slot(ctx, f.component).value.manufacturer !in f.mustBe.value) ==> !r
    // ... and without a cross check every target inside it does.
    ensures f.mustBe.Some? && f.crossCheck.None? ==>
      (r <==> (Slot(ctx, f.component).Some? && Slot(ctx, f.component).value.manufacturer in f.mustBe.value))
    // `cannot_be` is consulted only without `must_be`.
    ensures f.mustBe.None? ==>
      (r <==> (Slot(ctx, f.component).Some? && f.cannotBe.Some? &&
        Slot(ctx, f.component).value.manufacturer in f.cannotBe.value))
    ensures f.mustBe.Some? && f.crossCheck.Some? ==>
      (r <==> (Slot(ctx, f.component).Some? && Slot(ctx, f.crossCheck.value.component).Some? &&
        var m1 := Slot(ctx, f.component).value.manufacturer;
        var m2 := Slot(ctx, f.crossCheck.value.component).value.manufacturer;
        m1 in f.mustBe.value &&
        ((f.crossCheck.value.operator == "different" && m1 != m2) ||
         (f.crossCheck.value.operator == "same" && m1 == m2))))
  {
    match Slot(ctx, f.component)
    case None => false
    case Some(target) =>
      var m := target.manufacturer;
      if f.mustBe.Some? then
        if m !in f.mustBe.value then false
        else if f.crossCheck.Some? then
          var cc := f.crossCheck.value;
          var other := Slot(ctx, cc.component);
          if cc.mustExist && other.None? then false
          else if other.None? then false
          else if cc.operator == "different" then m != other.value.manufacturer
          else if cc.operator == "same" then m == other.value.manufacturer
          else false
        else true
      else if f.cannotBe.Some? && m in f.cannotBe.value then true
      else false
  }

  /** `checkManufacturerCompatibility`: the structured filter, else the two-component comparison. */
  function CheckManufacturer(p: Params, ctx: Context): (r: bool)
    ensures p.manufacturerFilter.Some? ==> r == CheckManufacturerFilter(p.manufacturerFilter.value, ctx)
    ensures p.manufacturerFilter.None? ==>
      (r <==> (TruthyStr(p.component1Type) && TruthyStr(p.component2Type) &&
        Slot(ctx, p.component1Type.value).Some? && Slot(ctx, p.component2Type.value).Some? &&
        ((Slot(ctx, p.component1Type.value).value.manufacturer == Slot(ctx, p.component2Type.value).value.manufacturer)
          <==> p.operator != Some("different"))))
  {
    match p.manufacturerFilter
    case Some(f) => CheckManufacturerFilter(f, ctx)
    case None =>
      if TruthyStr(p.component1Type) && TruthyStr(p.component2Type) then
        var c1 := Slot(ctx, p.component1Type.value);
        var c2 := Slot(ctx, p.component2Type.value);
        if c1.None? || c2.None? then false
        else if p.operator == Some("different") then c1.value.manufacturer != c2.value.manufacturer
        else c1.value.manufacturer == c2.value.manufacturer
      else false
  }

  /** `configData?.supported_chipsets || []`. */
  function GlobalChipsets(config: Option<Configuration>): seq<string> {
    if config.Some? && config.value.supportedChipsets.Some? then config.value.supportedChipsets.value else []
  }

  /** `checkChipsetWhitelist`; `config` is the engine configuration captured at initialisation. */
  function CheckChipset(p: Params, config: Option<Configuration>, ctx: Context): (r: bool)
    // With an explicit whitelist: the WiFi adapter's non-empty chipset is not on it.
    ensures p.chipsetWhitelist.Some? ==>
      (r <==> (ctx.wifi.Some? && TruthyStr(ChipsetOf(ctx.wifi.value)) &&
        ChipsetOf(ctx.wifi.value).value !in p.chipsetWhitelist.value))
    // A triggered rule always names a component with a non-empty chipset.
    ensures r ==> exists c :: c in [ctx.sbc, ctx.camera, ctx.wifi] && c.Some? && TruthyStr(ChipsetOf(c.value))
    // Without an explicit whitelist, and with neither `component_type` nor
    // `use_global_whitelist` set, the rule never fires.
    ensures p.chipsetWhitelist.None? && !TruthyStr(p.componentType) && p.useGlobalWhitelist != Some(true) ==> !r
    // Otherwise the component named by `component_type` (the WiFi adapter by
    // default) fires when its chipset is missing from the global list, if
    // `use_global_whitelist` is set, or from `whitelist`.
    ensures p.chipsetWhitelist.None? && (TruthyStr(p.componentType) || p.useGlobalWhitelist == Some(true)) ==>
      (r <==> (Slot(ctx, OrStr(p.componentType, "wifi")).Some? &&
        var c := Slot(ctx, OrStr(p.componentType, "wifi")).value;
        TruthyStr(ChipsetOf(c)) &&
        (p.useGlobalWhitelist == Some(true) ==> ChipsetOf(c).value !in GlobalChipsets(config)) &&
        (p.useGlobalWhitelist != Some(true) ==> ChipsetOf(c).value !in p.whitelist.GetOr([]))))
  {
    match p.chipsetWhitelist
    case Some(wl) =>
      if ctx.wifi.None? || !TruthyStr(ChipsetOf(ctx.wifi.value)) then false
      else
        assert ctx.wifi in [ctx.sbc, ctx.camera, ctx.wifi];
        ChipsetOf(ctx.wifi.value).value !in wl
    case None =>
      if TruthyStr(p.componentType) || p.useGlobalWhitelist == Some(true) then
        var comp := Slot(ctx, OrStr(p.componentType, "wifi"));
        if comp.None? || !TruthyStr(ChipsetOf(comp.value)) then false
        else
          assert comp in [ctx.sbc, ctx.camera, ctx.wifi];
          var wl := if p.useGlobalWhitelist == Some(true) then GlobalChipsets(config) else p.whitelist.GetOr([]);
          ChipsetOf(comp.value).value !in wl
      else false
  }

  // ---------------------------------------------------------------------
  // Dispatch

  /** The canonical kind a rule's `type` selects, after mapping the three legacy aliases. */
  function CanonicalKind(kind: string): (r: Option<RuleKind>)
    ensures kind == "interface_mismatch" ==> r == Some(InterfaceCompatibility)
    ensures kind == "role_incompatible" ==> r == Some(RoleCompatibility)
    ensures kind == "manufacturer_mismatch" ==> r == Some(ManufacturerCompatibility)
    ensures r.Some? ==>
      (kind == RuleKindName(r.value) || kind in ["interface_mismatch", "role_incompatible", "manufacturer_mismatch"])
  {
    var mapped :=
      if kind == "interface_mismatch" then "interface_compatibility"
      else if kind == "role_incompatible" then "role_compatibility"
      else if kind == "manufacturer_mismatch" then "manufacturer_compatibility"
      else kind;
    ParseRuleKind(mapped)
  }

  /** `evaluateRule`: whether `rule` is triggered in `ctx`; unknown types are never triggered. */
  function Evaluate(rule: Rule, config: Option<Configuration>, ctx: Context): (r: bool)
    ensures CanonicalKind(rule.kind).None? ==> !r
    ensures CanonicalKind(rule.kind) == Some(InterfaceCompatibility) ==> r == CheckInterface(rule.parameters, ctx)
    ensures CanonicalKind(rule.kind) == Some(RoleCompatibility) ==> r == CheckRole(ctx)
    ensures CanonicalKind(rule.kind) == Some(StatusCheck) ==> r == CheckStatus(rule.parameters, ctx)
    ensures CanonicalKind(rule.kind) == Some(FeatureCheck) ==> r == CheckFeature(rule.parameters, ctx)
    ensures CanonicalKind(rule.kind) == Some(CountCheck) ==> r == CheckCount(rule.parameters, ctx)
    ensures CanonicalKind(rule.kind) == Some(ManufacturerCompatibility) ==> r == CheckManufacturer(rule.parameters, ctx)
    ensures CanonicalKind(rule.kind) == Some(ChipsetWhitelist) ==> r == CheckChipset(rule.parameters, config, ctx)
  {
    match CanonicalKind(rule.kind)
    case None => false
    case Some(InterfaceCompatibility) => CheckInterface(rule.parameters, ctx)
    case Some(RoleCompatibility) => CheckRole(ctx)
    case Some(StatusCheck) => CheckStatus(rule.parameters, ctx)
    case Some(FeatureCheck) => CheckFeature(rule.parameters, ctx)
    case Some(CountCheck) => CheckCount(rule.parameters, ctx)
    case Some(ManufacturerCompatibility) => CheckManufacturer(rule.parameters, ctx)
    case Some(ChipsetWhitelist) => CheckChipset(rule.parameters, config, ctx)
  }

  /** A legacy alias and its canonical name select the same checker. */
  lemma AliasesAgree(rule: Rule, config: Option<Configuration>, ctx: Context)
    ensures Evaluate(rule.(kind := "interface_mismatch"), config, ctx) ==
            Evaluate(rule.(kind := "interface_compatibility"), config, ctx)
    ensures Evaluate(rule.(kind := "role_incompatible"), config, ctx) ==
            Evaluate(rule.(kind := "role_compatibility"), config, ctx)
    ensures Evaluate(rule.(kind := "manufacturer_mismatch"), config, ctx) ==
            Evaluate(rule.(kind := "manufacturer_compatibility"), config, ctx)
  {
  }
}

=== FILE: snake.dfy ===
/**
 * The Snake easter egg as a state machine: one game tick, the key and touch
 * controls, reset and start. `Math.random` is replaced by a list of
 * candidate cells drawn in order.
 */
module Snake {
  import opened Wrappers
  import opened Seqs

  /** A board cell, or a direction vector. */
  datatype Pos = Pos(x: int, y: int)

  /** The board is `BoardSize` cells square. */
  const BoardSize := 20

  const InitialSnake: seq<Pos> := [Pos(10, 10)]
  const InitialFood := Pos(15, 15)
  /** Moving up. */
  const InitialDirection := Pos(0, -1)

  /** The whole game state the component keeps. */
  datatype Game = Game(
    snake: seq<Pos>, food: Pos, direction: Pos,
    gameOver: bool, score: nat, highScore: nat, isPlaying: bool)

  predicate OnBoard(p: Pos) {
    0 <= p.x < BoardSize && 0 <= p.y < BoardSize
  }

  /** One step from `p` along `d`. */
  function Step(p: Pos, d: Pos): Pos {
    Pos(p.x + d.x, p.y + d.y)
  }

  /** The four unit directions. */
  predicate IsUnit(d: Pos) {
    d == Pos(0, -1) || d == Pos(0, 1) || d == Pos(-1, 0) || d == Pos(1, 0)
  }

  /** The opposite direction. */
  function Reverse(d: Pos): Pos {
    Pos(-d.x, -d.y)
  }

  /** What every reachable state satisfies: a non-empty snake on the board that never overlaps itself, food on the board and off the snake. */
  ghost predicate Valid(g: Game) {
    |g.snake| > 0 &&
    (forall i :: 0 <= i < |g.snake| ==> OnBoard(g.snake[i])) &&
    NoDup(g.snake) &&
    OnBoard(g.food) && g.food !in g.snake &&
    IsUnit(g.direction) && g.score <= g.highScore
  }

  /** The state before the first game and after a reset; the high score carries over. */
  function Reset(g: Game): (r: Game)
    ensures r.snake == InitialSnake && r.food == InitialFood && r.direction == InitialDirection
    ensures r.score == 0 && !r.gameOver && !r.isPlaying && r.highScore == g.highScore
    ensures Valid(r)
  {
    Game(InitialSnake, InitialFood, InitialDirection, false, 0, g.highScore, false)
  }

  /** `startGame`: begin a fresh game, or reset and begin after a game over; a running game is left alone. */
  function Start(g: Game): (r: Game)
    ensures !g.isPlaying && !g.gameOver ==> r == g.(isPlaying := true)
    ensures g.gameOver ==> r == Reset(g).(isPlaying := true)
    ensures g.isPlaying && !g.gameOver ==> r == g
    ensures r.isPlaying && !r.gameOver
  {
    if !g.isPlaying && !g.gameOver then g.(isPlaying := true)
    else if g.gameOver then Reset(g).(isPlaying := true)
    else g
  }

  // ---------------------------------------------------------------------
  // Food

  /**
   * `generateFood`: the first candidate cell not on `avoid`. The source draws
   * until it finds one; `None` means the given candidates ran out first.
   */
  function PlaceFood(avoid: seq<Pos>, rolls: seq<Pos>): (r: Option<Pos>)
    ensures r.Some? ==> r.value in rolls && r.value !in avoid
    ensures r.None? <==> forall i :: 0 <= i < |rolls| ==> rolls[i] in avoid
    ensures r.Some? ==> exists k :: 0 <= k < |rolls| && rolls[k] == r.value && forall j :: 0 <= j < k ==> rolls[j] in avoid
  {
    if |rolls| == 0 then None
    else if rolls[0] !in avoid then Some(rolls[0])
    else
      var r := PlaceFood(avoid, rolls[1..]);
      assert forall i :: 1 <= i < |rolls| ==> rolls[i] == rolls[1..][i - 1];
      if r.Some? then
        var k :| 0 <= k < |rolls[1..]| && rolls[1..][k] == r.value && forall j :: 0 <= j < k ==> rolls[1..][j] in avoid;
        assert rolls[k + 1] == r.value;
        r
      else r
  }

  /** Candidate cells as `Math.floor(Math.random() * BOARD_SIZE)` yields them: on the board. */
  ghost predicate Rolls(rolls: seq<Pos>) {
    forall i :: 0 <= i < |rolls| ==> OnBoard(rolls[i])
  }

  // ---------------------------------------------------------------------
  // One tick

  /** The game is over and nothing else changes. */
  function Ended(g: Game): Game {
    g.(gameOver := true, isPlaying := false)
  }

  /** Where the head goes next. */
  function NextHead(g: Game): Pos
    requires |g.snake| > 0
  {
    Step(g.snake[0], g.direction)
  }

  /** The game is running and the next head cell is free and on the board. */
  predicate Moves(g: Game)
    requires |g.snake| > 0
  {
    g.isPlaying && !g.gameOver && OnBoard(NextHead(g)) && NextHead(g) !in g.snake
  }

  /** `Math.max(a, b)`. */
  function Max(a: nat, b: nat): (r: nat)
    ensures r >= a && r >= b && (r == a || r == b)
  {
    if a > b then a else b
  }

  /**
   * One interval tick, with the new food avoiding the snake as it is after
   * the move. A tick of a game that is not running changes nothing. `None`
   * means the candidate cells ran out while placing food.
   */
  function Tick(g: Game, rolls: seq<Pos>): (r: Option<Game>)
    requires |g.snake| > 0
    ensures !g.isPlaying || g.gameOver ==> r == Some(g)
    ensures g.isPlaying && !g.gameOver && !Moves(g) ==> r == Some(Ended(g))
    ensures Moves(g) && NextHead(g) != g.food ==>
      r.Some? && |r.value.snake| == |g.snake| && r.value.snake[0] == NextHead(g) &&
      r.value.snake[1..] == g.snake[..|g.snake| - 1] &&
      r.value.food == g.food && r.value.score == g.score && r.value.highScore == g.highScore &&
      r.value.direction == g.direction && r.value.isPlaying && !r.value.gameOver
    ensures Moves(g) && NextHead(g) == g.food ==>
      (r.None? <==> forall i :: 0 <= i < |rolls| ==> rolls[i] in [NextHead(g)] + g.snake)
    ensures Moves(g) && NextHead(g) == g.food && r.Some? ==>
      r.value.snake == [NextHead(g)] + g.snake && r.value.food !in r.value.snake && r.value.food in rolls &&
      r.value.score == g.score + 1 && r.value.highScore == Max(g.score + 1, g.highScore) &&
      r.value.direction == g.direction && r.value.isPlaying && !r.value.gameOver
  {
    if !g.isPlaying || g.gameOver then Some(g)
    else
      var head := NextHead(g);
      if !OnBoard(head) || head in g.snake then Some(Ended(g))
      else
        var grown := [head] + g.snake;
        if head == g.food then
          match PlaceFood(grown, rolls)
          case None => None
          case Some(f) => Some(g.(snake := grown, food := f, score := g.score + 1, highScore := Max(g.score + 1, g.highScore)))
        else
          var moved := grown[..|grown| - 1];
          assert moved[1..] == g.snake[..|g.snake| - 1];
          Some(g.(snake := moved))
  }

  /** A reachable state stays reachable: the snake stays on the board without overlapping itself and the food stays off it. */
  lemma TickPreservesValid(g: Game, rolls: seq<Pos>)
    requires Valid(g) && Rolls(rolls)
    ensures Tick(g, rolls).Some? ==> Valid(Tick(g, rolls).value)
  {
    if Moves(g) {
      var head := NextHead(g);
      var grown := [head] + g.snake;
      assert NoDup(grown) by {
        forall i, j | 0 <= i < j < |grown|
          ensures grown[i] != grown[j]
        {
          if i == 0 {
            assert grown[j] == g.snake[j - 1];
          } else {
            assert grown[i] == g.snake[i - 1] && grown[j] == g.snake[j - 1];
          }
        }
      }
      assert forall i :: 0 <= i < |grown| ==> OnBoard(grown[i]) by {
        forall i | 0 <= i < |grown|
          ensures OnBoard(grown[i])
        {
          if i > 0 {
            assert grown[i] == g.snake[i - 1];
          }
        }
      }
      if head != g.food {
        var moved := grown[..|grown| - 1];
        assert g.food !in moved by {
          forall i | 0 <= i < |moved|
            ensures moved[i] != g.food
          {
            if i > 0 {
              assert moved[i] == g.snake[i - 1];
            }
          }
        }
      }
    }
  }

  /** Leaving the board ends the game with the snake where it was. */
  lemma WallEndsGame(g: Game, rolls: seq<Pos>)
    requires |g.snake| > 0 && g.isPlaying && !g.gameOver && !OnBoard(Step(g.snake[0], g.direction))
    ensures Tick(g, rolls) == Some(Ended(g)) && Ended(g).snake == g.snake && Ended(g).gameOver && !Ended(g).isPlaying
  {
  }

  /**
   * The whole body counts for self-collision, the tail cell about to be
   * vacated included: heading into the tail of a two-cell snake ends the game.
   */
  lemma TailCountsForCollision()
    ensures var g := Game([Pos(5, 5), Pos(5, 4)], Pos(0, 0), Pos(0, -1), false, 0, 0, true);
      Tick(g, []) == Some(Ended(g))
  {
    var g := Game([Pos(5, 5), Pos(5, 4)], Pos(0, 0), Pos(0, -1), false, 0, 0, true);
    assert Step(g.snake[0], g.direction) == g.snake[1];
  }

  /** The high score never falls over a run of ticks. */
  lemma {:induction false} HighScoreNeverFalls(g: Game, rollsPerTick: seq<seq<Pos>>)
    requires Valid(g) && forall k :: 0 <= k < |rollsPerTick| ==> Rolls(rollsPerTick[k])
    ensures Run(g, rollsPerTick).highScore >= g.highScore
    ensures Valid(Run(g, rollsPerTick))
    decreases |rollsPerTick|
  {
    if |rollsPerTick| > 0 {
      TickPreservesValid(g, rollsPerTick[0]);
      match Tick(g, rollsPerTick[0])
      case None =>
      case Some(next) =>
        HighScoreNeverFalls(next, rollsPerTick[1..]);
    }
  }

  /** A sequence of ticks, stopping where food placement runs out of candidates. */
  function Run(g: Game, rollsPerTick: seq<seq<Pos>>): Game
    requires Valid(g)
    requires forall k :: 0 <= k < |rollsPerTick| ==> Rolls(rollsPerTick[k])
    decreases |rollsPerTick|
  {
    if |rollsPerTick| == 0 then g
    else
      TickPreservesValid(g, rollsPerTick[0]);
      match Tick(g, rollsPerTick[0])
      case None => g
      case Some(next) =>
        assert forall k :: 0 <= k < |rollsPerTick[1..]| ==> rollsPerTick[1..][k] == rollsPerTick[k + 1];
        Run(next, rollsPerTick[1..])
  }

  // ---------------------------------------------------------------------
  // The tick as written

  /**
   * The tick as the component runs it: `generateFood` is memoised over the
   * snake of the last render, so the new food only avoids the snake as it was
   * before this move, and the cell the head has just entered is not excluded.
   */
  function TickAsWritten(g: Game, rolls: seq<Pos>): (r: Option<Game>)
    requires |g.snake| > 0
    ensures !(Moves(g) && NextHead(g) == g.food) ==> r == Tick(g, rolls)
    ensures Moves(g) && NextHead(g) == g.food && r.Some? ==>
      r.value.snake == [NextHead(g)] + g.snake && r.value.food !in g.snake && r.value.score == g.score + 1
  {
    if !g.isPlaying || g.gameOver then Some(g)
    else
      var head := NextHead(g);
      if !OnBoard(head) || head in g.snake then Some(Ended(g))
      else
        var grown := [head] + g.snake;
        if head == g.food then
          match PlaceFood(g.snake, rolls)
          case None => None
          case Some(f) => Some(g.(snake := grown, food := f, score := g.score + 1, highScore := Max(g.score + 1, g.highScore)))
        else Some(g.(snake := grown[..|grown| - 1]))
  }

  /**
   * The one-cell snake at (10,10) moving up onto food at (10,9): when the
   * first random cell is (10,9) again, the tick as written puts the new food
   * under the snake's head, while the corrected tick skips it.
   */
  lemma FoodOnSnakeAsWritten()
    ensures var g := Game([Pos(10, 10)], Pos(10, 9), Pos(0, -1), false, 0, 0, true);
      var rolls := [Pos(10, 9), Pos(3, 4)];
      TickAsWritten(g, rolls).Some? && TickAsWritten(g, rolls).value.food in TickAsWritten(g, rolls).value.snake &&
      Tick(g, rolls) == Some(g.(snake := [Pos(10, 9), Pos(10, 10)], food := Pos(3, 4), score := 1, highScore := 1))
  {
    var g := Game([Pos(10, 10)], Pos(10, 9), Pos(0, -1), false, 0, 0, true);
    var rolls := [Pos(10, 9), Pos(3, 4)];
    assert Step(g.snake[0], g.direction) == Pos(10, 9);
    assert PlaceFood(g.snake, rolls) == Some(Pos(10, 9));
    assert [Pos(10, 9)] + g.snake == [Pos(10, 9), Pos(10, 10)];
    assert PlaceFood([Pos(10, 9), Pos(10, 10)], rolls[1..]) == Some(Pos(3, 4));
    assert PlaceFood([Pos(10, 9), Pos(10, 10)], rolls) == Some(Pos(3, 4));
  }

  // ---------------------------------------------------------------------
  // Controls

  /** The keys the game reacts to. */
  datatype Key = ArrowUp | ArrowDown | ArrowLeft | ArrowRight | Space | OtherKey

  /** The direction an arrow key asks for, unless it would reverse the current one. */
  function TurnTo(current: Pos, key: Key): (r: Pos)
    ensures key == OtherKey || key == Space ==> r == current
    ensures r == current || r.x == 0 || r.y == 0
  {
    match key
    case ArrowUp => if current.y != 1 then Pos(0, -1) else current
    case ArrowDown => if current.y != -1 then Pos(0, 1) else current
    case ArrowLeft => if current.x != 1 then Pos(-1, 0) else current
    case ArrowRight => if current.x != -1 then Pos(1, 0) else current
    case _ => current
  }

  /** An arrow key turns a unit direction into a unit direction, never its reverse. */
  lemma TurnNeverReverses(current: Pos, key: Key)
    requires IsUnit(current)
    ensures IsUnit(TurnTo(current, key)) && TurnTo(current, key) != Reverse(current)
  {
    if current == Pos(0, -1) {
    } else if current == Pos(0, 1) {
    } else if current == Pos(-1, 0) {
    } else {
    }
  }

  /** `handleKeyPress`: space starts an idle game; arrows turn a running one, never straight back. */
  function HandleKey(g: Game, key: Key): (r: Game)
    ensures !g.isPlaying && !g.gameOver && key == Space ==> r == Start(g)
    ensures !g.isPlaying && !(key == Space && !g.gameOver) ==> r == g
    ensures g.isPlaying ==> r == g.(direction := TurnTo(g.direction, key))
    ensures g.isPlaying && IsUnit(g.direction) ==> r.direction != Reverse(g.direction)
  {
    assert g.isPlaying && IsUnit(g.direction) ==> TurnTo(g.direction, key) != Reverse(g.direction) by {
      if g.isPlaying && IsUnit(g.direction) {
        TurnNeverReverses(g.direction, key);
      }
    }
    if !g.isPlaying && !g.gameOver && key == Space then Start(g)
    else if !g.isPlaying then g
    else g.(direction := TurnTo(g.direction, key))
  }

  /** `handleDirectionClick`: touch sets any direction while playing, without the reversal guard. */
  function HandleTouch(g: Game, d: Pos): (r: Game)
    ensures g.isPlaying ==> r == g.(direction := d)
    ensures !g.isPlaying ==> r == g
  {
    if g.isPlaying then g.(direction := d) else g
  }

  /** Touch input can reverse the snake where the keyboard cannot. */
  lemma TouchCanReverse(g: Game)
    requires g.isPlaying && IsUnit(g.direction)
    ensures HandleTouch(g, Reverse(g.direction)).direction == Reverse(g.direction)
    ensures HandleKey(g, ArrowDown).direction != Reverse(g.direction)
  {
  }

  /** The guard looks at the stored direction only: two presses between ticks turn a snake moving up straight down. */
  lemma TwoKeysReverseWithinTick()
    ensures TurnTo(TurnTo(Pos(0, -1), ArrowLeft), ArrowDown) == Reverse(Pos(0, -1))
  {
  }
}

=== FILE: strings.dfy ===
/**
 * String operations with the semantics of the JavaScript built-ins the site
 * code uses: `indexOf`/`includes`, `replace` with a string pattern (first
 * occurrence only), `replace` with a global literal regular expression (every
 * occurrence, left to right, non-overlapping), `split`/`join`, ASCII case
 * mapping, `trim`, and decimal rendering of numbers.
 */
module Strings {
  import opened Wrappers

  /** `pat` occurs in `s` starting at position `i`. */
  predicate OccursAt(s: string, pat: string, i: nat) {
    i + |pat| <= |s| && s[i..i + |pat|] == pat
  }

  /** `s` contains no occurrence of `pat` at all. */
  ghost predicate Free(s: string, pat: string) {
    forall i: nat :: !OccursAt(s, pat, i)
  }

  /** The first position at or after `from` where `pat` occurs. */
  function IndexFrom(s: string, pat: string, from: nat): (r: Option<nat>)
    ensures r.Some? ==> from <= r.value && OccursAt(s, pat, r.value)
    ensures r.Some? ==> forall j: nat :: from <= j < r.value ==> !OccursAt(s, pat, j)
    ensures r.None? ==> forall j: nat :: from <= j ==> !OccursAt(s, pat, j)
    decreases |s| - from
  {
    if from + |pat| > |s| then None
    else if s[from..from + |pat|] == pat then Some(from)
    else IndexFrom(s, pat, from + 1)
  }

  /** JavaScript `s.indexOf(pat)`, with `None` for -1. */
  function IndexOf(s: string, pat: string): (r: Option<nat>)
    ensures r.Some? ==> OccursAt(s, pat, r.value)
    ensures r.Some? ==> forall j: nat :: j < r.value ==> !OccursAt(s, pat, j)
    ensures r.None? <==> Free(s, pat)
  {
    IndexFrom(s, pat, 0)
  }

  /** JavaScript `s.includes(pat)`. */
  predicate Contains(s: string, pat: string) {
    IndexOf(s, pat).Some?
  }

  /** JavaScript `s.startsWith(p)`. */
  predicate StartsWith(s: string, p: string) {
    p <= s
  }

  /** JavaScript `s.endsWith(p)`. */
  predicate EndsWith(s: string, p: string) {
    |p| <= |s| && s[|s| - |p|..] == p
  }

  /**
   * JavaScript `s.replace(pat, rep)` with a string pattern: only the first
   * occurrence is replaced; without an occurrence `s` is returned unchanged.
   */
  function ReplaceFirst(s: string, pat: string, rep: string): (r: string)
    ensures Free(s, pat) ==> r == s
    ensures !Free(s, pat) ==> exists i: nat :: (OccursAt(s, pat, i) && (forall j: nat :: j < i ==> !OccursAt(s, pat, j))
      && r == s[..i] + rep + s[i + |pat|..])
  {
    match IndexOf(s, pat)
    case None => s
    case Some(i) => s[..i] + rep + s[i + |pat|..]
  }

  /** An occurrence at the very start is the one `replace` rewrites. */
  lemma ReplaceFirstAtStart(s: string, pat: string, rep: string)
    requires OccursAt(s, pat, 0)
    ensures ReplaceFirst(s, pat, rep) == rep + s[|pat|..]
  {
    assert IndexFrom(s, pat, 0) == Some(0);
    assert s[..0] + rep == rep;
  }

  /**
   * JavaScript `s.replace(/pat/g, rep)` for a literal, non-empty pattern: every
   * occurrence is replaced, scanning left to right without overlaps.
   */
  function ReplaceAll(s: string, pat: string, rep: string): (r: string)
    requires |pat| > 0
    ensures Free(s, pat) ==> r == s
    decreases |s|
  {
    match IndexOf(s, pat)
    case None => s
    case Some(i) => s[..i] + rep + ReplaceAll(s[i + |pat|..], pat, rep)
  }

  /** JavaScript `s.split(sep)` for a non-empty separator. */
  function Split(s: string, sep: string): (parts: seq<string>)
    requires |sep| > 0
    ensures |parts| >= 1
    decreases |s|
  {
    match IndexOf(s, sep)
    case None => [s]
    case Some(i) => [s[..i]] + Split(s[i + |sep|..], sep)
  }

  /** JavaScript `parts.join(sep)`. */
  function Join(parts: seq<string>, sep: string): string {
    if |parts| == 0 then ""
    else if |parts| == 1 then parts[0]
    else parts[0] + sep + Join(parts[1..], sep)
  }

  /** A prefix that ends before the first occurrence contains no occurrence. */
  lemma PrefixBeforeFirstIsFree(s: string, pat: string, i: nat)
    requires |pat| > 0 && i <= |s|
    requires forall j: nat :: j < i ==> !OccursAt(s, pat, j)
    ensures Free(s[..i], pat)
  {
    forall j: nat | OccursAt(s[..i], pat, j)
      ensures false
    {
      assert s[..i][j..j + |pat|] == s[j..j + |pat|];
      assert OccursAt(s, pat, j);
    }
  }

  /** Every piece `Split` produces is free of the separator. */
  lemma {:induction false} SplitPiecesFree(s: string, sep: string)
    requires |sep| > 0
    ensures forall k :: 0 <= k < |Split(s, sep)| ==> Free(Split(s, sep)[k], sep)
    decreases |s|
  {
    match IndexOf(s, sep)
    case None =>
    case Some(i) =>
      PrefixBeforeFirstIsFree(s, sep, i);
      SplitPiecesFree(s[i + |sep|..], sep);
  }

  /** Joining the pieces of a split with the same separator gives back the string. */
  lemma {:induction false} JoinSplit(s: string, sep: string)
    requires |sep| > 0
    ensures Join(Split(s, sep), sep) == s
    decreases |s|
  {
    match IndexOf(s, sep)
    case None =>
    case Some(i) =>
      var rest := s[i + |sep|..];
      var pieces := Split(rest, sep);
      JoinSplit(rest, sep);
      assert Split(s, sep) == [s[..i]] + pieces;
      assert ([s[..i]] + pieces)[1..] == pieces;
      assert Join([s[..i]] + pieces, sep) == s[..i] + sep + Join(pieces, sep);
      assert s[i..i + |sep|] == sep;
      assert s == s[..i] + s[i..i + |sep|] + rest;
  }

  /**
   * A global replace is the split of the string at every occurrence, joined
   * with the replacement: together with `SplitPiecesFree` and `JoinSplit` this
   * says that every occurrence, and nothing else, is replaced.
   */
  lemma {:induction false} ReplaceAllIsSplitJoin(s: string, pat: string, rep: string)
    requires |pat| > 0
    ensures ReplaceAll(s, pat, rep) == Join(Split(s, pat), rep)
    decreases |s|
  {
    match IndexOf(s, pat)
    case None =>
    case Some(i) =>
      var rest := s[i + |pat|..];
      ReplaceAllIsSplitJoin(rest, pat, rep);
  }

  /** Replacing every occurrence of a pattern by itself changes nothing. */
  lemma ReplaceAllBySelf(s: string, pat: string)
    requires |pat| > 0
    ensures ReplaceAll(s, pat, pat) == s
  {
    ReplaceAllIsSplitJoin(s, pat, pat);
    JoinSplit(s, pat);
  }

  /** ASCII whitespace and the Unicode spaces matched by JavaScript's `\s` and removed by `trim`. */
  predicate IsSpace(c: char) {
    c == ' ' || c == '\t' || c == '\n' || c == '\r' || c == '\U{000B}' || c == '\U{000C}'
    || c == '\U{00A0}' || c == '\U{1680}' || ('\U{2000}' <= c <= '\U{200A}')
    || c == '\U{2028}' || c == '\U{2029}' || c == '\U{202F}' || c == '\U{205F}'
    || c == '\U{3000}' || c == '\U{FEFF}'
  }

  /** The line terminators: the characters a regular expression's `.` does not match. */
  predicate IsLineTerminator(c: char) {
    c == '\n' || c == '\r' || c == '\U{2028}' || c == '\U{2029}'
  }

  /** JavaScript `s.trimStart()`. */
  function TrimStart(s: string): (r: string)
    ensures |r| <= |s| && r == s[|s| - |r|..]
    ensures |r| > 0 ==> !IsSpace(r[0])
    ensures forall i :: 0 <= i < |s| - |r| ==> IsSpace(s[i])
  {
    if |s| > 0 && IsSpace(s[0]) then TrimStart(s[1..]) else s
  }

  /** JavaScript `s.trimEnd()`. */
  function TrimEnd(s: string): (r: string)
    ensures |r| <= |s| && r == s[..|r|]
    ensures |r| > 0 ==> !IsSpace(r[|r| - 1])
    ensures forall i :: |r| <= i < |s| ==> IsSpace(s[i])
  {
    if |s| > 0 && IsSpace(s[|s| - 1]) then TrimEnd(s[..|s| - 1]) else s
  }

  /** JavaScript `s.trim()`. */
  function Trim(s: string): string {
    TrimEnd(TrimStart(s))
  }

  /** JavaScript `toLowerCase` on one character, restricted to ASCII letters. */
  function LowerChar(c: char): char {
    if 'A' <= c <= 'Z' then (c as int + 32) as char else c
  }

  /** JavaScript `toUpperCase` on one character, restricted to ASCII letters. */
  function UpperChar(c: char): char {
    if 'a' <= c <= 'z' then (c as int - 32) as char else c
  }

  /** JavaScript `s.toLowerCase()`, restricted to ASCII letters. */
  function ToLower(s: string): (r: string)
    ensures |r| == |s|
    ensures forall i :: 0 <= i < |s| ==> r[i] == LowerChar(s[i])
  {
    seq(|s|, i requires 0 <= i < |s| => LowerChar(s[i]))
  }

  /** ASCII-case-insensitive equality, as a regular expression with the `i` flag compares ASCII text. */
  predicate EqualsIgnoreCase(a: string, b: string) {
    ToLower(a) == ToLower(b)
  }

  /** An ASCII letter or digit: the class `[a-zA-Z0-9]`. */
  predicate IsAlnum(c: char) {
    ('a' <= c <= 'z') || ('A' <= c <= 'Z') || ('0' <= c <= '9')
  }

  /** The decimal digit for `d`. */
  function DigitChar(d: nat): char
    requires d < 10
  {
    ('0' as int + d) as char
  }

  /** The decimal rendering of a natural number, as `String(n)`. */
  function NatToString(n: nat): (r: string)
    ensures |r| >= 1
    ensures forall i :: 0 <= i < |r| ==> '0' <= r[i] <= '9'
  {
    if n < 10 then [DigitChar(n)] else NatToString(n / 10) + [DigitChar(n % 10)]
  }

  /** The decimal rendering of an integer, as `String(i)`. */
  function IntToString(i: int): string {
    if i < 0 then "-" + NatToString(-i) else NatToString(i)
  }
}

=== FILE: supporter_tiers.dfy ===
/**
 * The concept support page: tiers and anonymisation of financial backers,
 * and the merge of code contributors across the project's repositories.
 */
module SupporterTiers {
  import opened Wrappers
  import opened Seqs

  // ---------------------------------------------------------------------
  // Financial backers

  /** Backer tiers, lowest first. */
  datatype Tier = Bronze | Silver | Gold | Platinum

  /** The position of a tier in the order above. */
  function Rank(t: Tier): nat {
    match t
    case Bronze => 0
    case Silver => 1
    case Gold => 2
    case Platinum => 3
  }

  /** The tier for a total donation given in cents: platinum from 1000, gold from 500, silver from 100 in currency units. */
  function TierOf(cents: int): (t: Tier)
    ensures t == Platinum <==> cents >= 100000
    ensures t == Gold <==> 50000 <= cents < 100000
    ensures t == Silver <==> 10000 <= cents < 50000
    ensures t == Bronze <==> cents < 10000
  {
    if cents >= 100000 then Platinum
    else if cents >= 50000 then Gold
    else if cents >= 10000 then Silver
    else Bronze
  }

  /** Giving more never lowers the tier. */
  lemma TierMonotone(a: int, b: int)
    requires a <= b
    ensures Rank(TierOf(a)) <= Rank(TierOf(b))
  {
  }

  /** One backer as the API returns it. */
  datatype Backer = Backer(id: string, name: string, isIncognito: bool, totalCents: int, since: string)

  /** The page's record for a backer. */
  datatype Financial = Financial(id: string, name: string, totalCents: int, tier: Tier, isIncognito: bool, since: string)

  /** The name shown for incognito backers. */
  const AnonymousName := "Anonymous Supporter"

  /** The record for one backer. */
  function ToFinancial(b: Backer): (r: Financial)
    ensures r.id == b.id && r.totalCents == b.totalCents && r.isIncognito == b.isIncognito
    ensures b.isIncognito ==> r.name == AnonymousName
    ensures !b.isIncognito ==> r.name == b.name
    ensures Rank(r.tier) >= 1 <==> b.totalCents >= 10000
    ensures r.tier == TierOf(b.totalCents) && r.since == b.since
  {
    Financial(b.id, if b.isIncognito then AnonymousName else b.name, b.totalCents, TierOf(b.totalCents), b.isIncognito, b.since)
  }

  /** The records for the first twelve backers, in API order; a missing list gives none. */
  function FinancialContributors(nodes: Option<seq<Backer>>): (r: seq<Financial>)
    ensures nodes.None? ==> r == []
    ensures |r| <= 12
    ensures nodes.Some? ==> |r| == if |nodes.value| < 12 then |nodes.value| else 12
    ensures forall i :: 0 <= i < |r| ==> r[i] == ToFinancial(nodes.value[i])
  {
    var members := nodes.GetOr([]);
    Take(ToFinancials(members), 12)
  }

  /** `members.map(ToFinancial)`. */
  function ToFinancials(members: seq<Backer>): (r: seq<Financial>)
    ensures |r| == |members|
    ensures forall i :: 0 <= i < |r| ==> r[i] == ToFinancial(members[i])
  {
    if |members| == 0 then [] else [ToFinancial(members[0])] + ToFinancials(members[1..])
  }

  /** No incognito backer's own name is ever shown. */
  lemma IncognitoHidden(nodes: Option<seq<Backer>>)
    ensures forall i :: 0 <= i < |FinancialContributors(nodes)| && nodes.value[i].isIncognito ==>
      FinancialContributors(nodes)[i].name == AnonymousName
  {
  }

  // ---------------------------------------------------------------------
  // Code contributors

  /** One entry of a repository's contributor list. */
  datatype GitHubContributor = GitHubContributor(login: string, kind: string, avatarUrl: string, htmlUrl: string, contributions: int)

  /** The key used to rank code contributors. */
  function Contributions(c: GitHubContributor): int {
    c.contributions
  }

  /** Where `login` sits in the merged list, if anywhere. */
  function IndexOfLogin(acc: seq<GitHubContributor>, login: string): (r: Option<nat>)
    ensures r.Some? ==> r.value < |acc| && acc[r.value].login == login
    ensures r.Some? ==> forall j :: 0 <= j < r.value ==> acc[j].login != login
    ensures r.None? <==> forall i :: 0 <= i < |acc| ==> acc[i].login != login
  {
    if |acc| == 0 then None
    else if acc[0].login == login then Some(0)
    else
      var r := IndexOfLogin(acc[1..], login);
      assert forall i :: 1 <= i < |acc| ==> acc[i] == acc[1..][i - 1];
      if r.Some? then Some(r.value + 1) else None
  }

  /** The first entry carrying a login is the one found. */
  lemma IndexOfLoginIs(acc: seq<GitHubContributor>, login: string, k: nat)
    requires k < |acc| && acc[k].login == login
    requires forall j :: 0 <= j < k ==> acc[j].login != login
    ensures IndexOfLogin(acc, login) == Some(k)
  {
  }

  /** Appending an entry leaves every other login where it was. */
  lemma IndexOfLoginAppend(acc: seq<GitHubContributor>, c: GitHubContributor, login: string)
    ensures IndexOfLogin(acc, login).Some? ==> IndexOfLogin(acc + [c], login) == IndexOfLogin(acc, login)
    ensures IndexOfLogin(acc, login).None? && c.login == login ==> IndexOfLogin(acc + [c], login) == Some(|acc|)
    ensures IndexOfLogin(acc, login).None? && c.login != login ==> IndexOfLogin(acc + [c], login).None?
  {
    var r := acc + [c];
    match IndexOfLogin(acc, login)
    case Some(k) =>
      IndexOfLoginIs(r, login, k);
    case None =>
      if c.login == login {
        IndexOfLoginIs(r, login, |acc|);
      } else {
        assert forall i :: 0 <= i < |r| ==> r[i].login != login by {
          forall i | 0 <= i < |r|
            ensures r[i].login != login
          {
            if i < |acc| {
              assert r[i] == acc[i];
            }
          }
        }
      }
  }

  /** Updating an entry without changing its login leaves every login where it was. */
  lemma IndexOfLoginUpdate(acc: seq<GitHubContributor>, i: nat, x: GitHubContributor, login: string)
    requires i < |acc| && x.login == acc[i].login
    ensures IndexOfLogin(acc[i := x], login) == IndexOfLogin(acc, login)
  {
    var r := acc[i := x];
    match IndexOfLogin(acc, login)
    case Some(k) =>
      IndexOfLoginIs(r, login, k);
    case None =>
      assert forall j :: 0 <= j < |r| ==> r[j].login != login by {
        forall j | 0 <= j < |r|
          ensures r[j].login != login
        {
          assert r[j].login == acc[j].login;
        }
      }
  }

  /** No login appears twice. */
  ghost predicate UniqueLogins(acc: seq<GitHubContributor>) {
    forall i, j :: 0 <= i < j < |acc| ==> acc[i].login != acc[j].login
  }

  /** The contributions recorded for `login`, or 0. */
  function TotalIn(acc: seq<GitHubContributor>, login: string): int {
    match IndexOfLogin(acc, login)
    case Some(i) => acc[i].contributions
    case None => 0
  }

  /**
   * One contributor folded into the map keyed by login: bots are skipped, a
   * new login is added with its own count (its other fields kept), a known
   * login has its count increased in place.
   */
  function Absorb(acc: seq<GitHubContributor>, c: GitHubContributor): (r: seq<GitHubContributor>)
    ensures c.kind != "User" ==> r == acc
    ensures c.kind == "User" && IndexOfLogin(acc, c.login).None? ==> r == acc + [c]
    ensures c.kind == "User" && IndexOfLogin(acc, c.login).Some? ==> |r| == |acc|
  {
    if c.kind != "User" then acc
    else match IndexOfLogin(acc, c.login)
      case None => acc + [c.(contributions := 0 + c.contributions)]
      case Some(i) => acc[i := acc[i].(contributions := acc[i].contributions + c.contributions)]
  }

  /** `contributors.forEach(...)` over every fetched entry in order. */
  function MergeAll(acc: seq<GitHubContributor>, s: seq<GitHubContributor>): seq<GitHubContributor>
    decreases |s|
  {
    if |s| == 0 then acc else MergeAll(Absorb(acc, s[0]), s[1..])
  }

  /** The reference: the sum of a login's contributions over the user entries of `s`. */
  function LoginTotal(s: seq<GitHubContributor>, login: string): int {
    if |s| == 0 then 0
    else (if s[0].kind == "User" && s[0].login == login then s[0].contributions else 0) + LoginTotal(s[1..], login)
  }

  /** Some user entry of `s` carries `login`. */
  ghost predicate HasUser(s: seq<GitHubContributor>, login: string) {
    exists j :: 0 <= j < |s| && s[j].kind == "User" && s[j].login == login
  }

  /** One absorption keeps logins unique and adds the entry's count to its own login only. */
  lemma AbsorbTotals(acc: seq<GitHubContributor>, c: GitHubContributor)
    requires UniqueLogins(acc)
    ensures UniqueLogins(Absorb(acc, c))
    ensures forall login :: (TotalIn(Absorb(acc, c), login) ==
      TotalIn(acc, login) + (if c.kind == "User" && c.login == login then c.contributions else 0))
    ensures forall login :: (IndexOfLogin(Absorb(acc, c), login).Some? <==>
      IndexOfLogin(acc, login).Some? || (c.kind == "User" && c.login == login))
  {
    if c.kind == "User" {
      var r := Absorb(acc, c);
      match IndexOfLogin(acc, c.login)
      case None =>
        var x := c.(contributions := 0 + c.contributions);
        assert r == acc + [x];
        forall login
          ensures TotalIn(r, login) == TotalIn(acc, login) + (if c.login == login then c.contributions else 0)
          ensures IndexOfLogin(r, login).Some? <==> IndexOfLogin(acc, login).Some? || c.login == login
        {
          IndexOfLoginAppend(acc, x, login);
        }
      case Some(i) =>
        var x := acc[i].(contributions := acc[i].contributions + c.contributions);
        assert r == acc[i := x];
        forall login
          ensures TotalIn(r, login) == TotalIn(acc, login) + (if c.login == login then c.contributions else 0)
          ensures IndexOfLogin(r, login).Some? <==> IndexOfLogin(acc, login).Some? || c.login == login
        {
          IndexOfLoginUpdate(acc, i, x, login);
        }
    }
  }

  /** Merging keeps logins unique and credits each login with the sum of its user entries. */
  lemma {:induction false} MergeAllTotals(acc: seq<GitHubContributor>, s: seq<GitHubContributor>)
    requires UniqueLogins(acc)
    ensures UniqueLogins(MergeAll(acc, s))
    ensures forall login :: TotalIn(MergeAll(acc, s), login) == TotalIn(acc, login) + LoginTotal(s, login)
    decreases |s|
  {
    if |s| > 0 {
      AbsorbTotals(acc, s[0]);
      MergeAllTotals(Absorb(acc, s[0]), s[1..]);
    }
  }

  /** A login is in the merge exactly when it was already there or some user entry carries it. */
  lemma {:induction false} MergeAllLogins(acc: seq<GitHubContributor>, s: seq<GitHubContributor>)
    requires UniqueLogins(acc)
    ensures forall login :: IndexOfLogin(MergeAll(acc, s), login).Some? <==> IndexOfLogin(acc, login).Some? || HasUser(s, login)
    decreases |s|
  {
    if |s| > 0 {
      AbsorbTotals(acc, s[0]);
      MergeAllLogins(Absorb(acc, s[0]), s[1..]);
      forall login
        ensures HasUser(s, login) <==> (s[0].kind == "User" && s[0].login == login) || HasUser(s[1..], login)
      {
        if HasUser(s, login) {
          var j :| 0 <= j < |s| && s[j].kind == "User" && s[j].login == login;
          if j > 0 {
            assert s[1..][j - 1] == s[j];
          }
        }
        if HasUser(s[1..], login) {
          var j :| 0 <= j < |s[1..]| && s[1..][j].kind == "User" && s[1..][j].login == login;
          assert s[j + 1] == s[1..][j];
        }
      }
    }
  }

  /** The successful responses' lists, concatenated in repository order; a failed request contributes nothing. */
  function Fetched(responses: seq<Option<seq<GitHubContributor>>>): (r: seq<GitHubContributor>)
    ensures forall c :: c in r <==> exists o :: o in responses && o.Some? && c in o.value
  {
    var r := FlatMap(responses, (o: Option<seq<GitHubContributor>>) => o.GetOr([]));
    assert forall o: Option<seq<GitHubContributor>>, c :: c in o.GetOr([]) <==> o.Some? && c in o.value;
    r
  }

  /** The merged, ranked, top-twenty code contributors. */
  function CodeContributors(responses: seq<Option<seq<GitHubContributor>>>): (r: seq<GitHubContributor>)
    ensures |r| <= 20
    ensures SortedDesc(r, Contributions)
    ensures multiset(r) <= multiset(MergeAll([], Fetched(responses)))
    ensures |r| == if |MergeAll([], Fetched(responses))| < 20 then |MergeAll([], Fetched(responses))| else 20
    ensures forall c, d :: c in multiset(MergeAll([], Fetched(responses))) - multiset(r) && d in r ==>
      Contributions(d) >= Contributions(c)
  {
    var ranked := SortDesc(MergeAll([], Fetched(responses)), Contributions);
    TakeSortedDesc(ranked, 20, Contributions);
    Take(ranked, 20)
  }

  /**
   * Every listed contributor is a user from some repository, credited with
   * the sum of that login's contributions across all fetched repositories.
   */
  lemma CodeContributorsAreSummedUsers(responses: seq<Option<seq<GitHubContributor>>>)
    ensures var s := Fetched(responses);
      forall c :: c in CodeContributors(responses) ==>
        c.contributions == LoginTotal(s, c.login) && HasUser(s, c.login)
  {
    var s := Fetched(responses);
    var merged := MergeAll([], s);
    MergeAllTotals([], s);
    MergeAllLogins([], s);
    forall c | c in CodeContributors(responses)
      ensures c.contributions == LoginTotal(s, c.login)
      ensures HasUser(s, c.login)
    {
      assert c in multiset(CodeContributors(responses));
      assert c in multiset(merged);
      var i :| 0 <= i < |merged| && merged[i] == c;
      var k := IndexOfLogin(merged, c.login).value;
      assert k == i;
      assert TotalIn(merged, c.login) == c.contributions;
    }
  }
}

=== FILE: supporters.dfy ===
/**
 * How the support page turns the Open Collective member list into its
 * recent, hall-of-fame and monthly lists and the monthly budget estimate.
 * Amounts are kept in cents, which orders and compares them exactly as the
 * page's dollar values (cents divided by 100) do.
 */
module Supporters {
  import opened Wrappers
  import opened Seqs
  import opened HardwareTypes

  /** The member's account as the API returns it; any field may be missing. */
  datatype Account = Account(name: Option<string>, slug: Option<string>, imageUrl: Option<string>)

  /** The member's tier, when it has one. */
  datatype Tier = Tier(name: Option<string>, frequency: Option<string>)

  /** One entry of `collective.members.nodes`. */
  datatype Member = Member(id: string, account: Option<Account>, totalCents: int, tier: Option<Tier>, isActive: bool)

  /** The page's contributor record. */
  datatype Contributor = Contributor(
    id: string, name: string, image: string, profile: string, totalCents: int,
    isMonthly: bool, isCurrentlyMonthly: bool, tierName: Option<string>)

  /** `member.account && member.account.name`. */
  predicate Named(m: Member) {
    m.account.Some? && TruthyStr(m.account.value.name)
  }

  /** `member.tier?.frequency === 'MONTHLY'`. */
  predicate MonthlyTier(m: Member) {
    m.tier.Some? && m.tier.value.frequency == Some("MONTHLY")
  }

  /** `slug || 'anonymous'`. */
  function SlugOf(a: Account): (r: string)
    ensures |r| > 0
    ensures TruthyStr(a.slug) ==> r == a.slug.value
  {
    if TruthyStr(a.slug) then a.slug.value else "anonymous"
  }

  /** The record built for one named member. */
  function ToContributor(m: Member): (r: Contributor)
    requires Named(m)
    ensures r.id == m.id && r.name == m.account.value.name.value && r.totalCents == m.totalCents
    ensures r.isMonthly <==> MonthlyTier(m)
    ensures r.isCurrentlyMonthly <==> MonthlyTier(m) && m.isActive
    ensures r.profile == "https://opencollective.com/" + SlugOf(m.account.value)
    ensures TruthyStr(m.account.value.imageUrl) ==> r.image == m.account.value.imageUrl.value
    ensures !TruthyStr(m.account.value.imageUrl) ==>
      r.image == "https://images.opencollective.com/" + SlugOf(m.account.value) + "/avatar/128.png"
  {
    var a := m.account.value;
    Contributor(
      m.id, a.name.value,
      if TruthyStr(a.imageUrl) then a.imageUrl.value else "https://images.opencollective.com/" + SlugOf(a) + "/avatar/128.png",
      "https://opencollective.com/" + SlugOf(a),
      m.totalCents,
      MonthlyTier(m), MonthlyTier(m) && m.isActive,
      if m.tier.Some? then m.tier.value.name else None)
  }

  /** A currently monthly contributor is a monthly one. */
  lemma CurrentlyMonthlyIsMonthly(m: Member)
    requires Named(m)
    ensures ToContributor(m).isCurrentlyMonthly ==> ToContributor(m).isMonthly
    ensures !m.isActive ==> !ToContributor(m).isCurrentlyMonthly
  {
  }

  /** The named members, in order, turned into contributors. */
  function ToContributors(named: seq<Member>): (r: seq<Contributor>)
    requires forall m :: m in named ==> Named(m)
    ensures |r| == |named|
    ensures forall i {:trigger r[i]} :: 0 <= i < |r| ==> r[i] == ToContributor(named[i])
  {
    if |named| == 0 then [] else [ToContributor(named[0])] + ToContributors(named[1..])
  }

  /** `contributorsList`: the named members, in API order, as contributors. */
  function ContributorList(members: seq<Member>): (r: seq<Contributor>)
    ensures |r| <= |members|
    ensures forall i :: 0 <= i < |r| ==> exists m :: m in members && Named(m) && r[i] == ToContributor(m)
    // Triggered on membership only, so the two directions do not feed each other.
    ensures forall m {:trigger ToContributor(m) in r} :: m in members && Named(m) ==> ToContributor(m) in r
  {
    NamedMembersListed(members);
    ListedAreNamedMembers(members);
    ToContributors(Filter(members, Named))
  }

  /** Every named member's contributor is in the converted list. */
  lemma NamedMembersListed(members: seq<Member>)
    ensures forall m :: m in members && Named(m) ==> ToContributor(m) in ToContributors(Filter(members, Named))
  {
    var named := Filter(members, Named);
    forall m | m in members && Named(m)
      ensures ToContributor(m) in ToContributors(named)
    {
      var i :| 0 <= i < |named| && named[i] == m;
      assert ToContributors(named)[i] == ToContributor(m);
    }
  }

  /** Every entry of the converted list is a named member's contributor. */
  lemma ListedAreNamedMembers(members: seq<Member>)
    ensures var r := ToContributors(Filter(members, Named));
      forall i :: 0 <= i < |r| ==> exists m :: m in members && Named(m) && r[i] == ToContributor(m)
  {
    var named := Filter(members, Named);
    var r := ToContributors(named);
    forall i | 0 <= i < |r|
      ensures exists m :: m in members && Named(m) && r[i] == ToContributor(m)
    {
      assert named[i] in named;
      assert r[i] == ToContributor(named[i]);
    }
  }

  /** A member without a named account never reaches any list, and when every member is named none is lost. */
  lemma UnnamedDropped(members: seq<Member>)
    ensures forall c :: c in ContributorList(members) ==> exists m :: m in members && Named(m) && c == ToContributor(m)
    ensures (forall m :: m in members ==> Named(m)) ==> |ContributorList(members)| == |members|
  {
    var r := ContributorList(members);
    forall c | c in r
      ensures exists m :: m in members && Named(m) && c == ToContributor(m)
    {
      var i :| 0 <= i < |r| && r[i] == c;
    }
    if forall m :: m in members ==> Named(m) {
      FilterAll(members, Named);
    }
  }

  /** Filtering with a test every element passes keeps everything. */
  lemma {:induction false} FilterAll<T(!new)>(s: seq<T>, keep: T -> bool)
    requires forall x :: x in s ==> keep(x)
    ensures Filter(s, keep) == s
  {
    if |s| > 0 {
      assert s[0] in s;
      assert forall x :: x in s[1..] ==> x in s;
      FilterAll(s[1..], keep);
    }
  }

  // ---------------------------------------------------------------------
  // Selections

  /** The ranking key. */
  function Amount(c: Contributor): int {
    c.totalCents
  }

  /** The recent list: the first twelve contributors in API order. */
  function Recent(list: seq<Contributor>): (r: seq<Contributor>)
    ensures r <= list
    ensures |r| == if |list| < 12 then |list| else 12
  {
    Take(list, 12)
  }

  /** `[...list].sort((a, b) => b.totalAmountDonated - a.totalAmountDonated)`. */
  function Ranked(list: seq<Contributor>): (r: seq<Contributor>)
    ensures SortedDesc(r, Amount)
    ensures multiset(r) == multiset(list)
    ensures |r| == |list|
  {
    var r := SortDesc(list, Amount);
    assert |r| == |multiset(r)|;
    r
  }

  /** The test for a contributor tied at `amount`. */
  function TiedWith(amount: int): Contributor -> bool {
    (c: Contributor) => Amount(c) == amount
  }

  /** The top ten of a ranking, followed by everyone further down tied with tenth place. */
  function HallOfFameOf(sorted: seq<Contributor>): (r: seq<Contributor>)
    ensures |sorted| <= 10 ==> r == sorted
    ensures |sorted| > 10 ==> |r| >= 10 && r[..10] == sorted[..10]
  {
    if |sorted| > 10 then
      var tenth := Amount(sorted[9]);
      sorted[..10] + Filter(sorted[10..], TiedWith(tenth))
    else Take(sorted, 10)
  }

  /**
   * `hof` is the hall of fame of `ranked`: all of it when there are at most ten,
   * and otherwise the longest prefix whose amounts reach the tenth-largest.
   */
  predicate TiedPrefixOf(hof: seq<Contributor>, ranked: seq<Contributor>) {
    hof <= ranked &&
    (|ranked| <= 10 ==> hof == ranked) &&
    (|ranked| > 10 ==>
      |hof| >= 10 &&
      (forall i :: 0 <= i < |hof| ==> Amount(ranked[i]) >= Amount(ranked[9])) &&
      (forall i :: |hof| <= i < |ranked| ==> Amount(ranked[i]) < Amount(ranked[9])))
  }

  /** The hall of fame. */
  function HallOfFame(list: seq<Contributor>): (r: seq<Contributor>)
    ensures |list| <= 10 ==> multiset(r) == multiset(list)
    ensures TiedPrefixOf(r, Ranked(list))
  {
    var s := Ranked(list);
    if |s| > 10 then
      HallOfFameOfTiedPrefix(s);
      HallOfFameOf(s)
    else HallOfFameOf(s)
  }

  /** How many leading entries have exactly `amount`. */
  function TiedRun(s: seq<Contributor>, amount: int): (n: nat)
    ensures n <= |s|
    ensures forall i :: 0 <= i < n ==> Amount(s[i]) == amount
    ensures n < |s| ==> Amount(s[n]) != amount
  {
    if |s| > 0 && Amount(s[0]) == amount then 1 + TiedRun(s[1..], amount) else 0
  }

  /** In a descending list bounded by `amount`, the entries equal to it form a prefix. */
  lemma {:induction false} TiedFilterIsPrefix(s: seq<Contributor>, amount: int)
    requires SortedDesc(s, Amount)
    requires forall i :: 0 <= i < |s| ==> Amount(s[i]) <= amount
    ensures Filter(s, TiedWith(amount)) == s[..TiedRun(s, amount)]
  {
    if |s| > 0 {
      var t := s[1..];
      assert SortedDesc(t, Amount) by {
        forall i, j | 0 <= i < j < |t|
          ensures Amount(t[i]) >= Amount(t[j])
        {
          assert t[i] == s[i + 1] && t[j] == s[j + 1];
        }
      }
      if Amount(s[0]) == amount {
        TiedFilterIsPrefix(t, amount);
        assert s[..TiedRun(s, amount)] == [s[0]] + t[..TiedRun(t, amount)];
      } else {
        forall i | 0 <= i < |t|
          ensures Amount(t[i]) <= amount - 1
        {
          assert t[i] == s[i + 1];
        }
        FilterNoneEqual(t, amount);
      }
    }
  }

  /** Nothing passes the equality test when every entry is below it. */
  lemma {:induction false} FilterNoneEqual(s: seq<Contributor>, amount: int)
    requires forall i :: 0 <= i < |s| ==> Amount(s[i]) < amount
    ensures Filter(s, TiedWith(amount)) == []
  {
    if |s| > 0 {
      forall i | 0 <= i < |s[1..]|
        ensures Amount(s[1..][i]) < amount
      {
        assert s[1..][i] == s[i + 1];
      }
      FilterNoneEqual(s[1..], amount);
    }
  }

  /** Dropping a prefix of a descending list leaves it descending and bounded by the last dropped entry. */
  lemma DropSorted(s: seq<Contributor>, k: nat)
    requires SortedDesc(s, Amount) && 0 < k <= |s|
    ensures SortedDesc(s[k..], Amount)
    ensures forall i :: 0 <= i < |s[k..]| ==> Amount(s[k..][i]) <= Amount(s[k - 1])
  {
    var t := s[k..];
    forall i, j | 0 <= i < j < |t|
      ensures Amount(t[i]) >= Amount(t[j])
    {
      assert t[i] == s[i + k] && t[j] == s[j + k];
    }
    forall i | 0 <= i < |t|
      ensures Amount(t[i]) <= Amount(s[k - 1])
    {
      assert t[i] == s[i + k];
    }
  }

  /** In a descending ranking of more than ten, the hall of fame is the top ten plus the run tied with tenth place. */
  lemma HallOfFameOfIsPrefix(s: seq<Contributor>)
    requires SortedDesc(s, Amount) && |s| > 10
    ensures HallOfFameOf(s) == s[..10 + TiedRun(s[10..], Amount(s[9]))]
  {
    var tail := s[10..];
    var n := TiedRun(tail, Amount(s[9]));
    DropSorted(s, 10);
    TiedFilterIsPrefix(tail, Amount(s[9]));
    assert HallOfFameOf(s) == s[..10] + tail[..n];
    assert s[..10] + tail[..n] == s[..10 + n];
  }

  /** Past the tied run every entry is strictly below tenth place; inside it every entry reaches it. */
  lemma TiedRunSplits(s: seq<Contributor>)
    requires SortedDesc(s, Amount) && |s| > 10
    ensures forall i :: 0 <= i < 10 + TiedRun(s[10..], Amount(s[9])) ==> Amount(s[i]) >= Amount(s[9])
    ensures forall i :: 10 + TiedRun(s[10..], Amount(s[9])) <= i < |s| ==> Amount(s[i]) < Amount(s[9])
  {
    var tenth := Amount(s[9]);
    var tail := s[10..];
    var n := TiedRun(tail, tenth);
    DropSorted(s, 10);
    forall i | 10 + n <= i < |s|
      ensures Amount(s[i]) < tenth
    {
      assert s[10 + n] == tail[n];
      assert Amount(s[i]) <= Amount(s[10 + n]);
    }
    forall i | 0 <= i < 10 + n
      ensures Amount(s[i]) >= tenth
    {
      if i >= 10 {
        assert s[i] == tail[i - 10];
      }
    }
  }

  /** In a descending ranking of more than ten, the tail tied with tenth place starts right after it. */
  lemma HallOfFameOfTiedPrefix(s: seq<Contributor>)
    requires SortedDesc(s, Amount) && |s| > 10
    ensures HallOfFameOf(s) <= s
    ensures forall i :: 0 <= i < |HallOfFameOf(s)| ==> Amount(s[i]) >= Amount(s[9])
    ensures forall i :: |HallOfFameOf(s)| <= i < |s| ==> Amount(s[i]) < Amount(s[9])
  {
    HallOfFameOfIsPrefix(s);
    TiedRunSplits(s);
  }

  /**
   * With more than ten contributors the hall of fame is the longest prefix of
   * the ranking whose amounts reach the tenth-largest: everyone at or above
   * tenth place is in, everyone below is out. Otherwise it is the whole ranking.
   */
  lemma HallOfFameIsTiedPrefix(list: seq<Contributor>)
    ensures HallOfFame(list) <= Ranked(list)
    ensures |list| <= 10 ==> HallOfFame(list) == Ranked(list)
    ensures |list| > 10 ==> |HallOfFame(list)| >= 10
    ensures |list| > 10 ==> forall i :: 0 <= i < |HallOfFame(list)| ==> Amount(Ranked(list)[i]) >= Amount(Ranked(list)[9])
    ensures |list| > 10 ==> forall i :: |HallOfFame(list)| <= i < |list| ==> Amount(Ranked(list)[i]) < Amount(Ranked(list)[9])
  {
    var s := Ranked(list);
    assert |s| == |list| by {
      assert |multiset(s)| == |multiset(list)|;
    }
    if |s| > 10 {
      HallOfFameOfTiedPrefix(s);
    }
  }

  /** Everyone in the hall of fame is a contributor. */
  lemma HallOfFameFromList(list: seq<Contributor>)
    ensures forall c :: c in HallOfFame(list) ==> c in list
  {
    HallOfFameIsTiedPrefix(list);
    forall c | c in HallOfFame(list)
      ensures c in list
    {
      assert c in Ranked(list);
      assert c in multiset(Ranked(list));
    }
  }

  /** The monthly list: the currently monthly contributors, highest first. */
  function MonthlyDonors(list: seq<Contributor>): (r: seq<Contributor>)
    ensures SortedDesc(r, Amount)
    ensures forall c :: c in r <==> c in list && c.isCurrentlyMonthly
    ensures multiset(r) == multiset(Filter(list, (c: Contributor) => c.isCurrentlyMonthly))
  {
    var f := Filter(list, (c: Contributor) => c.isCurrentlyMonthly);
    var r := SortDesc(f, Amount);
    assert forall c :: c in r <==> c in f by {
      forall c
        ensures c in r <==> c in f
      {
        assert c in r <==> c in multiset(r);
        assert c in f <==> c in multiset(f);
      }
    }
    r
  }

  /**
   * The monthly budget estimate in dollars: the monthly total (given in cents)
   * divided by twelve and rounded half up as `Math.round` does, or 0 when the
   * total is not positive.
   */
  function MonthlyBudget(totalCents: int): (r: int)
    ensures totalCents <= 0 ==> r == 0
    ensures totalCents > 0 ==> 1200 * r - 600 <= totalCents < 1200 * r + 600
  {
    if totalCents > 0 then (totalCents + 600) / 1200 else 0
  }

  /** The budget never falls when the monthly total grows. */
  lemma MonthlyBudgetMonotone(a: int, b: int)
    requires a <= b
    ensures MonthlyBudget(a) <= MonthlyBudget(b)
  {
  }

  // ---------------------------------------------------------------------
  // The whole derivation

  /** What the page derives from the member list. */
  datatype Derived = Derived(
    recent: seq<Contributor>, hallOfFame: seq<Contributor>, monthly: seq<Contributor>,
    monthlyBudget: int, monthlyBackersCount: nat)

  /** Every contributor drawn from the list stems from a named member. */
  lemma ListedFromMembers(members: seq<Member>, xs: seq<Contributor>)
    requires forall c :: c in xs ==> c in ContributorList(members)
    ensures forall c :: c in xs ==> exists m :: m in members && Named(m) && c == ToContributor(m)
  {
    var list := ContributorList(members);
    forall c | c in xs
      ensures exists m :: m in members && Named(m) && c == ToContributor(m)
    {
      var i :| 0 <= i < |list| && list[i] == c;
    }
  }

  /** Lines 174-231 of the support page, from the member list to its lists and stats. */
  function Derive(members: seq<Member>): (r: Derived)
    ensures var list := ContributorList(members);
      r.recent <= list && |r.recent| <= 12 &&
      r.hallOfFame <= Ranked(list) &&
      r.monthlyBackersCount == |r.monthly| &&
      (forall c :: c in r.monthly <==> c in list && c.isCurrentlyMonthly) &&
      r.monthlyBudget == MonthlyBudget(SumBy(r.monthly, Amount))
    ensures forall c :: c in r.recent || c in r.hallOfFame || c in r.monthly ==>
      exists m :: m in members && Named(m) && c == ToContributor(m)
    // The twelve most recent supporters, or all of them when there are fewer.
    ensures var list := ContributorList(members);
      |r.recent| == if |list| < 12 then |list| else 12
    // The monthly donors, largest contribution first.
    ensures SortedDesc(r.monthly, Amount)
    // The hall of fame is everyone when there are at most ten, and otherwise the
    // ranked list down to the last contributor tied with the tenth.
    ensures TiedPrefixOf(r.hallOfFame, Ranked(ContributorList(members)))
  {
    var list := ContributorList(members);
    var monthly := MonthlyDonors(list);
    HallOfFameFromList(list);
    ListedFromMembers(members, Recent(list));
    ListedFromMembers(members, HallOfFame(list));
    ListedFromMembers(members, monthly);
    Derived(Recent(list), HallOfFame(list), monthly, MonthlyBudget(SumBy(monthly, Amount)), |monthly|)
  }
}

=== FILE: templates.dfy ===
/**
 * Message templates seen as pieces: literal text, and placeholders such as
 * `{sbc.name}`. The site fills placeholders by string replacement on the
 * template text, either every occurrence (a global regular expression) or
 * only the first one (`replace` with a string pattern). When no literal text
 * and no inserted value contains '{', these string operations act on the
 * pieces: a replacement turns placeholder pieces into text and touches
 * nothing else. That gives the two message formatters a definition that does
 * not depend on the order in which the replacements run.
 */
module Templates {
  import opened Wrappers
  import opened Strings

  /** One piece of a template. */
  datatype Piece = Text(s: string) | Hole(name: string)

  function RenderPiece(p: Piece): string {
    match p
    case Text(s) => s
    case Hole(n) => n
  }

  /** The template text the pieces spell out. */
  function Render(ps: seq<Piece>): string {
    if |ps| == 0 then "" else RenderPiece(ps[0]) + Render(ps[1..])
  }

  /** No brace at all. */
  predicate Braceless(s: string) {
    '{' !in s && '}' !in s
  }

  /** A placeholder: '{', a name without braces, '}'. */
  predicate Delimited(n: string) {
    |n| >= 2 && n[0] == '{' && n[|n| - 1] == '}' && Braceless(n[1..|n| - 1])
  }

  /** The placeholder written for a name. */
  function Placeholder(name: string): (r: string)
    ensures |r| == |name| + 2
  {
    "{" + name + "}"
  }

  lemma PlaceholderDelimited(name: string)
    requires Braceless(name)
    ensures Delimited(Placeholder(name))
  {
    assert Placeholder(name)[1..|Placeholder(name)| - 1] == name;
  }

  /** Text pieces contain no '{', and placeholder pieces are delimited. */
  ghost predicate WellFormed(ps: seq<Piece>) {
    forall i :: 0 <= i < |ps| ==> (ps[i].Text? ==> '{' !in ps[i].s) && (ps[i].Hole? ==> Delimited(ps[i].name))
  }

  // ---------------------------------------------------------------------
  // Rendering

  lemma {:induction false} RenderAppend(a: seq<Piece>, b: seq<Piece>)
    ensures Render(a + b) == Render(a) + Render(b)
  {
    if |a| == 0 {
      assert a + b == b;
    } else {
      assert (a + b)[1..] == a[1..] + b;
      RenderAppend(a[1..], b);
    }
  }

  /** The rendering around piece `k`. */
  lemma RenderAround(ps: seq<Piece>, k: int)
    requires 0 <= k < |ps|
    ensures Render(ps) == Render(ps[..k]) + RenderPiece(ps[k]) + Render(ps[k + 1..])
  {
    assert ps == ps[..k] + ps[k..];
    RenderAppend(ps[..k], ps[k..]);
    assert ps[k..][1..] == ps[k + 1..];
  }

  /** A longer prefix of the pieces renders at least as long, and longer past a placeholder. */
  lemma RenderPrefixGrows(ps: seq<Piece>, j: int, k: int)
    requires 0 <= j < k <= |ps|
    ensures |Render(ps[..j])| + |RenderPiece(ps[j])| <= |Render(ps[..k])|
  {
    assert ps[..k] == ps[..j] + ps[j..k];
    RenderAppend(ps[..j], ps[j..k]);
    assert ps[j..k] == [ps[j]] + ps[j + 1..k];
  }

  /** A placeholder cannot start with a shorter placeholder. */
  lemma NoShorterDelimitedPrefix(p: string, q: string)
    requires Delimited(p) && Delimited(q) && |p| < |q|
    ensures !(p <= q)
  {
  }

  /** Two placeholders that both start a string are the same placeholder. */
  lemma DelimitedPrefixes(p: string, q: string, s: string)
    requires Delimited(p) && Delimited(q) && p <= s && q <= s
    ensures p == q
  {
    if |p| < |q| {
      NoShorterDelimitedPrefix(p, q);
    } else if |q| < |p| {
      NoShorterDelimitedPrefix(q, p);
    } else {
      assert p == s[..|p|] == q;
    }
  }

  /** The pieces after the first of a well-formed template are well formed. */
  lemma WellFormedTail(ps: seq<Piece>, k: int)
    requires WellFormed(ps) && 0 <= k <= |ps|
    ensures WellFormed(ps[k..])
  {
    forall i | 0 <= i < |ps[k..]|
      ensures (ps[k..][i].Text? ==> '{' !in ps[k..][i].s) && (ps[k..][i].Hole? ==> Delimited(ps[k..][i].name))
    {
      assert ps[k..][i] == ps[k + i];
    }
  }

  /** An occurrence that starts inside the first piece is that piece, which is a placeholder. */
  lemma OccurrenceInHead(p: Piece, rest: string, pat: string, q: nat)
    requires (p.Text? ==> '{' !in p.s) && (p.Hole? ==> Delimited(p.name))
    requires Delimited(pat) && OccursAt(RenderPiece(p) + rest, pat, q) && q < |RenderPiece(p)|
    ensures q == 0 && p == Hole(pat)
  {
    var s := RenderPiece(p) + rest;
    assert s[q] == pat[0];
    match p
    case Text(t) =>
      assert false;
    case Hole(name) =>
      if q == 0 {
        assert pat <= s;
        DelimitedPrefixes(pat, name, s);
      } else {
        assert false;
      }
  }

  /** Rendering a prefix that starts with a given piece. */
  lemma RenderConsPrefix(ps: seq<Piece>, k: int)
    requires 0 <= k < |ps|
    ensures Render(ps[..k + 1]) == RenderPiece(ps[0]) + Render(ps[1..][..k])
  {
    assert ps[..k + 1][1..] == ps[1..][..k];
  }

  /** Every occurrence of a placeholder in a well-formed template is the rendering of a placeholder piece. */
  lemma {:induction false} OccurrenceIsHole(ps: seq<Piece>, pat: string, q: nat)
    requires WellFormed(ps) && Delimited(pat) && OccursAt(Render(ps), pat, q)
    ensures exists k :: 0 <= k < |ps| && ps[k] == Hole(pat) && q == |Render(ps[..k])|
    decreases |ps|
  {
    assert |ps| > 0;
    var head := RenderPiece(ps[0]);
    var tail := ps[1..];
    assert Render(ps) == head + Render(tail);
    if q < |head| {
      OccurrenceInHead(ps[0], Render(tail), pat, q);
      assert ps[..0] == [];
    } else {
      WellFormedTail(ps, 1);
      var q' := q - |head|;
      assert Render(tail)[q'..q' + |pat|] == Render(ps)[q..q + |pat|];
      OccurrenceIsHole(tail, pat, q');
      var k' :| 0 <= k' < |tail| && tail[k'] == Hole(pat) && q' == |Render(tail[..k'])|;
      RenderConsPrefix(ps, k');
      assert ps[k' + 1] == tail[k'];
    }
  }

  /** Position `k` holds the first piece for `pat`. */
  ghost predicate IsFirstHole(ps: seq<Piece>, pat: string, k: int) {
    0 <= k < |ps| && ps[k] == Hole(pat) && forall j :: 0 <= j < k ==> ps[j] != Hole(pat)
  }

  /** The first piece for `pat`, if any. */
  function FindHole(ps: seq<Piece>, pat: string): (r: Option<nat>)
    ensures r.Some? ==> IsFirstHole(ps, pat, r.value)
    ensures r.None? ==> forall i :: 0 <= i < |ps| ==> ps[i] != Hole(pat)
  {
    if |ps| == 0 then None
    else if ps[0] == Hole(pat) then Some(0)
    else match FindHole(ps[1..], pat)
      case None =>
        assert forall i :: 1 <= i < |ps| ==> ps[i] == ps[1..][i - 1];
        None
      case Some(k) =>
        assert forall i :: 1 <= i <= k ==> ps[i] == ps[1..][i - 1];
        Some(k + 1)
  }

  /** `indexOf` finds the first placeholder piece. */
  lemma IndexOfFirstHole(ps: seq<Piece>, pat: string, k: int)
    requires WellFormed(ps) && Delimited(pat) && IsFirstHole(ps, pat, k)
    ensures IndexOf(Render(ps), pat) == Some(|Render(ps[..k])|)
  {
    var s := Render(ps);
    var i0 := |Render(ps[..k])|;
    RenderAround(ps, k);
    assert s[i0..i0 + |pat|] == pat;
    assert OccursAt(s, pat, i0);
    var r := IndexOf(s, pat).value;
    OccurrenceIsHole(ps, pat, r);
    var k' :| 0 <= k' < |ps| && ps[k'] == Hole(pat) && r == |Render(ps[..k'])|;
    if k' > k {
      RenderPrefixGrows(ps, k, k');
    }
  }

  /** Without a piece for `pat` the template has no occurrence of it. */
  lemma NoHoleIsFree(ps: seq<Piece>, pat: string)
    requires WellFormed(ps) && Delimited(pat)
    requires forall i :: 0 <= i < |ps| ==> ps[i] != Hole(pat)
    ensures Free(Render(ps), pat)
  {
    forall q: nat | OccursAt(Render(ps), pat, q)
      ensures false
    {
      OccurrenceIsHole(ps, pat, q);
    }
  }

  // ---------------------------------------------------------------------
  // One placeholder

  /** The first piece for `pat` becomes the text `v`. */
  function FillFirst(ps: seq<Piece>, pat: string, v: string): seq<Piece> {
    seq(|ps|, i requires 0 <= i < |ps| =>
      if ps[i] == Hole(pat) && forall j :: 0 <= j < i ==> ps[j] != Hole(pat) then Text(v) else ps[i])
  }

  /** Every piece for `pat` becomes the text `v`. */
  function FillAll(ps: seq<Piece>, pat: string, v: string): seq<Piece> {
    seq(|ps|, i requires 0 <= i < |ps| => if ps[i] == Hole(pat) then Text(v) else ps[i])
  }

  /** Replacing a piece by text without '{' keeps the template well formed. */
  lemma ReplacedWellFormed(ps: seq<Piece>, qs: seq<Piece>, v: string)
    requires WellFormed(ps) && '{' !in v && |qs| == |ps|
    requires forall i :: 0 <= i < |ps| ==> qs[i] == ps[i] || qs[i] == Text(v)
    ensures WellFormed(qs)
  {
  }

  /** Rendering with one piece swapped for text. */
  lemma RenderSplice(a: seq<Piece>, v: string, b: seq<Piece>)
    ensures Render(a + [Text(v)] + b) == Render(a) + v + Render(b)
  {
    RenderAppend(a + [Text(v)], b);
    RenderAppend(a, [Text(v)]);
    assert Render([Text(v)]) == v;
  }

  /** The text around the first piece for `pat`, cut at the first occurrence of `pat`. */
  lemma CutAtFirstHole(ps: seq<Piece>, pat: string, k: int)
    requires WellFormed(ps) && Delimited(pat) && IsFirstHole(ps, pat, k)
    ensures IndexOf(Render(ps), pat).Some?
    ensures IndexOf(Render(ps), pat).value == |Render(ps[..k])|
    ensures Render(ps)[..IndexOf(Render(ps), pat).value] == Render(ps[..k])
    ensures Render(ps)[IndexOf(Render(ps), pat).value + |pat|..] == Render(ps[k + 1..])
  {
    IndexOfFirstHole(ps, pat, k);
    RenderAround(ps, k);
  }

  lemma FillFirstAt(ps: seq<Piece>, pat: string, v: string, k: int)
    requires IsFirstHole(ps, pat, k)
    ensures FillFirst(ps, pat, v) == ps[..k] + [Text(v)] + ps[k + 1..]
  {
  }

  lemma FillAllAt(ps: seq<Piece>, pat: string, v: string, k: int)
    requires IsFirstHole(ps, pat, k)
    ensures FillAll(ps, pat, v) == ps[..k] + [Text(v)] + FillAll(ps[k + 1..], pat, v)
  {
  }

  /** `replace(pat, v)` on the text replaces the first piece for `pat`. */
  lemma ReplaceFirstOnPieces(ps: seq<Piece>, pat: string, v: string)
    requires WellFormed(ps) && Delimited(pat) && '{' !in v
    ensures ReplaceFirst(Render(ps), pat, v) == Render(FillFirst(ps, pat, v))
    ensures WellFormed(FillFirst(ps, pat, v))
  {
    ReplacedWellFormed(ps, FillFirst(ps, pat, v), v);
    match FindHole(ps, pat)
    case None =>
      NoHoleIsFree(ps, pat);
      assert FillFirst(ps, pat, v) == ps;
    case Some(k) =>
      CutAtFirstHole(ps, pat, k);
      ReplaceFirstCut(Render(ps), pat, v, Render(ps[..k]), Render(ps[k + 1..]));
      FillFirstAt(ps, pat, v, k);
      RenderSplice(ps[..k], v, ps[k + 1..]);
  }

  /** A global replace of `pat` on the text replaces every piece for `pat`. */
  lemma {:induction false} ReplaceAllOnPieces(ps: seq<Piece>, pat: string, v: string)
    requires WellFormed(ps) && Delimited(pat) && '{' !in v
    ensures ReplaceAll(Render(ps), pat, v) == Render(FillAll(ps, pat, v))
    ensures WellFormed(FillAll(ps, pat, v))
    decreases |ps|
  {
    ReplacedWellFormed(ps, FillAll(ps, pat, v), v);
    match FindHole(ps, pat)
    case None =>
      NoHoleIsFree(ps, pat);
      assert FillAll(ps, pat, v) == ps;
    case Some(k) =>
      ReplaceAllAtHole(ps, pat, v, k);
      WellFormedTail(ps, k + 1);
      ReplaceAllOnPieces(ps[k + 1..], pat, v);
      FillAllAt(ps, pat, v, k);
      RenderSplice(ps[..k], v, FillAll(ps[k + 1..], pat, v));
  }

  /** The global replace, cut at the first piece for `pat`. */
  lemma ReplaceAllAtHole(ps: seq<Piece>, pat: string, v: string, k: int)
    requires WellFormed(ps) && Delimited(pat) && IsFirstHole(ps, pat, k)
    ensures ReplaceAll(Render(ps), pat, v) == Render(ps[..k]) + v + ReplaceAll(Render(ps[k + 1..]), pat, v)
  {
    CutAtFirstHole(ps, pat, k);
    ReplaceAllCut(Render(ps), pat, v, Render(ps[..k]), Render(ps[k + 1..]));
  }

  /** A global replace rewrites the first occurrence and continues after it. */
  lemma ReplaceAllCut(s: string, pat: string, v: string, before: string, after: string)
    requires |pat| > 0 && IndexOf(s, pat).Some?
    requires s[..IndexOf(s, pat).value] == before && s[IndexOf(s, pat).value + |pat|..] == after
    ensures ReplaceAll(s, pat, v) == before + v + ReplaceAll(after, pat, v)
  {
  }

  /** A replace of the first occurrence, cut at that occurrence. */
  lemma ReplaceFirstCut(s: string, pat: string, v: string, before: string, after: string)
    requires IndexOf(s, pat).Some?
    requires s[..IndexOf(s, pat).value] == before && s[IndexOf(s, pat).value + |pat|..] == after
    ensures ReplaceFirst(s, pat, v) == before + v + after
  {
  }

  // ---------------------------------------------------------------------
  // Several placeholders

  /** One replacement: a placeholder and the text that stands for it. */
  datatype Sub = Sub(pat: string, value: string)

  /** Every placeholder is delimited and no value contains '{'. */
  ghost predicate SubsOk(subs: seq<Sub>) {
    forall i :: 0 <= i < |subs| ==> Delimited(subs[i].pat) && '{' !in subs[i].value
  }

  /** No placeholder is listed twice. */
  ghost predicate DistinctPats(subs: seq<Sub>) {
    forall i, j :: 0 <= i < j < |subs| ==> subs[i].pat != subs[j].pat
  }

  /** The value of the first replacement for `name`. */
  function ValueFor(subs: seq<Sub>, name: string): (r: Option<string>)
    ensures r.None? <==> forall i :: 0 <= i < |subs| ==> subs[i].pat != name
  {
    if |subs| == 0 then None
    else if subs[0].pat == name then Some(subs[0].value)
    else
      var r := ValueFor(subs[1..], name);
      assert forall i :: 1 <= i < |subs| ==> subs[i] == subs[1..][i - 1];
      r
  }

  /** The value for a name in two lists of replacements, one after the other. */
  lemma {:induction false} ValueForAppend(a: seq<Sub>, b: seq<Sub>, name: string)
    ensures ValueFor(a + b, name) == if ValueFor(a, name).Some? then ValueFor(a, name) else ValueFor(b, name)
    decreases |a|
  {
    if |a| == 0 {
      assert a + b == b;
    } else {
      assert (a + b)[1..] == a[1..] + b;
      ValueForAppend(a[1..], b, name);
    }
  }

  /** The replacements of `replace(pat, value)`, one after the other. */
  function ReplaceFirstEach(s: string, subs: seq<Sub>): string
    decreases |subs|
  {
    if |subs| == 0 then s else ReplaceFirstEach(ReplaceFirst(s, subs[0].pat, subs[0].value), subs[1..])
  }

  /** One step of a chain of first-occurrence replacements. */
  lemma ReplaceFirstEachCons(s: string, subs: seq<Sub>)
    requires |subs| > 0
    ensures ReplaceFirstEach(s, subs) == ReplaceFirstEach(ReplaceFirst(s, subs[0].pat, subs[0].value), subs[1..])
  {
  }

  /** The replacements of `replace(/pat/g, value)`, one after the other. */
  function ReplaceAllEach(s: string, subs: seq<Sub>): string
    requires forall i :: 0 <= i < |subs| ==> |subs[i].pat| > 0
    decreases |subs|
  {
    if |subs| == 0 then s else ReplaceAllEach(ReplaceAll(s, subs[0].pat, subs[0].value), subs[1..])
  }

  /** Splitting at each placeholder and joining with its value, one after the other. */
  function SplitJoinEach(s: string, subs: seq<Sub>): string
    requires forall i :: 0 <= i < |subs| ==> |subs[i].pat| > 0
    decreases |subs|
  {
    if |subs| == 0 then s else SplitJoinEach(Join(Split(s, subs[0].pat), subs[0].value), subs[1..])
  }

  /** Running two lists of global replacements one after the other. */
  lemma {:induction false} ReplaceAllEachAppend(s: string, a: seq<Sub>, b: seq<Sub>)
    requires forall i :: 0 <= i < |a| ==> |a[i].pat| > 0
    requires forall i :: 0 <= i < |b| ==> |b[i].pat| > 0
    ensures forall i :: 0 <= i < |a + b| ==> |(a + b)[i].pat| > 0
    ensures ReplaceAllEach(s, a + b) == ReplaceAllEach(ReplaceAllEach(s, a), b)
    decreases |a|
  {
    if |a| == 0 {
      assert a + b == b;
    } else {
      assert (a + b)[1..] == a[1..] + b;
      ReplaceAllEachCons(s, a + b);
      ReplaceAllEachCons(s, a);
      ReplaceAllEachAppend(ReplaceAll(s, a[0].pat, a[0].value), a[1..], b);
    }
  }

  /** One step of a chain of global replacements. */
  lemma ReplaceAllEachCons(s: string, subs: seq<Sub>)
    requires |subs| > 0 && forall i :: 0 <= i < |subs| ==> |subs[i].pat| > 0
    ensures ReplaceAllEach(s, subs) == ReplaceAllEach(ReplaceAll(s, subs[0].pat, subs[0].value), subs[1..])
  {
  }

  /** Two global replacements in a row. */
  lemma ReplaceAllEachPair(s: string, a: Sub, b: Sub)
    requires |a.pat| > 0 && |b.pat| > 0
    ensures ReplaceAllEach(s, [a, b]) == ReplaceAll(ReplaceAll(s, a.pat, a.value), b.pat, b.value)
  {
    var t := ReplaceAll(s, a.pat, a.value);
    ReplaceAllEachCons(s, [a, b]);
    assert [a, b][1..] == [b];
    ReplaceAllEachCons(t, [b]);
    assert [b][1..] == [];
  }

  /** A chain of global replacements is the chain of split-and-join steps. */
  lemma {:induction false} ReplaceAllEachIsSplitJoin(s: string, subs: seq<Sub>)
    requires forall i :: 0 <= i < |subs| ==> |subs[i].pat| > 0
    ensures ReplaceAllEach(s, subs) == SplitJoinEach(s, subs)
    decreases |subs|
  {
    if |subs| > 0 {
      ReplaceAllIsSplitJoin(s, subs[0].pat, subs[0].value);
      ReplaceAllEachIsSplitJoin(Join(Split(s, subs[0].pat), subs[0].value), subs[1..]);
    }
  }

  /**
   * Reference meaning of the global replacements: every placeholder piece
   * with a replacement becomes its value, and every other piece stays.
   */
  function FillAllHoles(ps: seq<Piece>, subs: seq<Sub>): seq<Piece> {
    seq(|ps|, i requires 0 <= i < |ps| =>
      if ps[i].Hole? && ValueFor(subs, ps[i].name).Some? then Text(ValueFor(subs, ps[i].name).value) else ps[i])
  }

  /**
   * Reference meaning of the first-occurrence replacements: the first piece
   * for each placeholder with a replacement becomes its value, and every other
   * piece, later pieces for the same placeholder included, stays.
   */
  function FillFirstHoles(ps: seq<Piece>, subs: seq<Sub>): seq<Piece> {
    seq(|ps|, i requires 0 <= i < |ps| =>
      if ps[i].Hole? && ValueFor(subs, ps[i].name).Some? && (forall j :: 0 <= j < i ==> ps[j] != ps[i])
      then Text(ValueFor(subs, ps[i].name).value) else ps[i])
  }

  /** The value for a name is the head's when the head names it, and the tail's otherwise. */
  lemma ValueForCons(subs: seq<Sub>, name: string)
    requires |subs| > 0
    ensures ValueFor(subs, name) == if subs[0].pat == name then Some(subs[0].value) else ValueFor(subs[1..], name)
  {
  }

  /** Filling the head's placeholder first, then the rest, fills every placeholder. */
  lemma FillAllHolesStep(ps: seq<Piece>, subs: seq<Sub>)
    requires |subs| > 0
    ensures FillAllHoles(FillAll(ps, subs[0].pat, subs[0].value), subs[1..]) == FillAllHoles(ps, subs)
  {
    var qs := FillAll(ps, subs[0].pat, subs[0].value);
    forall i | 0 <= i < |ps|
      ensures FillAllHoles(qs, subs[1..])[i] == FillAllHoles(ps, subs)[i]
    {
      if ps[i].Hole? {
        ValueForCons(subs, ps[i].name);
      }
    }
  }

  /** The global replacements, run in order on the text, fill every matching piece. */
  lemma {:induction false} ReplaceAllEachOnPieces(ps: seq<Piece>, subs: seq<Sub>)
    requires WellFormed(ps) && SubsOk(subs)
    ensures forall i :: 0 <= i < |subs| ==> |subs[i].pat| > 0
    ensures ReplaceAllEach(Render(ps), subs) == Render(FillAllHoles(ps, subs))
    decreases |subs|
  {
    if |subs| == 0 {
      assert FillAllHoles(ps, subs) == ps;
    } else {
      var p, v := subs[0].pat, subs[0].value;
      ReplaceAllOnPieces(ps, p, v);
      var qs := FillAll(ps, p, v);
      assert SubsOk(subs[1..]) by {
        assert forall i :: 1 <= i < |subs| ==> subs[i] == subs[1..][i - 1];
      }
      ReplaceAllEachOnPieces(qs, subs[1..]);
      FillAllHolesStep(ps, subs);
    }
  }

  /** Filling the first piece for a placeholder leaves the pieces for other placeholders where they were. */
  lemma FillFirstKeepsOtherHoles(ps: seq<Piece>, pat: string, v: string, name: string)
    requires name != pat
    ensures forall j :: 0 <= j < |ps| ==> (FillFirst(ps, pat, v)[j] == Hole(name) <==> ps[j] == Hole(name))
  {
  }

  /** The tail of distinct replacements has no replacement for the head's placeholder. */
  lemma DistinctTail(subs: seq<Sub>)
    requires |subs| > 0 && DistinctPats(subs)
    ensures DistinctPats(subs[1..]) && ValueFor(subs[1..], subs[0].pat).None?
  {
    assert forall i :: 1 <= i < |subs| ==> subs[i] == subs[1..][i - 1];
  }

  /** Filling the head's first piece, then the rest, fills the first piece of every placeholder. */
  lemma FillFirstHolesStep(ps: seq<Piece>, subs: seq<Sub>)
    requires |subs| > 0 && DistinctPats(subs)
    ensures FillFirstHoles(FillFirst(ps, subs[0].pat, subs[0].value), subs[1..]) == FillFirstHoles(ps, subs)
  {
    var p, v, rest := subs[0].pat, subs[0].value, subs[1..];
    var qs := FillFirst(ps, p, v);
    DistinctTail(subs);
    forall i | 0 <= i < |ps|
      ensures FillFirstHoles(qs, rest)[i] == FillFirstHoles(ps, subs)[i]
    {
      if ps[i].Hole? {
        ValueForCons(subs, ps[i].name);
        if ps[i].name != p {
          FillFirstKeepsOtherHoles(ps, p, v, ps[i].name);
        }
      }
    }
  }

  /** The first-occurrence replacements, run in order on the text, fill the first matching piece of each placeholder. */
  lemma {:induction false} ReplaceFirstEachOnPieces(ps: seq<Piece>, subs: seq<Sub>)
    requires WellFormed(ps) && SubsOk(subs) && DistinctPats(subs)
    ensures ReplaceFirstEach(Render(ps), subs) == Render(FillFirstHoles(ps, subs))
    decreases |subs|
  {
    if |subs| == 0 {
      assert FillFirstHoles(ps, subs) == ps;
    } else {
      var p, v := subs[0].pat, subs[0].value;
      ReplaceFirstOnPieces(ps, p, v);
      var qs := FillFirst(ps, p, v);
      DistinctTail(subs);
      assert SubsOk(subs[1..]) by {
        assert forall i :: 1 <= i < |subs| ==> subs[i] == subs[1..][i - 1];
      }
      ReplaceFirstEachOnPieces(qs, subs[1..]);
      FillFirstHolesStep(ps, subs);
    }
  }
}

=== FILE: wrappers.dfy ===
/** Optional values (JavaScript `undefined`/`null`) and outcomes of operations that may throw. */
module Wrappers {

  /** `None` stands for a missing value (`undefined` or `null` in the source). */
  datatype Option<+T> = None | Some(value: T) {

    /** The wrapped value, or `default` when there is none (the source's `x ?? d`). */
    function GetOr(default: T): T {
      match this
      case Some(v) => v
      case None => default
    }
  }

  /** The outcome of an operation that may throw: a value, or the thrown message. */
  datatype Result<+T> = Success(value: T) | Failure(error: string)
}
